=== FILE: README.md ===
# ChewyBBTalk core, modelled in Dafny

ChewyBBTalk is a personal micro-posting service. A post is a "BBTalk": text with tags and attachments. It has a React front end and a Django back end. This project models the parts of both that are pure decision logic. It states and proves what they promise.

## Modules

One module per source file or component. Each file holds one module.

Front end:

- `ImageCache` (`image_cache.dfy`): the browser's persistent image cache. The store is a map from normalised URL to entry. Reads expire entries older than 30 days. A write first evicts oldest-first until the new blob fits the 100 MB budget. The fetch pipeline persists only `image/*` bodies. Time, the target protocol and the network are parameters.
- `UrlNormalizer` (`url_normalizer.dfy`): the `http://` ↔ `https://` rewrite shared by the cache and the media client.
- `MediaApi` (`media_api.dfy`): the media client's `transformAttachment` and the `upload` form fields.
- `BBTalkApi` (`bbtalk_api.dfy`): the BBTalk wire decoder and encoders.
- `BBTalkSlice`, `TagSlice`, `Lists`, `Sorting` (`bbtalk_slice.dfy`, `tag_slice.dfy`, `lists.dfy`, `sorting.dfy`): the Redux reducers as list state machines. This includes the tag list's optimistic stable re-sort.
- `TagReorder` (`tag_reorder.dfy`): the feed page's drag-and-drop rule. It moves the tag and gives it a sort order between its new neighbours.
- `BBTalkPage` (`feed_page.dfy`): the feed page's other pure helpers:
  - single-select tag toggling;
  - the keyword filter;
  - the attachment-change test;
  - splitting attachments into images, videos and files;
  - the relative-time buckets;
  - the post's client label.
- `BBTalkEditor` (`editor.dfy`): the editor's pure helpers:
  - image URL upgrade;
  - restoring tag markers into a post's text;
  - the tag-marker regular expression and the cleanup on submit;
  - the tag picker: trigger, splice, filter and arrow keys;
  - the suggested tag;
  - the submitted payload.
- `NameSort` (`name_sort.dfy`): `Array.prototype.sort()` on strings, and why two lists sort equal exactly when they hold the same strings.

Back end:

- `MediaType` (`media_type.dfy`): the extension classifier `MediaType.detect`, including the URL path split it relies on.
- `BBTalkSerializer` (`bbtalk_serializer.dfy`): tag-list parsing, media linking, `create` and `update`, the device context written on `save`, and the sync request check.
- `DataExport` and `DataImport` (`data_export.dfy`, `data_import.dfy`): the account export document, the ZIP package, and the import with its counters. The database is in-memory sequences and sets.
- `ImportValidation` (`import_validation.dfy`): the pre-import check of an uploaded file.
- `StorageMigration` (`storage_migration.dfy`): moving attachments between storage configurations, and its preview.
- `ApiKeys` (`api_keys.dfy`): API key creation, lookup by prefix, expiry and permanent revocation.
- `OpenApiHooks` (`openapi_hooks.dfy`): the schema hook that groups endpoints by path.
- `Settings` (`settings.dfy`): the environment switches, the CORS origin list, the `MEDIA_URL` choice and the `DATABASE_URL` parser.

Shared:

- `Wrappers`: `Option` and `Result`.
- `Strings`: lower-casing, trimming, search, join and split, and a lexicographic order.
- `Js`: JavaScript truthiness, `||`, and a JSON value type.
- `Types`: the front end's shared record types.

Error paths are values: `Option` for "nothing" and `Result` for a raised error. Preconditions exclude only inputs the program never receives; those cases are listed under "Left out".

## Model

| member | source | states |
|---|---|---|
| ImageCache.Oldest | frontend/src/services/cache/imageCache.ts:166-169 | the first entry the by-timestamp index cursor visits: no other entry has a smaller (timestamp, key) |
| ImageCache.EvictionOrder | frontend/src/services/cache/imageCache.ts:166-176 | the order the cursor walks: as many keys as are stored, and exactly the stored keys, so each one once |
| ImageCache.EvictionOrderAscending | frontend/src/services/cache/imageCache.ts:166-176 | the walk is in ascending (timestamp, key) order: each key comes before every key visited after it |
| ImageCache.TotalRemove | frontend/src/services/cache/imageCache.ts:137-148 | the cache size is the sum of the entry sizes whatever entry is taken out first |
| ImageCache.EvictOldest | frontend/src/services/cache/imageCache.ts:169-176 | the eviction walk only deletes entries and deletes nothing once the bytes freed reach the new item's size |
| ImageCache.EvictOldestFreesEnough | frontend/src/services/cache/imageCache.ts:172-176 | the walk stops only when the freed bytes reach the new item's size or the store is empty |
| ImageCache.EvictOldestTakesOldest | frontend/src/services/cache/imageCache.ts:166-176 | every deleted entry precedes every surviving one in index order |
| ImageCache.EvictOldestStopsEarly | frontend/src/services/cache/imageCache.ts:172 | no entry is deleted once the bytes freed before it already reach the new item's size |
| ImageCache.EnsureCacheSize | frontend/src/services/cache/imageCache.ts:154-183 | nothing is evicted when the new item fits; otherwise the oldest entries go until the new item fits or the store is empty |
| ImageCache.EnsureCacheSizeStopsEarly | frontend/src/services/cache/imageCache.ts:154-176 | the eviction started by `ensureCacheSize` does not delete past the point where enough was freed |
| ImageCache.Get | frontend/src/services/cache/imageCache.ts:60-87 | a read under the normalised key serves the blob unless it is strictly older than the expiry, and then deletes it |
| ImageCache.Set | frontend/src/services/cache/imageCache.ts:92-117 | eviction for the blob's size, then the blob stored under the normalised key with the current time |
| ImageCache.Delete | frontend/src/services/cache/imageCache.ts:122-132 | the given key, used as is, is gone and every other entry stays |
| ImageCache.Clear | frontend/src/services/cache/imageCache.ts:188-198 | the store is empty |
| ImageCache.ClearExpired | frontend/src/services/cache/imageCache.ts:203-220 | exactly the entries that are not expired at the sweep time remain, unchanged |
| ImageCache.GetStats | frontend/src/services/cache/imageCache.ts:225-255 | all zero for an empty store; otherwise count, total size and the smallest and largest timestamps of the entries |
| ImageCache.FetchAndCache | frontend/src/services/cache/imageCache.ts:260-290 | one request to the normalised URL; a failure returns nothing and stores nothing; a fetched blob is returned and stored only when its type starts with `image/` |
| ImageCache.GetOrFetch | frontend/src/services/cache/imageCache.ts:295-304 | a live cached blob is returned with no request; otherwise the fetch path runs |
| ImageCache.SetPreservesQuota | frontend/src/services/cache/imageCache.ts:154-183 | a store within the 100 MB budget stays within it after storing a blob no larger than the budget |
| ImageCache.OversizeBlobExceedsQuota | frontend/src/services/cache/imageCache.ts:92-117 | a blob larger than the budget is stored after the store is emptied, so the budget is exceeded |
| ImageCache.EvictionExample | frontend/src/services/cache/imageCache.ts:154-183 | with budget 10 holding A(4, t=1) and B(4, t=2), storing C(3) evicts A only |
| ImageCache.ExpiryMonotone | frontend/src/services/cache/imageCache.ts:75 | once expired, an entry stays expired at every later time |
| ImageCache.ClearExpiredMonotone | frontend/src/services/cache/imageCache.ts:210 | a later sweep keeps a subset of what an earlier sweep keeps |
| ImageCache.ClearExpiredIdempotent | frontend/src/services/cache/imageCache.ts:203-220 | sweeping twice at the same time removes nothing more |
| ImageCache.GetAgreesWithSweep | frontend/src/services/cache/imageCache.ts:74-214 | a read serves a key exactly when a sweep at the same instant keeps it |
| ImageCache.ExpiryBoundary | frontend/src/services/cache/imageCache.ts:74-79 | an entry exactly `expiry` old is served; one millisecond later it is not served and is deleted |
| ImageCache.GetTwice | frontend/src/services/cache/imageCache.ts:60-87 | two reads with no write between them return the same blob and the second changes nothing |
| ImageCache.SetThenGet | frontend/src/services/cache/imageCache.ts:60-117 | a blob just stored is read back under the normalised URL |
| ImageCache.OverwriteResetsAge | frontend/src/services/cache/imageCache.ts:105-111 | for any two write times and any sweep time at which the first write is stale but the second is not, writing the key again keeps it through the sweep that would have removed the first write |
| ImageCache.FailureIsAbsent | frontend/src/services/cache/imageCache.ts:274-289 | an HTTP error leaves the cache unchanged and returns nothing; so does a network error |
| ImageCache.NonImageNotPersisted | frontend/src/services/cache/imageCache.ts:281-285 | a body whose type is not `image/…` is returned but not stored |
| ImageCache.ImageIsPersisted | frontend/src/services/cache/imageCache.ts:281-285 | an image body is stored under the normalised key and served by the next read |
| UrlNormalizer.TargetProtocol | frontend/src/services/cache/imageCache.ts:29 | the configured protocol, or `https` when the setting is empty |
| UrlNormalizer.Normalize | frontend/src/services/cache/imageCache.ts:28-36 | `http://` becomes `https://` when the target is https, `https://` becomes `http://` when it is http, anything else is unchanged |
| UrlNormalizer.NormalizeRemovesOtherScheme | frontend/src/services/cache/imageCache.ts:28-36 | no normalised URL still starts with the scheme the target rewrites away |
| UrlNormalizer.NormalizeIdempotent | frontend/src/services/cache/imageCache.ts:28-36 | normalising twice is normalising once |
| UrlNormalizer.NormalizeExamples | frontend/src/services/cache/imageCache.ts:28-36 | `http://x/img.png` and `https://x/img.png` map to the https form, and back to http when the target is http |
| MediaType.UrlPath | backend/chewy_space/media/choices.py:14 | the path part of the URL as `urlparse` splits it: never holds a query or fragment marker |
| MediaType.AnyEndsWith | backend/chewy_space/media/choices.py:18-19 | true exactly when some extension of the list ends the path |
| MediaType.Detect | backend/chewy_space/media/choices.py:12-34 | image when an image extension ends the lower-cased path, else video for a video extension, else audio for an audio extension, else `attachment`; never `auto` |
| MediaType.UrlPathIgnoresQuery | backend/chewy_space/media/choices.py:14 | a query or fragment appended to a URL does not change its path |
| MediaType.DetectIgnoresQuery | backend/chewy_space/media/choices.py:14 | a query or fragment appended to a URL does not change its media type |
| MediaType.OggIsAudio | backend/chewy_space/media/choices.py:17-32 | every URL whose path ends in `.ogg`, in any case, is audio: no image or video extension can also end it |
| MediaType.WebmAndM4vAreVideo | backend/chewy_space/media/choices.py:17-26 | every URL whose path ends in `.webm` or `.m4v` is video: no image extension can also end it |
| MediaType.ExclusiveSuffixes | backend/chewy_space/media/choices.py:17-29 | two extensions neither of which ends the other cannot both end one path |
| MediaType.UrlPathLower | backend/chewy_space/media/choices.py:14 | lower-casing a URL lower-cases its path and nothing else |
| MediaType.DetectCaseInsensitive | backend/chewy_space/media/choices.py:14 | a URL and its lower-cased form get the same media type |
| MediaApi.OrSize | frontend/src/services/mediaApi.ts:50 | `file_size \|\| size`: the first size unless it is missing or zero |
| MediaApi.ChooseUrl | frontend/src/services/mediaApi.ts:14 | the first truthy of `preview_url`, `url` and `file`, in that order; falsy only when all three are |
| MediaApi.PrefixRelative | frontend/src/services/mediaApi.ts:17-19 | a URL starting with `/` gets the API base prepended; any other value is unchanged |
| MediaApi.RewriteProtocol | frontend/src/services/mediaApi.ts:22-29 | a present URL is rewritten to the configured protocol (https by default); a missing one is unchanged |
| MediaApi.TypeFromMime | frontend/src/services/mediaApi.ts:34-42 | `image`, `video` or `audio` exactly when the MIME type starts with that prefix, tried in that order; `file` otherwise |
| MediaApi.ChooseType | frontend/src/services/mediaApi.ts:32-42 | an explicit `media_type`, else `type`, else the kind read from the MIME type |
| MediaApi.Transform | frontend/src/services/mediaApi.ts:7-53 | every field of the front-end attachment from its fallbacks: uid from `uid` then `id` then empty, the URL chain above, filenames, size and MIME type |
| MediaApi.TransformedUrlIsNormalized | frontend/src/services/mediaApi.ts:17-29 | a transformed URL is already in normal form for the configured protocol |
| MediaApi.RelativeUrlIsPrefixed | frontend/src/services/mediaApi.ts:14-19 | a relative URL comes out as the API base plus the path, normalised; an absolute one only normalised |
| MediaApi.DerivedType | frontend/src/services/mediaApi.ts:32-42 | without an explicit type the kind follows the MIME type |
| MediaApi.ExplicitTypeWins | frontend/src/services/mediaApi.ts:32-34 | an explicit `media_type` is kept whatever the MIME type says |
| MediaApi.BoolText | frontend/src/services/mediaApi.ts:70 | `String(b)`: `true` or `false` |
| MediaApi.UploadFields | frontend/src/services/mediaApi.ts:64-70 | the form fields of an upload: `media_type` and `description` only when given and truthy, `is_public` always and last |
| MediaApi.UploadIsPublicByDefault | frontend/src/services/mediaApi.ts:68-70 | without an explicit choice an upload is public |
| Js.Or | frontend/src/services/mediaApi.ts:48-49 | `a \|\| b` on optional strings: `a` when it is a non-empty string, otherwise `b`; truthy exactly when either is |
| Js.Field | frontend/src/pages/BBTalkPage.tsx:580-588 | `obj.key` on a JSON value: present exactly when the value is an object holding the key |
| BBTalkApi.Decode | frontend/src/services/api/bbtalkApi.ts:4-17 | `uid` becomes the id; visibility defaults to `private`, tags and media to empty lists, a falsy context to `{}`; never deleted |
| BBTalkApi.TagNames | frontend/src/services/api/bbtalkApi.ts:22 | the tag names, one per tag, in order |
| BBTalkApi.MediaIds | frontend/src/services/api/bbtalkApi.ts:27 | the media ids, one per item, in order |
| BBTalkApi.Encode | frontend/src/services/api/bbtalkApi.ts:19-35 | the update payload: tag names joined by commas (empty when there are none), media ids only when media is given, visibility only when truthy |
| BBTalkApi.EncodedTagsRoundTrip | frontend/src/services/api/bbtalkApi.ts:22 | splitting `post_tags` at commas gives back the tag names when no name holds a comma |
| BBTalkApi.EncodeWithoutTagsClears | frontend/src/services/api/bbtalkApi.ts:22 | an update without tags sends `post_tags` as the empty string, which clears them |
| BBTalkApi.CreatePayload | frontend/src/services/api/bbtalkApi.ts:52-68 | the create payload: `post_tags` left out when the joined names are empty, `post_media` always a list, visibility only when truthy |
| BBTalkApi.CreateWithoutTags | frontend/src/services/api/bbtalkApi.ts:61-62 | a post created without tags carries no `post_tags` but always a media list |
| BBTalkSlice.IsFullLoad | frontend/src/store/slices/bbtalkSlice.ts:45 | a load is full exactly when there is no search text and no tag filter |
| BBTalkSlice.LoadPayload | frontend/src/store/slices/bbtalkSlice.ts:30-51 | the fulfilled load: results and count as received, page 1 unless given, more pages exactly when there is a next link |
| BBTalkSlice.LoadMorePage | frontend/src/store/slices/bbtalkSlice.ts:58-59 | load-more asks for the page right after the current one |
| BBTalkSlice.Reduce | frontend/src/store/slices/bbtalkSlice.ts:120-197 | every reducer case: only a full load changes the total, only the three setters change the filters, every rejection records its error, and the list changes only on a load, a create, an update or a delete |
| BBTalkSlice.PendingFlags | frontend/src/store/slices/bbtalkSlice.ts:140-161 | a load starts loading and clears the error; a load-more starts loading and keeps the error |
| BBTalkSlice.LoadReplaces | frontend/src/store/slices/bbtalkSlice.ts:144-153 | a load replaces the list and paging state, and the total only for a full load |
| BBTalkSlice.LoadMoreAppends | frontend/src/store/slices/bbtalkSlice.ts:162-167 | a load-more keeps what is shown, in order, and puts the new page after it |
| BBTalkSlice.LoadMoreTwice | frontend/src/store/slices/bbtalkSlice.ts:164 | two load-mores show the same list as one load-more of both pages |
| BBTalkSlice.CreatePrepends | frontend/src/store/slices/bbtalkSlice.ts:173-175 | a created post is shown first, ahead of everything that was there |
| BBTalkSlice.CreateThenDelete | frontend/src/store/slices/bbtalkSlice.ts:173-192 | deleting a freshly created post with a new id gives back the earlier list |
| BBTalkSlice.UpdateInPlace | frontend/src/store/slices/bbtalkSlice.ts:180-185 | an update replaces the first post with its id in place and nothing else; with no match the list is unchanged |
| BBTalkSlice.UpdateIdempotent | frontend/src/store/slices/bbtalkSlice.ts:180-185 | applying the same update twice is applying it once |
| BBTalkSlice.DeleteRemovesAll | frontend/src/store/slices/bbtalkSlice.ts:190-192 | after a delete no post has the id, every other post stays, and deleting again changes nothing |
| BBTalkSlice.DeleteKeepsOrder | frontend/src/store/slices/bbtalkSlice.ts:190-192 | a delete keeps every other post with all its copies and in its order: the new list is a subsequence of the old one |
| Lists.FindIndex | frontend/src/store/slices/bbtalkSlice.ts:181 | `findIndex`: the first position holding the id, or -1 when none does |
| Lists.FindIndexUnique | frontend/src/store/slices/bbtalkSlice.ts:181 | the first matching position is the only answer `findIndex` can give |
| Lists.ReplaceFirst | frontend/src/store/slices/bbtalkSlice.ts:181-184 | the first item with the new item's id is replaced and every other position is unchanged |
| Lists.ReplaceFirstIdempotent | frontend/src/store/slices/bbtalkSlice.ts:181-184 | replacing twice with the same item is replacing once |
| Lists.Remove | frontend/src/store/slices/bbtalkSlice.ts:191 | `filter(b => b.id !== id)`: exactly the items with another id remain |
| Lists.RemoveAppend | frontend/src/store/slices/bbtalkSlice.ts:191 | removing from two parts removes from each and keeps their order |
| Lists.RemoveAbsent | frontend/src/store/slices/bbtalkSlice.ts:191 | a list without the id is left as it is |
| Lists.RemoveSubsequence | frontend/src/store/slices/bbtalkSlice.ts:191 | `filter` keeps the remaining items in their relative order |
| Lists.RemoveCounts | frontend/src/store/slices/bbtalkSlice.ts:191 | `filter` keeps every copy of an item with another id and no item with the id |
| Sorting.Insert | frontend/src/store/slices/tagSlice.ts:112 | one insertion step of the stable sort: the item joins the list, counted with repetition |
| Sorting.InsertSorted | frontend/src/store/slices/tagSlice.ts:112 | inserting into a sorted list keeps it sorted |
| Sorting.SortBy | frontend/src/store/slices/tagSlice.ts:112-121 | `sort` with a key comparator: sorted by the key and a permutation of the input |
| Sorting.SortByStable | frontend/src/store/slices/tagSlice.ts:112-121 | the sort is stable: items with equal keys keep their order |
| Sorting.SortBySorted | frontend/src/store/slices/tagSlice.ts:112-121 | an already sorted list is left as it is |
| Sorting.Map | backend/chewy_space/bbtalk/data_export.py:55-68 | a list comprehension: one image per item, position for position |
| Sorting.MapInsert | backend/chewy_space/bbtalk/data_export.py:55-68 | mapping after one insertion step adds the inserted item's image and nothing else |
| Sorting.MapSortBy | backend/chewy_space/bbtalk/data_export.py:55-68 | ordering the rows before mapping them gives the same records, counted with repetition, as mapping the rows as they come |
| TagSlice.SortTags | frontend/src/store/slices/tagSlice.ts:112-121 | tags sorted by sort order, a missing one counting as 0, as a permutation |
| TagSlice.SortTagsStable | frontend/src/store/slices/tagSlice.ts:112-121 | tags with equal sort orders keep their previous order |
| TagSlice.UpdatePendingTags | frontend/src/store/slices/tagSlice.ts:102-114 | the optimistic update: unchanged unless the tag exists and a sort order is given; otherwise that tag takes the new order and the list is re-sorted |
| TagSlice.Reduce | frontend/src/store/slices/tagSlice.ts:68-135 | every reducer case: each rejection records its error, only `selectTag` changes the selection, and updates keep the number of tags |
| TagSlice.UpdatePendingChangesOnlyWhenApplicable | frontend/src/store/slices/tagSlice.ts:106 | the optimistic update changes the state only when the tag exists and a sort order is given |
| TagSlice.UpdatePendingSetsOrder | frontend/src/store/slices/tagSlice.ts:105-113 | after the optimistic update the tag carries the new order and the list is sorted |
| TagSlice.UpdateFulfilledSorts | frontend/src/store/slices/tagSlice.ts:115-122 | a successful update always re-sorts, even when no tag matched; when one matched, the list holds the same tags with the first one bearing the returned id replaced by the returned tag, which is in the list |
| TagSlice.FulfilledConfirmsPending | frontend/src/store/slices/tagSlice.ts:102-122 | with distinct tag ids, the server's confirmation of an optimistic sort-order change (the tag with the new order) leaves the state exactly as the optimistic update left it |
| TagSlice.CreateAndDelete | frontend/src/store/slices/tagSlice.ts:95-130 | a created tag is appended at the end; a delete keeps exactly the tags with another id |
| NameSort.InsertName | frontend/src/pages/BBTalkPage.tsx:262-263 | one insertion step of `sort()` on strings: the name joins the list |
| NameSort.InsertNameOrdered | frontend/src/pages/BBTalkPage.tsx:262-263 | inserting into an ordered list keeps it ordered |
| NameSort.SortNames | frontend/src/pages/BBTalkPage.tsx:262-263 | `sort()` without a comparator: the names in ascending order, as a permutation |
| NameSort.OrderedUnique | frontend/src/pages/BBTalkPage.tsx:262-264 | two ordered lists with the same names, counted with repetition, are equal |
| NameSort.SortNamesSameIff | frontend/src/pages/BBTalkPage.tsx:262-264 | two lists sort to the same list exactly when they hold the same names with the same repetitions |
| TagReorder.Without | frontend/src/pages/BBTalkPage.tsx:360 | the list with one position taken out: the items before it in place and the later ones shifted down by one |
| TagReorder.WithoutMultiset | frontend/src/pages/BBTalkPage.tsx:360 | a list is the item at a position plus the rest, counted with repetition |
| TagReorder.ArrayMove | frontend/src/pages/BBTalkPage.tsx:360 | `arrayMove`: the moved item lands at the target and the other items keep their relative order |
| TagReorder.ArrayMovePermutes | frontend/src/pages/BBTalkPage.tsx:360 | moving keeps every item, with its repetitions |
| TagReorder.ArrayMoveBack | frontend/src/pages/BBTalkPage.tsx:360 | moving an item back where it came from restores the list |
| TagReorder.NewSortOrder | frontend/src/pages/BBTalkPage.tsx:362-379 | the new sort order lies strictly between the neighbours' orders (1000 below the next one at the front, 1000 above the previous one at the end) whenever the neighbours are strictly ordered |
| TagReorder.HandleDragEnd | frontend/src/pages/BBTalkPage.tsx:354-394 | a request is sent exactly when the tag is dropped over a different tag, and it is for the dragged tag |
| TagReorder.Dropped | frontend/src/pages/BBTalkPage.tsx:358-379 | the rearranged list with the dragged tag carrying its new sort order; same length as before |
| TagReorder.InsertStrict | frontend/src/pages/BBTalkPage.tsx:362-379 | a tag put between a smaller and a larger neighbour keeps a strictly ordered list strictly ordered |
| TagReorder.DroppedShape | frontend/src/pages/BBTalkPage.tsx:358-363 | where the dragged tag lands, and that the other tags surround it in their old order |
| TagReorder.DroppedStrict | frontend/src/pages/BBTalkPage.tsx:362-379 | dropping a tag keeps strictly increasing sort orders strictly increasing |
| TagReorder.DroppedPermutes | frontend/src/pages/BBTalkPage.tsx:358-385 | the dropped list holds exactly the tags of the old list, the dragged one with its new sort order |
| TagReorder.SortedUnique | frontend/src/store/slices/tagSlice.ts:112 | a strictly ordered list and a sorted list with the same tags are the same list |
| TagReorder.DropShowsWhereDropped | frontend/src/pages/BBTalkPage.tsx:381-386 | the optimistic update of the store shows exactly the list the user dropped, when the sort orders were strictly increasing |
| BBTalkPage.ToggleTag | frontend/src/pages/BBTalkPage.tsx:336-340 | at most one tag selected: the clicked tag exactly when it was not already selected |
| BBTalkPage.ToggleTwice | frontend/src/pages/BBTalkPage.tsx:336-340 | clicking the same tag twice leaves that tag alone selected if it was selected before, and nothing otherwise |
| BBTalkPage.FilterTalks | frontend/src/pages/BBTalkPage.tsx:397-403 | exactly the posts whose lower-cased text contains the lower-cased keyword, or all of them for an empty keyword |
| BBTalkPage.FilterTalksAppend | frontend/src/pages/BBTalkPage.tsx:397-403 | filtering keeps the order of the posts: a list in two parts is filtered part by part |
| BBTalkPage.EmptyKeywordKeepsAll | frontend/src/pages/BBTalkPage.tsx:399 | an empty keyword keeps every post, in order |
| BBTalkPage.KeywordCaseIgnored | frontend/src/pages/BBTalkPage.tsx:399 | a keyword and its lower-cased form keep the same posts |
| BBTalkPage.Uids | frontend/src/pages/BBTalkPage.tsx:262-263 | the uid of each attachment, in order |
| BBTalkPage.AttachmentsChanged | frontend/src/pages/BBTalkPage.tsx:262-264 | the edit changed the attachments exactly when the old and new uid lists differ as multisets |
| BBTalkPage.UidsPermutes | frontend/src/pages/BBTalkPage.tsx:262-263 | lists holding the same attachments hold the same uids |
| BBTalkPage.ReorderedUnchanged | frontend/src/pages/BBTalkPage.tsx:262-264 | reordering the attachments of a post is not a change |
| BBTalkPage.AddedChanged | frontend/src/pages/BBTalkPage.tsx:262-264 | adding an attachment is a change |
| BBTalkPage.UrlPath | frontend/src/pages/BBTalkPage.tsx:751-753 | the lower-cased URL up to its first `?`, which holds no `?` |
| BBTalkPage.UrlPathDropsQuery | frontend/src/pages/BBTalkPage.tsx:751-753 | the query of a URL does not take part in the extension test |
| BBTalkPage.Images | frontend/src/pages/BBTalkPage.tsx:749-763 | exactly the attachments typed as images or whose path has an image extension |
| BBTalkPage.Videos | frontend/src/pages/BBTalkPage.tsx:756-764 | exactly the attachments that are not images but are typed as videos or have a video extension |
| BBTalkPage.Files | frontend/src/pages/BBTalkPage.tsx:765 | exactly the attachments that are neither images nor videos |
| BBTalkPage.AttachmentsPartitioned | frontend/src/pages/BBTalkPage.tsx:763-765 | images, videos and files together hold every attachment exactly once |
| BBTalkPage.TypeReadBeforeExtension | frontend/src/pages/BBTalkPage.tsx:749-764 | an attachment typed as a video whose path ends in `.png` is shown as an image and not as a video |
| BBTalkPage.RelativeTime | frontend/src/pages/BBTalkPage.tsx:892-903 | under a minute is just now; then whole minutes below an hour, whole hours below a day, whole days below a week, each count floored; a week or more shows the date |
| BBTalkPage.RelativeTimeMonotone | frontend/src/pages/BBTalkPage.tsx:894-903 | an older post never shows a younger age: the bucket and the count within it only grow |
| BBTalkPage.NonEmptyText | frontend/src/pages/BBTalkPage.tsx:582-588 | a field counts as a client name exactly when it is a non-empty string |
| BBTalkPage.GetSource | frontend/src/pages/BBTalkPage.tsx:573-593 | `Web` for a missing or falsy context, the context itself when it is a string, otherwise `source.client`, then the top-level `client`, then `Web`; never empty |
| BBTalkPage.SourceClientWins | frontend/src/pages/BBTalkPage.tsx:580-585 | a client named under `source` wins over a top-level one |
| BBTalkPage.LegacyClientRead | frontend/src/pages/BBTalkPage.tsx:587-590 | without a `source`, the older top-level client is read |
| BBTalkPage.EditorPostsReadAsWeb | frontend/src/pages/BBTalkPage.tsx:580-584 | a post written in the editor, whose context names the client `Web`, reads as `Web` |
| BBTalkEditor.ImageUrl | frontend/src/components/BBTalkEditor.tsx:61-66 | a URL starting with `http://` gets `https://` in its place; every other URL is kept |
| BBTalkEditor.ImageUrlIsNormalize | frontend/src/components/BBTalkEditor.tsx:61-66 | the upgrade is the media URL normaliser with target https, so upgrading twice is upgrading once |
| BBTalkEditor.RestoreTags | frontend/src/components/BBTalkEditor.tsx:69-75 | the text alone when there are no tags; otherwise it starts with the first tag's marker and ends with the text |
| BBTalkEditor.RunLength | frontend/src/components/BBTalkEditor.tsx:268 | the greedy `[^\s#]+`: the longest leading run of characters that are neither white space nor `#` |
| BBTalkEditor.RunLengthWord | frontend/src/components/BBTalkEditor.tsx:268 | the run after a name stops exactly at the end of the name |
| BBTalkEditor.MatchAt | frontend/src/components/BBTalkEditor.tsx:268 | a match captures a non-empty name and, unless the final white space is consumed, is followed by white space |
| BBTalkEditor.Scan | frontend/src/components/BBTalkEditor.tsx:268-270 | every capture of the global pattern is a tag name |
| BBTalkEditor.ParseTagsAsWritten | frontend/src/components/BBTalkEditor.tsx:268-270 | the captures of the pattern as written are tag names |
| BBTalkEditor.ParseTags | frontend/src/components/BBTalkEditor.tsx:268-270 | the captures with the final white space only looked at are tag names |
| BBTalkEditor.MatchAfterSpace | frontend/src/components/BBTalkEditor.tsx:268 | a marker after white space matches like the same marker at the start of the text, one character later |
| BBTalkEditor.ScanAfterSpace | frontend/src/components/BBTalkEditor.tsx:268-270 | white space in front of a text reads like the start of the text |
| BBTalkEditor.MarkMatch | frontend/src/components/BBTalkEditor.tsx:268 | a marker `#t` after white space is matched, covering the following white space only as written |
| BBTalkEditor.ScanMarks | frontend/src/components/BBTalkEditor.tsx:268-270 | markers written one after another after white space are all read back, in order |
| BBTalkEditor.RestoredTagsParse | frontend/src/components/BBTalkEditor.tsx:268-270 | tags put back into a text are read back first, in order, followed by the text's own tags |
| BBTalkEditor.NoMarkNoTags | frontend/src/components/BBTalkEditor.tsx:268-270 | a text without `#` has no tags |
| BBTalkEditor.RestoredTagsLostAsWritten | frontend/src/components/BBTalkEditor.tsx:268-270 | as written, the post tagged `a` and `b` restored as `#a #b x` reads as tagged `a` only; with the final white space only looked at it reads `a` and `b` |
| BBTalkEditor.Strip | frontend/src/components/BBTalkEditor.tsx:439 | every match of the marker pattern replaced by one space |
| BBTalkEditor.StripNoMarks | frontend/src/components/BBTalkEditor.tsx:439 | a text without `#` is kept whole |
| BBTalkEditor.CleanContentAsWritten | frontend/src/components/BBTalkEditor.tsx:439 | the text sent as written: markers replaced by a space, then trimmed; never longer than the text |
| BBTalkEditor.CleanContent | frontend/src/components/BBTalkEditor.tsx:439 | the same with the final white space only looked at; a text without `#` is only trimmed |
| BBTalkEditor.StripMarks | frontend/src/components/BBTalkEditor.tsx:439 | markers written after white space strip to spaces only, in front of the stripped rest |
| BBTalkEditor.RestoredTagsClean | frontend/src/components/BBTalkEditor.tsx:439 | putting tags back into a text and cleaning it gives the cleaned text: the markers leave nothing behind |
| BBTalkEditor.RestoredTagsKeptAsWritten | frontend/src/components/BBTalkEditor.tsx:439 | as written, cleaning `#a #b x` leaves `#b x`: the second marker is sent as text |
| BBTalkEditor.TrimSpaceFront | frontend/src/components/BBTalkEditor.tsx:439 | trimming drops one white space in front of a text that starts and ends with something else, and nothing more |
| BBTalkEditor.Distinct | frontend/src/components/BBTalkEditor.tsx:273 | `new Set(names)` as a list: the same names, each once |
| BBTalkEditor.SortedDistinct | frontend/src/components/BBTalkEditor.tsx:273-275 | sorting a list without repeats keeps it without repeats and keeps its names |
| BBTalkEditor.EditedTags | frontend/src/components/BBTalkEditor.tsx:265-276 | whichever way the comparison goes, the tag list becomes exactly the parsed names, sorted, each once |
| BBTalkEditor.TagsAfterEdit | frontend/src/components/BBTalkEditor.tsx:265-276 | with the corrected pattern (see Findings), the post's tags after an edit: exactly the names the text carries, sorted, each once |
| BBTalkEditor.TagsAfterEditAsWritten | frontend/src/components/BBTalkEditor.tsx:265-276 | with the pattern as written, the tags after an edit are exactly the names that pattern reads, sorted, each once |
| BBTalkEditor.RestoredTagsDroppedAsWritten | frontend/src/components/BBTalkEditor.tsx:265-276 | as written, the tag list of a post tagged `a` and `b` put back for editing keeps `a` and loses `b`; with the corrected pattern it keeps both |
| BBTalkEditor.RestoredTagsKept | frontend/src/components/BBTalkEditor.tsx:265-276 | with the corrected pattern, restoring a post for editing gives back its tags together with those of its text |
| BBTalkEditor.SuggestedTag | frontend/src/components/BBTalkEditor.tsx:278-289 | a suggestion is a name not yet among the tags that the text ends with, right after `#` |
| BBTalkEditor.TrailingRun | frontend/src/components/BBTalkEditor.tsx:279 | the longest trailing run of name characters |
| BBTalkEditor.TrailingRunWord | frontend/src/components/BBTalkEditor.tsx:279 | after `#name` the trailing run is the name |
| BBTalkEditor.TypingTagSuggests | frontend/src/components/BBTalkEditor.tsx:278-289 | typing `#name` at the start or after white space suggests the name, and typing the white space that ends it withdraws the suggestion |
| BBTalkEditor.LastHash | frontend/src/components/BBTalkEditor.tsx:158 | `lastIndexOf('#')`: a `#` with none after it, or none when the text has no `#` |
| BBTalkEditor.TagTrigger | frontend/src/components/BBTalkEditor.tsx:153-174 | when the picker opens, it is at a `#` at the start of the text or after white space, and the query holds only name characters |
| BBTalkEditor.TypingHashOpensPicker | frontend/src/components/BBTalkEditor.tsx:153-174 | typing `#` at the start or after white space, then a query, opens the picker at that `#` with that query |
| BBTalkEditor.SpaceClosesPicker | frontend/src/components/BBTalkEditor.tsx:161-169 | typing white space after the query closes the picker |
| BBTalkEditor.Clamp | frontend/src/components/BBTalkEditor.tsx:235-236 | `substring`'s reading of a position: inside the text it is kept |
| BBTalkEditor.SelectTag | frontend/src/components/BBTalkEditor.tsx:230-248 | the text before the `#`, then `#`, the name and a space, then the text from the cursor on; the cursor lands after the space |
| BBTalkEditor.MarkFound | frontend/src/components/BBTalkEditor.tsx:268-270 | a marker after white space anywhere in a text is read by the scan |
| BBTalkEditor.ChosenTagParses | frontend/src/components/BBTalkEditor.tsx:230-248 | with the corrected pattern, choosing a name in the picker writes a marker that the text then reads as a tag |
| BBTalkEditor.FirstWhere | frontend/src/components/BBTalkEditor.tsx:251-256 | the one-pass search gives the same list as filtering and then keeping the first `limit` entries: the first accepted items, in their order |
| BBTalkEditor.FilterTags | frontend/src/components/BBTalkEditor.tsx:251-256 | the first `limit` offered tags in list order (an offered tag's name contains the query ignoring case and is not yet on the post); fewer only when no more are offered |
| BBTalkEditor.PickerTags | frontend/src/components/BBTalkEditor.tsx:251-256 | the picker offers the first ten such tags in list order, and fewer only when there are no more |
| BBTalkEditor.AllOfferedKept | frontend/src/components/BBTalkEditor.tsx:251-256 | when every tag is offered and the limit is not reached, the list is offered whole, in order |
| BBTalkEditor.EmptyQueryOffersAll | frontend/src/components/BBTalkEditor.tsx:251-256 | with nothing typed after the `#`, every tag not on the post is offered, in order, up to the limit |
| BBTalkEditor.KeepInRange | frontend/src/components/BBTalkEditor.tsx:258-263 | a highlight past the end of a non-empty list moves to its last entry; one inside stays |
| BBTalkEditor.ArrowUp | frontend/src/components/BBTalkEditor.tsx:559-565 | the previous entry, wrapping from the first to the last |
| BBTalkEditor.ArrowDown | frontend/src/components/BBTalkEditor.tsx:568-574 | the next entry, wrapping from the last to the first |
| BBTalkEditor.ArrowsUndo | frontend/src/components/BBTalkEditor.tsx:559-574 | one arrow undoes the other |
| BBTalkEditor.ArrowUpOnEmpty | frontend/src/components/BBTalkEditor.tsx:561-563 | on an empty list ArrowUp leaves the range: the index becomes -1 |
| BBTalkEditor.PickId | frontend/src/components/BBTalkEditor.tsx:447 | `m.id \|\| m.uid`: one of the two ids, non-empty exactly when either is; nothing for a missing entry |
| BBTalkEditor.Kept | frontend/src/components/BBTalkEditor.tsx:447-449 | the values of the list's truthy entries, in order, as `filter(Boolean)` gives them; membership is exactly the non-empty values |
| BBTalkEditor.MediaUids | frontend/src/components/BBTalkEditor.tsx:445-450 | the non-empty ids of the attachments already on the post, in their order, followed by the non-empty uids of the new uploads, in theirs |
| BBTalkEditor.EditorContext | frontend/src/components/BBTalkEditor.tsx:427-436 | the context names the client `Web` and the platform, and holds a location exactly when one was taken |
| BBTalkEditor.Submit | frontend/src/components/BBTalkEditor.tsx:424-453 | nothing is sent for a text that is empty or white space; otherwise the text cleaned with the corrected pattern, the tags, the attachment ids, the chosen visibility and the context |
| BBTalkEditor.SubmitAsWritten | frontend/src/components/BBTalkEditor.tsx:424-453 | as written: sent under the same condition, and the same request except that the text is cleaned with the pattern as written |
| BBTalkEditor.ResubmitRestoredAsWritten | frontend/src/components/BBTalkEditor.tsx:424-453 | as written, sending a post tagged `a` and `b` back unchanged sends `#b x` as its text |
| BBTalkEditor.ResubmitRestored | frontend/src/components/BBTalkEditor.tsx:424-453 | with the corrected pattern, editing a post and sending it unchanged sends its cleaned text, without the markers put back in front of it |
| BBTalkEditor.Ids | frontend/src/components/BBTalkEditor.tsx:447 | one picked id per attachment already on the post, position for position |
| BBTalkSerializer.CleanPieces | backend/chewy_space/bbtalk/serializers.py:42-44 | each piece stripped and the empty ones dropped: the names kept are clean, never more than the pieces |
| BBTalkSerializer.CleanPiecesMembers | backend/chewy_space/bbtalk/serializers.py:42-44 | a name is kept exactly when it is a non-empty stripped piece |
| BBTalkSerializer.CleanPiecesNoop | backend/chewy_space/bbtalk/serializers.py:42-44 | pieces that are already clean names pass through unchanged, in order |
| BBTalkSerializer.TagNames | backend/chewy_space/bbtalk/serializers.py:42-44 | the names read from a `post_tags` text are all clean: non-empty, stripped, free of commas |
| BBTalkSerializer.TagNamesRoundTrip | backend/chewy_space/bbtalk/serializers.py:42-44 | clean names joined with commas are read back as the same names, in order |
| BBTalkSerializer.EmptyTagText | backend/chewy_space/bbtalk/serializers.py:42-44 | an empty `post_tags` text names no tag |
| BBTalkSerializer.TagTextAsWritten | backend/chewy_space/bbtalk/serializers.py:60 | as written, an absent `post_tags` is the empty text, a string is stripped, and an explicit `null` fails the request |
| BBTalkSerializer.NullTagsFail | backend/chewy_space/bbtalk/serializers.py:17-19 | the field is declared nullable, yet a `null` tag list fails the request |
| BBTalkSerializer.TagText | backend/chewy_space/bbtalk/serializers.py:17-19 | the tag text with `null` read as no tags; wherever the code as written succeeds, the same text |
| BBTalkSerializer.ValidUids | backend/chewy_space/bbtalk/serializers.py:51 | the UIDs of the list that are not `null`, and nothing else |
| BBTalkSerializer.SaveTags | backend/chewy_space/bbtalk/serializers.py:40-47 | the post's tags become exactly the names of the text; the user's tags grow by those names and the media rows stay |
| BBTalkSerializer.SaveMedia | backend/chewy_space/bbtalk/serializers.py:49-54 | the post's media become exactly the user's live media whose UID the list names |
| BBTalkSerializer.Create | backend/chewy_space/bbtalk/serializers.py:56-65 | with `null` tags read as none (the corrected reading, see Findings), a new post gets the tags of `post_tags` (none when absent) and the media of `post_media` (none when absent or `null`) |
| BBTalkSerializer.Update | backend/chewy_space/bbtalk/serializers.py:67-76 | with `null` tags read as none (the corrected reading), an update sets the tags from `post_tags`, and the media only when `post_media` is given; an absent or `null` list keeps them |
| BBTalkSerializer.UpdateDefaults | backend/chewy_space/bbtalk/serializers.py:67-76 | an update without `post_tags` clears the tags; without `post_media` it keeps the media, and with an empty list it clears them |
| BBTalkSerializer.CreateAsWritten | backend/chewy_space/bbtalk/serializers.py:56-65 | as written, a create fails exactly when `post_tags` is `null`, and otherwise saves what the corrected `Create` saves |
| BBTalkSerializer.UpdateAsWritten | backend/chewy_space/bbtalk/serializers.py:67-76 | as written, an update fails exactly when `post_tags` is `null`, and otherwise saves what the corrected `Update` saves |
| BBTalkSerializer.FrontEndTagsRoundTrip | backend/chewy_space/bbtalk/serializers.py:67-76 | the `post_tags` text the front end sends for clean tag names makes the post's tags exactly those names |
| BBTalkSerializer.SaveContext | backend/chewy_space/bbtalk/serializers.py:29-38 | the submitted context, else the passed one, else `{}`, gets a `device` entry with the client IP and user agent and keeps exactly its other keys with their values; a context that is not an object fails |
| BBTalkSerializer.ForwardedAddressWins | backend/chewy_space/bbtalk/serializers.py:31 | the recorded IP is `X-Forwarded-For` whenever the request carries it |
| BBTalkSerializer.ValidateSync | backend/chewy_space/bbtalk/serializers.py:109-115 | a sync request fails exactly when it is incremental without a last sync time; otherwise it passes unchanged |
| DataExport.ExportTag | backend/chewy_space/bbtalk/data_export.py:55-68 | a tag record carries its uid, name and creation time |
| DataExport.UidList | backend/chewy_space/bbtalk/data_export.py:70-85 | the tag uids as strings, position for position |
| DataExport.ExportPost | backend/chewy_space/bbtalk/data_export.py:70-85 | a BBTalk record carries its uid, content and creation time, and its tags by uid |
| DataExport.ExportStorage | backend/chewy_space/bbtalk/data_export.py:87-104 | a storage record has exactly the exported keys, its name and its creation time |
| DataExport.ExportAttachment | backend/chewy_space/bbtalk/data_export.py:106-121 | an attachment record carries its creation time |
| DataExport.ExportTags | backend/chewy_space/bbtalk/data_export.py:55-68 | one record per tag, oldest first, each with a uid and a name |
| DataExport.ExportPosts | backend/chewy_space/bbtalk/data_export.py:70-85 | one record per BBTalk, oldest first, each with a uid, a content and a list of tag uids |
| DataExport.ExportStorages | backend/chewy_space/bbtalk/data_export.py:87-104 | one record per storage setting, oldest first, each with exactly the exported keys |
| DataExport.ExportAttachments | backend/chewy_space/bbtalk/data_export.py:106-121 | one record per attachment, oldest first |
| DataExport.ChronologicalExport | backend/chewy_space/bbtalk/data_export.py:55-121 | rows ordered by creation time and exported with that time as a timestamp come out oldest first |
| DataExport.SectionsComplete | backend/chewy_space/bbtalk/data_export.py:55-121 | each exported section holds exactly the records of the account's rows, counted with repetition: none dropped, none duplicated, none invented |
| DataExport.ExportAll | backend/chewy_space/bbtalk/data_export.py:27-42 | the document has exactly the keys `version`, `export_time`, `user`, `tags`, `bbtalks`, `storage_settings`, `attachments`, and version `1.0` |
| DataExport.ExportListsComplete | backend/chewy_space/bbtalk/data_export.py:27-121 | each list in the document holds exactly the exported records of the account's rows, one per row, oldest first |
| DataExport.ExportedSections | backend/chewy_space/bbtalk/data_export.py:27-42 | each section of the document is the list its exporter builds |
| DataExport.ExportHasNoSecrets | backend/chewy_space/bbtalk/data_export.py:87-104 | no exported storage setting carries the secret access key |
| DataExport.SecretIsNotExported | backend/chewy_space/bbtalk/data_export.py:91-101 | the secret key is none of the exported setting keys |
| DataExport.ExportedPostTags | backend/chewy_space/bbtalk/data_export.py:70-85 | an exported BBTalk names its tags by uid, in the order it holds them |
| DataExport.AttachmentEntries | backend/chewy_space/bbtalk/data_export.py:201-214 | one entry `attachments/<path>` per attachment whose file can be read, and no other |
| DataExport.AttachmentEntriesPrefixed | backend/chewy_space/bbtalk/data_export.py:210 | every attachment entry lies under `attachments/` |
| DataExport.ZipPackage | backend/chewy_space/bbtalk/data_export.py:141-167 | for any document: `data.json` holds it, `README.txt` is present, and the attachment entries are added exactly when asked for |
| DataExport.ExportZip | backend/chewy_space/bbtalk/data_export.py:141-167 | the package holds `data.json` with the document and `README.txt`, plus the attachment entries exactly when asked for |
| DataImport.Items | backend/chewy_space/bbtalk/data_import.py:158 | what the loops can walk: a list gives its items, an empty object or string gives none, anything else raises |
| DataImport.ImportTag | backend/chewy_space/bbtalk/data_import.py:156-192 | one tag item moves exactly one of created, skipped or error; only tags change; an item with a string `uid` and `name` maps its uid to that name, overwriting an earlier mapping of the uid; it creates the tag (with its colour and sort order or their defaults) exactly when the user lacks the name, and otherwise is skipped, updating colour and sort order of the existing tag only under `overwrite_tags`; a malformed item leaves tags and mapping alone; an item that is not an object aborts the import |
| DataImport.ImportTags | backend/chewy_space/bbtalk/data_import.py:156-192 | the items in order: the three counters grow by the number of items, other rows stay, the uid mapping ends as `MapTagItems` builds it, and an item that is not an object aborts |
| DataImport.MapTagItems | backend/chewy_space/bbtalk/data_import.py:160-186 | the uid mapping after the tag items: its keys are the earlier keys and the uids of the usable items |
| DataImport.ExportedTagMap | backend/chewy_space/bbtalk/data_import.py:160-186 | importing the exported tags of an account whose tag uids are distinct maps exactly those uids, each to its tag's name |
| DataImport.ImportTagConsistent | backend/chewy_space/bbtalk/data_import.py:156-192 | one tag item keeps tag names unique, loses no tag, maps uids only to existing tags, and leaves a tag for a usable item |
| DataImport.ImportTagsConsistent | backend/chewy_space/bbtalk/data_import.py:156-192 | the same over a list: every usable item's name ends up among the user's tags |
| DataImport.ImportTagsClean | backend/chewy_space/bbtalk/data_import.py:156-192 | usable items record no error |
| DataImport.ImportTagsCreateNothing | backend/chewy_space/bbtalk/data_import.py:164-177 | when the user already has every item's name, no tag is created |
| DataImport.TagRefs | backend/chewy_space/bbtalk/data_import.py:225-226 | a list of references fails exactly when it holds a list or object (unhashable as a key); otherwise a name is linked exactly when some string reference is a mapped uid whose mapping is that name |
| DataImport.RefsAreNames | backend/chewy_space/bbtalk/data_import.py:225-226 | over a mapping of exactly the tags' uids to their names, an exported uid list resolves to the names of the tags it lists |
| DataImport.ImportPost | backend/chewy_space/bbtalk/data_import.py:194-235 | one BBTalk item moves exactly one of created, skipped or error; a usable item not skipped as a duplicate appends exactly one BBTalk, with its content, visibility, attachments and context or their defaults, the item's uid or, when that is taken, a generated one, and exactly the names its tag references resolve to; it counts as created exactly when the references resolve; nothing else changes |
| DataImport.ImportPosts | backend/chewy_space/bbtalk/data_import.py:194-235 | the items in order: existing BBTalks are kept, every appended BBTalk is built from one of the items with its resolved tags, and an item that is not an object aborts |
| DataImport.ImportPostsInOrder | backend/chewy_space/bbtalk/data_import.py:194-235 | without `skip_duplicates`, usable items append one BBTalk each, in item order, each built from its item |
| DataImport.PostsRelinked | backend/chewy_space/bbtalk/data_import.py:194-235 | exported BBTalk records imported over a mapping of exactly the tags' uids to their names give one BBTalk per record, in order, with its content and the names of its tags |
| DataImport.ExportRelinksTags | backend/chewy_space/bbtalk/data_import.py:156-235 | an export of an account with distinct tag uids imports back, without `skip_duplicates`, as one BBTalk per exported BBTalk, oldest first, each with its content and exactly the names of its tags |
| DataImport.ImportPostConsistent | backend/chewy_space/bbtalk/data_import.py:208-212 | one BBTalk item keeps every uid taken, loses no content, and leaves a BBTalk with the item's content |
| DataImport.ImportPostsConsistent | backend/chewy_space/bbtalk/data_import.py:194-235 | the same over a list |
| DataImport.ImportPostsClean | backend/chewy_space/bbtalk/data_import.py:194-235 | without `skip_duplicates`, usable items are all created and record no error |
| DataImport.ImportPostsCreateNothing | backend/chewy_space/bbtalk/data_import.py:202-206 | with `skip_duplicates`, items whose content the user has change no row and create nothing |
| DataImport.ImportSetting | backend/chewy_space/bbtalk/data_import.py:237-266 | one storage item with a string `name` either leaves everything as it was (a name the user has) or appends an inactive setting and counts it; an item without a string name is an error; an item that is not an object aborts |
| DataImport.ImportSettings | backend/chewy_space/bbtalk/data_import.py:237-266 | the items in order: existing settings are kept and every appended one is inactive |
| DataImport.ImportSettingConsistent | backend/chewy_space/bbtalk/data_import.py:237-266 | one storage item keeps names unique, loses no setting and leaves one with the item's name |
| DataImport.ImportSettingsConsistent | backend/chewy_space/bbtalk/data_import.py:237-266 | the same over a list, with no error when every item has a name |
| DataImport.ImportSettingsCreateNothing | backend/chewy_space/bbtalk/data_import.py:243-246 | when the user has every item's name, no row changes and nothing is created |
| DataImport.TagSection | backend/chewy_space/bbtalk/data_import.py:123-124 | a `tags` section that is absent changes nothing; one that cannot be walked aborts |
| DataImport.PostSection | backend/chewy_space/bbtalk/data_import.py:127-128 | a `bbtalks` section that is absent changes nothing; one that cannot be walked aborts |
| DataImport.StorageSection | backend/chewy_space/bbtalk/data_import.py:131-132 | settings are imported only with `import_storage_settings` and a section present |
| DataImport.CheckData | backend/chewy_space/bbtalk/data_import.py:143-154 | a document passes exactly when it is an object with a version, whatever the version |
| DataImport.ImportFromDict | backend/chewy_space/bbtalk/data_import.py:106-141 | a successful import had a valid document, keeps the user's BBTalks and settings and adds only inactive settings |
| DataImport.ImportKeepsConsistency | backend/chewy_space/bbtalk/data_import.py:106-141 | a successful import keeps the user's rows consistent: names unique, uids taken, tags existing |
| DataImport.ImportFromFile | backend/chewy_space/bbtalk/data_import.py:69-104 | a ZIP archive is read through its `data.json` and fails without one; other files through their JSON text; unreadable files fail |
| DataImport.ZipTakesPrecedence | backend/chewy_space/bbtalk/data_import.py:79-83 | a file that opens as a ZIP archive is never read as JSON text |
| DataImport.UsableDocumentImportsCleanly | backend/chewy_space/bbtalk/data_import.py:106-141 | a document of usable items imports without error, each tag created or reused and, without `skip_duplicates`, each BBTalk created |
| DataImport.ExportImportsCleanly | backend/chewy_space/bbtalk/data_import.py:106-141 | an export imports back without error: every tag created or reused and every BBTalk created |
| DataImport.PackageImportsAsDocument | backend/chewy_space/bbtalk/data_import.py:92-104 | the export package imports exactly as its document |
| DataImport.ReimportCreatesNothing | backend/chewy_space/bbtalk/data_import.py:106-141 | with `skip_duplicates`, importing the same document again creates nothing and leaves BBTalks and settings as they were |
| ImportValidation.PyLen | backend/chewy_space/bbtalk/data_import.py:302-304 | `len` is defined for strings, lists and objects, and gives a list's length |
| ImportValidation.PreviewOf | backend/chewy_space/bbtalk/data_import.py:299-305 | a document can be summarised exactly when it is an object whose sections all have a length |
| ImportValidation.ReadAsWritten | backend/chewy_space/bbtalk/data_import.py:297-306 | as written, one attempt marks the file valid before reading it, and returns exactly when the summary reads |
| ImportValidation.ValidateAsWritten | backend/chewy_space/bbtalk/data_import.py:269-327 | as written, a readable archive is reported valid as `zip`; an error is recorded only when the text does not read |
| ImportValidation.ListFileIsValidAndFailed | backend/chewy_space/bbtalk/data_import.py:311-325 | as written, a JSON file holding a list is reported valid and failed at once |
| ImportValidation.NonObjectFileIsValidAndFailed | backend/chewy_space/bbtalk/data_import.py:311-325 | as written, any JSON file that is not an object is reported valid, with an error and no preview |
| ImportValidation.Summary | backend/chewy_space/bbtalk/data_import.py:297-305 | a readable document gives a valid summary of the given type with its preview |
| ImportValidation.Validate | backend/chewy_space/bbtalk/data_import.py:269-327 | valid exactly when no error is recorded, and exactly when the archive's or the text's document reads; an invalid file reports nothing else |
| ImportValidation.ValidateAgreesWithoutError | backend/chewy_space/bbtalk/data_import.py:269-327 | wherever the check as written records no error, the corrected check gives the same result |
| ImportValidation.ExportValidates | backend/chewy_space/bbtalk/data_import.py:311-323 | an exported document passes with type `json`, its version and its section sizes |
| ImportValidation.PackageValidates | backend/chewy_space/bbtalk/data_import.py:292-306 | an export package passes with type `zip`, its version and its section sizes |
| StorageMigration.ConfigText | backend/chewy_space/bbtalk/storage_migration.py:79-84 | a configuration reference reads as the empty text exactly when it is missing or empty |
| StorageMigration.Where | backend/chewy_space/bbtalk/storage_migration.py:83-88 | the attachments that are, or are not, on the target, and no others |
| StorageMigration.WhereSplits | backend/chewy_space/bbtalk/storage_migration.py:83-88 | every attachment is counted once: on the target or not |
| StorageMigration.WhereAllOn | backend/chewy_space/bbtalk/storage_migration.py:83-88 | when all attachments are on the target, the on-target filter keeps them all |
| StorageMigration.GetPreview | backend/chewy_space/bbtalk/storage_migration.py:68-94 | the total is the number of attachments and splits into those already on the target and those to migrate |
| StorageMigration.GetEngine | backend/chewy_space/bbtalk/storage_migration.py:52-66 | no reference means local storage; a reference resolves exactly when its configuration exists and is complete |
| StorageMigration.MigrateOne | backend/chewy_space/bbtalk/storage_migration.py:126-149 | an attachment moves exactly when its source resolves and the copy succeeds, and then it is on the target |
| StorageMigration.Settle | backend/chewy_space/bbtalk/storage_migration.py:109-122 | an attachment on the target is skipped; another is migrated when it can be and failed otherwise, and only a migrated one changes |
| StorageMigration.SettleAll | backend/chewy_space/bbtalk/storage_migration.py:109-122 | position for position, each attachment's record after its own turn of the loop |
| StorageMigration.MigrateEach | backend/chewy_space/bbtalk/storage_migration.py:109-122 | the records are each attachment's record after its turn; the skipped count grows by those on the target, migrated plus failed by the rest, and one error per failure |
| StorageMigration.Migrate | backend/chewy_space/bbtalk/storage_migration.py:96-124 | the migration fails up front exactly when the target does not resolve; otherwise its total is the number of attachments |
| StorageMigration.PreviewMatchesMigrate | backend/chewy_space/bbtalk/storage_migration.py:68-124 | the migration's skipped count is the preview's already-on-target, and migrated plus failed is its need-to-migrate |
| StorageMigration.RemigrateSkipsMoved | backend/chewy_space/bbtalk/storage_migration.py:96-149 | migrating the result again to the same target skips everything that was skipped or migrated |
| StorageMigration.AllCopiesSucceed | backend/chewy_space/bbtalk/storage_migration.py:96-149 | when every source resolves and every copy succeeds, nothing fails and every record ends on the target |
| ApiKeys.ExpiryIsMonotone | backend/chewy_space/user_auth/models.py:80-84 | a key without an expiry time never expires; one with an expiry time has expired once that time is past, and stays expired |
| ApiKeys.Save | backend/chewy_space/user_auth/models.py:104-112 | saving fails when a revoked key is un-revoked or when another row has the same prefix or key; otherwise the store stays well formed and unique |
| ApiKeys.RevocationIsPermanent | backend/chewy_space/user_auth/models.py:104-112 | a revoked key saved with any edits either fails or stays revoked, and un-revoking it always fails |
| ApiKeys.CreateKey | backend/chewy_space/user_auth/models.py:14-28 | a new key is saved under the next id with the generated parts, and fails exactly when its prefix or stored key is taken |
| ApiKeys.CreateKeyIgnoresId | backend/chewy_space/user_auth/models.py:22-24 | the caller's id plays no part |
| ApiKeys.UsableKeys | backend/chewy_space/user_auth/models.py:30-31 | exactly the keys that are not revoked, unchanged |
| ApiKeys.PrefixOf | backend/chewy_space/user_auth/models.py:34 | the text before the first `.`, or the whole key when it has none |
| ApiKeys.PrefixOfJoined | backend/chewy_space/user_auth/models.py:34 | a key written as a dot-free prefix, a dot and a secret is looked up by that prefix |
| ApiKeys.Candidates | backend/chewy_space/user_auth/models.py:35-38 | the usable keys with a given prefix, and no others |
| ApiKeys.CandidatesAtMostOne | backend/chewy_space/user_auth/models.py:62 | with unique prefixes, at most one key is a candidate |
| ApiKeys.LookUp | backend/chewy_space/user_auth/models.py:35-40 | a key found is usable with that prefix; nothing is found exactly when every key with the prefix is revoked; unique prefixes never give several |
| ApiKeys.CheckKey | backend/chewy_space/user_auth/models.py:86-99 | the key checks exactly when it verifies; a valid key under an outdated hasher is stored again with the preferred hash, and nothing else changes |
| ApiKeys.GetFromKey | backend/chewy_space/user_auth/models.py:33-45 | a key is returned exactly when its prefix finds a usable key and the key verifies against it |
| ApiKeys.IsValid | backend/chewy_space/user_auth/models.py:47-56 | validation raises exactly when several usable keys share the prefix; a valid key has a usable row with its prefix |
| ApiKeys.UsableKeyIsValid | backend/chewy_space/user_auth/models.py:47-56 | a usable, unexpired key whose hash verifies is valid |
| ApiKeys.RevokedKeyIsInvalid | backend/chewy_space/user_auth/models.py:47-56 | a revoked key is never valid and leaves the store unchanged |
| OpenApiHooks.FirstGroup | backend/chewy_space/chewy_space/openapi_hooks.py:13-30 | the group of the first fragment from a position on that the path contains, and `Other` exactly when it contains none |
| OpenApiHooks.GroupOf | backend/chewy_space/chewy_space/openapi_hooks.py:13-30 | every path goes to one of the listed groups or to `Other` |
| OpenApiHooks.GroupOfIsFirstMatch | backend/chewy_space/chewy_space/openapi_hooks.py:13-30 | the chain of tests is the table read in order: the first fragment the path contains decides, and `Other` when none does |
| OpenApiHooks.EarlierGroupWins | backend/chewy_space/chewy_space/openapi_hooks.py:13-16 | a path under `/bbtalk/` that also mentions `/tag/` is in `BBTalk` |
| OpenApiHooks.TagOperations | backend/chewy_space/chewy_space/openapi_hooks.py:33-35 | the same methods, each object operation tagged with the group, others untouched |
| OpenApiHooks.AddTagsByPath | backend/chewy_space/chewy_space/openapi_hooks.py:3-38 | the schema keeps its keys and everything outside `paths`; it fails exactly when `paths` or one of its items is not an object |
| OpenApiHooks.OperationsTaggedByPath | backend/chewy_space/chewy_space/openapi_hooks.py:12-35 | each operation under a path is tagged with that path's group, and entries that are not objects are untouched |
| OpenApiHooks.TagOperationsIdempotent | backend/chewy_space/chewy_space/openapi_hooks.py:33-35 | tagging a path item twice is tagging it once |
| OpenApiHooks.AddTagsByPathIdempotent | backend/chewy_space/chewy_space/openapi_hooks.py:3-38 | running the hook twice changes nothing more |
| Settings.ReadSwitches | backend/chewy_space/chewy_space/settings.py:23-184 | `DEBUG`, `USE_X_FORWARDED_HOST` and `CORS_ALLOW_CREDENTIALS` default to on and `CORS_ORIGIN_ALLOW_ALL` to off; each of the four, when set, is on exactly when it reads as `true`, `1` or `yes` |
| Settings.IsTrueIgnoresCase | backend/chewy_space/chewy_space/settings.py:23 | the switch ignores the case of letters, and other spellings such as `on`, `y` or ` true` read as false |
| Settings.CorsOrigins | backend/chewy_space/chewy_space/settings.py:181-182 | the origins are clean: non-empty, stripped, free of commas |
| Settings.CorsOriginsRoundTrip | backend/chewy_space/chewy_space/settings.py:181-182 | clean origins written with commas are read back as written, in order |
| Settings.MediaUrl | backend/chewy_space/chewy_space/settings.py:292-305 | without S3, `MEDIA_URL` or `/media/`; with S3, an address ending in `/`: `https://<custom domain>/` when a custom domain is set, else `<endpoint>/<bucket>/` when an endpoint is set, else `https://<bucket>.s3.<region, default us-east-1>.amazonaws.com/` |
| Settings.StorageEngine | backend/chewy_space/chewy_space/settings.py:308-310 | the attachment engine is `django` exactly when the S3 credentials are set, and `file` otherwise |
| Settings.MediaUrlPrecedence | backend/chewy_space/chewy_space/settings.py:292-305 | a custom domain hides the endpoint and region, an endpoint hides the region, and without credentials no S3 variable matters |
| Settings.Partition | backend/chewy_space/chewy_space/settings.py:103 | the text before and after the first separator, rebuilding the text when there is one |
| Settings.LastIndex | backend/chewy_space/chewy_space/settings.py:103 | the position of the last separator, with none after it |
| Settings.RPartition | backend/chewy_space/chewy_space/settings.py:103 | the text before and after the last separator, rebuilding the text when there is one |
| Settings.HostName | backend/chewy_space/chewy_space/settings.py:109 | no host for an empty one; otherwise the host lower-cased |
| Settings.PortOf | backend/chewy_space/chewy_space/settings.py:110 | no port when empty, the value of digits up to 65535, and an error for anything else |
| Settings.ParseNetloc | backend/chewy_space/chewy_space/settings.py:103-110 | without `@` there is no user and no password |
| Settings.SplitLocation | backend/chewy_space/chewy_space/settings.py:103 | the network location stops at the first `/`, `?` or `#`; the path holds no query or fragment |
| Settings.ServerDatabase | backend/chewy_space/chewy_space/settings.py:101-122 | the name is the path without its leading `/`, a missing or zero port takes the engine's default, and any other port is kept |
| Settings.SchemeOf | backend/chewy_space/chewy_space/settings.py:95-126 | the branch a URL takes, tried in order: `sqlite:///`, `postgresql://` or `postgres://` on 5432, `mysql://` on 3306, else the fallback |
| Settings.ParseDatabaseUrl | backend/chewy_space/chewy_space/settings.py:93-126 | only a server URL can fail; a server URL gets its engine and a positive port; anything unrecognised becomes `db.sqlite3` under `BASE_DIR` |
| Settings.SqlitePaths | backend/chewy_space/chewy_space/settings.py:95-100 | a relative SQLite path lands under `BASE_DIR`, an absolute one is kept |
| Settings.DefaultPorts | backend/chewy_space/chewy_space/settings.py:110-121 | a URL without a port gets 5432 for PostgreSQL and 3306 for MySQL |
| Settings.NetlocRoundTrip | backend/chewy_space/chewy_space/settings.py:103-110 | `user:password@host:port` written from plain parts reads back as those parts |
| Settings.ServerRoundTrip | backend/chewy_space/chewy_space/settings.py:101-122 | the server part of a URL written from plain parts reads back as those parts |
| Settings.PostgresScheme | backend/chewy_space/chewy_space/settings.py:101 | a `postgresql://` URL takes the PostgreSQL branch with what follows the scheme |
| Settings.PostgresRoundTrip | backend/chewy_space/chewy_space/settings.py:101-111 | a PostgreSQL URL written from plain parts is read back as those parts |

## Left out

Platform, I/O and time:

- IndexedDB, `fetch` and `Blob` are not modelled as such. The cache store is a map, a blob is its size and MIME type, and the network is a `FetchResult` parameter.
- The image cache's store is always open, and every IndexedDB read and write succeeds. In `imageCache.ts`, every operation is a no-op or a miss while `this.db` is null (lines 63, 95, 125, 140, 164, 191, 206 and 233). When opening the database fails, and when a read or write fails, the catch blocks (for example lines 83-85 and 114-116) log the error and go on. The model has no closed-store state and no failed-write path. So `ImageCache.Set`, `ImageCache.Delete`, `ImageCache.Clear` and `ImageCache.ClearExpired` always take effect in the model.
- The cache's asynchronous steps are not modelled. In particular, the race between `ensureCacheSize` and `put` is left out, because nothing in the code orders them.
- The hourly `setInterval` sweep is left out as a timer. The sweep itself is `ImageCache.ClearExpired`.
- Eviction ties are broken by key in code-point order. IndexedDB compares UTF-16 code units, which differs only for characters outside the Basic Multilingual Plane.
- The clock, the target protocol, the API base URL, the browser platform test (`mobile`) and the geolocation result (`location`) are parameters.
- Date parsing and `toLocaleDateString` are left out. `BBTalkPage.RelativeTime` takes the age in milliseconds, and its `OnDate` bucket carries no text.
- Storage reads and writes, the S3 client, and `_build_s3_storage` are left out. The outcome of copying one attachment is the `transfer` map: the attachment's id gives the path the copy returned, and a missing id means the copy raised.
- Error message texts are not modelled. The migration and the import count errors instead.
- Django's ORM and transactions are left out. An import that raises outside an item's handler is `Err`: the transaction rolls back and no row changes.
- JSON text and ZIP compression are left out. An archive's `data.json` entry holds the document the export wrote, and reading a file gives a parsed value or a failure.
- Importing attachment files from a ZIP package is left out; the importer itself leaves it as a TODO.
- The export's `user` section and `README.txt` text are modelled only as present. Timestamps are numbers, not ISO strings.
- `KeyGenerator`, `concatenate` and the password hashers are left out; their module is not part of this model. They are the `Generated` and `Crypto` parameters.
- `ApiKeys.CheckKey` writes the re-hashed key straight into the store, without going through `Save`. The row is usable, so the revocation check in `save` cannot fail, and its key column does not change.
- `settings.py` values other than the switches, CORS, `MEDIA_URL`, the storage engine and `DATABASE_URL` are left out, for example `ALLOWED_HOSTS`.
- Of `urllib.parse.urlparse`, only what `_parse_database_url` (`Settings.ParseDatabaseUrl`) and `get_file_type` (`MediaType.UrlPath`) read is modelled. Both leave out the stripping of leading C0 control characters or spaces, the removal of tab, carriage return and line feed anywhere in the URL, and the "Invalid IPv6 URL" `ValueError` for unbalanced brackets; `Settings` also leaves out `;params`. So for a URL that starts with a space or a C0 control character, that holds a tab or line break, or that has an unbalanced `[` in its network location, `MediaType.UrlPath` gives a path where `choices.py` (line 14) would strip the characters first or raise.
- `BASE_DIR / path` is string concatenation with `/`. It does not normalise the path as `pathlib` does.

Numbers and text:

- JavaScript numbers are exact integers and reals; double rounding is not modelled. This applies to sort orders, sizes and millisecond ages.
- Strings are sequences of code points, whereas JavaScript indexes UTF-16 code units. Caret positions and `substring` bounds differ only for characters outside the Basic Multilingual Plane.
- Lower-casing is ASCII-only. JavaScript `toLowerCase` and Python `lower` also fold non-ASCII letters.

Front-end behaviour not modelled:

- React rendering, the DOM, caret measurement and picker placement are left out. So are the drag sensors and timers.
- The network side of every thunk and API call is left out, including `attachmentApi.list`/`delete` and the creation of new tags on submit (`hasNewTags`, `tagObjects`).
- `handleRemoveTag` builds a regular expression from an unescaped tag name, so its behaviour depends on regular-expression metacharacters. It is left out.
- `isMobileSource` and `getLocation` are left out. Their results enter as parameters.
- The comment at `BBTalkPage.tsx` 382-383 says a failed sort update is rolled back. The reducer for a rejected update (tagSlice.ts 123-126) only records the error. The model follows the reducer; the page then reloads the tags.

Preconditions and weaker statements:

- ImageCache.SetPreservesQuota: requires the new blob to fit the 100 MB budget. An oversize blob empties the store and is then stored anyway; `ImageCache.OversizeBlobExceedsQuota` exhibits this.
- TagReorder.HandleDragEnd: requires the dragged and target ids to be in the tag list. The drag library only reports ids of rendered tags, which come from that list.
- TagReorder.DropShowsWhereDropped: holds only when the sort orders are strictly increasing. With equal sort orders, the stable re-sort need not show the dropped order.
- BBTalkPage.AttachmentsChanged: is stated over the `attachments: Attachment[]` field that `handlePublish` declares (`BBTalkPage.tsx` line 236). The page as wired never gets that far. The editor's `onPublish` sends `mediaUids` and no `attachments` (`BBTalkEditor.tsx` lines 8-16 and 442-452), so `data.attachments.map` at line 263 throws a TypeError on every edit, and the catch at lines 299-301 only shows an alert. A decoded post carries `media`, not `attachments` (`bbtalkApi.ts` line 10), so `editingBBTalk.attachments` (line 262) is always undefined. Even a set `updateData.attachments` (line 275) would be dropped, because `transformBBTalkToBackend` reads only `media` (`bbtalkApi.ts` line 26). The model states what the comparison computes on the declared types and does not model the failure.
- BBTalkPage.Images, BBTalkPage.Videos and BBTalkPage.Files: are stated over an attachment list. On the page `bbtalk.attachments` (line 745) is always undefined for the same reason, so the page never shows a post's attachments.
- BBTalkPage.UrlPath: a missing attachment URL is read as the empty text, where the page would raise.
- DataImport.ImportTag: an item whose `uid` or `name` is present but not a JSON string is counted as an error. The importer would pass it on: Django's text field stores `str()` of a number or boolean, which depends on Python's number formatting; a `null` name fails the database's NOT NULL constraint; a list or object `uid` fails only as a dictionary key, after the tag row is written; and `1`, `1.0` and `true` are the same dictionary key. Exported documents always carry strings there, so the round-trip lemmas are unaffected.
- DataImport.ImportPost: likewise, an item whose `uid` or `content` is present but not a JSON string is counted as an error, where the importer would coerce the value to text or fail at a later step.
- DataImport.ImportSetting: likewise, an item whose `name` is present but not a JSON string is counted as an error, where the importer would store `str()` of the value or fail on a `null`.
- BBTalkEditor.RestoredTagsKept: is stated for the corrected tag pattern (see Findings). As written, a marker whose only white space in front is the one ending the previous marker is not read, so a restored post loses every second tag; `BBTalkEditor.RestoredTagsDroppedAsWritten` exhibits this.
- BBTalkEditor.ChosenTagParses: is stated for the corrected tag pattern. As written, a name chosen right after another marker and one space (`#a #` choosing `b`) is not read back.
- BBTalkEditor.ResubmitRestored: is stated for the corrected tag pattern. As written, markers survive in the sent text; `BBTalkEditor.ResubmitRestoredAsWritten` exhibits this.

## Findings

| source | as written | input that shows it | evidently intended | confidence | as-written member | corrected member |
|---|---|---|---|---|---|---|
| frontend/src/components/BBTalkEditor.tsx:268 | the tag pattern `(?:^\|\s)#([^\s#]+)\s` consumes the white space after a tag, so the next marker has no white space in front of it and is not read | a post tagged `a` and `b` with text `x` is restored for editing as `#a #b x`; the editor reads only `a` | every marker written by the restore is read back: `a` and `b` | not executed | BBTalkEditor.RestoredTagsLostAsWritten | BBTalkEditor.RestoredTagsParse |
| frontend/src/components/BBTalkEditor.tsx:439 | the cleanup on submit uses the same pattern, so only every other restored marker is removed | cleaning `#a #b x` sends `#b x` as the post's text | the restored markers are all removed: `x` | not executed | BBTalkEditor.RestoredTagsKeptAsWritten | BBTalkEditor.RestoredTagsClean |
| backend/chewy_space/bbtalk/serializers.py:60 | `post_tags` is declared nullable, but `create` and `update` call `.strip()` on it, which raises for `null` | a create or update request with `"post_tags": null` fails with a server error | `null` means no tags | not executed | BBTalkSerializer.NullTagsFail | BBTalkSerializer.TagText |
| backend/chewy_space/bbtalk/data_import.py:314-325 | `valid` is set to true before the document is read, and stays set when reading it raises | an uploaded JSON file holding `[]` is reported valid with an error and no preview | a file is valid only when its summary can be read | not executed | ImportValidation.ListFileIsValidAndFailed | ImportValidation.Validate |

=== FILE: api_keys.dfy ===
/**
 * API keys: creating a key, looking a presented key up by its prefix among
 * the keys that are not revoked, checking it against its stored hash and its
 * expiry, and the rule that a revoked key can never be un-revoked.
 *
 * The stored keys are a map from id to row. The key generator and the hasher
 * are not part of this model: a generated key arrives as a `Generated` value,
 * and checking, re-hashing and the preferred-hasher test are the functions of
 * a `Crypto` value. Times are numbers.
 */
module ApiKeys {
  import opened Wrappers
  import opened Strings

  datatype Row = Row(id: nat, name: string, prefix: string, hashedKey: string, key: string, revoked: bool, expiryTime: Option<int>)

  /** The stored keys, and the id the next inserted row gets. */
  datatype Db = Db(rows: map<nat, Row>, nextId: nat)

  /** Every row is stored under its own id, below the next id. */
  predicate WellFormed(db: Db) {
    forall k :: k in db.rows ==> db.rows[k].id == k && k < db.nextId
  }

  /** No two rows share a prefix or a stored key (both columns are unique). */
  predicate Unique(db: Db) {
    forall k, k' :: k in db.rows && k' in db.rows && k != k' ==>
      db.rows[k].prefix != db.rows[k'].prefix && db.rows[k].key != db.rows[k'].key
  }

  /**
   * A model instance: its fields, whether it was loaded from a stored row, and
   * `revoked` as it was when the instance was built or loaded.
   */
  datatype Instance = Instance(row: Row, stored: bool, initialRevoked: bool)

  function Load(db: Db, k: nat): Instance
    requires k in db.rows
  {
    Instance(db.rows[k], true, db.rows[k].revoked)
  }

  /** `expired`: a key with no expiry time never expires; otherwise it has expired once that time is past. */
  predicate Expired(row: Row, now: int) {
    row.expiryTime.Some? && row.expiryTime.value < now
  }

  /** Expiry is permanent: once expired, a key stays expired; a key with no expiry time never expires. */
  lemma ExpiryIsMonotone(row: Row, now: int, later: int)
    requires now <= later
    ensures Expired(row, now) ==> Expired(row, later)
    ensures row.expiryTime.None? ==> !Expired(row, later)
    ensures row.expiryTime.Some? ==> (Expired(row, later) <==> row.expiryTime.value < later)
  {
  }

  /** `_validate_revoked`: an instance loaded revoked must stay revoked. */
  predicate UndoesRevocation(inst: Instance) {
    inst.initialRevoked && !inst.row.revoked
  }

  /** Another row already holds this row's prefix or stored key. */
  predicate Clashes(db: Db, row: Row) {
    exists k :: k in db.rows && k != row.id && (db.rows[k].prefix == row.prefix || db.rows[k].key == row.key)
  }

  datatype Saved = Saved(db: Db, row: Row)

  /**
   * `save`: refuse to un-revoke, then write the row, under its own id when it
   * was loaded and under the next id when it is new. A write that would
   * duplicate a prefix or a stored key fails.
   */
  function Save(db: Db, inst: Instance): (r: Result<Saved>)
    ensures UndoesRevocation(inst) ==> r.Err?
    ensures r.Ok? ==> && r.value.row.id == (if inst.stored then inst.row.id else db.nextId)
                      && r.value.row == inst.row.(id := r.value.row.id)
                      && r.value.db.rows == db.rows[r.value.row.id := r.value.row]
    ensures r.Err? <==> UndoesRevocation(inst) || Clashes(db, inst.row.(id := if inst.stored then inst.row.id else db.nextId))
    ensures r.Ok? && WellFormed(db) && Unique(db) ==> WellFormed(r.value.db) && Unique(r.value.db)
  {
    if UndoesRevocation(inst) then Err("The API key has been revoked, which cannot be undone.")
    else
      var row := inst.row.(id := if inst.stored then inst.row.id else db.nextId);
      if Clashes(db, row) then Err("duplicate key value violates a unique constraint")
      else
        var next := if inst.stored then (if row.id < db.nextId then db.nextId else row.id + 1) else db.nextId + 1;
        Ok(Saved(Db(db.rows[row.id := row], next), row))
  }

  /** A revoked key stays revoked: saving it loaded, with any edits, either fails or keeps it revoked, and un-revoking it always fails. */
  lemma RevocationIsPermanent(db: Db, k: nat, edited: Row)
    requires k in db.rows && db.rows[k].revoked && edited.id == k
    ensures var r := Save(db, Load(db, k).(row := edited));
      && (!edited.revoked ==> r.Err?)
      && (r.Ok? ==> r.value.db.rows[k].revoked)
  {
  }

  /** What `generate()` hands out: the plaintext key, its prefix, its hash, and the stored key built from prefix and hash. */
  datatype Generated = Generated(key: string, prefix: string, hashedKey: string, stored: string)

  /** The caller's fields for a new key; any `id` given is dropped. */
  datatype Draft = Draft(id: Option<nat>, name: string, revoked: bool, expiryTime: Option<int>)

  datatype Created = Created(db: Db, row: Row, key: string)

  /** `create_key`: a new row with the generated prefix, hash and stored key, saved under the next id; the plaintext key is returned once. */
  function CreateKey(db: Db, d: Draft, g: Generated): (r: Result<Created>)
    ensures r.Ok? ==> && r.value.row.id == db.nextId && r.value.key == g.key
                      && r.value.row.prefix == g.prefix && r.value.row.hashedKey == g.hashedKey && r.value.row.key == g.stored
                      && r.value.row.name == d.name && r.value.row.revoked == d.revoked && r.value.row.expiryTime == d.expiryTime
                      && r.value.db.rows == db.rows[db.nextId := r.value.row]
    ensures WellFormed(db) ==> (r.Err? <==> exists k :: k in db.rows && (db.rows[k].prefix == g.prefix || db.rows[k].key == g.stored))
  {
    var row := Row(0, d.name, g.prefix, g.hashedKey, g.stored, d.revoked, d.expiryTime);
    match Save(db, Instance(row, false, d.revoked))
    case Ok(s) => Ok(Created(s.db, s.row, g.key))
    case Err(e) => Err(e)
  }

  /** The id in the caller's fields plays no part. */
  lemma CreateKeyIgnoresId(db: Db, d: Draft, g: Generated, id: Option<nat>)
    ensures CreateKey(db, d.(id := id), g) == CreateKey(db, d, g)
  {
  }

  /** `get_usable_keys`: the keys that are not revoked. */
  function UsableKeys(db: Db): (r: map<nat, Row>)
    ensures forall k :: k in r <==> k in db.rows && !db.rows[k].revoked
    ensures forall k :: k in r ==> r[k] == db.rows[k]
  {
    map k | k in db.rows && !db.rows[k].revoked :: db.rows[k]
  }

  /** `key.partition(".")[0]`: the text before the first `.`, or the whole key when it has none. */
  function PrefixOf(key: string): (p: string)
    ensures '.' !in p
    ensures p <= key
    ensures |p| < |key| ==> key[|p|] == '.'
  {
    key[..IndexOfAny(key, {'.'})]
  }

  /** A key written as a dot-free prefix, a dot and a secret is looked up by that prefix. */
  lemma PrefixOfJoined(prefix: string, secret: string)
    requires '.' !in prefix
    ensures PrefixOf(prefix + "." + secret) == prefix
  {
    var key := prefix + "." + secret;
    assert key[|prefix|] == '.';
    IndexOfAnyUnique(key, {'.'}, |prefix|);
    assert key[..|prefix|] == prefix;
  }

  /** The ids of the usable keys with a given prefix. */
  function Candidates(db: Db, prefix: string): (ids: set<nat>)
    ensures forall k :: k in ids <==> k in db.rows && !db.rows[k].revoked && db.rows[k].prefix == prefix
  {
    set k | k in UsableKeys(db) && db.rows[k].prefix == prefix
  }

  /** With unique prefixes there is at most one candidate. */
  lemma CandidatesAtMostOne(db: Db, prefix: string)
    requires Unique(db)
    ensures |Candidates(db, prefix)| <= 1
  {
    var ids := Candidates(db, prefix);
    if ids != {} {
      var a :| a in ids;
      assert ids == {a};
    }
  }

  /** The one element of a one-element set. */
  function Only(ids: set<nat>): (k: nat)
    requires |ids| == 1
    ensures ids == {k}
  {
    var k :| k in ids;
    assert |ids - {k}| == 0;
    assert ids == {k} by { assert ids - {k} == {}; }
    k
  }

  /** How the manager's `get(prefix=…)` among the usable keys ends. */
  datatype Lookup = Found(row: Row) | DoesNotExist | MultipleObjectsReturned

  function LookUp(db: Db, prefix: string): (r: Lookup)
    ensures r.Found? ==> r.row in db.rows.Values && !r.row.revoked && r.row.prefix == prefix
    ensures r.DoesNotExist? <==> forall k :: k in db.rows && db.rows[k].prefix == prefix ==> db.rows[k].revoked
    ensures Unique(db) ==> !r.MultipleObjectsReturned?
  {
    var ids := Candidates(db, prefix);
    if |ids| == 0 then DoesNotExist
    else if |ids| == 1 then Found(db.rows[Only(ids)])
    else
      if Unique(db) then CandidatesAtMostOne(db, prefix); assert false; MultipleObjectsReturned
      else MultipleObjectsReturned
  }

  /** The hashing scheme, which is not part of this model. */
  datatype Crypto = Crypto(verify: (string, string) -> bool, preferred: string -> bool, hash: string -> string)

  datatype Checked = Checked(valid: bool, db: Db, row: Row)

  /**
   * The instance's `is_valid`: check the key against the stored hash; a good
   * key whose hash was made by an older hasher is re-hashed and saved.
   */
  function CheckKey(db: Db, row: Row, key: string, c: Crypto): (r: Checked)
    ensures r.valid == c.verify(key, row.hashedKey)
    ensures !r.valid || c.preferred(row.hashedKey) ==> r.db == db && r.row == row
    ensures r.valid && !c.preferred(row.hashedKey) ==> r.row == row.(hashedKey := c.hash(key)) && r.db.rows == db.rows[row.id := r.row]
  {
    var valid := c.verify(key, row.hashedKey);
    if valid && !c.preferred(row.hashedKey) then
      var upgraded := row.(hashedKey := c.hash(key));
      Checked(true, db.(rows := db.rows[row.id := upgraded]), upgraded)
    else Checked(valid, db, row)
  }

  /** How `get_from_key` ends: with the key's row, or by raising. */
  datatype KeyLookup = Got(db: Db, row: Row) | NotFound | Ambiguous

  /** `get_from_key`: look the key's prefix up among the usable keys, then check the key itself. */
  function GetFromKey(db: Db, key: string, c: Crypto): (r: KeyLookup)
    ensures r.Got? <==> LookUp(db, PrefixOf(key)).Found? && c.verify(key, LookUp(db, PrefixOf(key)).row.hashedKey)
    ensures r.Got? ==> !r.row.revoked && r.row.prefix == PrefixOf(key) && r.row.id == LookUp(db, PrefixOf(key)).row.id
    ensures r.Ambiguous? <==> LookUp(db, PrefixOf(key)).MultipleObjectsReturned?
  {
    match LookUp(db, PrefixOf(key))
    case DoesNotExist => NotFound
    case MultipleObjectsReturned => Ambiguous
    case Found(row) =>
      var checked := CheckKey(db, row, key, c);
      if checked.valid then Got(checked.db, checked.row) else NotFound
  }

  /** The manager's `is_valid`, with the store it leaves behind. Several usable keys with one prefix raise instead (`Err`). */
  function IsValid(db: Db, key: string, now: int, c: Crypto): (r: Result<(bool, Db)>)
    ensures r.Err? <==> LookUp(db, PrefixOf(key)).MultipleObjectsReturned?
    ensures r.Ok? && r.value.0 ==> exists k :: k in db.rows && !db.rows[k].revoked && db.rows[k].prefix == PrefixOf(key)
                                               && c.verify(key, db.rows[k].hashedKey) && !Expired(db.rows[k], now)
  {
    match GetFromKey(db, key, c)
    case Ambiguous => Err("get() returned more than one APIKey")
    case NotFound => Ok((false, db))
    case Got(db2, row) => Ok((!Expired(row, now), db2))
  }

  /** Conversely, with unique prefixes a usable, unexpired key whose hash checks is valid. */
  lemma UsableKeyIsValid(db: Db, k: nat, key: string, now: int, c: Crypto)
    requires WellFormed(db) && Unique(db)
    requires k in db.rows && !db.rows[k].revoked && db.rows[k].prefix == PrefixOf(key)
    requires c.verify(key, db.rows[k].hashedKey) && !Expired(db.rows[k], now)
    ensures IsValid(db, key, now, c) == Ok((true, GetFromKey(db, key, c).db))
  {
    var ids := Candidates(db, PrefixOf(key));
    CandidatesAtMostOne(db, PrefixOf(key));
    assert k in ids;
    assert ids == {k};
  }

  /** A revoked key never validates, however good the presented key. */
  lemma RevokedKeyIsInvalid(db: Db, k: nat, key: string, now: int, c: Crypto)
    requires WellFormed(db) && Unique(db)
    requires k in db.rows && db.rows[k].revoked && db.rows[k].prefix == PrefixOf(key)
    ensures IsValid(db, key, now, c) == Ok((false, db))
  {
    assert forall j :: j in db.rows && db.rows[j].prefix == PrefixOf(key) ==> j == k;
  }
}

=== FILE: bbtalk_api.dfy ===
/**
 * The BBTalk wire encoders and decoders of the front end's API client: a
 * backend record to a `BBTalk`, a partial `BBTalk` to an update payload, and the
 * payload `createBBTalk` posts.
 */
module BBTalkApi {
  import opened Wrappers
  import opened Strings
  import opened Js
  import opened Types

  /** The fields of a backend BBTalk record the decoder reads. Nested tags and media are passed through as they are. */
  datatype RawBBTalk = RawBBTalk(
    uid: string,
    content: string,
    visibility: Option<string>,
    tags: Option<seq<Tag>>,
    media: Option<seq<Media>>,
    context: Option<Json>,
    createTime: string,
    updateTime: string)

  /** `transformBBTalk`: `uid` becomes `id`, and missing fields get their defaults. */
  function Decode(data: RawBBTalk): (t: BBTalk)
    ensures t.id == data.uid && t.content == data.content
    ensures t.visibility == if Truthy(data.visibility) then data.visibility.value else "private"
    ensures t.tags == data.tags.GetOr([]) && t.media == data.media.GetOr([])
    ensures data.context.Some? && JsonTruthy(data.context.value) ==> t.context == data.context
    ensures !(data.context.Some? && JsonTruthy(data.context.value)) ==> t.context == Some(Obj(map[]))
    ensures t.createdAt == data.createTime && t.updatedAt == data.updateTime
    ensures !t.isDeleted && t.deletedAt.None?
  {
    BBTalk(
      id := data.uid,
      content := data.content,
      visibility := Or(data.visibility, Some("private")).value,
      tags := data.tags.GetOr([]),
      media := data.media.GetOr([]),
      context := if data.context.Some? && JsonTruthy(data.context.value) then data.context else Some(Obj(map[])),
      createdAt := data.createTime,
      updatedAt := data.updateTime,
      isDeleted := false,
      deletedAt := None)
  }

  /** A `Partial<BBTalk>`: every field may be left out. */
  datatype PartialBBTalk = PartialBBTalk(
    content: Option<string>,
    tags: Option<seq<Tag>>,
    media: Option<seq<Media>>,
    visibility: Option<string>,
    context: Option<Json>)

  /** The update payload; `None` is a key the payload does not carry (or carries as `undefined`). */
  datatype Payload = Payload(
    content: Option<string>,
    postTags: Option<string>,
    postMedia: Option<seq<string>>,
    context: Option<Json>,
    visibility: Option<string>)

  function TagNames(tags: seq<Tag>): (names: seq<string>)
    ensures |names| == |tags|
    ensures forall i :: 0 <= i < |tags| ==> names[i] == tags[i].name
  {
    if |tags| == 0 then [] else [tags[0].name] + TagNames(tags[1..])
  }

  function MediaIds(media: seq<Media>): (ids: seq<string>)
    ensures |ids| == |media|
    ensures forall i :: 0 <= i < |media| ==> ids[i] == media[i].id
  {
    if |media| == 0 then [] else [media[0].id] + MediaIds(media[1..])
  }

  /**
   * `transformBBTalkToBackend`. `post_tags` is always sent: the tag names joined
   * by `,`, or `''` without tags. `post_media` is sent only when `media` is given,
   * `visibility` only when it is truthy.
   */
  function Encode(t: PartialBBTalk): (p: Payload)
    ensures p.content == t.content && p.context == t.context
    ensures p.postTags == Some(Join(TagNames(t.tags.GetOr([])), ","))
    ensures p.postMedia.Some? <==> t.media.Some?
    ensures t.media.Some? ==> p.postMedia.value == MediaIds(t.media.value)
    ensures p.visibility.Some? <==> Truthy(t.visibility)
    ensures p.visibility.Some? ==> p.visibility == t.visibility
  {
    var joined := if t.tags.Some? then Some(Join(TagNames(t.tags.value), ",")) else None;
    Payload(
      content := t.content,
      postTags := Or(joined, Some("")),
      postMedia := if t.media.Some? then Some(MediaIds(t.media.value)) else None,
      context := t.context,
      visibility := if Truthy(t.visibility) then t.visibility else None)
  }

  /**
   * The backend recovers the tag names from `post_tags` by splitting at `,`: for
   * at least one tag, with no name containing a comma, the split gives back the
   * names in order.
   */
  lemma EncodedTagsRoundTrip(t: PartialBBTalk)
    requires t.tags.Some? && |t.tags.value| >= 1
    requires forall i :: 0 <= i < |t.tags.value| ==> ',' !in t.tags.value[i].name
    ensures Split(Encode(t).postTags.value, ',') == TagNames(t.tags.value)
  {
    SplitJoin(TagNames(t.tags.value), ',');
  }

  /** An update without tags clears them: `post_tags` is the empty string. */
  lemma EncodeWithoutTagsClears(t: PartialBBTalk)
    requires t.tags.None? || t.tags == Some([])
    ensures Encode(t).postTags == Some("")
  {
  }

  /** The arguments of `createBBTalk`. */
  datatype CreateArgs = CreateArgs(
    content: string,
    tags: Option<seq<string>>,
    mediaUids: Option<seq<string>>,
    visibility: Option<string>,
    context: Option<Json>)

  /** The payload `createBBTalk` posts. */
  function CreatePayload(d: CreateArgs): (p: Payload)
    ensures p.content == Some(d.content) && p.context == d.context
    ensures p.postTags.None? <==> d.tags.None? || Join(d.tags.value, ",") == ""
    ensures p.postTags.Some? ==> p.postTags.value == Join(d.tags.value, ",")
    ensures p.postMedia == Some(d.mediaUids.GetOr([]))
    ensures p.visibility.Some? <==> Truthy(d.visibility)
    ensures p.visibility.Some? ==> p.visibility == d.visibility
  {
    var joined := if d.tags.Some? then Some(Join(d.tags.value, ",")) else None;
    Payload(
      content := Some(d.content),
      postTags := if Truthy(joined) then joined else None,
      postMedia := Some(d.mediaUids.GetOr([])),
      context := d.context,
      visibility := if Truthy(d.visibility) then d.visibility else None)
  }

  /** A post created without tags, or with an empty tag list, carries no `post_tags` at all. */
  lemma CreateWithoutTags(d: CreateArgs)
    requires d.tags.None? || d.tags == Some([])
    ensures CreatePayload(d).postTags.None?
    ensures CreatePayload(d).postMedia.Some?
  {
  }
}

=== FILE: bbtalk_serializer.dfy ===
/**
 * The backend's BBTalk serializer: how the write-only `post_tags` and
 * `post_media` fields become the post's tag and media relations on create and
 * update, the device information `save` stamps into `context`, and the sync
 * request check.
 *
 * The database is reduced to what these rules read: the names of the user's
 * tags, and the UIDs of the user's media that are not deleted.
 */
module BBTalkSerializer {
  import opened Wrappers
  import opened Strings
  import opened Js
  import BBTalkApi
  import Types

  // ---------------------------------------------------------------------------
  // Tag names
  // ---------------------------------------------------------------------------

  /** No white space at either end. */
  predicate Stripped(n: string) {
    |n| > 0 ==> !IsSpace(Py, n[0]) && !IsSpace(Py, n[|n| - 1])
  }

  /** A name as `save_tags` keeps it: non-empty, free of commas, and stripped. */
  predicate CleanName(n: string) {
    n != "" && ',' !in n && Stripped(n)
  }

  /** Each piece stripped, and the empty ones dropped. */
  function CleanPieces(pieces: seq<string>): (names: seq<string>)
    requires forall i :: 0 <= i < |pieces| ==> ',' !in pieces[i]
    ensures |names| <= |pieces|
    ensures forall i :: 0 <= i < |names| ==> CleanName(names[i])
  {
    if |pieces| == 0 then []
    else
      var t := Trim(pieces[0], Py);
      assert t == "" || CleanName(t) by { TrimWithin(pieces[0], Py, ','); }
      var tail := pieces[1..];
      assert forall i :: 0 <= i < |tail| ==> tail[i] == pieces[i + 1];
      var rest := CleanPieces(tail);
      if t == "" then rest else [t] + rest
  }

  /** The kept names are exactly the non-empty stripped pieces. */
  lemma {:induction false} CleanPiecesMembers(pieces: seq<string>, n: string)
    requires forall i :: 0 <= i < |pieces| ==> ',' !in pieces[i]
    ensures n in CleanPieces(pieces) <==> n != "" && exists i :: 0 <= i < |pieces| && n == Trim(pieces[i], Py)
    decreases |pieces|
  {
    if |pieces| > 0 {
      var t := Trim(pieces[0], Py);
      var tail := pieces[1..];
      assert forall i :: 0 <= i < |tail| ==> tail[i] == pieces[i + 1];
      CleanPiecesMembers(tail, n);
      assert CleanPieces(pieces) == if t == "" then CleanPieces(tail) else [t] + CleanPieces(tail);
      assert (exists i :: 0 <= i < |pieces| && n == Trim(pieces[i], Py))
        <==> n == t || exists i :: 0 <= i < |tail| && n == Trim(tail[i], Py) by {
        if exists i :: 0 <= i < |pieces| && n == Trim(pieces[i], Py) {
          var i :| 0 <= i < |pieces| && n == Trim(pieces[i], Py);
          if i > 0 {
            assert n == Trim(tail[i - 1], Py);
          }
        }
        if exists i :: 0 <= i < |tail| && n == Trim(tail[i], Py) {
          var i :| 0 <= i < |tail| && n == Trim(tail[i], Py);
          assert n == Trim(pieces[i + 1], Py);
        }
      }
    }
  }

  /** Pieces that are already clean pass through unchanged. */
  lemma {:induction false} CleanPiecesNoop(names: seq<string>)
    requires forall i :: 0 <= i < |names| ==> CleanName(names[i])
    requires forall i :: 0 <= i < |names| ==> ',' !in names[i]
    ensures CleanPieces(names) == names
    decreases |names|
  {
    if |names| > 0 {
      var tail := names[1..];
      assert forall i :: 0 <= i < |tail| ==> tail[i] == names[i + 1];
      TrimStripped(names[0], Py);
      assert Trim(names[0], Py) == names[0] && names[0] != "";
      CleanPiecesNoop(tail);
      assert CleanPieces(names) == [names[0]] + CleanPieces(tail);
      assert names == [names[0]] + tail;
    }
  }

  /** The tag names in a `post_tags` string: the whole text stripped, split at `,`, each piece stripped, empties dropped. */
  function TagNames(postTags: string): (names: seq<string>)
    ensures forall i :: 0 <= i < |names| ==> CleanName(names[i])
  {
    CleanPieces(Split(Trim(postTags, Py), ','))
  }

  /** Clean names joined by commas are parsed back to the same names, in order. */
  lemma TagNamesRoundTrip(names: seq<string>)
    requires |names| >= 1
    requires forall i :: 0 <= i < |names| ==> CleanName(names[i])
    ensures TagNames(Join(names, ",")) == names
  {
    var j := Join(names, ",");
    assert CleanName(names[0]) && CleanName(names[|names| - 1]);
    JoinEnds(names, ",");
    TrimStripped(j, Py);
    assert forall i :: 0 <= i < |names| ==> ',' !in names[i];
    SplitJoin(names, ',');
    CleanPiecesNoop(names);
  }

  /** The empty string, or a string of only white space and commas, names no tags. */
  lemma EmptyTagText()
    ensures TagNames("") == []
  {
  }

  // ---------------------------------------------------------------------------
  // The write-only fields
  // ---------------------------------------------------------------------------

  /** `post_tags` as the request carries it: left out, `null`, or a string. */
  datatype PostTags = TagsAbsent | TagsNull | TagsText(text: string)

  /** `post_media` as the request carries it: left out, `null`, or a list whose items may be `null`. */
  datatype PostMedia = MediaAbsent | MediaNull | MediaList(uids: seq<Option<string>>)

  /**
   * The tag text as written: `validated_data.pop('post_tags', '').strip()`. The
   * field accepts `null`, and `None.strip()` raises, so an explicit `null` fails
   * the request.
   */
  function TagTextAsWritten(p: PostTags): (r: Result<string>)
    ensures r.Err? <==> p.TagsNull?
    ensures p.TagsText? ==> r == Ok(Trim(p.text, Py))
    ensures p.TagsAbsent? ==> r == Ok("")
  {
    match p
    case TagsAbsent => Ok("")
    case TagsNull => Err("'NoneType' object has no attribute 'strip'")
    case TagsText(s) => Ok(Trim(s, Py))
  }

  /** The field is declared nullable, yet a `null` tag list makes the request fail. */
  lemma NullTagsFail()
    ensures TagTextAsWritten(TagsNull).Err?
  {
  }

  /** The tag text with `null` read as no tags, as the field's declaration means. */
  function TagText(p: PostTags): (s: string)
    ensures p.TagsText? ==> s == Trim(p.text, Py)
    ensures !p.TagsText? ==> s == ""
    ensures TagTextAsWritten(p).Ok? ==> s == TagTextAsWritten(p).value
  {
    if p.TagsText? then Trim(p.text, Py) else ""
  }

  /** `[uid for uid in media_uids if uid is not None]`. */
  function ValidUids(uids: seq<Option<string>>): (r: set<string>)
    ensures forall u :: u in r <==> Some(u) in uids
  {
    if |uids| == 0 then {}
    else
      var rest := ValidUids(uids[1..]);
      assert forall x :: x in uids[1..] ==> x in uids;
      assert forall x :: x in uids ==> x == uids[0] || x in uids[1..];
      if uids[0].Some? then {uids[0].value} + rest else rest
  }

  // ---------------------------------------------------------------------------
  // Create and update
  // ---------------------------------------------------------------------------

  /** The user's data the rules read: the names of their tags, and the UIDs of their media that are not deleted. */
  datatype Db = Db(tagNames: set<string>, media: set<string>)

  /** A post's relations. */
  datatype Post = Post(tags: set<string>, media: set<string>)

  /**
   * `save_tags`: every named tag is fetched or created for the user, and the
   * post's tags become exactly the named ones.
   */
  function SaveTags(db: Db, text: string): (r: (Db, set<string>))
    ensures r.1 == set n | n in TagNames(text)
    ensures r.0.tagNames == db.tagNames + r.1 && r.0.media == db.media
  {
    var names := set n | n in TagNames(text);
    (db.(tagNames := db.tagNames + names), names)
  }

  /** `save_media_files`: the post's media become the user's live media among the given UIDs; `null` UIDs are ignored. */
  function SaveMedia(db: Db, uids: seq<Option<string>>): (m: set<string>)
    ensures forall u :: u in m <==> u in db.media && Some(u) in uids
  {
    db.media * ValidUids(uids)
  }

  /** `create`: tags from `post_tags` (none when absent); media from `post_media`, where absent or `null` means none. */
  function Create(db: Db, tags: PostTags, media: PostMedia): (r: (Db, Post))
    ensures r.1.tags == set n | n in TagNames(TagText(tags))
    ensures !media.MediaList? ==> r.1.media == {}
    ensures media.MediaList? ==> r.1.media == SaveMedia(db, media.uids)
    ensures db.tagNames <= r.0.tagNames && r.0.media == db.media
  {
    var (db1, tagSet) := SaveTags(db, TagText(tags));
    var uids := if media.MediaList? then media.uids else [];
    (db1, Post(tagSet, SaveMedia(db1, uids)))
  }

  /**
   * `update`: the tags are always replaced, so a request without `post_tags`
   * clears them; the media are replaced only when `post_media` is a list, and an
   * empty list clears them.
   */
  function Update(db: Db, post: Post, tags: PostTags, media: PostMedia): (r: (Db, Post))
    ensures r.1.tags == set n | n in TagNames(TagText(tags))
    ensures !media.MediaList? ==> r.1.media == post.media
    ensures media.MediaList? ==> r.1.media == SaveMedia(db, media.uids)
    ensures db.tagNames <= r.0.tagNames && r.0.media == db.media
  {
    var (db1, tagSet) := SaveTags(db, TagText(tags));
    (db1, Post(tagSet, if media.MediaList? then SaveMedia(db1, media.uids) else post.media))
  }

  /**
   * `create` as written: the tag text is read with `.strip()` before anything
   * is saved, so a `null` `post_tags` fails the request; any other request
   * creates the post `Create` describes.
   */
  function CreateAsWritten(db: Db, tags: PostTags, media: PostMedia): (r: Result<(Db, Post)>)
    ensures r.Err? <==> tags.TagsNull?
    ensures r.Ok? ==> r.value == Create(db, tags, media)
  {
    match TagTextAsWritten(tags)
    case Err(e) => Err(e)
    case Ok(text) =>
      var (db1, tagSet) := SaveTags(db, text);
      Ok((db1, Post(tagSet, SaveMedia(db1, if media.MediaList? then media.uids else []))))
  }

  /** `update` as written: a `null` `post_tags` fails the request; any other request updates the post as `Update` describes. */
  function UpdateAsWritten(db: Db, post: Post, tags: PostTags, media: PostMedia): (r: Result<(Db, Post)>)
    ensures r.Err? <==> tags.TagsNull?
    ensures r.Ok? ==> r.value == Update(db, post, tags, media)
  {
    match TagTextAsWritten(tags)
    case Err(e) => Err(e)
    case Ok(text) =>
      var (db1, tagSet) := SaveTags(db, text);
      Ok((db1, Post(tagSet, if media.MediaList? then SaveMedia(db1, media.uids) else post.media)))
  }

  /** An update that leaves out `post_tags` removes every tag; one that leaves out `post_media` keeps the media. */
  lemma UpdateDefaults(db: Db, post: Post)
    ensures Update(db, post, TagsAbsent, MediaAbsent).1 == Post({}, post.media)
    ensures Update(db, post, TagsAbsent, MediaList([])).1 == Post({}, {})
  {
    assert TagNames("") == [];
  }

  /**
   * What the front end sends round-trips: for tags with clean names, the
   * `post_tags` text of an update payload makes the post's tags exactly those
   * names.
   */
  lemma FrontEndTagsRoundTrip(db: Db, post: Post, t: BBTalkApi.PartialBBTalk)
    requires t.tags.Some? && |t.tags.value| >= 1
    requires forall i :: 0 <= i < |t.tags.value| ==> CleanName(t.tags.value[i].name)
    ensures var sent := BBTalkApi.Encode(t).postTags.value;
      Update(db, post, TagsText(sent), MediaAbsent).1.tags == set n | n in BBTalkApi.TagNames(t.tags.value)
  {
    var names := BBTalkApi.TagNames(t.tags.value);
    TagNamesRoundTrip(names);
    TrimStripped(Join(names, ","), Py) by {
      assert CleanName(names[0]) && CleanName(names[|names| - 1]);
      JoinEnds(names, ",");
    }
  }

  // ---------------------------------------------------------------------------
  // Device context and sync requests
  // ---------------------------------------------------------------------------

  /** Python truthiness of a JSON value: empty strings, lists and objects are false. */
  predicate PyTruthy(j: Json) {
    match j
    case Null => false
    case Bool(b) => b
    case Num(n) => n != 0.0
    case Str(s) => s != ""
    case Arr(items) => items != []
    case Obj(fields) => fields != map[]
  }

  /** The request headers `save` reads. */
  datatype RequestMeta = RequestMeta(forwardedFor: Option<string>, remoteAddr: Option<string>, userAgent: Option<string>)

  function OptText(o: Option<string>): Json {
    if o.Some? then Str(o.value) else Null
  }

  /**
   * `save`: the context (the submitted one, else the one passed in, else `{}`)
   * gets a `device` entry with the client IP (`X-Forwarded-For` if set, else
   * `REMOTE_ADDR`) and user agent. A context that is not an object cannot take
   * the entry and the save fails.
   */
  /** `validated_data.pop('context', None) or kwargs.pop('context', None) or {}`. */
  function ChosenContext(submitted: Option<Json>, passed: Option<Json>): Json {
    if submitted.Some? && PyTruthy(submitted.value) then submitted.value
    else if passed.Some? && PyTruthy(passed.value) then passed.value
    else Obj(map[])
  }

  function SaveContext(submitted: Option<Json>, passed: Option<Json>, meta: RequestMeta): (r: Result<map<string, Json>>)
    // the chosen context keeps exactly its keys, plus `device`, and the values of all but `device`
    ensures r.Ok? ==> var c := ChosenContext(submitted, passed);
      && c.Obj?
      && r.value.Keys == c.fields.Keys + {"device"}
      && forall k :: k in c.fields && k != "device" ==> r.value[k] == c.fields[k]
    ensures r.Ok? ==> "device" in r.value
    ensures r.Ok? ==> r.value["device"] == Obj(map["ip" := OptText(Or(meta.forwardedFor, meta.remoteAddr)),
                                                   "ua" := OptText(meta.userAgent)])
    ensures submitted.Some? && PyTruthy(submitted.value) && submitted.value.Obj? ==>
      r.Ok? && forall k :: k in submitted.value.fields && k != "device" ==> k in r.value && r.value[k] == submitted.value.fields[k]
    ensures r.Err? <==> var c := if submitted.Some? && PyTruthy(submitted.value) then submitted
                                 else if passed.Some? && PyTruthy(passed.value) then passed else None;
                        c.Some? && !c.value.Obj?
  {
    var chosen := ChosenContext(submitted, passed);
    var device := Obj(map["ip" := OptText(Or(meta.forwardedFor, meta.remoteAddr)), "ua" := OptText(meta.userAgent)]);
    if chosen.Obj? then Ok(chosen.fields["device" := device])
    else Err("context does not support item assignment")
  }

  /** Whichever context is used, a successful save records the forwarded address when the request has one. */
  lemma ForwardedAddressWins(submitted: Option<Json>, passed: Option<Json>, meta: RequestMeta)
    requires Truthy(meta.forwardedFor)
    requires SaveContext(submitted, passed, meta).Ok?
    ensures SaveContext(submitted, passed, meta).value["device"].fields["ip"] == Str(meta.forwardedFor.value)
  {
  }

  datatype SyncMode = Full | Incremental

  /** `SyncRequestSerializer.validate`: an incremental sync needs the time of the last sync. */
  function ValidateSync(mode: SyncMode, lastSyncTime: Option<string>): (r: Result<(SyncMode, Option<string>)>)
    ensures r.Err? <==> mode == Incremental && lastSyncTime.None?
    ensures r.Ok? ==> r.value == (mode, lastSyncTime)
  {
    if mode == Incremental && lastSyncTime.None? then Err("last_sync_time is required for an incremental sync")
    else Ok((mode, lastSyncTime))
  }
}

=== FILE: bbtalk_slice.dfy ===
/**
 * The front end's BBTalk list state (the `bbtalk` Redux slice): the request
 * payloads its thunks build and the reducer's transitions, as pure functions
 * from state and action to state.
 */
module BBTalkSlice {
  import opened Wrappers
  import opened Js
  import opened Types
  import opened Lists

  datatype State = State(
    bbtalks: seq<BBTalk>,
    selectedBBTalkId: Option<string>,
    currentPage: int,
    hasMore: bool,
    selectedTagIds: seq<string>,
    searchKeyword: string,
    isLoading: bool,
    error: Option<string>,
    totalCount: int)

  const Initial := State([], None, 1, true, [], "", false, None, 0)

  // ---------------------------------------------------------------------------
  // Thunk payloads
  // ---------------------------------------------------------------------------

  /** What a successful `loadBBTalks` hands to the reducer. */
  datatype LoadResult = LoadResult(bbtalks: seq<BBTalk>, page: int, hasMore: bool, totalCount: int, isFullLoad: bool)

  /**
   * A load is a full load when it has no search text and no tag filter; only
   * such a load reports the total number of BBTalks.
   */
  function IsFullLoad(search: Option<string>, tags: Option<seq<string>>): (full: bool)
    ensures full <==> !Truthy(search) && (tags.None? || tags.value == [])
  {
    !Truthy(search) && (tags.None? || |tags.value| == 0)
  }

  /** `loadBBTalks`: the requested page (1 when not given) and the response's results, count and next link. */
  function LoadPayload(page: Option<int>, search: Option<string>, tags: Option<seq<string>>,
                       results: seq<BBTalk>, count: int, next: Option<string>): (r: LoadResult)
    ensures r.bbtalks == results && r.totalCount == count
    ensures r.page == page.GetOr(1)
    ensures r.hasMore <==> Truthy(next)
    ensures r.isFullLoad == IsFullLoad(search, tags)
  {
    LoadResult(results, page.GetOr(1), Truthy(next), count, IsFullLoad(search, tags))
  }

  /** `loadMoreBBTalks`: the page after the current one. */
  function LoadMorePage(s: State): (page: int)
    ensures page > s.currentPage && page - s.currentPage == 1
  {
    s.currentPage + 1
  }

  // ---------------------------------------------------------------------------
  // Reducer
  // ---------------------------------------------------------------------------

  datatype Action =
    | SelectBBTalk(id: string)
    | SetSelectedTags(ids: seq<string>)
    | SetSearchKeyword(keyword: string)
    | ClearError
    | LoadPending
    | LoadFulfilled(result: LoadResult)
    | LoadRejected(message: string)
    | LoadMorePending
    | LoadMoreFulfilled(more: seq<BBTalk>, page: int, hasMore: bool)
    | LoadMoreRejected(message: string)
    | CreateFulfilled(created: BBTalk)
    | CreateRejected(message: string)
    | UpdateFulfilled(updated: BBTalk)
    | UpdateRejected(message: string)
    | DeleteFulfilled(deleted: string)
    | DeleteRejected(message: string)

  /** The fields a reducer transition leaves alone unless its action is about them. */
  predicate SameFilters(a: State, b: State) {
    a.selectedBBTalkId == b.selectedBBTalkId && a.selectedTagIds == b.selectedTagIds
    && a.searchKeyword == b.searchKeyword
  }

  function Reduce(s: State, a: Action): (r: State)
    // only a full load changes the total count
    ensures r.totalCount != s.totalCount ==> a.LoadFulfilled? && a.result.isFullLoad
    // the filters change only through their own actions
    ensures !(a.SelectBBTalk? || a.SetSelectedTags? || a.SetSearchKeyword?) ==> SameFilters(r, s)
    // a failed request records its message and leaves the list alone
    ensures a.LoadRejected? || a.LoadMoreRejected? || a.CreateRejected? || a.UpdateRejected? || a.DeleteRejected?
      ==> r.error == Some(a.message) && r.bbtalks == s.bbtalks
    // the list changes only on a load, a load-more, or a successful create, update or delete
    ensures r.bbtalks != s.bbtalks ==>
      a.LoadFulfilled? || a.LoadMoreFulfilled? || a.CreateFulfilled? || a.UpdateFulfilled? || a.DeleteFulfilled?
  {
    match a
    case SelectBBTalk(id) => s.(selectedBBTalkId := Some(id))
    case SetSelectedTags(ids) => s.(selectedTagIds := ids)
    case SetSearchKeyword(k) => s.(searchKeyword := k)
    case ClearError => s.(error := None)
    case LoadPending => s.(isLoading := true, error := None)
    case LoadFulfilled(res) =>
      s.(isLoading := false, bbtalks := res.bbtalks, currentPage := res.page, hasMore := res.hasMore,
         totalCount := if res.isFullLoad then res.totalCount else s.totalCount)
    case LoadRejected(m) => s.(isLoading := false, error := Some(m))
    case LoadMorePending => s.(isLoading := true)
    case LoadMoreFulfilled(more, page, hasMore) =>
      s.(isLoading := false, bbtalks := s.bbtalks + more, currentPage := page, hasMore := hasMore)
    case LoadMoreRejected(m) => s.(isLoading := false, error := Some(m))
    case CreateFulfilled(t) => s.(bbtalks := [t] + s.bbtalks)
    case CreateRejected(m) => s.(error := Some(m))
    case UpdateFulfilled(t) => s.(bbtalks := ReplaceFirst(s.bbtalks, TalkId, t))
    case UpdateRejected(m) => s.(error := Some(m))
    case DeleteFulfilled(id) => s.(bbtalks := Remove(s.bbtalks, TalkId, id))
    case DeleteRejected(m) => s.(error := Some(m))
  }

  /** Starting a load sets the loading flag and clears the error; starting a load-more keeps the error. */
  lemma PendingFlags(s: State)
    ensures Reduce(s, LoadPending).isLoading && Reduce(s, LoadPending).error.None?
    ensures Reduce(s, LoadMorePending).isLoading && Reduce(s, LoadMorePending).error == s.error
  {
  }

  /** A load replaces the list and the paging state, and the count only for a full load. */
  lemma LoadReplaces(s: State, res: LoadResult)
    ensures var r := Reduce(s, LoadFulfilled(res));
      && r.bbtalks == res.bbtalks && r.currentPage == res.page && r.hasMore == res.hasMore && !r.isLoading
      && (r.totalCount == if res.isFullLoad then res.totalCount else s.totalCount)
  {
  }

  /** A load-more keeps the items already shown, in order, and puts the new page after them. */
  lemma LoadMoreAppends(s: State, more: seq<BBTalk>, page: int, hasMore: bool)
    ensures var r := Reduce(s, LoadMoreFulfilled(more, page, hasMore));
      && |r.bbtalks| == |s.bbtalks| + |more|
      && r.bbtalks[..|s.bbtalks|] == s.bbtalks && r.bbtalks[|s.bbtalks|..] == more
      && r.currentPage == page
  {
  }

  /** Two load-mores in a row show the same list as one load-more of both pages. */
  lemma LoadMoreTwice(s: State, p1: seq<BBTalk>, p2: seq<BBTalk>, n1: int, n2: int, h1: bool, h2: bool)
    ensures Reduce(Reduce(s, LoadMoreFulfilled(p1, n1, h1)), LoadMoreFulfilled(p2, n2, h2)).bbtalks
         == Reduce(s, LoadMoreFulfilled(p1 + p2, n2, h2)).bbtalks
  {
    assert s.bbtalks + p1 + p2 == s.bbtalks + (p1 + p2);
  }

  /** A created BBTalk is shown first, ahead of everything that was there. */
  lemma CreatePrepends(s: State, t: BBTalk)
    ensures var r := Reduce(s, CreateFulfilled(t));
      |r.bbtalks| == |s.bbtalks| + 1 && r.bbtalks[0] == t && r.bbtalks[1..] == s.bbtalks
  {
  }

  /** Deleting a freshly created BBTalk gives back the list from before it was created. */
  lemma CreateThenDelete(s: State, t: BBTalk)
    requires forall j :: 0 <= j < |s.bbtalks| ==> s.bbtalks[j].id != t.id
    ensures Reduce(Reduce(s, CreateFulfilled(t)), DeleteFulfilled(t.id)).bbtalks == s.bbtalks
  {
    var l := [t] + s.bbtalks;
    var s1 := Reduce(s, CreateFulfilled(t));
    assert s1.bbtalks == l;
    assert Reduce(s1, DeleteFulfilled(t.id)).bbtalks == Remove(l, TalkId, t.id);
    assert Remove(l, TalkId, t.id) == Remove(s.bbtalks, TalkId, t.id) by {
      assert l[1..] == s.bbtalks && TalkId(l[0]) == t.id;
    }
    assert forall j :: 0 <= j < |s.bbtalks| ==> TalkId(s.bbtalks[j]) != t.id;
    RemoveAbsent(s.bbtalks, TalkId, t.id);
  }

  /**
   * An update replaces the first item with the same id, in place, and changes
   * nothing when no item has that id.
   */
  lemma UpdateInPlace(s: State, t: BBTalk)
    ensures var r := Reduce(s, UpdateFulfilled(t)); var i := FindIndex(s.bbtalks, TalkId, t.id);
      && |r.bbtalks| == |s.bbtalks|
      && (i < 0 ==> r.bbtalks == s.bbtalks)
      && (i >= 0 ==> r.bbtalks[i] == t && forall j :: 0 <= j < |s.bbtalks| && j != i ==> r.bbtalks[j] == s.bbtalks[j])
  {
  }

  /** Applying the same update twice is the same as applying it once. */
  lemma UpdateIdempotent(s: State, t: BBTalk)
    ensures Reduce(Reduce(s, UpdateFulfilled(t)), UpdateFulfilled(t)) == Reduce(s, UpdateFulfilled(t))
  {
    ReplaceFirstIdempotent(s.bbtalks, TalkId, t);
  }

  /** After a delete no item has the id, every other item stays, and deleting again changes nothing. */
  lemma DeleteRemovesAll(s: State, id: string)
    ensures var r := Reduce(s, DeleteFulfilled(id));
      && (forall t :: t in r.bbtalks <==> t in s.bbtalks && t.id != id)
      && Reduce(r, DeleteFulfilled(id)).bbtalks == r.bbtalks
  {
    var r := Reduce(s, DeleteFulfilled(id));
    RemoveAbsent(r.bbtalks, TalkId, id);
  }

  /** A delete keeps every other item with all its copies, in its order. */
  lemma DeleteKeepsOrder(s: State, id: string)
    ensures var r := Reduce(s, DeleteFulfilled(id));
      && Subsequence(r.bbtalks, s.bbtalks)
      && (forall t: BBTalk :: t.id != id ==> multiset(r.bbtalks)[t] == multiset(s.bbtalks)[t])
  {
    var kept := Remove(s.bbtalks, TalkId, id);
    assert Reduce(s, DeleteFulfilled(id)).bbtalks == kept;
    RemoveSubsequence(s.bbtalks, TalkId, id);
    RemoveCounts(s.bbtalks, TalkId, id);
  }
}

=== FILE: data_export.dfy ===
/**
 * The account export: one user's tags, BBTalks, storage settings and
 * attachment metadata as a versioned JSON document, and the ZIP package that
 * carries it.
 *
 * The database is the account's rows in memory. Timestamps are integers and
 * are exported as JSON numbers (the exporter writes ISO 8601 text; nothing here
 * depends on the text form).
 */
module DataExport {
  import opened Wrappers
  import opened Js
  import opened Sorting

  datatype UserRow = UserRow(username: string, email: string, displayName: string, avatar: string, bio: string, createTime: int)

  /** A tag. Its colour and sort order are kept as the JSON values they were given. */
  datatype TagRow = TagRow(uid: string, name: string, color: Json, sortOrder: Json, createTime: int, updateTime: int)

  /** A BBTalk; `tags` holds the uids of its tags. */
  datatype PostRow = PostRow(
    uid: string,
    content: string,
    visibility: Json,
    tags: seq<string>,
    attachments: Json,
    context: Json,
    createTime: int,
    updateTime: int)

  /** A storage configuration, including the secret key that is never exported. */
  datatype StorageRow = StorageRow(
    name: string,
    storageType: Json,
    accessKeyId: Json,
    secretAccessKey: string,
    bucket: Json,
    region: Json,
    endpoint: Json,
    customDomain: Json,
    isActive: bool,
    createTime: int)

  /** An attachment's metadata; `content` is the stored file when it can be read. */
  datatype AttachmentRow = AttachmentRow(
    id: string,
    originalName: string,
    size: nat,
    mimeType: string,
    storageConfigId: Json,
    storagePath: string,
    isPublic: bool,
    createdAt: int,
    content: Option<string>)

  /** The rows of one user. */
  datatype Account = Account(
    user: UserRow,
    tags: seq<TagRow>,
    posts: seq<PostRow>,
    storage: seq<StorageRow>,
    attachments: seq<AttachmentRow>)

  const Version := "1.0"

  /** The top-level keys of an export document. */
  const DocumentKeys: set<string> :=
    {"export_time", "user", "attachments", "bbtalks", "tags", "storage_settings", "version"}

  /** The keys of an exported storage setting: everything but the secret key. */
  const StorageKeys: set<string> :=
    {"name", "storage_type", "s3_access_key_id", "s3_bucket_name", "s3_region_name",
     "s3_endpoint_url", "s3_custom_domain", "is_active", "create_time"}

  function Time(t: int): Json {
    Num(t as real)
  }

  function TagCreated(t: TagRow): real { t.createTime as real }
  function PostCreated(p: PostRow): real { p.createTime as real }
  function StorageCreated(s: StorageRow): real { s.createTime as real }
  function AttachmentCreated(a: AttachmentRow): real { a.createdAt as real }

  /** A JSON object carrying a numeric timestamp under `key`. */
  predicate HasTime(j: Json, key: string) {
    j.Obj? && key in j.fields && j.fields[key].Num?
  }

  /** Exported records in nondecreasing order of the timestamp under `key`. */
  predicate Chronological(items: seq<Json>, key: string) {
    && (forall i :: 0 <= i < |items| ==> HasTime(items[i], key))
    && (forall i, j :: 0 <= i < j < |items| ==> items[i].fields[key].n <= items[j].fields[key].n)
  }

  /** A JSON object with a string under `key`. */
  predicate TextField(j: Json, key: string) {
    j.Obj? && key in j.fields && j.fields[key].Str?
  }

  /** A JSON array of strings. */
  predicate TextList(j: Json) {
    j.Arr? && forall k :: 0 <= k < |j.items| ==> j.items[k].Str?
  }

  function ExportUser(u: UserRow): Json {
    Obj(map["username" := Str(u.username), "email" := Str(u.email), "display_name" := Str(u.displayName),
            "avatar" := Str(u.avatar), "bio" := Str(u.bio), "create_time" := Time(u.createTime)])
  }

  function ExportTag(t: TagRow): (j: Json)
    ensures HasTime(j, "create_time") && j.fields["create_time"].n == TagCreated(t)
    ensures TextField(j, "uid") && TextField(j, "name")
  {
    Obj(map["uid" := Str(t.uid), "name" := Str(t.name), "color" := t.color, "sort_order" := t.sortOrder,
            "create_time" := Time(t.createTime), "update_time" := Time(t.updateTime)])
  }

  function UidList(uids: seq<string>): (r: Json)
    ensures r.Arr? && |r.items| == |uids|
    ensures forall i :: 0 <= i < |uids| ==> r.items[i] == Str(uids[i])
  {
    Arr(seq(|uids|, i requires 0 <= i < |uids| => Str(uids[i])))
  }

  /** A BBTalk refers to its tags by uid. */
  function ExportPost(p: PostRow): (j: Json)
    ensures HasTime(j, "create_time") && j.fields["create_time"].n == PostCreated(p)
    ensures TextField(j, "uid") && TextField(j, "content")
    ensures "tags" in j.fields && j.fields["tags"] == UidList(p.tags)
  {
    Obj(map["uid" := Str(p.uid), "content" := Str(p.content), "visibility" := p.visibility,
            "tags" := UidList(p.tags), "attachments" := p.attachments, "context" := p.context,
            "create_time" := Time(p.createTime), "update_time" := Time(p.updateTime)])
  }

  function ExportStorage(s: StorageRow): (j: Json)
    ensures j.Obj? && j.fields.Keys == StorageKeys
    ensures HasTime(j, "create_time") && j.fields["create_time"].n == StorageCreated(s)
    ensures TextField(j, "name")
  {
    Obj(map["name" := Str(s.name), "storage_type" := s.storageType, "s3_access_key_id" := s.accessKeyId,
            "s3_bucket_name" := s.bucket, "s3_region_name" := s.region, "s3_endpoint_url" := s.endpoint,
            "s3_custom_domain" := s.customDomain, "is_active" := Bool(s.isActive), "create_time" := Time(s.createTime)])
  }

  function ExportAttachment(a: AttachmentRow): (j: Json)
    ensures HasTime(j, "created_at") && j.fields["created_at"].n == AttachmentCreated(a)
  {
    Obj(map["id" := Str(a.id), "original_name" := Str(a.originalName), "size" := Num(a.size as real),
            "mime_type" := Str(a.mimeType), "storage_config_id" := a.storageConfigId,
            "storage_path" := Str(a.storagePath), "is_public" := Bool(a.isPublic), "created_at" := Time(a.createdAt)])
  }

  /** Rows sorted by a creation key and exported with that key as a timestamp come out oldest first. */
  lemma ChronologicalExport<T>(rows: seq<T>, created: T -> real, exporter: T -> Json, key: string)
    requires forall x :: HasTime(exporter(x), key) && exporter(x).fields[key].n == created(x)
    ensures Chronological(Map(SortBy(rows, created), exporter), key)
  {
    var sorted := SortBy(rows, created);
    var r := Map(sorted, exporter);
    forall i, j | 0 <= i < j < |r| ensures r[i].fields[key].n <= r[j].fields[key].n {
      assert created(sorted[i]) <= created(sorted[j]);
    }
  }

  /** The tags in creation order, exported. */
  function ExportTags(tags: seq<TagRow>): (r: seq<Json>)
    ensures |r| == |tags|
    ensures Chronological(r, "create_time")
    ensures forall i :: 0 <= i < |r| ==> TextField(r[i], "uid") && TextField(r[i], "name")
  {
    ChronologicalExport(tags, TagCreated, ExportTag, "create_time");
    Map(SortBy(tags, TagCreated), ExportTag)
  }

  /** The BBTalks in creation order, exported. */
  function ExportPosts(posts: seq<PostRow>): (r: seq<Json>)
    ensures |r| == |posts|
    ensures Chronological(r, "create_time")
    ensures forall i :: 0 <= i < |r| ==> TextField(r[i], "uid") && TextField(r[i], "content")
    ensures forall i :: 0 <= i < |r| ==> "tags" in r[i].fields && TextList(r[i].fields["tags"])
  {
    ChronologicalExport(posts, PostCreated, ExportPost, "create_time");
    Map(SortBy(posts, PostCreated), ExportPost)
  }

  /** The storage settings in creation order, exported without their secret keys. */
  function ExportStorages(storage: seq<StorageRow>): (r: seq<Json>)
    ensures |r| == |storage|
    ensures Chronological(r, "create_time")
    ensures forall i :: 0 <= i < |r| ==> r[i].Obj? && r[i].fields.Keys == StorageKeys
    ensures forall i :: 0 <= i < |r| ==> TextField(r[i], "name")
  {
    ChronologicalExport(storage, StorageCreated, ExportStorage, "create_time");
    Map(SortBy(storage, StorageCreated), ExportStorage)
  }

  /** The attachments' metadata in creation order. */
  function ExportAttachments(atts: seq<AttachmentRow>): (r: seq<Json>)
    ensures |r| == |atts|
    ensures Chronological(r, "created_at")
  {
    ChronologicalExport(atts, AttachmentCreated, ExportAttachment, "created_at");
    Map(SortBy(atts, AttachmentCreated), ExportAttachment)
  }

  /** Each section holds exactly the exported rows, only reordered. */
  lemma SectionsComplete(acc: Account)
    ensures multiset(ExportTags(acc.tags)) == multiset(Map(acc.tags, ExportTag))
    ensures multiset(ExportPosts(acc.posts)) == multiset(Map(acc.posts, ExportPost))
    ensures multiset(ExportStorages(acc.storage)) == multiset(Map(acc.storage, ExportStorage))
    ensures multiset(ExportAttachments(acc.attachments)) == multiset(Map(acc.attachments, ExportAttachment))
  {
    MapSortBy(acc.tags, TagCreated, ExportTag);
    MapSortBy(acc.posts, PostCreated, ExportPost);
    MapSortBy(acc.storage, StorageCreated, ExportStorage);
    MapSortBy(acc.attachments, AttachmentCreated, ExportAttachment);
  }

  /** The export document built from its sections. */
  function Document(exportTime: Json, user: Json, attachments: Json, bbtalks: Json, tags: Json, storage: Json): map<string, Json> {
    map[
      "export_time" := exportTime,
      "user" := user,
      "attachments" := attachments,
      "bbtalks" := bbtalks,
      "tags" := tags,
      "storage_settings" := storage,
      "version" := Str(Version)]
  }

  /** Each section of the document is found under its own key. */
  lemma DocumentSections(exportTime: Json, user: Json, attachments: Json, bbtalks: Json, tags: Json, storage: Json)
    ensures Document(exportTime, user, attachments, bbtalks, tags, storage).Keys == DocumentKeys
    ensures var f := Document(exportTime, user, attachments, bbtalks, tags, storage);
      && f["tags"] == tags && f["bbtalks"] == bbtalks && f["storage_settings"] == storage
      && f["attachments"] == attachments && f["version"] == Str(Version)
  {
    assert "bbtalks"[0] != "version"[0];
  }

  /** `export_all`. */
  function ExportAll(acc: Account, exportTime: int): (doc: Json)
    ensures doc.Obj? && doc.fields.Keys == DocumentKeys
    ensures doc.fields["version"] == Str(Version)
  {
    var tags := Arr(ExportTags(acc.tags));
    var bbtalks := Arr(ExportPosts(acc.posts));
    var storage := Arr(ExportStorages(acc.storage));
    var attachments := Arr(ExportAttachments(acc.attachments));
    DocumentSections(Time(exportTime), ExportUser(acc.user), attachments, bbtalks, tags, storage);
    Obj(Document(Time(exportTime), ExportUser(acc.user), attachments, bbtalks, tags, storage))
  }

  /** Each list in the export holds exactly the exported rows, one record per row, oldest first. */
  lemma ExportListsComplete(acc: Account, exportTime: int)
    ensures var f := ExportAll(acc, exportTime).fields;
      && f["tags"].Arr? && |f["tags"].items| == |acc.tags| && Chronological(f["tags"].items, "create_time")
      && f["bbtalks"].Arr? && |f["bbtalks"].items| == |acc.posts| && Chronological(f["bbtalks"].items, "create_time")
      && f["storage_settings"].Arr? && |f["storage_settings"].items| == |acc.storage|
      && f["attachments"].Arr? && |f["attachments"].items| == |acc.attachments|
      && Chronological(f["attachments"].items, "created_at")
      && multiset(f["tags"].items) == multiset(Map(acc.tags, ExportTag))
      && multiset(f["bbtalks"].items) == multiset(Map(acc.posts, ExportPost))
      && multiset(f["storage_settings"].items) == multiset(Map(acc.storage, ExportStorage))
      && multiset(f["attachments"].items) == multiset(Map(acc.attachments, ExportAttachment))
  {
    ExportedSections(acc, exportTime);
    SectionsComplete(acc);
  }

  /** The sections of an export document, as the section exporters give them. */
  lemma ExportedSections(acc: Account, exportTime: int)
    ensures var f := ExportAll(acc, exportTime).fields;
      && f["tags"] == Arr(ExportTags(acc.tags))
      && f["bbtalks"] == Arr(ExportPosts(acc.posts))
      && f["storage_settings"] == Arr(ExportStorages(acc.storage))
      && f["attachments"] == Arr(ExportAttachments(acc.attachments))
  {
    DocumentSections(Time(exportTime), ExportUser(acc.user), Arr(ExportAttachments(acc.attachments)),
                     Arr(ExportPosts(acc.posts)), Arr(ExportTags(acc.tags)), Arr(ExportStorages(acc.storage)));
  }

  /** No exported storage setting carries a secret key. */
  lemma ExportHasNoSecrets(acc: Account, exportTime: int)
    ensures var settings := ExportAll(acc, exportTime).fields["storage_settings"];
      settings.Arr? && forall i :: 0 <= i < |settings.items| ==>
        settings.items[i].Obj? && "s3_secret_access_key" !in settings.items[i].fields
  {
    var settings := ExportStorages(acc.storage);
    assert ExportAll(acc, exportTime).fields["storage_settings"] == Arr(settings);
    SecretIsNotExported();
  }

  /** The secret key's name is none of the exported setting keys. */
  lemma SecretIsNotExported()
    ensures "s3_secret_access_key" !in StorageKeys
  {
    forall k | k in StorageKeys ensures k != "s3_secret_access_key" {
      assert |k| != |"s3_secret_access_key"|;
    }
  }

  /** Each exported BBTalk names its tags by uid, in the order the BBTalk holds them. */
  lemma ExportedPostTags(p: PostRow)
    ensures var tags := ExportPost(p).fields["tags"];
      tags.Arr? && |tags.items| == |p.tags| && forall i :: 0 <= i < |p.tags| ==> tags.items[i] == Str(p.tags[i])
  {
  }

  // ---------------------------------------------------------------------------
  // The ZIP package
  // ---------------------------------------------------------------------------

  /** What a ZIP entry holds: the export document, the README for the export time and user, or a file's bytes. */
  datatype ZipEntry = DataJson(doc: Json) | Readme(exportTime: int, username: string) | FileBytes(bytes: string)

  /**
   * The attachment files, written in order; an attachment whose file cannot be
   * read is skipped, and a later file with the same path replaces an earlier one.
   */
  function AttachmentEntries(atts: seq<AttachmentRow>): (m: map<string, ZipEntry>)
    ensures m.Keys == set a | a in atts && a.content.Some? :: "attachments/" + a.storagePath
    decreases |atts|
  {
    if |atts| == 0 then map[]
    else
      var last := atts[|atts| - 1];
      var rest := atts[..|atts| - 1];
      assert forall a :: a in atts <==> a in rest || a == last;
      var m := AttachmentEntries(rest);
      if last.content.Some? then m["attachments/" + last.storagePath := FileBytes(last.content.value)] else m
  }

  /** Every attachment entry's name starts with `attachments/`. */
  lemma AttachmentEntriesPrefixed(atts: seq<AttachmentRow>)
    ensures forall k :: k in AttachmentEntries(atts) ==> |k| > 0 && k[0] == 'a'
  {
  }

  /** The package around a document: `data.json`, `README.txt`, and the attachment entries when asked for. */
  function ZipPackage(doc: Json, exportTime: int, username: string, atts: seq<AttachmentRow>, includeAttachments: bool): (zip: map<string, ZipEntry>)
    ensures "data.json" in zip && zip["data.json"] == DataJson(doc)
    ensures "README.txt" in zip
    ensures !includeAttachments ==> zip.Keys == {"data.json", "README.txt"}
    ensures includeAttachments ==> zip.Keys == {"data.json", "README.txt"} + AttachmentEntries(atts).Keys
  {
    var base := map["data.json" := DataJson(doc), "README.txt" := Readme(exportTime, username)];
    if includeAttachments then AttachmentEntries(atts) + base else base
  }

  /** `export_to_zip`: `data.json` and `README.txt`, plus `attachments/<path>` for each readable file when asked. */
  function ExportZip(acc: Account, exportTime: int, includeAttachments: bool): (zip: map<string, ZipEntry>)
    ensures "data.json" in zip && zip["data.json"] == DataJson(ExportAll(acc, exportTime))
    ensures "README.txt" in zip
    ensures !includeAttachments ==> zip.Keys == {"data.json", "README.txt"}
    ensures includeAttachments ==> zip.Keys == {"data.json", "README.txt"} + AttachmentEntries(acc.attachments).Keys
  {
    ZipPackage(ExportAll(acc, exportTime), exportTime, acc.user.username, acc.attachments, includeAttachments)
  }
}

=== FILE: data_import.dfy ===
/**
 * The account import: how an export document, read from a JSON file or from
 * the `data.json` entry of a ZIP package, is merged into a user's rows.
 *
 * The import runs in one database transaction. An item with a missing key is
 * recorded as an error and the import goes on; anything that raises outside an
 * item's handler aborts the whole import and rolls the database back, which the
 * model returns as `Err`. The text of error messages is not modelled: `errors`
 * counts them.
 */
module DataImport {
  import opened Wrappers
  import opened Js
  import opened Lists
  import opened DataExport
  import opened Sorting

  /** The importer's options; a missing option is false. */
  datatype Options = Options(overwriteTags: bool, skipDuplicates: bool, importStorageSettings: bool)

  /** A tag of the importing user. */
  datatype TagRec = TagRec(name: string, color: Json, sortOrder: Json)

  /** A BBTalk of the importing user; `tags` holds tag names. */
  datatype PostRec = PostRec(uid: string, content: string, visibility: Json, attachments: Json, context: Json, tags: set<string>)

  /** A storage setting of the importing user. */
  datatype StorageRec = StorageRec(
    name: string,
    storageType: Json,
    accessKeyId: Json,
    bucket: Json,
    region: Json,
    endpoint: Json,
    customDomain: Json,
    isActive: bool)

  /** The importing user's rows, and the uids of every BBTalk on the server (a BBTalk uid is unique server-wide). */
  datatype Db = Db(tags: seq<TagRec>, posts: seq<PostRec>, takenUids: set<string>, storage: seq<StorageRec>)

  datatype Stats = Stats(tagsCreated: nat, tagsSkipped: nat, bbtalksCreated: nat, bbtalksSkipped: nat, storageCreated: nat, errors: nat)

  const NoStats := Stats(0, 0, 0, 0, 0, 0)

  /** The importer's state: the rows, the map from an imported tag's uid to the name of the tag it became, and the counters. */
  datatype Run = Run(db: Db, tagMap: map<string, string>, stats: Stats)

  function TagName(t: TagRec): string { t.name }
  function PostContent(p: PostRec): string { p.content }
  function StorageName(s: StorageRec): string { s.name }

  predicate HasTag(tags: seq<TagRec>, name: string) {
    FindIndex(tags, TagName, name) >= 0
  }

  predicate HasContent(posts: seq<PostRec>, content: string) {
    FindIndex(posts, PostContent, content) >= 0
  }

  predicate HasSetting(storage: seq<StorageRec>, name: string) {
    FindIndex(storage, StorageName, name) >= 0
  }

  predicate UniqueTagNames(tags: seq<TagRec>) {
    forall i, j :: 0 <= i < j < |tags| ==> tags[i].name != tags[j].name
  }

  predicate UniqueSettingNames(storage: seq<StorageRec>) {
    forall i, j :: 0 <= i < j < |storage| ==> storage[i].name != storage[j].name
  }

  /** Every tag uid mapped so far maps to a tag the user has. */
  predicate MapsToTags(r: Run) {
    forall u :: u in r.tagMap ==> HasTag(r.db.tags, r.tagMap[u])
  }

  /** `d.get(key, default)`. */
  function Get(fields: map<string, Json>, key: string, default: Json): Json {
    if key in fields then fields[key] else default
  }

  /** The string under `key` of an item known to have one. */
  function Text(j: Json, key: string): string
    requires TextField(j, key)
  {
    j.fields[key].s
  }

  /**
   * The items the `for` loop over a section visits, or `None` when the loop
   * raises. A list gives its items and an empty object or string gives none; a
   * non-empty object or string yields keys or characters, and indexing a string
   * item raises in the item's handler and again in the handler's own `.get`;
   * any other value is not iterable.
   */
  function Items(j: Json): (r: Option<seq<Json>>)
    ensures r.Some? <==> j.Arr? || j == Obj(map[]) || j == Str("")
    ensures j.Arr? ==> r == Some(j.items)
    ensures r.Some? && !j.Arr? ==> r.value == []
  {
    match j
    case Arr(items) => Some(items)
    case Obj(fields) => if fields == map[] then Some([]) else None
    case Str(s) => if s == "" then Some([]) else None
    case _ => None
  }

  // ---------------------------------------------------------------------------
  // Tags
  // ---------------------------------------------------------------------------

  /** The counters a tag item moves: exactly one of them per item. */
  function TagTotal(s: Stats): nat { s.tagsCreated + s.tagsSkipped + s.errors }

  /** The counters other than those a tag item moves. */
  function WithoutTagCounts(s: Stats): Stats { s.(tagsCreated := 0, tagsSkipped := 0, errors := 0) }

  /** A tag item the importer can use: string `uid` and `name`. */
  predicate WellFormedTag(j: Json) {
    TextField(j, "uid") && TextField(j, "name")
  }

  /**
   * One tag item. An existing tag with the same name is reused, and updated
   * when `overwrite_tags` is set; otherwise a tag is created with colour `""`
   * and sort order 0 unless the item gives them.
   */
  function ImportTag(r: Run, item: Json, opts: Options): (o: Option<Run>)
    ensures o.None? <==> !item.Obj?
    ensures o.Some? ==> TagTotal(o.value.stats) == TagTotal(r.stats) + 1
    ensures o.Some? ==> WithoutTagCounts(o.value.stats) == WithoutTagCounts(r.stats)
    ensures o.Some? ==> o.value.db.(tags := []) == r.db.(tags := [])
    ensures o.Some? && o.value.stats.tagsCreated != r.stats.tagsCreated ==>
      WellFormedTag(item) && !HasTag(r.db.tags, Text(item, "name"))
    ensures o.Some? && !WellFormedTag(item) ==> o.value.db == r.db && o.value.tagMap == r.tagMap
    ensures o.Some? && WellFormedTag(item) ==>
      && o.value.tagMap == r.tagMap[Text(item, "uid") := Text(item, "name")]
      && (o.value.stats.tagsCreated == r.stats.tagsCreated + 1 <==> !HasTag(r.db.tags, Text(item, "name")))
      && (o.value.stats.tagsSkipped == r.stats.tagsSkipped + 1 <==> HasTag(r.db.tags, Text(item, "name")))
    ensures o.Some? && WellFormedTag(item) && !HasTag(r.db.tags, Text(item, "name")) ==>
      o.value.db.tags == r.db.tags + [TagRec(Text(item, "name"), Get(item.fields, "color", Str("")), Get(item.fields, "sort_order", Num(0.0)))]
    ensures o.Some? && WellFormedTag(item) && HasTag(r.db.tags, Text(item, "name")) ==>
      var i := FindIndex(r.db.tags, TagName, Text(item, "name"));
      var prev := r.db.tags[i];
      o.value.db.tags == if opts.overwriteTags
        then r.db.tags[i := prev.(color := Get(item.fields, "color", prev.color), sortOrder := Get(item.fields, "sort_order", prev.sortOrder))]
        else r.db.tags
  {
    if !item.Obj? then None
    else if !WellFormedTag(item) then Some(r.(stats := r.stats.(errors := r.stats.errors + 1)))
    else
      var f := item.fields;
      var uid := Text(item, "uid");
      var name := Text(item, "name");
      var i := FindIndex(r.db.tags, TagName, name);
      if i >= 0 then
        var prev := r.db.tags[i];
        var tags := if opts.overwriteTags
          then r.db.tags[i := TagRec(name, Get(f, "color", prev.color), Get(f, "sort_order", prev.sortOrder))]
          else r.db.tags;
        Some(Run(r.db.(tags := tags), r.tagMap[uid := name], r.stats.(tagsSkipped := r.stats.tagsSkipped + 1)))
      else
        var tag := TagRec(name, Get(f, "color", Str("")), Get(f, "sort_order", Num(0.0)));
        Some(Run(r.db.(tags := r.db.tags + [tag]), r.tagMap[uid := name], r.stats.(tagsCreated := r.stats.tagsCreated + 1)))
  }

  /** The uid of a usable tag item. */
  function ItemUid(j: Json): string
    requires WellFormedTag(j)
  {
    Text(j, "uid")
  }

  /**
   * The uid map tag items leave behind, read from the items alone: every usable
   * item maps its uid to its name, a later item overriding an earlier one. The
   * user's existing tags and the options play no part.
   */
  function MapTagItems(m: map<string, string>, items: seq<Json>): (r: map<string, string>)
    ensures forall u :: u in r <==> u in m || exists i :: 0 <= i < |items| && WellFormedTag(items[i]) && ItemUid(items[i]) == u
    decreases |items|
  {
    if |items| == 0 then m
    else
      var m1 := if WellFormedTag(items[0]) then m[ItemUid(items[0]) := Text(items[0], "name")] else m;
      assert forall i :: 1 <= i < |items| ==> items[i] == items[1..][i - 1];
      MapTagItems(m1, items[1..])
  }

  /** `_import_tags`: the items in order; an item that is not an object aborts the import. */
  function ImportTags(r: Run, items: seq<Json>, opts: Options): (o: Option<Run>)
    ensures o.None? <==> exists i :: 0 <= i < |items| && !items[i].Obj?
    ensures o.Some? ==> TagTotal(o.value.stats) == TagTotal(r.stats) + |items|
    ensures o.Some? ==> WithoutTagCounts(o.value.stats) == WithoutTagCounts(r.stats)
    ensures o.Some? ==> o.value.db.(tags := []) == r.db.(tags := [])
    ensures o.Some? ==> o.value.tagMap == MapTagItems(r.tagMap, items)
    decreases |items|
  {
    if |items| == 0 then Some(r)
    else match ImportTag(r, items[0], opts)
      case None => None
      case Some(r1) =>
        assert forall i :: 1 <= i < |items| ==> items[i] == items[1..][i - 1];
        ImportTags(r1, items[1..], opts)
  }

  /** A tag list that keeps the names of another in front keeps every name the other has. */
  lemma TagsGrow(a: seq<TagRec>, b: seq<TagRec>)
    requires |a| <= |b| && forall k :: 0 <= k < |a| ==> b[k].name == a[k].name
    ensures forall n :: HasTag(a, n) ==> HasTag(b, n)
  {
    forall n | HasTag(a, n) ensures HasTag(b, n) {
      var k := FindIndex(a, TagName, n);
      assert TagName(b[k]) == n;
    }
  }

  /** Changing a tag other than its name keeps names unique. */
  lemma SameNamesUnique(a: seq<TagRec>, b: seq<TagRec>)
    requires |a| == |b| && forall k :: 0 <= k < |a| ==> b[k].name == a[k].name
    requires UniqueTagNames(a)
    ensures UniqueTagNames(b)
  {
    forall i, j | 0 <= i < j < |b| ensures b[i].name != b[j].name {
      assert a[i].name != a[j].name;
    }
  }

  /** Appending a tag whose name is new keeps names unique. */
  lemma AppendNewUnique(a: seq<TagRec>, tag: TagRec)
    requires !HasTag(a, tag.name) && UniqueTagNames(a)
    ensures UniqueTagNames(a + [tag])
  {
    var b := a + [tag];
    forall i, j | 0 <= i < j < |b| ensures b[i].name != b[j].name {
      if j == |a| {
        assert TagName(a[i]) != tag.name;
      } else {
        assert b[i] == a[i] && b[j] == a[j];
      }
    }
  }

  /** Mapping one more uid to a tag that exists keeps every mapped uid pointing at a tag. */
  lemma MapStep(r: Run, o: Run, uid: string, name: string)
    requires MapsToTags(r) && o.tagMap == r.tagMap[uid := name] && HasTag(o.db.tags, name)
    requires forall n :: HasTag(r.db.tags, n) ==> HasTag(o.db.tags, n)
    ensures MapsToTags(o)
  {
    forall u | u in o.tagMap ensures HasTag(o.db.tags, o.tagMap[u]) {
      if u != uid {
        assert o.tagMap[u] == r.tagMap[u] && HasTag(r.db.tags, r.tagMap[u]);
      }
    }
  }

  /** One tag item keeps tag names unique, loses no tag, and maps only to tags that exist. */
  lemma ImportTagConsistent(r: Run, item: Json, opts: Options)
    requires ImportTag(r, item, opts).Some?
    ensures var o := ImportTag(r, item, opts).value;
      && (UniqueTagNames(r.db.tags) ==> UniqueTagNames(o.db.tags))
      && (forall n :: HasTag(r.db.tags, n) ==> HasTag(o.db.tags, n))
      && (MapsToTags(r) ==> MapsToTags(o))
      && (WellFormedTag(item) ==> HasTag(o.db.tags, Text(item, "name")))
  {
    var o := ImportTag(r, item, opts).value;
    if !WellFormedTag(item) {
      assert o.db == r.db && o.tagMap == r.tagMap;
    } else {
      var uid := Text(item, "uid");
      var name := Text(item, "name");
      var k := FindIndex(r.db.tags, TagName, name);
      assert o.tagMap == r.tagMap[uid := name];
      if k >= 0 {
        assert |o.db.tags| == |r.db.tags| && forall j :: 0 <= j < |r.db.tags| ==> o.db.tags[j].name == r.db.tags[j].name;
        assert TagName(o.db.tags[k]) == name;
        if UniqueTagNames(r.db.tags) {
          SameNamesUnique(r.db.tags, o.db.tags);
        }
      } else {
        var tag := o.db.tags[|r.db.tags|];
        assert o.db.tags == r.db.tags + [tag] && tag.name == name;
        assert TagName(o.db.tags[|r.db.tags|]) == name;
        if UniqueTagNames(r.db.tags) {
          AppendNewUnique(r.db.tags, tag);
        }
      }
      TagsGrow(r.db.tags, o.db.tags);
      if MapsToTags(r) {
        MapStep(r, o, uid, name);
      }
    }
  }

  /**
   * Importing tags keeps names unique, loses no tag, leaves every mapped uid
   * pointing at a tag the user has, and leaves a tag for every usable item.
   */
  lemma {:induction false} ImportTagsConsistent(r: Run, items: seq<Json>, opts: Options)
    requires ImportTags(r, items, opts).Some?
    ensures var o := ImportTags(r, items, opts).value;
      && (UniqueTagNames(r.db.tags) ==> UniqueTagNames(o.db.tags))
      && (forall n :: HasTag(r.db.tags, n) ==> HasTag(o.db.tags, n))
      && (MapsToTags(r) ==> MapsToTags(o))
      && (forall i :: 0 <= i < |items| && WellFormedTag(items[i]) ==> HasTag(o.db.tags, Text(items[i], "name")))
    decreases |items|
  {
    if |items| > 0 {
      var r1 := ImportTag(r, items[0], opts).value;
      ImportTagConsistent(r, items[0], opts);
      ImportTagsConsistent(r1, items[1..], opts);
      assert forall i :: 1 <= i < |items| ==> items[i] == items[1..][i - 1];
    }
  }

  /** When every item is usable, importing tags records no error. */
  lemma {:induction false} ImportTagsClean(r: Run, items: seq<Json>, opts: Options)
    requires forall i :: 0 <= i < |items| ==> WellFormedTag(items[i])
    ensures ImportTags(r, items, opts).Some?
    ensures ImportTags(r, items, opts).value.stats.errors == r.stats.errors
    decreases |items|
  {
    if |items| > 0 {
      var r1 := ImportTag(r, items[0], opts).value;
      assert forall i :: 0 <= i < |items[1..]| ==> items[1..][i] == items[i + 1];
      ImportTagsClean(r1, items[1..], opts);
    }
  }

  /** When the user already has a tag for every usable item, importing tags creates none. */
  lemma {:induction false} ImportTagsCreateNothing(r: Run, items: seq<Json>, opts: Options)
    requires ImportTags(r, items, opts).Some?
    requires forall i :: 0 <= i < |items| && WellFormedTag(items[i]) ==> HasTag(r.db.tags, Text(items[i], "name"))
    ensures ImportTags(r, items, opts).value.stats.tagsCreated == r.stats.tagsCreated
    decreases |items|
  {
    if |items| > 0 {
      var r1 := ImportTag(r, items[0], opts).value;
      ImportTagConsistent(r, items[0], opts);
      assert forall i :: 0 <= i < |items[1..]| ==> items[1..][i] == items[i + 1];
      ImportTagsCreateNothing(r1, items[1..], opts);
    }
  }

  // ---------------------------------------------------------------------------
  // BBTalks
  // ---------------------------------------------------------------------------

  /** The counters a BBTalk item moves: exactly one of them per item. */
  function PostTotal(s: Stats): nat { s.bbtalksCreated + s.bbtalksSkipped + s.errors }

  /** The counters other than those a BBTalk item moves. */
  function WithoutPostCounts(s: Stats): Stats { s.(bbtalksCreated := 0, bbtalksSkipped := 0, errors := 0) }

  /** A BBTalk item with string `uid` and `content`. */
  predicate HasPostKeys(j: Json) {
    TextField(j, "uid") && TextField(j, "content")
  }

  /** A BBTalk item the importer can use: string `uid` and `content`, and tag references, if any, that are strings. */
  predicate WellFormedPost(j: Json) {
    HasPostKeys(j) && ("tags" in j.fields ==> TextList(j.fields["tags"]))
  }

  /**
   * The tags a BBTalk's `tags` value refers to: the mapped tag for each element
   * that is a mapped uid, skipping the rest. A string is iterated by
   * character and an object by key; a list holding a list or an object raises
   * (such an element cannot be a dictionary key), and so does any value that is
   * not iterable.
   */
  function TagRefs(j: Json, m: map<string, string>): (r: Option<set<string>>)
    ensures r.Some? ==> r.value <= m.Values
    ensures TextList(j) ==> r.Some?
    ensures j.Arr? ==> (r.None? <==> exists k :: 0 <= k < |j.items| && (j.items[k].Arr? || j.items[k].Obj?))
    ensures j.Arr? && r.Some? ==> forall n :: n in r.value <==>
      exists k :: 0 <= k < |j.items| && j.items[k].Str? && j.items[k].s in m && m[j.items[k].s] == n
  {
    match j
    case Arr(items) =>
      if exists k :: 0 <= k < |items| && (items[k].Arr? || items[k].Obj?) then None
      else Some(set k | 0 <= k < |items| && items[k].Str? && items[k].s in m :: m[items[k].s])
    case Str(s) => Some(set k | 0 <= k < |s| && [s[k]] in m :: m[[s[k]]])
    case Obj(fields) => Some(set k | k in fields && k in m :: m[k])
    case _ => None
  }

  /** The tags a BBTalk created from `item` is linked to: the mapped tags, or none when reading the references raises. */
  function LinkedTags(item: Json, m: map<string, string>): set<string>
    requires item.Obj?
  {
    match TagRefs(Get(item.fields, "tags", Arr([])), m)
    case Some(tags) => tags
    case None => {}
  }

  /** A BBTalk as created from a usable item: its content, the item's other fields or their defaults, and the mapped tags. */
  predicate PostFromItem(p: PostRec, item: Json, m: map<string, string>) {
    && HasPostKeys(item)
    && p.content == Text(item, "content")
    && p.visibility == Get(item.fields, "visibility", Str("private"))
    && p.attachments == Get(item.fields, "attachments", Arr([]))
    && p.context == Get(item.fields, "context", Obj(map[]))
    && p.tags == LinkedTags(item, m)
  }

  /** `p` is as created from one of `items`. */
  predicate FromSomeItem(p: PostRec, items: seq<Json>, m: map<string, string>) {
    exists i :: 0 <= i < |items| && PostFromItem(p, items[i], m)
  }

  /** The uid an imported BBTalk gets: its own, or a generated one when some BBTalk already has it. */
  function NewUid(uid: string, taken: set<string>, gen: string -> string): string {
    if uid in taken then gen(uid) else uid
  }

  /**
   * One BBTalk item. With `skip_duplicates`, an item whose content the user
   * already has is skipped. Otherwise the BBTalk is created (visibility
   * `private`, no attachments and an empty context unless the item gives
   * them) and then linked to the mapped tags; when reading the tag references
   * raises, the BBTalk stays created, untagged, and the item counts as an error.
   */
  function ImportPost(r: Run, item: Json, opts: Options, gen: string -> string): (o: Option<Run>)
    ensures o.None? <==> !item.Obj?
    ensures o.Some? ==> PostTotal(o.value.stats) == PostTotal(r.stats) + 1
    ensures o.Some? ==> WithoutPostCounts(o.value.stats) == WithoutPostCounts(r.stats)
    ensures o.Some? ==> o.value.db.tags == r.db.tags && o.value.db.storage == r.db.storage && o.value.tagMap == r.tagMap
    ensures o.Some? ==> |r.db.posts| <= |o.value.db.posts| <= |r.db.posts| + 1
    ensures o.Some? ==> o.value.db.posts[..|r.db.posts|] == r.db.posts
    ensures o.Some? && |o.value.db.posts| > |r.db.posts| ==>
      && HasPostKeys(item)
      && var p := o.value.db.posts[|r.db.posts|];
      && p.uid == NewUid(Text(item, "uid"), r.db.takenUids, gen)
      && p.content == Text(item, "content")
      && p.tags <= r.tagMap.Values
      && PostFromItem(p, item, r.tagMap)
      && o.value.db.takenUids == r.db.takenUids + {p.uid}
      && (o.value.stats.bbtalksCreated == r.stats.bbtalksCreated + 1 <==> TagRefs(Get(item.fields, "tags", Arr([])), r.tagMap).Some?)
    ensures o.Some? && HasPostKeys(item) && !(opts.skipDuplicates && HasContent(r.db.posts, Text(item, "content"))) ==>
      |o.value.db.posts| == |r.db.posts| + 1
    ensures o.Some? && |o.value.db.posts| == |r.db.posts| ==> o.value.db.takenUids == r.db.takenUids
  {
    if !item.Obj? then None
    else if !(HasPostKeys(item)) then
      Some(r.(stats := r.stats.(errors := r.stats.errors + 1)))
    else
      var f := item.fields;
      var content := Text(item, "content");
      if opts.skipDuplicates && HasContent(r.db.posts, content) then
        Some(r.(stats := r.stats.(bbtalksSkipped := r.stats.bbtalksSkipped + 1)))
      else
        var uid := NewUid(Text(item, "uid"), r.db.takenUids, gen);
        var post := PostRec(uid, content, Get(f, "visibility", Str("private")), Get(f, "attachments", Arr([])),
                            Get(f, "context", Obj(map[])), {});
        var db := r.db.(takenUids := r.db.takenUids + {uid});
        match TagRefs(Get(f, "tags", Arr([])), r.tagMap)
        case None =>
          Some(r.(db := db.(posts := r.db.posts + [post]), stats := r.stats.(errors := r.stats.errors + 1)))
        case Some(tags) =>
          Some(r.(db := db.(posts := r.db.posts + [post.(tags := tags)]),
                  stats := r.stats.(bbtalksCreated := r.stats.bbtalksCreated + 1)))
  }

  /** `_import_bbtalks`: the items in order; an item that is not an object aborts the import. */
  function ImportPosts(r: Run, items: seq<Json>, opts: Options, gen: string -> string): (o: Option<Run>)
    ensures o.None? <==> exists i :: 0 <= i < |items| && !items[i].Obj?
    ensures o.Some? ==> PostTotal(o.value.stats) == PostTotal(r.stats) + |items|
    ensures o.Some? ==> WithoutPostCounts(o.value.stats) == WithoutPostCounts(r.stats)
    ensures o.Some? ==> o.value.db.tags == r.db.tags && o.value.db.storage == r.db.storage && o.value.tagMap == r.tagMap
    ensures o.Some? ==> |r.db.posts| <= |o.value.db.posts| && o.value.db.posts[..|r.db.posts|] == r.db.posts
    ensures o.Some? ==> forall k :: |r.db.posts| <= k < |o.value.db.posts| ==> o.value.db.posts[k].tags <= r.tagMap.Values
    ensures o.Some? ==> forall k :: |r.db.posts| <= k < |o.value.db.posts| ==> FromSomeItem(o.value.db.posts[k], items, r.tagMap)
    decreases |items|
  {
    if |items| == 0 then Some(r)
    else match ImportPost(r, items[0], opts, gen)
      case None => None
      case Some(r1) =>
        assert forall i :: 1 <= i < |items| ==> items[i] == items[1..][i - 1];
        var o := ImportPosts(r1, items[1..], opts, gen);
        assert o.Some? ==> o.value.db.posts[..|r.db.posts|] == o.value.db.posts[..|r1.db.posts|][..|r.db.posts|];
        if o.Some? then
          PostsFromItemsStep(r, r1, o.value, items);
          o
        else o
  }

  /** The step of `ImportPosts`: a BBTalk the first item created, or one the rest created, comes from some item. */
  lemma PostsFromItemsStep(r: Run, r1: Run, o: Run, items: seq<Json>)
    requires |items| > 0 && r1.tagMap == r.tagMap
    requires |r.db.posts| <= |r1.db.posts| <= |r.db.posts| + 1 && |r1.db.posts| <= |o.db.posts|
    requires o.db.posts[..|r1.db.posts|] == r1.db.posts
    requires |r1.db.posts| > |r.db.posts| ==> PostFromItem(r1.db.posts[|r.db.posts|], items[0], r.tagMap)
    requires forall k :: |r1.db.posts| <= k < |o.db.posts| ==> FromSomeItem(o.db.posts[k], items[1..], r1.tagMap)
    ensures forall k :: |r.db.posts| <= k < |o.db.posts| ==> FromSomeItem(o.db.posts[k], items, r.tagMap)
  {
    forall k | |r.db.posts| <= k < |o.db.posts|
      ensures FromSomeItem(o.db.posts[k], items, r.tagMap)
    {
      if k < |r1.db.posts| {
        assert o.db.posts[k] == r1.db.posts[k];
        assert PostFromItem(o.db.posts[k], items[0], r.tagMap);
      } else {
        assert FromSomeItem(o.db.posts[k], items[1..], r1.tagMap);
        var i :| 0 <= i < |items[1..]| && PostFromItem(o.db.posts[k], items[1..][i], r1.tagMap);
        assert items[1..][i] == items[i + 1];
        assert PostFromItem(o.db.posts[k], items[i + 1], r.tagMap);
      }
    }
  }

  /** Every BBTalk has a uid that is taken. */
  predicate UidsTaken(db: Db) {
    forall k :: 0 <= k < |db.posts| ==> db.posts[k].uid in db.takenUids
  }

  /** A BBTalk item with a uid and a content leaves a BBTalk with that content, and every uid stays taken. */
  lemma ImportPostConsistent(r: Run, item: Json, opts: Options, gen: string -> string)
    requires ImportPost(r, item, opts, gen).Some?
    ensures var o := ImportPost(r, item, opts, gen).value;
      && (UidsTaken(r.db) ==> UidsTaken(o.db))
      && (forall c :: HasContent(r.db.posts, c) ==> HasContent(o.db.posts, c))
      && (HasPostKeys(item) ==> HasContent(o.db.posts, Text(item, "content")))
  {
    var o := ImportPost(r, item, opts, gen).value;
    forall c | HasContent(r.db.posts, c) ensures HasContent(o.db.posts, c) {
      var k := FindIndex(r.db.posts, PostContent, c);
      assert o.db.posts[k] == o.db.posts[..|r.db.posts|][k];
      assert PostContent(o.db.posts[k]) == c;
    }
    if HasPostKeys(item) && |o.db.posts| > |r.db.posts| {
      assert PostContent(o.db.posts[|r.db.posts|]) == Text(item, "content");
    }
  }

  /** Importing BBTalks keeps every uid taken and leaves a BBTalk for the content of every item with a uid and a content. */
  lemma {:induction false} ImportPostsConsistent(r: Run, items: seq<Json>, opts: Options, gen: string -> string)
    requires ImportPosts(r, items, opts, gen).Some?
    ensures var o := ImportPosts(r, items, opts, gen).value;
      && (UidsTaken(r.db) ==> UidsTaken(o.db))
      && (forall c :: HasContent(r.db.posts, c) ==> HasContent(o.db.posts, c))
      && (forall i :: 0 <= i < |items| && HasPostKeys(items[i]) ==> HasContent(o.db.posts, Text(items[i], "content")))
    decreases |items|
  {
    if |items| > 0 {
      var r1 := ImportPost(r, items[0], opts, gen).value;
      ImportPostConsistent(r, items[0], opts, gen);
      ImportPostsConsistent(r1, items[1..], opts, gen);
      assert forall i :: 1 <= i < |items| ==> items[i] == items[1..][i - 1];
    }
  }

  /** Without `skip_duplicates`, usable items are all created, with no error. */
  lemma {:induction false} ImportPostsClean(r: Run, items: seq<Json>, opts: Options, gen: string -> string)
    requires !opts.skipDuplicates
    requires forall i :: 0 <= i < |items| ==> WellFormedPost(items[i])
    ensures ImportPosts(r, items, opts, gen).Some?
    ensures var o := ImportPosts(r, items, opts, gen).value;
      o.stats.bbtalksCreated == r.stats.bbtalksCreated + |items| && o.stats.errors == r.stats.errors
    decreases |items|
  {
    if |items| > 0 {
      var r1 := ImportPost(r, items[0], opts, gen).value;
      assert forall i :: 0 <= i < |items[1..]| ==> items[1..][i] == items[i + 1];
      ImportPostsClean(r1, items[1..], opts, gen);
    }
  }

  /**
   * Without `skip_duplicates`, usable items give one BBTalk each, in item
   * order, each with the content, fields and mapped tags of its item.
   */
  lemma {:induction false} ImportPostsInOrder(r: Run, items: seq<Json>, opts: Options, gen: string -> string)
    requires !opts.skipDuplicates
    requires forall i :: 0 <= i < |items| ==> WellFormedPost(items[i])
    ensures ImportPosts(r, items, opts, gen).Some?
    ensures var o := ImportPosts(r, items, opts, gen).value;
      && |o.db.posts| == |r.db.posts| + |items|
      && forall i :: 0 <= i < |items| ==> PostFromItem(o.db.posts[|r.db.posts| + i], items[i], r.tagMap)
    decreases |items|
  {
    ImportPostsClean(r, items, opts, gen);
    if |items| > 0 {
      var r1 := ImportPost(r, items[0], opts, gen).value;
      assert forall i :: 0 <= i < |items[1..]| ==> items[1..][i] == items[i + 1];
      ImportPostsInOrder(r1, items[1..], opts, gen);
      InOrderStep(r, r1, ImportPosts(r1, items[1..], opts, gen).value, items);
    }
  }

  /** The step of `ImportPostsInOrder`: the first item's BBTalk in front of those of the rest. */
  lemma InOrderStep(r: Run, r1: Run, o: Run, items: seq<Json>)
    requires |items| > 0 && r1.tagMap == r.tagMap
    requires |r1.db.posts| == |r.db.posts| + 1 && PostFromItem(r1.db.posts[|r.db.posts|], items[0], r.tagMap)
    requires |o.db.posts| == |r1.db.posts| + |items| - 1 && o.db.posts[..|r1.db.posts|] == r1.db.posts
    requires forall i :: 0 <= i < |items[1..]| ==> PostFromItem(o.db.posts[|r1.db.posts| + i], items[1..][i], r1.tagMap)
    ensures forall i :: 0 <= i < |items| ==> PostFromItem(o.db.posts[|r.db.posts| + i], items[i], r.tagMap)
  {
    forall i | 0 <= i < |items| ensures PostFromItem(o.db.posts[|r.db.posts| + i], items[i], r.tagMap) {
      if i == 0 {
        assert o.db.posts[|r.db.posts|] == r1.db.posts[|r.db.posts|];
      } else {
        assert items[i] == items[1..][i - 1];
      }
    }
  }

  /** With `skip_duplicates`, items whose content the user already has create nothing. */
  lemma {:induction false} ImportPostsCreateNothing(r: Run, items: seq<Json>, opts: Options, gen: string -> string)
    requires opts.skipDuplicates
    requires ImportPosts(r, items, opts, gen).Some?
    requires forall i :: 0 <= i < |items| && HasPostKeys(items[i]) ==> HasContent(r.db.posts, Text(items[i], "content"))
    ensures ImportPosts(r, items, opts, gen).value.db == r.db
    ensures ImportPosts(r, items, opts, gen).value.stats.bbtalksCreated == r.stats.bbtalksCreated
    decreases |items|
  {
    if |items| > 0 {
      var r1 := ImportPost(r, items[0], opts, gen).value;
      assert r1.db == r.db;
      assert forall i :: 0 <= i < |items[1..]| ==> items[1..][i] == items[i + 1];
      ImportPostsCreateNothing(r1, items[1..], opts, gen);
    }
  }

  // ---------------------------------------------------------------------------
  // Storage settings
  // ---------------------------------------------------------------------------

  /** The counters other than those a storage item moves. */
  function WithoutStorageCounts(s: Stats): Stats { s.(storageCreated := 0, errors := 0) }

  /**
   * One storage item. A setting whose name the user already has is skipped
   * without being counted; otherwise the setting is created without its secret
   * key, inactive, with type `s3` and region `us-east-1` unless the item gives them.
   */
  function ImportSetting(r: Run, item: Json): (o: Option<Run>)
    ensures o.None? <==> !item.Obj?
    ensures o.Some? ==> WithoutStorageCounts(o.value.stats) == WithoutStorageCounts(r.stats)
    ensures o.Some? ==> o.value.db.(storage := []) == r.db.(storage := []) && o.value.tagMap == r.tagMap
    ensures o.Some? ==> |o.value.db.storage| == |r.db.storage| + o.value.stats.storageCreated - r.stats.storageCreated
    ensures o.Some? ==> |r.db.storage| <= |o.value.db.storage| && o.value.db.storage[..|r.db.storage|] == r.db.storage
    ensures o.Some? ==> forall k :: |r.db.storage| <= k < |o.value.db.storage| ==> !o.value.db.storage[k].isActive
    ensures o.Some? && TextField(item, "name") && HasSetting(r.db.storage, Text(item, "name")) ==> o.value == r
  {
    if !item.Obj? then None
    else if !TextField(item, "name") then Some(r.(stats := r.stats.(errors := r.stats.errors + 1)))
    else
      var f := item.fields;
      var name := Text(item, "name");
      if HasSetting(r.db.storage, name) then Some(r)
      else
        var setting := StorageRec(name, Get(f, "storage_type", Str("s3")), Get(f, "s3_access_key_id", Str("")),
          Get(f, "s3_bucket_name", Str("")), Get(f, "s3_region_name", Str("us-east-1")),
          Get(f, "s3_endpoint_url", Str("")), Get(f, "s3_custom_domain", Str("")), false);
        Some(r.(db := r.db.(storage := r.db.storage + [setting]),
                stats := r.stats.(storageCreated := r.stats.storageCreated + 1)))
  }

  /** `_import_storage_settings`: the items in order; an item that is not an object aborts the import. */
  function ImportSettings(r: Run, items: seq<Json>): (o: Option<Run>)
    ensures o.None? <==> exists i :: 0 <= i < |items| && !items[i].Obj?
    ensures o.Some? ==> WithoutStorageCounts(o.value.stats) == WithoutStorageCounts(r.stats)
    ensures o.Some? ==> o.value.db.(storage := []) == r.db.(storage := []) && o.value.tagMap == r.tagMap
    ensures o.Some? ==> |o.value.db.storage| == |r.db.storage| + o.value.stats.storageCreated - r.stats.storageCreated
    ensures o.Some? ==> |r.db.storage| <= |o.value.db.storage| && o.value.db.storage[..|r.db.storage|] == r.db.storage
    ensures o.Some? ==> forall k :: |r.db.storage| <= k < |o.value.db.storage| ==> !o.value.db.storage[k].isActive
    decreases |items|
  {
    if |items| == 0 then Some(r)
    else match ImportSetting(r, items[0])
      case None => None
      case Some(r1) =>
        assert forall i :: 1 <= i < |items| ==> items[i] == items[1..][i - 1];
        var o := ImportSettings(r1, items[1..]);
        assert o.Some? ==> o.value.db.storage[..|r.db.storage|] == o.value.db.storage[..|r1.db.storage|][..|r.db.storage|];
        o
  }

  /** One storage item keeps setting names unique and leaves a setting with the item's name. */
  lemma ImportSettingConsistent(r: Run, item: Json)
    requires ImportSetting(r, item).Some?
    ensures var o := ImportSetting(r, item).value;
      && (UniqueSettingNames(r.db.storage) ==> UniqueSettingNames(o.db.storage))
      && (forall n :: HasSetting(r.db.storage, n) ==> HasSetting(o.db.storage, n))
      && (TextField(item, "name") ==> HasSetting(o.db.storage, Text(item, "name")))
      && (TextField(item, "name") ==> o.stats.errors == r.stats.errors)
  {
    var o := ImportSetting(r, item).value;
    forall n | HasSetting(r.db.storage, n) ensures HasSetting(o.db.storage, n) {
      var k := FindIndex(r.db.storage, StorageName, n);
      assert o.db.storage[k] == o.db.storage[..|r.db.storage|][k];
      assert StorageName(o.db.storage[k]) == n;
    }
    if TextField(item, "name") && !HasSetting(r.db.storage, Text(item, "name")) {
      assert StorageName(o.db.storage[|r.db.storage|]) == Text(item, "name");
    }
  }

  /** Importing settings keeps names unique, loses no setting, and leaves a setting for every named item. */
  lemma {:induction false} ImportSettingsConsistent(r: Run, items: seq<Json>)
    requires ImportSettings(r, items).Some?
    ensures var o := ImportSettings(r, items).value;
      && (UniqueSettingNames(r.db.storage) ==> UniqueSettingNames(o.db.storage))
      && (forall n :: HasSetting(r.db.storage, n) ==> HasSetting(o.db.storage, n))
      && (forall i :: 0 <= i < |items| && TextField(items[i], "name") ==> HasSetting(o.db.storage, Text(items[i], "name")))
      && ((forall i :: 0 <= i < |items| ==> TextField(items[i], "name")) ==> o.stats.errors == r.stats.errors)
    decreases |items|
  {
    if |items| > 0 {
      var r1 := ImportSetting(r, items[0]).value;
      var tail := items[1..];
      var o := ImportSettings(r, items).value;
      ImportSettingConsistent(r, items[0]);
      ImportSettingsConsistent(r1, tail);
      assert o == ImportSettings(r1, tail).value;
      forall i | 0 <= i < |items| && TextField(items[i], "name")
        ensures HasSetting(o.db.storage, Text(items[i], "name"))
      {
        if i > 0 {
          assert items[i] == tail[i - 1];
        }
      }
      if forall i :: 0 <= i < |items| ==> TextField(items[i], "name") {
        assert forall i :: 0 <= i < |tail| ==> TextField(tail[i], "name") by {
          forall i | 0 <= i < |tail| ensures TextField(tail[i], "name") {
            assert tail[i] == items[i + 1];
          }
        }
      }
    }
  }

  /** When the user already has a setting for every named item, importing settings changes no row and creates nothing. */
  lemma {:induction false} ImportSettingsCreateNothing(r: Run, items: seq<Json>)
    requires ImportSettings(r, items).Some?
    requires forall i :: 0 <= i < |items| && TextField(items[i], "name") ==> HasSetting(r.db.storage, Text(items[i], "name"))
    ensures ImportSettings(r, items).value.db == r.db
    ensures ImportSettings(r, items).value.stats.storageCreated == r.stats.storageCreated
    decreases |items|
  {
    if |items| > 0 {
      var r1 := ImportSetting(r, items[0]).value;
      assert r1.db == r.db;
      assert forall i :: 0 <= i < |items[1..]| ==> items[1..][i] == items[i + 1];
      ImportSettingsCreateNothing(r1, items[1..]);
    }
  }

  // ---------------------------------------------------------------------------
  // The whole import
  // ---------------------------------------------------------------------------

  /** Every item is an object: otherwise the import aborts. */
  predicate AllObjects(items: seq<Json>) {
    forall i :: 0 <= i < |items| ==> items[i].Obj?
  }

  /** The tags section, when the document has one. */
  function TagSection(r: Run, data: map<string, Json>, opts: Options): (o: Option<Run>)
    ensures o.None? <==> "tags" in data && (Items(data["tags"]).None? || !AllObjects(Items(data["tags"]).value))
    ensures o.Some? ==> WithoutTagCounts(o.value.stats) == WithoutTagCounts(r.stats)
    ensures o.Some? ==> o.value.db.(tags := []) == r.db.(tags := [])
  {
    if "tags" !in data then Some(r)
    else match Items(data["tags"])
      case None => None
      case Some(items) => ImportTags(r, items, opts)
  }

  /** The BBTalks section, when the document has one. */
  function PostSection(r: Run, data: map<string, Json>, opts: Options, gen: string -> string): (o: Option<Run>)
    ensures o.None? <==> "bbtalks" in data && (Items(data["bbtalks"]).None? || !AllObjects(Items(data["bbtalks"]).value))
    ensures o.Some? ==> WithoutPostCounts(o.value.stats) == WithoutPostCounts(r.stats)
    ensures o.Some? ==> o.value.db.tags == r.db.tags && o.value.db.storage == r.db.storage && o.value.tagMap == r.tagMap
    ensures o.Some? ==> |r.db.posts| <= |o.value.db.posts| && o.value.db.posts[..|r.db.posts|] == r.db.posts
    ensures o.Some? ==> forall k :: |r.db.posts| <= k < |o.value.db.posts| ==> o.value.db.posts[k].tags <= r.tagMap.Values
  {
    if "bbtalks" !in data then Some(r)
    else match Items(data["bbtalks"])
      case None => None
      case Some(items) => ImportPosts(r, items, opts, gen)
  }

  /** The storage section, when the document has one and `import_storage_settings` is set. */
  function StorageSection(r: Run, data: map<string, Json>, opts: Options): (o: Option<Run>)
    ensures o.None? <==>
      opts.importStorageSettings && "storage_settings" in data && (Items(data["storage_settings"]).None? || !AllObjects(Items(data["storage_settings"]).value))
    ensures o.Some? ==> WithoutStorageCounts(o.value.stats) == WithoutStorageCounts(r.stats)
    ensures o.Some? ==> o.value.db.(storage := []) == r.db.(storage := []) && o.value.tagMap == r.tagMap
    ensures o.Some? ==> |r.db.storage| <= |o.value.db.storage| && o.value.db.storage[..|r.db.storage|] == r.db.storage
    ensures o.Some? ==> forall k :: |r.db.storage| <= k < |o.value.db.storage| ==> !o.value.db.storage[k].isActive
  {
    if !(opts.importStorageSettings && "storage_settings" in data) then Some(r)
    else match Items(data["storage_settings"])
      case None => None
      case Some(items) => ImportSettings(r, items)
  }

  /** `_validate_data`: the document must be an object with a version; any version is accepted. */
  function CheckData(data: Json): (r: Result<map<string, Json>>)
    ensures r.Ok? <==> data.Obj? && "version" in data.fields
    ensures r.Ok? ==> r.value == data.fields
  {
    if !data.Obj? then Err("data is not an object")
    else if "version" !in data.fields then Err("data has no version")
    else Ok(data.fields)
  }

  /**
   * `import_from_dict`: tags, then BBTalks, then (when asked) storage
   * settings, all or nothing. `gen` stands for the uid generator used when an
   * imported BBTalk's uid is taken.
   */
  function ImportFromDict(data: Json, db: Db, opts: Options, gen: string -> string): (res: Result<Run>)
    ensures res.Ok? ==> data.Obj? && "version" in data.fields
    ensures res.Ok? ==> |db.posts| <= |res.value.db.posts| && res.value.db.posts[..|db.posts|] == db.posts
    ensures res.Ok? ==> |db.storage| <= |res.value.db.storage| && res.value.db.storage[..|db.storage|] == db.storage
    ensures res.Ok? ==> forall k :: |db.storage| <= k < |res.value.db.storage| ==> !res.value.db.storage[k].isActive
  {
    match CheckData(data)
    case Err(e) => Err(e)
    case Ok(f) =>
      match TagSection(Run(db, map[], NoStats), f, opts)
      case None => Err("import failed")
      case Some(r1) =>
        match PostSection(r1, f, opts, gen)
        case None => Err("import failed")
        case Some(r2) =>
          match StorageSection(r2, f, opts)
          case None => Err("import failed")
          case Some(r3) =>
            assert r3.db.posts == r2.db.posts && r2.db.storage == r1.db.storage == db.storage;
            Ok(r3)
  }

  /** The user's rows are consistent: names unique, every BBTalk's uid taken and its tags existing. */
  predicate Consistent(db: Db) {
    && UniqueTagNames(db.tags)
    && UniqueSettingNames(db.storage)
    && UidsTaken(db)
    && forall k, n :: 0 <= k < |db.posts| && n in db.posts[k].tags ==> HasTag(db.tags, n)
  }

  /** A successful import keeps the user's rows consistent. */
  lemma ImportKeepsConsistency(data: Json, db: Db, opts: Options, gen: string -> string)
    requires Consistent(db)
    requires ImportFromDict(data, db, opts, gen).Ok?
    ensures Consistent(ImportFromDict(data, db, opts, gen).value.db)
  {
    var f := data.fields;
    var r0 := Run(db, map[], NoStats);
    var r1 := TagSection(r0, f, opts).value;
    if "tags" in f {
      ImportTagsConsistent(r0, Items(f["tags"]).value, opts);
    }
    assert MapsToTags(r1) && Consistent(r1.db);
    var r2 := PostSection(r1, f, opts, gen).value;
    if "bbtalks" in f {
      ImportPostsConsistent(r1, Items(f["bbtalks"]).value, opts, gen);
      forall k, n | 0 <= k < |r2.db.posts| && n in r2.db.posts[k].tags ensures HasTag(r2.db.tags, n) {
        if k < |r1.db.posts| {
          assert r2.db.posts[k] == r2.db.posts[..|r1.db.posts|][k];
        } else {
          assert n in r1.tagMap.Values;
        }
      }
    }
    assert Consistent(r2.db);
    if opts.importStorageSettings && "storage_settings" in f {
      ImportSettingsConsistent(r2, Items(f["storage_settings"]).value);
    }
  }

  // ---------------------------------------------------------------------------
  // Files
  // ---------------------------------------------------------------------------

  /** What decoding some bytes as UTF-8 and parsing them as JSON gives. */
  datatype Reading = NotUtf8 | NotJson | Parsed(value: Json)

  /** A ZIP archive, by what its `data.json` entry holds when it has one. */
  datatype Archive = Archive(dataJson: Option<Reading>)

  /** An uploaded file: the archive its bytes form, when they form one, and what they give read as JSON text. */
  datatype Upload = Upload(zip: Option<Archive>, text: Reading)

  /** Reading an export package: its `data.json` entry parses back to the document written into it. */
  function Package(zip: map<string, ZipEntry>): Archive {
    if "data.json" !in zip then Archive(None)
    else if zip["data.json"].DataJson? then Archive(Some(Parsed(zip["data.json"].doc)))
    else Archive(Some(NotJson))
  }

  /** The document a file holds: a ZIP archive's parsed `data.json`, or else the file's own parsed text. */
  function DataOf(u: Upload): Option<Json> {
    if u.zip.Some? then
      if u.zip.value.dataJson.Some? && u.zip.value.dataJson.value.Parsed? then Some(u.zip.value.dataJson.value.value) else None
    else if u.text.Parsed? then Some(u.text.value)
    else None
  }

  /** `import_from_file`: a ZIP archive is read through its `data.json`; anything else as JSON text. */
  function ImportFromFile(u: Upload, db: Db, opts: Options, gen: string -> string): (res: Result<Run>)
    ensures u.zip.Some? && u.zip.value.dataJson.None? ==> res.Err?
    ensures DataOf(u).None? ==> res.Err?
    ensures DataOf(u).Some? ==> res == ImportFromDict(DataOf(u).value, db, opts, gen)
  {
    if u.zip.Some? then
      match u.zip.value.dataJson
      case None => Err("the ZIP file has no data.json")
      case Some(Parsed(data)) => ImportFromDict(data, db, opts, gen)
      case Some(_) => Err("data.json is not valid JSON")
    else
      match u.text
      case Parsed(data) => ImportFromDict(data, db, opts, gen)
      case NotUtf8 => Err("the file cannot be read")
      case NotJson => Err("the file is not valid JSON")
  }

  /** A file that is a ZIP archive is never read as JSON text. */
  lemma ZipTakesPrecedence(u: Upload, text: Reading, db: Db, opts: Options, gen: string -> string)
    requires u.zip.Some?
    ensures ImportFromFile(u, db, opts, gen) == ImportFromFile(u.(text := text), db, opts, gen)
  {
  }

  /** A document section of usable items only: a list whose every item satisfies the section's item check. */
  predicate TagsUsable(f: map<string, Json>) {
    "tags" in f ==> f["tags"].Arr? && forall i :: 0 <= i < |f["tags"].items| ==> WellFormedTag(f["tags"].items[i])
  }

  predicate PostsUsable(f: map<string, Json>) {
    "bbtalks" in f ==> f["bbtalks"].Arr? && forall i :: 0 <= i < |f["bbtalks"].items| ==> WellFormedPost(f["bbtalks"].items[i])
  }

  predicate SettingsUsable(f: map<string, Json>) {
    "storage_settings" in f ==>
      f["storage_settings"].Arr? && forall i :: 0 <= i < |f["storage_settings"].items| ==> TextField(f["storage_settings"].items[i], "name")
  }

  /** The number of items in a section, 0 when it is absent. */
  function SectionSize(f: map<string, Json>, key: string): nat
    requires key in f ==> f[key].Arr?
  {
    if key in f then |f[key].items| else 0
  }

  /**
   * A versioned document whose sections hold only usable items imports
   * without an error: every tag is created or reused, and, without
   * `skip_duplicates`, every BBTalk is created.
   */
  lemma UsableDocumentImportsCleanly(data: Json, db: Db, opts: Options, gen: string -> string)
    requires !opts.skipDuplicates
    requires data.Obj? && "version" in data.fields
    requires TagsUsable(data.fields) && PostsUsable(data.fields) && SettingsUsable(data.fields)
    ensures var res := ImportFromDict(data, db, opts, gen);
      && res.Ok?
      && res.value.stats.errors == 0
      && res.value.stats.tagsCreated + res.value.stats.tagsSkipped == SectionSize(data.fields, "tags")
      && res.value.stats.bbtalksCreated == SectionSize(data.fields, "bbtalks")
  {
    var f := data.fields;
    var r0 := Run(db, map[], NoStats);
    TagSectionClean(r0, f, opts);
    var r1 := TagSection(r0, f, opts).value;
    PostSectionClean(r1, f, opts, gen);
    var r2 := PostSection(r1, f, opts, gen).value;
    StorageSectionClean(r2, f, opts);
    var r3 := StorageSection(r2, f, opts).value;
    assert ImportFromDict(data, db, opts, gen) == Ok(r3);
  }

  lemma TagSectionClean(r: Run, f: map<string, Json>, opts: Options)
    requires TagsUsable(f)
    ensures var o := TagSection(r, f, opts);
      && o.Some? && o.value.stats.errors == r.stats.errors
      && o.value.stats.tagsCreated + o.value.stats.tagsSkipped == r.stats.tagsCreated + r.stats.tagsSkipped + SectionSize(f, "tags")
      && o.value.stats.bbtalksCreated == r.stats.bbtalksCreated
  {
    if "tags" in f {
      ImportTagsClean(r, f["tags"].items, opts);
    }
    var o := TagSection(r, f, opts);
    assert WithoutTagCounts(o.value.stats) == WithoutTagCounts(r.stats);
  }

  lemma PostSectionClean(r: Run, f: map<string, Json>, opts: Options, gen: string -> string)
    requires !opts.skipDuplicates
    requires PostsUsable(f)
    ensures var o := PostSection(r, f, opts, gen);
      && o.Some? && o.value.stats.errors == r.stats.errors
      && o.value.stats.bbtalksCreated == r.stats.bbtalksCreated + SectionSize(f, "bbtalks")
      && o.value.stats.tagsCreated == r.stats.tagsCreated && o.value.stats.tagsSkipped == r.stats.tagsSkipped
  {
    if "bbtalks" in f {
      ImportPostsClean(r, f["bbtalks"].items, opts, gen);
    }
    var o := PostSection(r, f, opts, gen);
    assert WithoutPostCounts(o.value.stats) == WithoutPostCounts(r.stats);
  }

  lemma StorageSectionClean(r: Run, f: map<string, Json>, opts: Options)
    requires SettingsUsable(f)
    ensures var o := StorageSection(r, f, opts);
      && o.Some? && o.value.stats.errors == r.stats.errors
      && o.value.stats.tagsCreated == r.stats.tagsCreated && o.value.stats.tagsSkipped == r.stats.tagsSkipped
      && o.value.stats.bbtalksCreated == r.stats.bbtalksCreated
  {
    if opts.importStorageSettings && "storage_settings" in f {
      ImportSettingsConsistent(r, f["storage_settings"].items);
    }
    var o := StorageSection(r, f, opts);
    assert WithoutStorageCounts(o.value.stats) == WithoutStorageCounts(r.stats);
  }

  /**
   * An export imports back without an error: every tag is created or reused,
   * and, without `skip_duplicates`, every BBTalk is created.
   */
  lemma ExportImportsCleanly(acc: Account, exportTime: int, db: Db, opts: Options, gen: string -> string)
    requires !opts.skipDuplicates
    ensures var res := ImportFromDict(ExportAll(acc, exportTime), db, opts, gen);
      && res.Ok?
      && res.value.stats.errors == 0
      && res.value.stats.tagsCreated + res.value.stats.tagsSkipped == |acc.tags|
      && res.value.stats.bbtalksCreated == |acc.posts|
  {
    var doc := ExportAll(acc, exportTime);
    ExportedSections(acc, exportTime);
    assert TagsUsable(doc.fields) && PostsUsable(doc.fields) && SettingsUsable(doc.fields);
    UsableDocumentImportsCleanly(doc, db, opts, gen);
  }

  /** Tags with distinct uids, as the database keeps them. */
  predicate UniqueTagUids(tags: seq<TagRow>) {
    forall i, j :: 0 <= i < j < |tags| ==> tags[i].uid != tags[j].uid
  }

  /** The names of the tags whose uid is listed. */
  function NamesOf(tags: seq<TagRow>, uids: seq<string>): set<string> {
    set k | 0 <= k < |tags| && tags[k].uid in uids :: tags[k].name
  }

  /** A uid on which every usable item and the starting map agree keeps that name in the final map. */
  lemma {:induction false} MapTagItemsAgree(m: map<string, string>, items: seq<Json>, u: string, n: string)
    requires u in m ==> m[u] == n
    requires forall i :: 0 <= i < |items| && WellFormedTag(items[i]) && ItemUid(items[i]) == u ==> Text(items[i], "name") == n
    ensures u in MapTagItems(m, items) ==> MapTagItems(m, items)[u] == n
    decreases |items|
  {
    if |items| > 0 {
      var m1 := if WellFormedTag(items[0]) then m[ItemUid(items[0]) := Text(items[0], "name")] else m;
      assert forall i :: 1 <= i < |items| ==> items[i] == items[1..][i - 1];
      MapTagItemsAgree(m1, items[1..], u, n);
    }
  }

  /** A uid mapped by importing exported tag records is the uid of some tag. */
  lemma ExportedKeyIsTag(tags: seq<TagRow>, rows: seq<TagRow>, u: string)
    requires multiset(rows) == multiset(tags)
    requires u in MapTagItems(map[], Map(rows, ExportTag))
    ensures exists k :: 0 <= k < |tags| && tags[k].uid == u
  {
    var items := Map(rows, ExportTag);
    var i :| 0 <= i < |items| && WellFormedTag(items[i]) && ItemUid(items[i]) == u;
    ExportedItemUid(rows, i);
    TagOfRow(tags, rows, i);
  }

  /** The `i`-th exported tag record is usable and carries the row's uid. */
  lemma ExportedItemUid(rows: seq<TagRow>, i: nat)
    requires i < |rows|
    ensures WellFormedTag(Map(rows, ExportTag)[i]) && ItemUid(Map(rows, ExportTag)[i]) == rows[i].uid
  {
    assert Map(rows, ExportTag)[i] == ExportTag(rows[i]);
  }

  /** A row of a permutation of the tags is one of the tags. */
  lemma TagOfRow(tags: seq<TagRow>, rows: seq<TagRow>, i: nat)
    requires multiset(rows) == multiset(tags) && i < |rows|
    ensures exists k :: 0 <= k < |tags| && tags[k].uid == rows[i].uid
  {
    assert rows[i] in multiset(tags);
    var k :| 0 <= k < |tags| && tags[k] == rows[i];
  }

  /** The uid of every tag is mapped by importing its exported record. */
  lemma ExportedTagIsKey(tags: seq<TagRow>, rows: seq<TagRow>, k: nat)
    requires multiset(rows) == multiset(tags) && k < |tags|
    ensures tags[k].uid in MapTagItems(map[], Map(rows, ExportTag))
  {
    var items := Map(rows, ExportTag);
    assert tags[k] in multiset(rows);
    var i :| 0 <= i < |rows| && rows[i] == tags[k];
    assert WellFormedTag(items[i]) && ItemUid(items[i]) == tags[k].uid;
  }

  /** With distinct uids, importing exported tag records maps every tag's uid to its name. */
  lemma ExportedTagNames(tags: seq<TagRow>, rows: seq<TagRow>, k: nat)
    requires multiset(rows) == multiset(tags) && UniqueTagUids(tags) && k < |tags|
    ensures var m := MapTagItems(map[], Map(rows, ExportTag));
      tags[k].uid in m && m[tags[k].uid] == tags[k].name
  {
    var items := Map(rows, ExportTag);
    forall i | 0 <= i < |items| && WellFormedTag(items[i]) && ItemUid(items[i]) == tags[k].uid
      ensures Text(items[i], "name") == tags[k].name
    {
      assert rows[i] in multiset(tags);
      var j :| 0 <= j < |tags| && tags[j] == rows[i];
      assert j == k;
    }
    MapTagItemsAgree(map[], items, tags[k].uid, tags[k].name);
    ExportedTagIsKey(tags, rows, k);
  }

  /** Importing exported tags into an empty map maps exactly the exported uids, each to its tag's name. */
  lemma ExportedTagMap(tags: seq<TagRow>)
    requires UniqueTagUids(tags)
    ensures var m := MapTagItems(map[], ExportTags(tags));
      && (forall u :: u in m <==> exists k :: 0 <= k < |tags| && tags[k].uid == u)
      && (forall k :: 0 <= k < |tags| ==> m[tags[k].uid] == tags[k].name)
  {
    var rows := SortBy(tags, TagCreated);
    assert ExportTags(tags) == Map(rows, ExportTag);
    var m := MapTagItems(map[], Map(rows, ExportTag));
    forall u ensures u in m <==> exists k :: 0 <= k < |tags| && tags[k].uid == u {
      if u in m {
        ExportedKeyIsTag(tags, rows, u);
      }
      if exists k :: 0 <= k < |tags| && tags[k].uid == u {
        var k :| 0 <= k < |tags| && tags[k].uid == u;
        ExportedTagIsKey(tags, rows, k);
      }
    }
    forall k | 0 <= k < |tags| ensures tags[k].uid in m && m[tags[k].uid] == tags[k].name {
      ExportedTagNames(tags, rows, k);
    }
  }

  /** A post's exported uid list, read through that map, gives the names of its tags. */
  lemma RefsAreNames(tags: seq<TagRow>, uids: seq<string>, m: map<string, string>)
    requires forall u :: u in m <==> exists k :: 0 <= k < |tags| && tags[k].uid == u
    requires forall k :: 0 <= k < |tags| ==> m[tags[k].uid] == tags[k].name
    ensures TagRefs(UidList(uids), m) == Some(NamesOf(tags, uids))
  {
    var j := UidList(uids);
    var refs := TagRefs(j, m).value;
    forall n ensures n in refs <==> n in NamesOf(tags, uids) {
      if n in refs {
        var i :| 0 <= i < |j.items| && j.items[i].Str? && j.items[i].s in m && m[j.items[i].s] == n;
        var k :| 0 <= k < |tags| && tags[k].uid == uids[i];
        assert tags[k].uid in uids;
      }
      if n in NamesOf(tags, uids) {
        var k :| 0 <= k < |tags| && tags[k].uid in uids && tags[k].name == n;
        var i :| 0 <= i < |uids| && uids[i] == tags[k].uid;
        assert j.items[i].Str? && j.items[i].s in m && m[j.items[i].s] == n;
      }
    }
    assert refs == NamesOf(tags, uids);
  }

  /**
   * The stages a usable document goes through on import: its tags into an
   * empty uid map, then its BBTalks; the settings leave the BBTalks alone.
   */
  lemma DocumentStages(data: Json, tags: seq<Json>, posts: seq<Json>, db: Db, opts: Options, gen: string -> string)
    requires !opts.skipDuplicates
    requires data.Obj? && "version" in data.fields
    requires TagsUsable(data.fields) && PostsUsable(data.fields) && SettingsUsable(data.fields)
    requires "tags" in data.fields && data.fields["tags"] == Arr(tags)
    requires "bbtalks" in data.fields && data.fields["bbtalks"] == Arr(posts)
    ensures var r1 := ImportTags(Run(db, map[], NoStats), tags, opts);
      var res := ImportFromDict(data, db, opts, gen);
      && r1.Some? && res.Ok?
      && r1.value.db.posts == db.posts
      && r1.value.tagMap == MapTagItems(map[], tags)
      && ImportPosts(r1.value, posts, opts, gen).Some?
      && res.value.db.posts == ImportPosts(r1.value, posts, opts, gen).value.db.posts
  {
    var f := data.fields;
    var r0 := Run(db, map[], NoStats);
    TagSectionClean(r0, f, opts);
    var r1 := TagSection(r0, f, opts).value;
    PostSectionClean(r1, f, opts, gen);
    var r2 := PostSection(r1, f, opts, gen).value;
    StorageSectionClean(r2, f, opts);
    var r3 := StorageSection(r2, f, opts).value;
    assert ImportFromDict(data, db, opts, gen) == Ok(r3);
  }

  /** The same stages for an export document. */
  lemma ExportImportStages(acc: Account, exportTime: int, db: Db, opts: Options, gen: string -> string)
    requires !opts.skipDuplicates
    ensures var r1 := ImportTags(Run(db, map[], NoStats), ExportTags(acc.tags), opts);
      var res := ImportFromDict(ExportAll(acc, exportTime), db, opts, gen);
      && r1.Some? && res.Ok?
      && r1.value.db.posts == db.posts
      && r1.value.tagMap == MapTagItems(map[], ExportTags(acc.tags))
      && ImportPosts(r1.value, ExportPosts(acc.posts), opts, gen).Some?
      && res.value.db.posts == ImportPosts(r1.value, ExportPosts(acc.posts), opts, gen).value.db.posts
  {
    var doc := ExportAll(acc, exportTime);
    ExportedSections(acc, exportTime);
    assert TagsUsable(doc.fields) && PostsUsable(doc.fields) && SettingsUsable(doc.fields);
    DocumentStages(doc, ExportTags(acc.tags), ExportPosts(acc.posts), db, opts, gen);
  }

  /**
   * From index `base` on, `posts` holds one BBTalk per exported record in
   * `rows`, in order, with the record's content and exactly the names of the
   * tags whose uids the record lists.
   */
  predicate Relinked(posts: seq<PostRec>, base: nat, rows: seq<PostRow>, tags: seq<TagRow>) {
    && |posts| == base + |rows|
    && forall k :: 0 <= k < |rows| ==>
      && posts[base + k].content == rows[k].content
      && posts[base + k].tags == NamesOf(tags, rows[k].tags)
  }

  /** Every exported BBTalk record has the keys the importer needs. */
  lemma ExportedPostsWellFormed(rows: seq<PostRow>)
    ensures forall i :: 0 <= i < |rows| ==> WellFormedPost(Map(rows, ExportPost)[i])
  {
    forall i | 0 <= i < |rows| ensures WellFormedPost(Map(rows, ExportPost)[i]) {
      assert Map(rows, ExportPost)[i] == ExportPost(rows[i]);
    }
  }

  /** One BBTalk built from an exported record carries its content and the names of its tags. */
  lemma RelinkedPost(p: PostRec, row: PostRow, tags: seq<TagRow>, m: map<string, string>)
    requires forall u :: u in m <==> exists k :: 0 <= k < |tags| && tags[k].uid == u
    requires forall k :: 0 <= k < |tags| ==> m[tags[k].uid] == tags[k].name
    requires PostFromItem(p, ExportPost(row), m)
    ensures p.content == row.content && p.tags == NamesOf(tags, row.tags)
  {
    RefsAreNames(tags, row.tags, m);
  }

  /**
   * Exported BBTalk records, imported over a uid map that maps exactly the
   * tags' uids to their names, give one BBTalk per record, in order, with its
   * content and the names of its tags.
   */
  lemma PostsRelinked(r: Run, rows: seq<PostRow>, tags: seq<TagRow>, opts: Options, gen: string -> string)
    requires !opts.skipDuplicates
    requires forall u :: u in r.tagMap <==> exists k :: 0 <= k < |tags| && tags[k].uid == u
    requires forall k :: 0 <= k < |tags| ==> r.tagMap[tags[k].uid] == tags[k].name
    ensures var o := ImportPosts(r, Map(rows, ExportPost), opts, gen);
      o.Some? && Relinked(o.value.db.posts, |r.db.posts|, rows, tags)
  {
    var items := Map(rows, ExportPost);
    ExportedPostsWellFormed(rows);
    ImportPostsInOrder(r, items, opts, gen);
    var posts := ImportPosts(r, items, opts, gen).value.db.posts;
    forall k | 0 <= k < |rows|
      ensures posts[|r.db.posts| + k].content == rows[k].content
      ensures posts[|r.db.posts| + k].tags == NamesOf(tags, rows[k].tags)
    {
      assert items[k] == ExportPost(rows[k]);
      RelinkedPost(posts[|r.db.posts| + k], rows[k], tags, r.tagMap);
    }
  }

  /**
   * An export imports back, without `skip_duplicates`, with one BBTalk per
   * exported BBTalk in creation order, each with its content and exactly the
   * names of its tags: the tags are imported first, and the uid map links
   * every exported tag reference back to its name.
   */
  lemma ExportRelinksTags(acc: Account, exportTime: int, db: Db, opts: Options, gen: string -> string)
    requires !opts.skipDuplicates
    requires UniqueTagUids(acc.tags)
    ensures var res := ImportFromDict(ExportAll(acc, exportTime), db, opts, gen);
      res.Ok? && Relinked(res.value.db.posts, |db.posts|, SortBy(acc.posts, PostCreated), acc.tags)
  {
    var sorted := SortBy(acc.posts, PostCreated);
    ExportImportStages(acc, exportTime, db, opts, gen);
    var r1 := ImportTags(Run(db, map[], NoStats), ExportTags(acc.tags), opts).value;
    ExportedTagMap(acc.tags);
    assert ExportPosts(acc.posts) == Map(sorted, ExportPost);
    PostsRelinked(r1, sorted, acc.tags, opts, gen);
  }

  /** The export package's `data.json` imports exactly as the document itself. */
  lemma PackageImportsAsDocument(acc: Account, exportTime: int, includeAttachments: bool, text: Reading,
                                 db: Db, opts: Options, gen: string -> string)
    ensures ImportFromFile(Upload(Some(Package(ExportZip(acc, exportTime, includeAttachments))), text), db, opts, gen)
         == ImportFromDict(ExportAll(acc, exportTime), db, opts, gen)
  {
  }

  /**
   * With `skip_duplicates`, importing the same document a second time
   * creates no tag, no BBTalk and no storage setting, and leaves the BBTalks
   * and settings as the first import left them.
   */
  lemma ReimportCreatesNothing(data: Json, db: Db, opts: Options, gen: string -> string)
    requires opts.skipDuplicates
    requires ImportFromDict(data, db, opts, gen).Ok?
    ensures var first := ImportFromDict(data, db, opts, gen).value;
      var second := ImportFromDict(data, first.db, opts, gen);
      && second.Ok?
      && second.value.stats.tagsCreated == 0 && second.value.stats.bbtalksCreated == 0
      && second.value.stats.storageCreated == 0
      && second.value.db.posts == first.db.posts && second.value.db.storage == first.db.storage
  {
    var f := data.fields;
    var r1 := TagSection(Run(db, map[], NoStats), f, opts).value;
    var r2 := PostSection(r1, f, opts, gen).value;
    var r3 := StorageSection(r2, f, opts).value;
    if "tags" in f {
      ImportTagsConsistent(Run(db, map[], NoStats), Items(f["tags"]).value, opts);
    }
    if "bbtalks" in f {
      ImportPostsConsistent(r1, Items(f["bbtalks"]).value, opts, gen);
    }
    if opts.importStorageSettings && "storage_settings" in f {
      ImportSettingsConsistent(r2, Items(f["storage_settings"]).value);
    }
    var s1 := TagSection(Run(r3.db, map[], NoStats), f, opts).value;
    if "tags" in f {
      ImportTagsCreateNothing(Run(r3.db, map[], NoStats), Items(f["tags"]).value, opts);
    }
    var s2 := PostSection(s1, f, opts, gen).value;
    if "bbtalks" in f {
      ImportPostsCreateNothing(s1, Items(f["bbtalks"]).value, opts, gen);
    }
    if opts.importStorageSettings && "storage_settings" in f {
      ImportSettingsCreateNothing(s2, Items(f["storage_settings"]).value);
    }
  }
}

=== FILE: editor.dfy ===
/**
 * The pure logic of the post editor: the image URL upgrade, putting a post's
 * tags back into its text for editing, reading `#tag ` markers out of the
 * text, the tag picker (when it opens, what it offers, how the arrow keys move
 * through it, what choosing a tag writes), and what is sent on submit.
 *
 * Tag markers are read with the global pattern `(?:^|\s)#([^\s#]+)\s`. Its
 * final `\s` is part of the match, so the white space that ends one marker
 * cannot also start the next: in `#a #b x` only `a` is found. `Scan` reads
 * the text both ways: `consume` is the pattern as written, and without it the
 * final white space is only looked at, as in `(?:^|\s)#([^\s#]+)(?=\s)`,
 * which finds every marker and is what the rest of the model uses.
 */
module BBTalkEditor {
  import opened Wrappers
  import opened Strings
  import opened Js
  import opened Types
  import Lists
  import Sorting
  import UrlNormalizer
  import NameSort

  /** `getImageUrl`: a leading `http://` becomes `https://`; every other URL is kept. */
  function ImageUrl(url: string): (r: string)
    ensures StartsWith(url, "http://") ==> r == "https://" + url[7..]
    ensures !StartsWith(url, "http://") ==> r == url
  {
    if StartsWith(url, "http://") then "https://" + url[7..] else url
  }

  /** It is the media URL normaliser with target `https`, and so upgrading twice is upgrading once. */
  lemma ImageUrlIsNormalize(url: string)
    ensures ImageUrl(url) == UrlNormalizer.Normalize(url, "https")
    ensures ImageUrl(ImageUrl(url)) == ImageUrl(url)
  {
    UrlNormalizer.NormalizeIdempotent(url, "https");
  }

  /** The markers `#t ` of the tags, one after another. */
  function Marks(tags: seq<string>): string {
    if |tags| == 0 then "" else "#" + tags[0] + " " + Marks(tags[1..])
  }

  /** `restoreTagsToContent`: the tags' markers in front of the text; the text alone when there are no tags. */
  function RestoreTags(content: string, tags: seq<string>): (r: string)
    ensures |tags| == 0 ==> r == content
    ensures EndsWith(r, content)
    ensures |tags| > 0 ==> StartsWith(r, "#" + tags[0] + " ")
  {
    if |tags| > 0 then
      assert (Marks(tags) + content)[|Marks(tags)|..] == content;
      Marks(tags) + content
    else content
  }

  /** `[^\s#]`: a character that may appear in a tag name. */
  predicate WordChar(c: char) {
    !IsJsSpace(c) && c != '#'
  }

  /** A tag name as the pattern captures it: one or more name characters. */
  predicate Word(w: string) {
    |w| > 0 && forall i :: 0 <= i < |w| ==> WordChar(w[i])
  }

  /** The length of the leading run of name characters: what the greedy `[^\s#]+` takes. */
  function RunLength(s: string): (n: nat)
    ensures n <= |s|
    ensures forall i :: 0 <= i < n ==> WordChar(s[i])
    ensures n < |s| ==> !WordChar(s[n])
  {
    if |s| == 0 || !WordChar(s[0]) then 0 else 1 + RunLength(s[1..])
  }

  /** The run after a name ends at the first character that cannot be in a name. */
  lemma {:induction false} RunLengthWord(w: string, rest: string)
    requires forall i :: 0 <= i < |w| ==> WordChar(w[i])
    requires |rest| > 0 && !WordChar(rest[0])
    ensures RunLength(w + rest) == |w|
    decreases |w|
  {
    if |w| == 0 {
      assert w + rest == rest;
    } else {
      assert (w + rest)[1..] == w[1..] + rest;
      RunLengthWord(w[1..], rest);
    }
  }

  /** One match: the captured name and how many characters the match covers. */
  datatype Match = Match(name: string, length: nat)

  /**
   * The match of the pattern at the start of `s`. `^` can only match at the
   * very start of the text (`atStart`); otherwise the match must begin with one
   * white space character. Either way the name follows a `#` and must be
   * followed by white space, which the match covers only when `consume`.
   */
  function MatchAt(s: string, atStart: bool, consume: bool): (m: Option<Match>)
    ensures m.Some? ==> Word(m.value.name) && 0 < m.value.length <= |s|
    ensures m.Some? && !consume ==> m.value.length < |s| && IsJsSpace(s[m.value.length])
  {
    var h := if atStart && |s| > 0 && s[0] == '#' then 0 else 1;
    if h == 1 && !(|s| >= 2 && IsJsSpace(s[0]) && s[1] == '#') then None
    else
      var n := RunLength(s[h + 1..]);
      var k := h + 1 + n;
      if n == 0 || k == |s| || !IsJsSpace(s[k]) then None
      else
        var name := s[h + 1..k];
        assert Word(name) by {
          var run := s[h + 1..];
          forall i | 0 <= i < n ensures WordChar(name[i]) {
            assert name[i] == run[i];
          }
        }
        Some(Match(name, if consume then k + 1 else k))
  }

  /** Every match of the global pattern, left to right, each search resuming where the last match ended. */
  function Scan(s: string, atStart: bool, consume: bool): (tags: seq<string>)
    ensures forall i :: 0 <= i < |tags| ==> Word(tags[i])
    decreases |s|
  {
    if |s| == 0 then []
    else match MatchAt(s, atStart, consume)
      case Some(m) => [m.name] + Scan(s[m.length..], false, consume)
      case None => Scan(s[1..], false, consume)
  }

  /** The captures of the pattern as written. */
  function ParseTagsAsWritten(content: string): (tags: seq<string>)
    ensures forall i :: 0 <= i < |tags| ==> Word(tags[i])
  {
    Scan(content, true, true)
  }

  /** The captures with the final white space only looked at. */
  function ParseTags(content: string): (tags: seq<string>)
    ensures forall i :: 0 <= i < |tags| ==> Word(tags[i])
  {
    Scan(content, true, false)
  }

  /** A text whose first character is not `#` reads the same whether or not it is the start of the whole text. */
  lemma MatchAtNotHash(s: string, consume: bool)
    requires |s| > 0 && s[0] != '#'
    ensures MatchAt(s, true, consume) == MatchAt(s, false, consume)
  {
  }

  /** A match found after one more leading character, covering that character too. */
  function Shifted(m: Option<Match>): Option<Match> {
    if m.Some? then Some(Match(m.value.name, m.value.length + 1)) else None
  }

  /** A marker after a white space matches like the same marker at the start of the text, one character later. */
  lemma MatchAfterSpace(sp: char, c: string, consume: bool)
    requires IsJsSpace(sp) && |c| > 0 && c[0] == '#'
    ensures MatchAt([sp] + c, false, consume) == Shifted(MatchAt(c, true, consume))
  {
    var s := [sp] + c;
    assert s[2..] == c[1..];
    var n := RunLength(c[1..]);
    if n > 0 && 1 + n < |c| {
      assert s[2 + n] == c[1 + n];
      assert s[2..2 + n] == c[1..1 + n];
    }
  }

  /** Dropping one more character from a text with one more character in front. */
  lemma DropAfterOne(sp: char, c: string, k: nat)
    requires k <= |c|
    ensures ([sp] + c)[k + 1..] == c[k..]
  {
  }

  /** A text that does not begin with `#` scans the same whether or not it is the start of the whole text. */
  lemma ScanStartIrrelevant(c: string, consume: bool)
    requires |c| == 0 || c[0] != '#'
    ensures Scan(c, true, consume) == Scan(c, false, consume)
  {
    if |c| > 0 {
      MatchAtNotHash(c, consume);
    }
  }

  /** A white space in front of a text reads like the start of the text. */
  lemma ScanAfterSpace(c: string, sp: char, consume: bool)
    requires IsJsSpace(sp)
    ensures Scan([sp] + c, false, consume) == Scan(c, true, consume)
  {
    var s := [sp] + c;
    ScanStep(s, false, consume);
    DropFront([sp], c);
    if |c| > 0 && c[0] == '#' {
      MatchAfterSpace(sp, c, consume);
      ScanStep(c, true, consume);
      match MatchAt(c, true, consume)
      case Some(m) =>
        DropAfterOne(sp, c, m.length);
      case None =>
        ScanStep(c, false, consume);
    } else {
      assert MatchAt(s, false, consume).None?;
      ScanStartIrrelevant(c, consume);
    }
  }

  /** A marker `#t` after white space is matched, covering the marker, and the following white space only when `consume`. */
  lemma MarkMatch(sp: char, t: string, sp2: char, rest: string, consume: bool)
    requires IsJsSpace(sp) && IsJsSpace(sp2) && Word(t)
    ensures var s := [sp, '#'] + t + ([sp2] + rest);
      MatchAt(s, false, consume) == Some(Match(t, if consume then |t| + 3 else |t| + 2))
  {
    var s := [sp, '#'] + t + ([sp2] + rest);
    assert s[2..] == t + ([sp2] + rest);
    RunLengthWord(t, [sp2] + rest);
    assert s[2..2 + |t|] == t;
  }

  /** The same at the very start of the text. */
  lemma FirstMarkMatch(t: string, sp2: char, rest: string, consume: bool)
    requires IsJsSpace(sp2) && Word(t)
    ensures var s := ['#'] + t + ([sp2] + rest);
      MatchAt(s, true, consume) == Some(Match(t, if consume then |t| + 2 else |t| + 1))
  {
    var s := ['#'] + t + ([sp2] + rest);
    assert s[1..] == t + ([sp2] + rest);
    RunLengthWord(t, [sp2] + rest);
    assert s[1..1 + |t|] == t;
  }

  /** Where a match is found the scan records it and resumes after it; elsewhere it moves on one character. */
  lemma ScanStep(s: string, atStart: bool, consume: bool)
    requires |s| > 0
    ensures MatchAt(s, atStart, consume).Some? ==>
      Scan(s, atStart, consume) == [MatchAt(s, atStart, consume).value.name] + Scan(s[MatchAt(s, atStart, consume).value.length..], false, consume)
    ensures MatchAt(s, atStart, consume).None? ==> Scan(s, atStart, consume) == Scan(s[1..], false, consume)
  {
  }

  lemma DropFront(a: string, b: string)
    ensures (a + b)[|a|..] == b
  {
  }

  /** A marker after white space is read, and the scan resumes at the white space that ends it. */
  lemma ScanMark(sp: char, t: string, b: string)
    requires IsJsSpace(sp) && Word(t) && |b| > 0 && b[0] == ' '
    ensures Scan([sp, '#'] + t + b, false, false) == [t] + Scan(b, false, false)
  {
    var s := [sp, '#'] + t + b;
    assert b == [' '] + b[1..];
    MarkMatch(sp, t, ' ', b[1..], false);
    ScanStep(s, false, false);
    DropFront([sp, '#'] + t, b);
  }

  /** The same for a marker at the start of the text. */
  lemma ScanFirstMark(t: string, b: string)
    requires Word(t) && |b| > 0 && b[0] == ' '
    ensures Scan(['#'] + t + b, true, false) == [t] + Scan(b, false, false)
  {
    var s := ['#'] + t + b;
    assert b == [' '] + b[1..];
    FirstMarkMatch(t, ' ', b[1..], false);
    ScanStep(s, true, false);
    DropFront(['#'] + t, b);
  }

  /** The markers of a non-empty tag list: the first marker, then a space and the rest. */
  lemma MarksCons(tags: seq<string>, c: string)
    requires |tags| > 0
    ensures Marks(tags) + c == ['#'] + tags[0] + (" " + Marks(tags[1..]) + c)
  {
    var m := Marks(tags[1..]);
    assert Marks(tags) == "#" + tags[0] + " " + m;
    Regroup4('#', tags[0], ' ', m, c);
  }

  /** The same after a space. */
  lemma SpaceMarksCons(tags: seq<string>, c: string)
    requires |tags| > 0
    ensures " " + Marks(tags) + c == [' ', '#'] + tags[0] + (" " + Marks(tags[1..]) + c)
  {
    var m := Marks(tags[1..]);
    assert Marks(tags) == "#" + tags[0] + " " + m;
    Regroup5(' ', '#', tags[0], ' ', m, c);
  }

  lemma Regroup4<T>(h: T, t: seq<T>, sp: T, m: seq<T>, c: seq<T>)
    ensures [h] + t + [sp] + m + c == [h] + t + ([sp] + m + c)
  {
  }

  lemma Regroup5<T>(a: T, h: T, t: seq<T>, sp: T, m: seq<T>, c: seq<T>)
    ensures [a] + ([h] + t + [sp] + m) + c == [a, h] + t + ([sp] + m + c)
  {
  }

  /** A list is its head followed by its tail. */
  lemma SplitHead(tags: seq<string>, z: seq<string>)
    requires |tags| > 0
    ensures tags + z == [tags[0]] + (tags[1..] + z)
  {
  }

  /** Markers written one after another after a white space are all read back, in order. */
  lemma {:induction false} ScanMarks(tags: seq<string>, c: string)
    requires forall i :: 0 <= i < |tags| ==> Word(tags[i])
    ensures Scan(" " + Marks(tags) + c, false, false) == tags + Scan(" " + c, false, false)
    decreases |tags|
  {
    if |tags| > 0 {
      SpaceMarksCons(tags, c);
      ScanMark(' ', tags[0], " " + Marks(tags[1..]) + c);
      ScanMarks(tags[1..], c);
      SplitHead(tags, Scan(" " + c, false, false));
    } else {
      assert " " + Marks(tags) + c == " " + c;
    }
  }

  /** Tags put back into a text are read back first, followed by the text's own tags. */
  lemma RestoredTagsParse(content: string, tags: seq<string>)
    requires forall i :: 0 <= i < |tags| ==> Word(tags[i])
    ensures ParseTags(RestoreTags(content, tags)) == tags + ParseTags(content)
  {
    if |tags| > 0 {
      MarksCons(tags, content);
      ScanFirstMark(tags[0], " " + Marks(tags[1..]) + content);
      ScanMarks(tags[1..], content);
      ScanAfterSpace(content, ' ', false);
      SplitHead(tags, ParseTags(content));
    }
  }

  /** A text without `#` has no marker. */
  lemma NoMarkNoMatch(s: string, atStart: bool, consume: bool)
    requires |s| > 0 && '#' !in s
    ensures MatchAt(s, atStart, consume).None?
  {
    assert |s| >= 2 ==> s[1] in s;
  }

  /** A text without `#` has no tags. */
  lemma {:induction false} NoMarkNoTags(s: string, atStart: bool, consume: bool)
    requires '#' !in s
    ensures Scan(s, atStart, consume) == []
    decreases |s|
  {
    if |s| > 0 {
      NoMarkNoMatch(s, atStart, consume);
      ScanStep(s, atStart, consume);
      NoMarkNoTags(s[1..], false, consume);
    }
  }

  /** The example post: tags `a` and `b` around the text `x`. */
  lemma RestoredExample()
    ensures RestoreTags("x", ["a", "b"]) == "#a #b x"
    ensures "#a #b x" == ['#'] + "a" + ([' '] + "#b x")
    ensures "#a #b x"[3..] == "#b x" && "#b x"[1..] == "b x"
  {
    assert Marks(["a", "b"]) == "#a #b ";
  }

  /** As written, a post tagged `a` and `b` put back for editing reads as tagged `a` only. */
  lemma RestoredTagsLostAsWritten()
    ensures RestoreTags("x", ["a", "b"]) == "#a #b x"
    ensures ParseTagsAsWritten("#a #b x") == ["a"]
    ensures ParseTags("#a #b x") == ["a", "b"]
  {
    RestoredExample();
    ExampleParsedAsWritten();
    ExampleParsed();
  }

  lemma ExampleParsedAsWritten()
    ensures ParseTagsAsWritten("#a #b x") == ["a"]
  {
    RestoredExample();
    FirstMarkMatch("a", ' ', "#b x", true);
    assert MatchAt("#a #b x", true, true) == Some(Match("a", 3));
    ScanStep("#a #b x", true, true);
    assert Scan("#a #b x", true, true) == ["a"] + Scan("#b x", false, true);
    ScanStep("#b x", false, true);
    NoMarkNoTags("b x", false, true);
  }

  lemma ExampleParsed()
    ensures ParseTags("#a #b x") == ["a", "b"]
  {
    var c := RestoreTags("x", ["a", "b"]);
    assert c == "#a #b x" by {
      RestoredExample();
    }
    assert ParseTags(c) == ["a", "b"] + ParseTags("x") by {
      RestoredTagsParse("x", ["a", "b"]);
    }
    assert ParseTags("x") == [] by {
      NoMarkNoTags("x", true, false);
    }
  }

  /** The text with every match replaced by one space. */
  function Strip(s: string, atStart: bool, consume: bool): (r: string)
    ensures |r| <= |s|
    decreases |s|
  {
    if |s| == 0 then ""
    else match MatchAt(s, atStart, consume)
      case Some(m) => " " + Strip(s[m.length..], false, consume)
      case None => [s[0]] + Strip(s[1..], false, consume)
  }

  /** Where a match is found it becomes one space and stripping resumes after it; elsewhere the character is kept. */
  lemma StripStep(s: string, atStart: bool, consume: bool)
    requires |s| > 0
    ensures MatchAt(s, atStart, consume).Some? ==>
      Strip(s, atStart, consume) == " " + Strip(s[MatchAt(s, atStart, consume).value.length..], false, consume)
    ensures MatchAt(s, atStart, consume).None? ==> Strip(s, atStart, consume) == [s[0]] + Strip(s[1..], false, consume)
  {
  }

  /** A text without `#` has no marker and is kept whole. */
  lemma {:induction false} StripNoMarks(s: string, atStart: bool, consume: bool)
    requires '#' !in s
    ensures Strip(s, atStart, consume) == s
    decreases |s|
  {
    if |s| > 0 {
      NoMarkNoMatch(s, atStart, consume);
      StripStep(s, atStart, consume);
      StripNoMarks(s[1..], false, consume);
      assert s == [s[0]] + s[1..];
    }
  }

  /** The text sent on submit: markers replaced by a space, then trimmed. */
  function CleanContentAsWritten(content: string): (r: string)
    ensures |r| <= |content|
  {
    Trim(Strip(content, true, true), Js)
  }

  function CleanContent(content: string): (r: string)
    ensures |r| <= |content|
    ensures '#' !in content ==> r == Trim(content, Js)
  {
    var r := Trim(Strip(content, true, false), Js);
    assert '#' !in content ==> r == Trim(content, Js) by {
      if '#' !in content {
        StripNoMarks(content, true, false);
      }
    }
    r
  }

  /** White space in front of a text disappears when it is trimmed. */
  lemma {:induction false} TrimStartSpaces(sp: string, c: string)
    requires forall i :: 0 <= i < |sp| ==> IsJsSpace(sp[i])
    ensures TrimStart(sp + c, Js) == TrimStart(c, Js)
    decreases |sp|
  {
    if |sp| > 0 {
      assert (sp + c)[1..] == sp[1..] + c;
      TrimStartSpaces(sp[1..], c);
    } else {
      assert sp + c == c;
    }
  }

  /** A text that does not begin with `#` strips the same whether or not it is the start of the whole text. */
  lemma StripStartIrrelevant(c: string)
    requires |c| == 0 || c[0] != '#'
    ensures Strip(c, true, false) == Strip(c, false, false)
  {
    if |c| > 0 {
      MatchAtNotHash(c, false);
    }
  }

  /** A white space in front of a text strips to the stripped text, with or without that white space in front. */
  lemma StripAfterSpace(c: string, sp: char)
    requires IsJsSpace(sp)
    ensures Strip([sp] + c, false, false) == Strip(c, true, false)
         || Strip([sp] + c, false, false) == [sp] + Strip(c, true, false)
  {
    var s := [sp] + c;
    StripStep(s, false, false);
    DropFront([sp], c);
    if |c| > 0 && c[0] == '#' {
      MatchAfterSpace(sp, c, false);
      StripStep(c, true, false);
      match MatchAt(c, true, false)
      case Some(m) =>
        DropAfterOne(sp, c, m.length);
      case None =>
        StripStep(c, false, false);
    } else {
      assert MatchAt(s, false, false).None?;
      StripStartIrrelevant(c);
    }
  }

  /** A marker after white space becomes one space, and stripping resumes at the white space that ends it. */
  lemma StripMark(sp: char, t: string, b: string)
    requires IsJsSpace(sp) && Word(t) && |b| > 0 && b[0] == ' '
    ensures Strip([sp, '#'] + t + b, false, false) == " " + Strip(b, false, false)
  {
    assert b == [' '] + b[1..];
    MarkMatch(sp, t, ' ', b[1..], false);
    StripStep([sp, '#'] + t + b, false, false);
    DropFront([sp, '#'] + t, b);
  }

  /** The same for a marker at the start of the text. */
  lemma StripFirstMark(t: string, b: string)
    requires Word(t) && |b| > 0 && b[0] == ' '
    ensures Strip(['#'] + t + b, true, false) == " " + Strip(b, false, false)
  {
    assert b == [' '] + b[1..];
    FirstMarkMatch(t, ' ', b[1..], false);
    StripStep(['#'] + t + b, true, false);
    DropFront(['#'] + t, b);
  }

  /** `n` spaces. */
  function Spaces(n: nat): (s: string)
    ensures |s| == n && forall i :: 0 <= i < n ==> s[i] == ' '
  {
    if n == 0 then "" else " " + Spaces(n - 1)
  }

  /** One more space in front. */
  lemma SpacesCons(n: nat, x: string)
    ensures " " + (Spaces(n) + x) == Spaces(n + 1) + x
  {
  }

  /** A space in front of a text strips to at most one space in front of the stripped text. */
  lemma StripSpaceFront(c: string) returns (n: nat)
    ensures Strip([' '] + c, false, false) == Spaces(n) + Strip(c, true, false)
  {
    StripAfterSpace(c, ' ');
    SpacesCons(0, Strip(c, true, false));
    if Strip([' '] + c, false, false) == Strip(c, true, false) {
      n := 0;
    } else {
      n := 1;
    }
  }

  /** Stripping markers written after a white space leaves only spaces in front of the rest. */
  lemma {:induction false} StripMarks(tags: seq<string>, c: string) returns (n: nat)
    requires forall i :: 0 <= i < |tags| ==> Word(tags[i])
    ensures Strip(" " + Marks(tags) + c, false, false) == Spaces(n) + Strip(c, true, false)
    decreases |tags|
  {
    if |tags| == 0 {
      assert " " + Marks(tags) + c == [' '] + c;
      n := StripSpaceFront(c);
    } else {
      var tail := tags[1..];
      assert forall i :: 0 <= i < |tail| ==> Word(tail[i]) by {
        forall i | 0 <= i < |tail| ensures Word(tail[i]) {
          assert tail[i] == tags[i + 1];
        }
      }
      var m := StripMarks(tail, c);
      n := m + 1;
      var x := Strip(c, true, false);
      var rest := " " + Marks(tail) + c;
      assert Strip(" " + Marks(tags) + c, false, false) == " " + (Spaces(m) + x) by {
        SpaceMarksCons(tags, c);
        StripMark(' ', tags[0], rest);
      }
      SpacesCons(m, x);
    }
  }

  /** Putting tags back into a text and cleaning it gives the cleaned text: the markers leave nothing behind. */
  lemma RestoredTagsClean(content: string, tags: seq<string>)
    requires forall i :: 0 <= i < |tags| ==> Word(tags[i])
    ensures CleanContent(RestoreTags(content, tags)) == CleanContent(content)
  {
    if |tags| > 0 {
      MarksCons(tags, content);
      StripFirstMark(tags[0], " " + Marks(tags[1..]) + content);
      var n := StripMarks(tags[1..], content);
      var x := Strip(content, true, false);
      SpacesCons(n, x);
      TrimStartSpaces(Spaces(n + 1), x);
    }
  }

  /** As written, the first marker of the example post becomes a space and the second is kept. */
  lemma StrippedExample()
    ensures Strip("#a #b x", true, true) == " #b x"
  {
    RestoredExample();
    FirstMarkMatch("a", ' ', "#b x", true);
    assert MatchAt("#a #b x", true, true) == Some(Match("a", 3));
    StripStep("#a #b x", true, true);
    assert Strip("#a #b x", true, true) == " " + Strip("#b x", false, true);
    StripStep("#b x", false, true);
    StripNoMarks("b x", false, true);
  }

  /** As written, cleaning a post tagged `a` and `b` leaves the second marker in the text. */
  lemma RestoredTagsKeptAsWritten()
    ensures CleanContentAsWritten("#a #b x") == "#b x"
  {
    StrippedExample();
    TrimmedExample();
  }

  /** Trimming the stripped example drops the space left by the first marker. */
  lemma TrimmedExample()
    ensures Trim(" #b x", Js) == "#b x"
  {
    assert " #b x" == [' '] + "#b x";
    TrimSpaceFront(' ', "#b x");
  }

  /** One white space in front of a text that starts and ends with something else is all that trimming drops. */
  lemma TrimSpaceFront(sp: char, c: string)
    requires IsJsSpace(sp) && |c| > 0 && !IsJsSpace(c[0]) && !IsJsSpace(c[|c| - 1])
    ensures Trim([sp] + c, Js) == c
  {
    TrimStartSpaces([sp], c);
    TrimStripped(c, Js);
  }

  /** No element of the list appears twice. */
  predicate NoRepeats(s: seq<string>) {
    forall i, j :: 0 <= i < j < |s| ==> s[i] != s[j]
  }

  /** JavaScript's `new Set(names)` read back as a list: each name once, where it first appears. */
  function Distinct(names: seq<string>): (r: seq<string>)
    ensures forall x :: x in r <==> x in names
    ensures NoRepeats(r)
  {
    if |names| == 0 then []
    else
      var d := Distinct(names[..|names| - 1]);
      var last := names[|names| - 1];
      assert names == names[..|names| - 1] + [last];
      if last in d then d else d + [last]
  }

  /** A list without repeats holds each value at most once. */
  lemma {:induction false} NoRepeatsOnce(names: seq<string>, x: string)
    requires NoRepeats(names)
    ensures multiset(names)[x] <= 1
    decreases |names|
  {
    if |names| > 0 {
      var tail := names[1..];
      assert names == [names[0]] + tail;
      assert NoRepeats(tail) by {
        forall i, j | 0 <= i < j < |tail| ensures tail[i] != tail[j] {
          assert tail[i] == names[i + 1] && tail[j] == names[j + 1];
        }
      }
      NoRepeatsOnce(tail, x);
      if x == names[0] {
        forall k | 0 <= k < |tail| ensures tail[k] != x {
          assert tail[k] == names[k + 1];
        }
      }
    }
  }

  /** A list holding each value at most once has no repeats. */
  lemma OnceNoRepeats(s: seq<string>)
    requires forall x :: multiset(s)[x] <= 1
    ensures NoRepeats(s)
  {
    forall i, j | 0 <= i < j < |s| ensures s[i] != s[j] {
      assert s == s[..j] + s[j..];
      assert s[j..][0] == s[j] && s[..j][i] == s[i];
      assert multiset(s)[s[j]] == multiset(s[..j])[s[j]] + multiset(s[j..])[s[j]];
    }
  }

  /** Sorting a list without repeats gives a list without repeats, holding the same names. */
  lemma SortedDistinct(names: seq<string>)
    requires NoRepeats(names)
    ensures NoRepeats(NameSort.SortNames(names))
    ensures forall x :: x in NameSort.SortNames(names) <==> x in names
  {
    var r := NameSort.SortNames(names);
    forall x ensures multiset(r)[x] <= 1 {
      NoRepeatsOnce(names, x);
    }
    OnceNoRepeats(r);
    forall x ensures x in r <==> x in names {
      assert x in r <==> x in multiset(r);
      assert x in names <==> x in multiset(names);
    }
  }

  /**
   * The tag list after the text changes. The comparison sorts both lists in
   * place, so whichever way it goes the list ends up as the text's distinct
   * tags in ascending order.
   */
  function EditedTags(parsed: seq<string>, tags: seq<string>): (r: seq<string>)
    ensures forall x :: x in r <==> x in parsed
    ensures NameSort.Ordered(r)
    ensures NoRepeats(r)
  {
    var unique := NameSort.SortNames(Distinct(parsed));
    SortedDistinct(Distinct(parsed));
    if unique != NameSort.SortNames(tags) then unique else NameSort.SortNames(tags)
  }

  /** The tag list after an edit, read with the corrected pattern. */
  function TagsAfterEdit(content: string, tags: seq<string>): (r: seq<string>)
    ensures forall x :: x in r <==> x in ParseTags(content)
    ensures NameSort.Ordered(r)
    ensures NoRepeats(r)
  {
    EditedTags(ParseTags(content), tags)
  }

  /** The tag list after an edit, read with the pattern as written. */
  function TagsAfterEditAsWritten(content: string, tags: seq<string>): (r: seq<string>)
    ensures forall x :: x in r <==> x in ParseTagsAsWritten(content)
    ensures NameSort.Ordered(r)
    ensures NoRepeats(r)
  {
    EditedTags(ParseTagsAsWritten(content), tags)
  }

  /** As written, putting a post tagged `a` and `b` back for editing drops `b` from the tag list at the first keystroke. */
  lemma RestoredTagsDroppedAsWritten(current: seq<string>)
    ensures var r := TagsAfterEditAsWritten(RestoreTags("x", ["a", "b"]), current);
      "a" in r && "b" !in r
    ensures var r := TagsAfterEdit(RestoreTags("x", ["a", "b"]), current);
      "a" in r && "b" in r
  {
    RestoredTagsLostAsWritten();
    assert "a" != "b";
  }

  /** Restoring a post's distinct tags for editing gives the tag list back in sorted order, with those of the text itself. */
  lemma RestoredTagsKept(content: string, tags: seq<string>, current: seq<string>)
    requires forall i :: 0 <= i < |tags| ==> Word(tags[i])
    ensures forall x :: x in TagsAfterEdit(RestoreTags(content, tags), current) <==> x in tags || x in ParseTags(content)
  {
    RestoredTagsParse(content, tags);
  }

  /**
   * `content.match(/(?:^|\s)#([^\s#]+)$/)`: a marker being typed at the very
   * end of the text. Its name is the trailing run of name characters, and it
   * counts when a `#` precedes the run at the start of the text or after white
   * space. It is suggested as a new tag unless already in the list.
   */
  function SuggestedTag(content: string, tags: seq<string>): (r: Option<string>)
    ensures r.Some? ==> Word(r.value) && r.value !in tags && EndsWith(content, "#" + r.value)
  {
    var n := TrailingRun(content);
    var h := |content| - n - 1;
    if n > 0 && h >= 0 && content[h] == '#' && (h == 0 || IsJsSpace(content[h - 1])) && content[h + 1..] !in tags then
      assert content[|content| - (n + 1)..] == "#" + content[h + 1..];
      Some(content[h + 1..])
    else None
  }

  /** The length of the trailing run of name characters. */
  function TrailingRun(s: string): (n: nat)
    ensures n <= |s|
    ensures forall i :: |s| - n <= i < |s| ==> WordChar(s[i])
    ensures n < |s| ==> !WordChar(s[|s| - n - 1])
  {
    if |s| == 0 || !WordChar(s[|s| - 1]) then 0 else 1 + TrailingRun(s[..|s| - 1])
  }

  /** The trailing run of a text ending in name characters after one that cannot be in a name is exactly those characters. */
  lemma {:induction false} TrailingRunAfter(p: string, w: string)
    requires |p| > 0 && !WordChar(p[|p| - 1])
    requires forall i :: 0 <= i < |w| ==> WordChar(w[i])
    ensures TrailingRun(p + w) == |w|
    decreases |w|
  {
    if |w| == 0 {
      assert p + w == p;
    } else {
      var s := p + w;
      assert s[|s| - 1] == w[|w| - 1];
      assert s[..|s| - 1] == p + w[..|w| - 1];
      TrailingRunAfter(p, w[..|w| - 1]);
    }
  }

  /** After `#name` the trailing run is the name. */
  lemma TrailingRunWord(before: string, w: string)
    requires Word(w)
    ensures TrailingRun(before + "#" + w) == |w|
  {
    TrailingRunAfter(before + "#", w);
  }

  /** Typing `#name` at the start or after white space suggests `name`, and typing the space that ends it withdraws the suggestion. */
  lemma TypingTagSuggests(before: string, w: string, tags: seq<string>, sp: char)
    requires Word(w) && w !in tags && IsJsSpace(sp)
    requires before == "" || IsJsSpace(before[|before| - 1])
    ensures SuggestedTag(before + "#" + w, tags) == Some(w)
    ensures SuggestedTag(before + "#" + w + [sp], tags) == None
  {
    TrailingRunWord(before, w);
    var s := before + "#" + w;
    assert s[|before|] == '#' && s[|before| + 1..] == w;
    assert |before| > 0 ==> s[|before| - 1] == before[|before| - 1];
  }

  /** Where the tag picker opens: the `#` it completes and the text typed after it. */
  datatype Trigger = Trigger(hashIndex: nat, query: string)

  /** The position of the last `#` of `s`. */
  function LastHash(s: string): (r: Option<nat>)
    ensures r.Some? ==> r.value < |s| && s[r.value] == '#' && forall j :: r.value < j < |s| ==> s[j] != '#'
    ensures r.None? ==> '#' !in s
  {
    if |s| == 0 then None
    else if s[|s| - 1] == '#' then Some(|s| - 1)
    else
      var r := LastHash(s[..|s| - 1]);
      assert s == s[..|s| - 1] + [s[|s| - 1]];
      r
  }

  /**
   * The picker opens when the last `#` before the cursor is at the start of
   * the text or follows white space, and no white space has been typed after
   * it; the text after it is the search query. JavaScript's `substring`
   * clamps the cursor into the text.
   */
  function TagTrigger(text: string, cursor: int): (r: Option<Trigger>)
    ensures r.Some? ==> && r.value.hashIndex < |text|
                        && text[r.value.hashIndex] == '#'
                        && (r.value.hashIndex == 0 || IsJsSpace(text[r.value.hashIndex - 1]))
                        && forall i :: 0 <= i < |r.value.query| ==> WordChar(r.value.query[i])
  {
    var c := Clamp(cursor, |text|);
    match LastHash(text[..c])
    case None => None
    case Some(h) => OpensAt(text, h, c)
  }

  /** The picker at the `#` at `h`, with the cursor at `c`: open when the `#` starts a word and the query has no white space. */
  function OpensAt(text: string, h: nat, c: nat): (r: Option<Trigger>)
    requires h < c <= |text| && text[h] == '#'
    requires forall j :: h < j < c ==> text[j] != '#'
    ensures r.Some? ==> r.value.hashIndex == h && r.value.query == text[h + 1..c]
    ensures r.Some? ==> forall i :: 0 <= i < |r.value.query| ==> WordChar(r.value.query[i])
  {
    var q := text[h + 1..c];
    if (h == 0 || IsJsSpace(text[h - 1])) && NoSpace(q) then Some(Trigger(h, q)) else None
  }

  /** No white space in the text typed after the `#`. */
  predicate NoSpace(q: string) {
    forall i :: 0 <= i < |q| ==> !IsJsSpace(q[i])
  }

  /** `substring`'s reading of a position: negative is 0, past the end is the end. */
  function Clamp(i: int, n: nat): (r: nat)
    ensures r <= n
    ensures 0 <= i <= n ==> r == i
  {
    if i < 0 then 0 else if i > n then n else i
  }

  /** The last `#` of a text ending in `#` and then text without `#` is that one. */
  lemma {:induction false} LastHashEnd(p: string, q: string)
    requires '#' !in q
    ensures LastHash(p + "#" + q) == Some(|p|)
    decreases |q|
  {
    var s := p + "#" + q;
    if |q| > 0 {
      assert s[|s| - 1] == q[|q| - 1];
      assert s[..|s| - 1] == p + "#" + q[..|q| - 1];
      LastHashEnd(p, q[..|q| - 1]);
    } else {
      assert s == p + "#";
    }
  }

  /** Typing `#` at the start of the text or after white space, then a query, opens the picker at that `#` with that query. */
  lemma TypingHashOpensPicker(before: string, q: string)
    requires before == "" || IsJsSpace(before[|before| - 1])
    requires forall i :: 0 <= i < |q| ==> WordChar(q[i])
    ensures TagTrigger(before + "#" + q, |before| + 1 + |q|) == Some(Trigger(|before|, q))
  {
    var t := before + "#" + q;
    assert '#' !in q && NoSpace(q) by {
      assert forall i :: 0 <= i < |q| ==> q[i] != '#' && !IsJsSpace(q[i]);
    }
    assert TagTrigger(t, |t|) == OpensAt(t, |before|, |t|) by {
      LastHashEnd(before, q);
      assert t[..|t|] == t;
    }
    OpensAfterSpace(before, q);
  }

  /** A `#` at the start of the text or after white space, followed by a query without white space, opens the picker. */
  lemma OpensAfterSpace(before: string, q: string)
    requires before == "" || IsJsSpace(before[|before| - 1])
    requires '#' !in q && NoSpace(q)
    ensures var t := before + "#" + q;
      OpensAt(t, |before|, |t|) == Some(Trigger(|before|, q))
  {
    var t := before + "#" + q;
    assert t[|before| + 1..|t|] == q;
    if before != "" {
      assert t[|before| - 1] == before[|before| - 1];
    }
  }

  /** Typing white space after the query closes the picker. */
  lemma SpaceClosesPicker(before: string, q: string, sp: char)
    requires '#' !in q && IsJsSpace(sp)
    ensures TagTrigger(before + "#" + q + [sp], |before| + 2 + |q|) == None
  {
    var u := before + "#" + q + [sp];
    assert u == before + "#" + (q + [sp]);
    LastHashEnd(before, q + [sp]);
    assert u[..|u|] == u;
    assert u[|before| + 1..|u|][|q|] == sp;
  }

  /** The text after a tag is chosen, and where the cursor goes. */
  datatype Selection = Selection(content: string, cursor: nat)

  /**
   * `handleSelectTag`: the text up to the `#` is kept, the chosen name and a
   * space are written after the `#`, and the text from the cursor on follows.
   */
  function SelectTag(content: string, hashIndex: int, selectionStart: int, name: string): (r: Selection)
    ensures r.cursor <= |r.content|
    ensures r.content[..r.cursor] == content[..Clamp(hashIndex, |content|)] + "#" + name + " "
    ensures r.content[r.cursor..] == content[Clamp(selectionStart, |content|)..]
  {
    var before := content[..Clamp(hashIndex, |content|)];
    var after := content[Clamp(selectionStart, |content|)..];
    var s := before + "#" + name + " " + after;
    assert s[..|before| + |name| + 2] == before + "#" + name + " ";
    Selection(s, |before| + |name| + 2)
  }

  /** A marker after white space inside a text is found by the scan, wherever the scan starts. */
  lemma {:induction false} MarkFound(pre: string, t: string, rest: string, atStart: bool)
    requires |pre| > 0 && IsJsSpace(pre[|pre| - 1]) && Word(t)
    ensures t in Scan(pre + (['#'] + t + ([' '] + rest)), atStart, false)
    decreases |pre|
  {
    var b := ['#'] + t + ([' '] + rest);
    var s := pre + b;
    if |pre| == 1 {
      assert pre == [pre[0]];
      MarkFoundHere(pre[0], t, rest, atStart);
    } else {
      ScanStep(s, atStart, false);
      var k := if MatchAt(s, atStart, false).Some? then MatchAt(s, atStart, false).value.length else 1;
      if MatchAt(s, atStart, false).Some? {
        assert s[|pre| - 1] == pre[|pre| - 1];
        MatchEndsBefore(s, atStart, |pre| - 1);
      }
      AppendDrop(pre, b, k);
      assert pre[k..][|pre| - k - 1] == pre[|pre| - 1];
      MarkFound(pre[k..], t, rest, false);
    }
  }

  /** A marker right after the first character, white space, is the first match. */
  lemma MarkFoundHere(sp: char, t: string, rest: string, atStart: bool)
    requires IsJsSpace(sp) && Word(t)
    ensures t in Scan([sp] + (['#'] + t + ([' '] + rest)), atStart, false)
  {
    var s := [sp] + (['#'] + t + ([' '] + rest));
    assert s == [sp, '#'] + t + ([' '] + rest);
    MarkMatch(sp, t, ' ', rest, false);
    if atStart {
      MatchAtNotHash(s, false);
    }
    ScanStep(s, atStart, false);
  }

  /** A match cannot reach past white space that comes after its start. */
  lemma MatchEndsBefore(s: string, atStart: bool, k: nat)
    requires 1 <= k < |s| && IsJsSpace(s[k]) && MatchAt(s, atStart, false).Some?
    ensures MatchAt(s, atStart, false).value.length <= k
  {
    var h := if atStart && |s| > 0 && s[0] == '#' then 0 else 1;
    var n := RunLength(s[h + 1..]);
    if k >= h + 1 {
      assert s[h + 1..][k - h - 1] == s[k];
    }
  }

  /** The text written by choosing a tag, grouped around the marker. */
  lemma Regroup(before: string, name: string, after: string)
    ensures before + "#" + name + " " + after == before + (['#'] + name + ([' '] + after))
  {
  }

  /** Opening the picker at a `#` and choosing a name writes a marker that the text then reads as a tag. */
  lemma ChosenTagParses(content: string, cursor: int, selectionStart: int, name: string)
    requires TagTrigger(content, cursor).Some? && Word(name)
    ensures var r := SelectTag(content, TagTrigger(content, cursor).value.hashIndex, selectionStart, name);
      name in ParseTags(r.content)
  {
    var h := TagTrigger(content, cursor).value.hashIndex;
    var before := content[..h];
    var after := content[Clamp(selectionStart, |content|)..];
    var r := SelectTag(content, h, selectionStart, name);
    assert r.content == before + "#" + name + " " + after by {
      assert r.content == r.content[..r.cursor] + r.content[r.cursor..];
    }
    Regroup(before, name, after);
    if h == 0 {
      assert before + (['#'] + name + ([' '] + after)) == ['#'] + name + ([' '] + after);
      ScanFirstMark(name, [' '] + after);
    } else {
      assert before[h - 1] == content[h - 1];
      MarkFound(before, name, after, true);
    }
  }

  /** A name offered by the picker: it contains the query, ignoring ASCII case, and is not already a tag of the post. */
  predicate Offered(t: Tag, query: string, selected: seq<string>) {
    Contains(Lower(t.name), Lower(query)) && t.name !in selected
  }

  /** The first `limit` items of a list, or all of them when there are fewer: `slice(0, limit)`. */
  function Take<T>(s: seq<T>, limit: nat): seq<T> {
    if |s| <= limit then s else s[..limit]
  }

  /** The first `limit` elements of `s` that `keep` accepts, in their order, found in one pass. */
  function FirstWhere<T(!new)>(s: seq<T>, keep: T -> bool, limit: nat): (r: seq<T>)
    ensures |r| <= limit && |r| <= |s|
    ensures forall x :: x in r ==> x in s && keep(x)
    ensures |r| < limit ==> forall x :: x in s && keep(x) ==> x in r
    // the same list as `filter` followed by `slice(0, limit)`
    ensures r == Take(Lists.Filter(s, keep), limit)
  {
    if |s| == 0 || limit == 0 then []
    else if keep(s[0]) then
      assert Lists.Filter(s, keep) == [s[0]] + Lists.Filter(s[1..], keep);
      [s[0]] + FirstWhere(s[1..], keep, limit - 1)
    else
      assert Lists.Filter(s, keep) == Lists.Filter(s[1..], keep);
      FirstWhere(s[1..], keep, limit)
  }

  /** When every element is accepted and the limit is not reached, the whole list comes back. */
  lemma {:induction false} FirstWhereAll<T(!new)>(s: seq<T>, keep: T -> bool, limit: nat)
    requires |s| <= limit
    requires forall x :: x in s ==> keep(x)
    ensures FirstWhere(s, keep, limit) == s
    decreases |s|
  {
    if |s| > 0 {
      var tail := s[1..];
      assert FirstWhere(tail, keep, limit - 1) == tail by {
        forall x | x in tail ensures keep(x) {
          assert x in s;
        }
        FirstWhereAll(tail, keep, limit - 1);
      }
      assert keep(s[0]) by {
        assert s[0] in s;
      }
      assert [s[0]] + tail == s;
    } else {
      assert s == [];
    }
  }

  /** The first `limit` offered tags, in their order. */
  function FilterTags(existing: seq<Tag>, query: string, selected: seq<string>, limit: nat): (r: seq<Tag>)
    ensures |r| <= limit && |r| <= |existing|
    ensures forall t :: t in r ==> t in existing && Offered(t, query, selected)
    ensures |r| < limit ==> forall t :: t in existing && Offered(t, query, selected) ==> t in r
    ensures r == Take(Lists.Filter(existing, t => Offered(t, query, selected)), limit)
  {
    FirstWhere(existing, t => Offered(t, query, selected), limit)
  }

  /** `filteredTags`: at most ten offered tags; fewer only when there are no more. */
  function PickerTags(existing: seq<Tag>, query: string, selected: seq<string>): (r: seq<Tag>)
    ensures |r| <= 10
    ensures forall t :: t in r ==> t in existing && Offered(t, query, selected)
    ensures |r| < 10 ==> forall t :: t in existing && Offered(t, query, selected) ==> t in r
    ensures r == Take(Lists.Filter(existing, t => Offered(t, query, selected)), 10)
  {
    FilterTags(existing, query, selected, 10)
  }

  /** With nothing typed after the `#`, every tag not on the post is offered, up to ten. */
  lemma EmptyQueryOffersAll(existing: seq<Tag>, selected: seq<string>, limit: nat)
    requires |existing| <= limit
    requires forall i :: 0 <= i < |existing| ==> existing[i].name !in selected
    ensures FilterTags(existing, "", selected, limit) == existing
  {
    forall t | t in existing ensures Offered(t, "", selected) {
      EmptyQueryOffered(t, selected);
    }
    AllOfferedKept(existing, "", selected, limit);
  }

  /** When every tag is offered and the limit is not reached, the list is offered whole. */
  lemma AllOfferedKept(existing: seq<Tag>, query: string, selected: seq<string>, limit: nat)
    requires |existing| <= limit
    requires forall t :: t in existing ==> Offered(t, query, selected)
    ensures FilterTags(existing, query, selected, limit) == existing
  {
    FirstWhereAll(existing, t => Offered(t, query, selected), limit);
  }

  /** The empty query is in every name. */
  lemma EmptyQueryOffered(t: Tag, selected: seq<string>)
    requires t.name !in selected
    ensures Offered(t, "", selected)
  {
    assert Lower("") == "";
    ContainsEmpty(Lower(t.name));
  }

  /** When the list shrinks below the highlighted index, the highlight moves to its last entry. */
  function KeepInRange(index: int, n: nat): (r: int)
    ensures n > 0 && 0 <= index ==> 0 <= r < n
    ensures index < n ==> r == index
  {
    if index >= n && n > 0 then n - 1 else index
  }

  /** ArrowUp: the previous entry, from the first to the last. */
  function ArrowUp(index: int, n: int): (r: int)
    ensures 0 <= index < n ==> 0 <= r < n && r == (index - 1) % n
  {
    if index > 0 then index - 1 else n - 1
  }

  /** ArrowDown: the next entry, from the last to the first. */
  function ArrowDown(index: int, n: int): (r: int)
    ensures 0 <= index < n ==> 0 <= r < n && r == (index + 1) % n
  {
    if index < n - 1 then index + 1 else 0
  }

  /** The two arrows undo each other. */
  lemma ArrowsUndo(index: int, n: int)
    requires 0 <= index < n
    ensures ArrowDown(ArrowUp(index, n), n) == index
    ensures ArrowUp(ArrowDown(index, n), n) == index
  {
  }

  /** On an empty list ArrowUp leaves the range: the index becomes -1. */
  lemma ArrowUpOnEmpty()
    ensures ArrowUp(0, 0) == -1
  {
  }

  /** An attachment already on the post, as the editor holds it: either id may be missing or empty. */
  datatype MediaRef = MediaRef(id: Option<string>, uid: Option<string>)

  /** `m.id || m.uid` of an entry, `None` for a missing entry. */
  function PickId(m: Option<MediaRef>): (r: Option<string>)
    ensures m.None? ==> r.None?
    ensures Truthy(r) <==> m.Some? && (Truthy(m.value.id) || Truthy(m.value.uid))
    ensures r.Some? ==> r == m.value.id || r == m.value.uid
  {
    if m.Some? then Or(m.value.id, m.value.uid) else None
  }

  /** The string an optional string holds, or `""`. */
  function Value(o: Option<string>): string {
    o.GetOr("")
  }

  /** The truthy values of a list, in order: `filter(Boolean)`. */
  function Kept(xs: seq<Option<string>>): (r: seq<string>)
    ensures |r| <= |xs|
    ensures forall x :: x in r <==> x != "" && Some(x) in xs
    ensures r == Sorting.Map(Lists.Filter(xs, Truthy), Value)
  {
    if |xs| == 0 then []
    else
      assert xs == [xs[0]] + xs[1..];
      (if Truthy(xs[0]) then [xs[0].value] else []) + Kept(xs[1..])
  }

  /** `m.id || m.uid` of each attachment already on the post. */
  function Ids(existing: seq<Option<MediaRef>>): (r: seq<Option<string>>)
    ensures |r| == |existing|
    ensures forall i :: 0 <= i < |existing| ==> r[i] == PickId(existing[i])
  {
    if |existing| == 0 then [] else [PickId(existing[0])] + Ids(existing[1..])
  }

  /** `mediaUids`: the ids of the attachments already on the post, then the uids of the new uploads, skipping empty ones. */
  function MediaUids(existing: seq<Option<MediaRef>>, uploaded: seq<Option<string>>): (r: seq<string>)
    ensures forall x :: x in r ==> x != ""
    ensures forall x :: x in r <==> (exists i :: 0 <= i < |existing| && PickId(existing[i]) == Some(x) && x != "")
                                    || (x != "" && Some(x) in uploaded)
    // the post's attachments first, in their order, then the uploads, in theirs
    ensures r == Kept(Ids(existing)) + Kept(uploaded)
  {
    var ids := Ids(existing);
    assert forall x :: Some(x) in ids <==> exists i :: 0 <= i < |existing| && PickId(existing[i]) == Some(x) by {
      forall x | Some(x) in ids ensures exists i :: 0 <= i < |existing| && PickId(existing[i]) == Some(x) {
        var i :| 0 <= i < |ids| && ids[i] == Some(x);
        assert PickId(existing[i]) == Some(x);
      }
    }
    Kept(ids) + Kept(uploaded)
  }

  /** What the editor sends: the cleaned text, the tags, the attachment ids, the visibility, and the context. */
  datatype Payload = Payload(content: string, tags: seq<string>, mediaUids: seq<string>, visibility: string, context: Json)

  /**
   * The post's context: the client (`Web`) and whether the browser looks like
   * a phone or tablet, plus the location when one was taken.
   */
  function EditorContext(mobile: bool, location: Option<Json>): (c: Json)
    ensures c.Obj? && "source" in c.fields && c.fields["source"] == Obj(map["client" := Str("Web"), "platform" := Str(if mobile then "mobile" else "desktop")])
    ensures "location" in c.fields <==> location.Some?
  {
    var source := map["source" := Obj(map["client" := Str("Web"), "platform" := Str(if mobile then "mobile" else "desktop")])];
    if location.Some? then Obj(source["location" := location.value]) else Obj(source)
  }

  /**
   * `handleSubmit`: nothing is sent for a text that is empty or only white
   * space; otherwise the markers are cleaned out of the text and the rest is
   * sent as it stands.
   */
  function Submit(content: string, tags: seq<string>, existing: seq<Option<MediaRef>>, uploaded: seq<Option<string>>,
                  visibility: string, mobile: bool, location: Option<Json>): (r: Option<Payload>)
    ensures r.None? <==> Trim(content, Js) == ""
    ensures r.Some? ==> && r.value.content == CleanContent(content)
                        && r.value.tags == tags
                        && r.value.mediaUids == MediaUids(existing, uploaded)
                        && r.value.visibility == visibility
                        && r.value.context == EditorContext(mobile, location)
  {
    if Trim(content, Js) == "" then None
    else Some(Payload(CleanContent(content), tags, MediaUids(existing, uploaded), visibility, EditorContext(mobile, location)))
  }

  /** `handleSubmit` as written: the same request, with the text cleaned by the pattern as written. */
  function SubmitAsWritten(content: string, tags: seq<string>, existing: seq<Option<MediaRef>>, uploaded: seq<Option<string>>,
                           visibility: string, mobile: bool, location: Option<Json>): (r: Option<Payload>)
    ensures r.None? <==> Trim(content, Js) == ""
    ensures r.Some? ==> && r.value.content == CleanContentAsWritten(content)
                        && r.value == Submit(content, tags, existing, uploaded, visibility, mobile, location).value.(content := r.value.content)
  {
    if Trim(content, Js) == "" then None
    else Some(Payload(CleanContentAsWritten(content), tags, MediaUids(existing, uploaded), visibility, EditorContext(mobile, location)))
  }

  /** As written, sending a post tagged `a` and `b` back unchanged puts the marker `#b` into its text. */
  lemma ResubmitRestoredAsWritten(existing: seq<Option<MediaRef>>, uploaded: seq<Option<string>>,
                                  visibility: string, mobile: bool, location: Option<Json>)
    ensures var r := SubmitAsWritten(RestoreTags("x", ["a", "b"]), ["a", "b"], existing, uploaded, visibility, mobile, location);
      r.Some? && r.value.content == "#b x"
  {
    var c := RestoreTags("x", ["a", "b"]);
    assert c == "#a #b x" by {
      RestoredExample();
    }
    assert CleanContentAsWritten(c) == "#b x" by {
      RestoredTagsKeptAsWritten();
    }
    assert Trim(c, Js) == c by {
      assert !IsJsSpace('#') && !IsJsSpace('x');
      TrimStripped(c, Js);
    }
  }

  /** Editing a post and sending it unchanged sends its text without the markers put back in front of it. */
  lemma ResubmitRestored(content: string, tags: seq<string>, existing: seq<Option<MediaRef>>, uploaded: seq<Option<string>>,
                         visibility: string, mobile: bool, location: Option<Json>)
    requires forall i :: 0 <= i < |tags| ==> Word(tags[i])
    requires Trim(content, Js) != ""
    ensures var r := Submit(RestoreTags(content, tags), tags, existing, uploaded, visibility, mobile, location);
      r.Some? && r.value.content == CleanContent(content)
  {
    RestoredTagsClean(content, tags);
    NotBlankSuffix(RestoreTags(content, tags), content);
  }

  /** A text that ends with a text holding something other than white space holds it too. */
  lemma NotBlankSuffix(s: string, c: string)
    requires EndsWith(s, c) && Trim(c, Js) != ""
    ensures Trim(s, Js) != ""
  {
    var i :| 0 <= i < |c| && !IsSpace(Js, c[i]);
    assert s[|s| - |c| + i] == c[i];
  }
}

=== FILE: feed_page.dfy ===
/**
 * The pure helpers of the feed page: the single-select tag filter, the
 * keyword search over the loaded posts, whether an edit changed the
 * attachments, how attachments are split into images, videos and other
 * files, the relative time shown on a post, and the client name read from a
 * post's context. The drag-and-drop reordering of tags is in `TagReorder`.
 */
module BBTalkPage {
  import opened Wrappers
  import opened Strings
  import opened Js
  import opened Types
  import NameSort
  import MediaApi
  import BBTalkEditor
  import TagReorder

  /** `toggleTag`: choosing the selected tag clears the selection; choosing another selects it alone. */
  function ToggleTag(selected: seq<string>, id: string): (r: seq<string>)
    ensures |r| <= 1
    ensures forall x :: x in r ==> x == id
    ensures id in r <==> id !in selected
  {
    if id in selected then [] else [id]
  }

  /** Choosing the same tag twice gives back a selection of that tag alone, or of nothing. */
  lemma ToggleTwice(selected: seq<string>, id: string)
    ensures ToggleTag(ToggleTag(selected, id), id) == if id in selected then [id] else []
  {
  }

  /** Shown by the search: no keyword, or the text contains it ignoring ASCII case. */
  predicate Matches(t: BBTalk, keyword: string) {
    keyword == "" || Contains(Lower(t.content), Lower(keyword))
  }

  /** `filteredBBTalks`: the loaded posts the keyword search keeps, in their order. */
  function FilterTalks(talks: seq<BBTalk>, keyword: string): (r: seq<BBTalk>)
    ensures |r| <= |talks|
    ensures forall t :: t in r <==> t in talks && Matches(t, keyword)
  {
    if |talks| == 0 then []
    else
      assert talks == [talks[0]] + talks[1..];
      (if Matches(talks[0], keyword) then [talks[0]] else []) + FilterTalks(talks[1..], keyword)
  }

  /** Filtering a list made of two parts filters each part and keeps them in order. */
  lemma {:induction false} FilterTalksAppend(a: seq<BBTalk>, b: seq<BBTalk>, keyword: string)
    ensures FilterTalks(a + b, keyword) == FilterTalks(a, keyword) + FilterTalks(b, keyword)
    decreases |a|
  {
    if |a| == 0 {
      assert a + b == b;
    } else {
      assert (a + b)[1..] == a[1..] + b;
      FilterTalksAppend(a[1..], b, keyword);
    }
  }

  /** An empty search keeps every post. */
  lemma {:induction false} EmptyKeywordKeepsAll(talks: seq<BBTalk>)
    ensures FilterTalks(talks, "") == talks
    decreases |talks|
  {
    if |talks| > 0 {
      EmptyKeywordKeepsAll(talks[1..]);
      assert talks == [talks[0]] + talks[1..];
    }
  }

  /** The search ignores the case of the keyword. */
  lemma {:induction false} KeywordCaseIgnored(talks: seq<BBTalk>, keyword: string)
    ensures FilterTalks(talks, Lower(keyword)) == FilterTalks(talks, keyword)
    decreases |talks|
  {
    if |talks| > 0 {
      LowerIdempotent(keyword);
      assert Matches(talks[0], Lower(keyword)) == Matches(talks[0], keyword);
      KeywordCaseIgnored(talks[1..], keyword);
    }
  }

  /** The uids of a list of attachments. */
  function Uids(atts: seq<MediaApi.Attachment>): (r: seq<string>)
    ensures |r| == |atts|
    ensures forall i :: 0 <= i < |atts| ==> r[i] == atts[i].uid
  {
    if |atts| == 0 then [] else [atts[0].uid] + Uids(atts[1..])
  }

  /** The uids of two parts are the uids of the first and then of the second. */
  lemma UidsAppend(a: seq<MediaApi.Attachment>, b: seq<MediaApi.Attachment>)
    ensures Uids(a + b) == Uids(a) + Uids(b)
  {
  }

  /**
   * `attachmentsChanged`: the post's attachment uids (none when the post has
   * no list) and the editor's, each sorted, then compared. The edit changed
   * the attachments exactly when the two hold different uids, counted with
   * repetition; their order does not matter.
   */
  function AttachmentsChanged(original: Option<seq<MediaApi.Attachment>>, current: seq<MediaApi.Attachment>): (r: bool)
    ensures r <==> multiset(Uids(original.GetOr([]))) != multiset(Uids(current))
  {
    var before := Uids(original.GetOr([]));
    var after := Uids(current);
    NameSort.SortNamesSameIff(before, after);
    NameSort.SortNames(before) != NameSort.SortNames(after)
  }

  /** Reordering the attachments of a post is not a change. */
  lemma ReorderedUnchanged(original: seq<MediaApi.Attachment>, current: seq<MediaApi.Attachment>)
    requires multiset(current) == multiset(original)
    ensures !AttachmentsChanged(Some(original), current)
  {
    UidsPermutes(original, current);
  }

  /** A list is what comes before `k`, the item at `k`, and what comes after. */
  lemma AroundIndex<T>(s: seq<T>, k: nat)
    requires k < |s|
    ensures s == s[..k] + ([s[k]] + s[k + 1..])
  {
  }

  /** The uids of a list are the uid at `k` and the uids of the rest. */
  lemma UidsWithout(b: seq<MediaApi.Attachment>, k: nat)
    requires k < |b|
    ensures multiset(Uids(b)) == multiset(Uids(TagReorder.Without(b, k))) + multiset{b[k].uid}
  {
    var x, y := b[..k], b[k + 1..];
    AroundIndex(b, k);
    UidsAppend(x, [b[k]] + y);
    UidsAppend([b[k]], y);
    UidsAppend(x, y);
    var ux, uy := Uids(x), Uids(y);
    assert Uids(b) == ux + ([b[k].uid] + uy);
    assert Uids(TagReorder.Without(b, k)) == ux + uy;
  }

  /** Lists holding the same attachments hold the same uids. */
  lemma {:induction false} UidsPermutes(a: seq<MediaApi.Attachment>, b: seq<MediaApi.Attachment>)
    requires multiset(a) == multiset(b)
    ensures multiset(Uids(a)) == multiset(Uids(b))
    decreases |a|
  {
    assert |a| == |multiset(a)| == |multiset(b)| == |b|;
    if |a| > 0 {
      assert a[0] in multiset(b);
      var k :| 0 <= k < |b| && b[k] == a[0];
      TagReorder.WithoutMultiset(a, 0);
      TagReorder.WithoutMultiset(b, k);
      assert multiset(TagReorder.Without(a, 0)) == multiset(a) - multiset{a[0]};
      assert multiset(TagReorder.Without(b, k)) == multiset(b) - multiset{b[k]};
      UidsPermutes(TagReorder.Without(a, 0), TagReorder.Without(b, k));
      UidsWithout(a, 0);
      UidsWithout(b, k);
    }
  }

  /** Adding an attachment is a change. */
  lemma AddedChanged(original: seq<MediaApi.Attachment>, added: MediaApi.Attachment)
    ensures AttachmentsChanged(Some(original), original + [added])
  {
    UidsAppend(original, [added]);
    assert multiset(Uids(original + [added]))[added.uid] == multiset(Uids(original))[added.uid] + 1;
  }

  /** The extensions read as images and as videos. */
  const ImageExtensions: seq<string> := [".jpg", ".jpeg", ".png", ".gif", ".bmp", ".webp", ".svg", ".ico", ".tif", ".tiff"]
  const VideoExtensions: seq<string> := [".mp4", ".webm", ".ogg", ".mov", ".avi", ".mkv", ".m4v"]

  /** `url.toLowerCase().split('?')[0]`: the lower-cased URL up to its first `?`. */
  function UrlPath(a: MediaApi.Attachment): (p: string)
    ensures '?' !in p
  {
    var u := Lower(a.url.GetOr(""));
    u[..IndexOfAny(u, {'?'})]
  }

  /** The path of a URL with a query is the lower-cased part before the query. */
  lemma UrlPathDropsQuery(a: MediaApi.Attachment, path: string, query: string)
    requires a.url == Some(path + "?" + query) && '?' !in path
    ensures UrlPath(a) == Lower(path)
  {
    var u := path + "?" + query;
    var l := Lower(u);
    forall j | 0 <= j < |path| ensures l[j] !in {'?'} {
      assert u[j] == path[j];
    }
    assert l[|path|] == '?' by {
      assert u[|path|] == '?';
    }
    IndexOfAnyUnique(l, {'?'}, |path|);
    LowerSlice(u, 0, |path|);
    assert u[..|path|] == path;
  }

  predicate HasExtension(path: string, extensions: seq<string>) {
    exists i :: 0 <= i < |extensions| && EndsWith(path, extensions[i])
  }

  /** `isImage`: typed as an image, or its path ends in an image extension. */
  predicate IsImage(a: MediaApi.Attachment) {
    a.kind == "image" || HasExtension(UrlPath(a), ImageExtensions)
  }

  /** `isVideo`: typed as a video, or its path ends in a video extension. */
  predicate IsVideo(a: MediaApi.Attachment) {
    a.kind == "video" || HasExtension(UrlPath(a), VideoExtensions)
  }

  /** The attachments shown as images. */
  function Images(atts: seq<MediaApi.Attachment>): (r: seq<MediaApi.Attachment>)
    ensures forall a :: a in r <==> a in atts && IsImage(a)
  {
    if |atts| == 0 then []
    else
      assert atts == [atts[0]] + atts[1..];
      (if IsImage(atts[0]) then [atts[0]] else []) + Images(atts[1..])
  }

  /** The attachments shown as videos: not images, but videos. */
  function Videos(atts: seq<MediaApi.Attachment>): (r: seq<MediaApi.Attachment>)
    ensures forall a :: a in r <==> a in atts && !IsImage(a) && IsVideo(a)
  {
    if |atts| == 0 then []
    else
      assert atts == [atts[0]] + atts[1..];
      (if !IsImage(atts[0]) && IsVideo(atts[0]) then [atts[0]] else []) + Videos(atts[1..])
  }

  /** The attachments listed as files: neither images nor videos. */
  function Files(atts: seq<MediaApi.Attachment>): (r: seq<MediaApi.Attachment>)
    ensures forall a :: a in r <==> a in atts && !IsImage(a) && !IsVideo(a)
  {
    if |atts| == 0 then []
    else
      assert atts == [atts[0]] + atts[1..];
      (if !IsImage(atts[0]) && !IsVideo(atts[0]) then [atts[0]] else []) + Files(atts[1..])
  }

  /** A list is its first item and the rest, counted with repetition. */
  lemma MultisetCons<T>(s: seq<T>)
    requires |s| > 0
    ensures multiset(s) == multiset{s[0]} + multiset(s[1..])
  {
    assert s == [s[0]] + s[1..];
  }

  /** The three lists split the attachments: each one is shown exactly once. */
  lemma {:induction false} AttachmentsPartitioned(atts: seq<MediaApi.Attachment>)
    ensures multiset(Images(atts)) + multiset(Videos(atts)) + multiset(Files(atts)) == multiset(atts)
    decreases |atts|
  {
    if |atts| > 0 {
      AttachmentsPartitioned(atts[1..]);
      MultisetCons(atts);
    }
  }

  /** The type field is read before the extension: an attachment typed as a video whose path ends in `.png` is shown as an image. */
  lemma TypeReadBeforeExtension(a: MediaApi.Attachment, path: string)
    requires a.kind == "video" && a.url == Some(path) && '?' !in path && EndsWith(Lower(path), ".png")
    ensures IsImage(a) && IsVideo(a)
    ensures Images([a]) == [a] && Videos([a]) == []
  {
    IndexOfAnyLower(path, {'?'});
    IndexOfAnyAbsent(path, {'?'});
    assert UrlPath(a) == Lower(path);
    assert EndsWith(UrlPath(a), ImageExtensions[2]);
  }

  /** How long ago a post was written, as the page words it. */
  datatype Age = JustNow | MinutesAgo(minutes: int) | HoursAgo(hours: int) | DaysAgo(days: int) | OnDate

  const MinuteMs := 60000
  const HourMs := 3600000
  const DayMs := 86400000

  /**
   * The relative time for a post written `diffMs` milliseconds ago. The
   * page floors each quotient with `Math.floor`; for a positive divisor that
   * is Dafny's `/`. A time in the future reads as just now.
   */
  function RelativeTime(diffMs: int): (r: Age)
    ensures r == JustNow <==> diffMs < MinuteMs
    ensures r.MinutesAgo? <==> MinuteMs <= diffMs < HourMs
    ensures r.HoursAgo? <==> HourMs <= diffMs < DayMs
    ensures r.DaysAgo? <==> DayMs <= diffMs < 7 * DayMs
    ensures r == OnDate <==> 7 * DayMs <= diffMs
    ensures r.MinutesAgo? ==> r.minutes * MinuteMs <= diffMs < (r.minutes + 1) * MinuteMs
    ensures r.HoursAgo? ==> r.hours * HourMs <= diffMs < (r.hours + 1) * HourMs
    ensures r.DaysAgo? ==> r.days * DayMs <= diffMs < (r.days + 1) * DayMs
  {
    var minutes := diffMs / MinuteMs;
    var hours := diffMs / HourMs;
    var days := diffMs / DayMs;
    if minutes < 1 then JustNow
    else if minutes < 60 then MinutesAgo(minutes)
    else if hours < 24 then HoursAgo(hours)
    else if days < 7 then DaysAgo(days)
    else OnDate
  }

  /** The buckets in order of age. */
  function Rank(a: Age): nat {
    match a
    case JustNow => 0
    case MinutesAgo(_) => 1
    case HoursAgo(_) => 2
    case DaysAgo(_) => 3
    case OnDate => 4
  }

  /** An older post never shows a younger age: the bucket, and the count within it, only grow. */
  lemma RelativeTimeMonotone(d1: int, d2: int)
    requires d1 <= d2
    ensures Rank(RelativeTime(d1)) <= Rank(RelativeTime(d2))
    ensures RelativeTime(d1).MinutesAgo? && RelativeTime(d2).MinutesAgo? ==> RelativeTime(d1).minutes <= RelativeTime(d2).minutes
    ensures RelativeTime(d1).HoursAgo? && RelativeTime(d2).HoursAgo? ==> RelativeTime(d1).hours <= RelativeTime(d2).hours
    ensures RelativeTime(d1).DaysAgo? && RelativeTime(d2).DaysAgo? ==> RelativeTime(d1).days <= RelativeTime(d2).days
  {
  }

  /** A truthy string field: `typeof x === 'string'` and not empty. */
  function NonEmptyText(j: Option<Json>): (r: Option<string>)
    ensures r.Some? <==> j.Some? && j.value.Str? && j.value.s != ""
    ensures r.Some? ==> r.value == j.value.s
  {
    if j.Some? && j.value.Str? && j.value.s != "" then Some(j.value.s) else None
  }

  /**
   * `getSource`: `Web` when the post has no context; the context itself when
   * it is a string; otherwise `source.client` when `source` is an object, then
   * the older top-level `client`, then `Web`.
   */
  function GetSource(context: Option<Json>): (r: string)
    ensures r != ""
    ensures context.None? || !JsonTruthy(context.value) ==> r == "Web"
    ensures context.Some? && context.value.Str? && context.value.s != "" ==> r == context.value.s
    ensures context.Some? && context.value.Obj? ==>
      var source := Field(context.value, "source");
      var inSource := if source.Some? && source.value.Obj? then NonEmptyText(Field(source.value, "client")) else None;
      r == inSource.GetOr(NonEmptyText(Field(context.value, "client")).GetOr("Web"))
  {
    if context.None? || !JsonTruthy(context.value) then "Web"
    else if context.value.Str? then context.value.s
    else
      var source := Field(context.value, "source");
      var inSource := if source.Some? && JsonTruthy(source.value) && (source.value.Obj? || source.value.Arr?)
                      then NonEmptyText(Field(source.value, "client")) else None;
      if inSource.Some? then inSource.value
      else NonEmptyText(Field(context.value, "client")).GetOr("Web")
  }

  /** A client named under `source` wins over an older top-level one. */
  lemma SourceClientWins(fields: map<string, Json>, client: string)
    requires "source" in fields && fields["source"].Obj?
    requires "client" in fields["source"].fields && fields["source"].fields["client"] == Str(client) && client != ""
    ensures GetSource(Some(Obj(fields))) == client
  {
  }

  /** Without a source, the older top-level client is read. */
  lemma LegacyClientRead(fields: map<string, Json>, client: string)
    requires "source" !in fields
    requires "client" in fields && fields["client"] == Str(client) && client != ""
    ensures GetSource(Some(Obj(fields))) == client
  {
  }

  /** A post written in this editor reads as written on the web. */
  lemma EditorPostsReadAsWeb(mobile: bool, location: Option<Json>)
    ensures GetSource(Some(BBTalkEditor.EditorContext(mobile, location))) == "Web"
  {
  }
}

=== FILE: image_cache.dfy ===
/**
 * The client-side persistent image cache (`ImageCacheService`): a keyed store of
 * image blobs with scheme-normalised keys, expiry after 30 days checked on read
 * and by a sweep, eviction of the oldest entries before every write so that the
 * total size stays within 100 MiB, and a cache-or-fetch pipeline that swallows
 * every failure.
 *
 * The IndexedDB object store is a `map` from key to entry; the current time, the
 * target protocol, the byte budget and the network's answer are parameters.
 */
module ImageCache {
  import opened Wrappers
  import opened Strings
  import UrlNormalizer

  /** `MAX_CACHE_SIZE`: 100 MiB. */
  const MaxCacheSize: nat := 100 * 1024 * 1024
  /** `CACHE_EXPIRY`: 30 days in milliseconds. */
  const CacheExpiry: nat := 30 * 24 * 60 * 60 * 1000

  /** An opaque payload with its declared MIME type; its size is its byte length. */
  datatype Blob = Blob(bytes: seq<bv8>, mimeType: string) {
    function Size(): nat { |bytes| }
  }

  /** One stored record; the record's `url` field is the map key. */
  datatype Entry = Entry(blob: Blob, timestamp: int, size: nat, mimeType: string)

  type Store = map<string, Entry>

  /** The service's constants, made explicit. */
  datatype Config = Config(protocol: string, maxSize: nat, expiry: nat)

  /** The configuration the service is built with, given the protocol setting. */
  function DefaultConfig(protocolEnv: string): Config {
    Config(UrlNormalizer.TargetProtocol(protocolEnv), MaxCacheSize, CacheExpiry)
  }

  /** An entry is stale once strictly more than `expiry` milliseconds old. */
  predicate Expired(e: Entry, now: int, expiry: nat) {
    now - e.timestamp > expiry
  }

  /** Every entry of `r` is in `s` unchanged. */
  predicate SubStore(r: Store, s: Store) {
    forall k :: k in r ==> k in s && r[k] == s[k]
  }

  lemma RemoveCard(store: Store, k: string)
    requires k in store
    ensures |store - {k}| == |store| - 1
  {
    assert (store - {k}).Keys == store.Keys - {k};
  }

  // ---------------------------------------------------------------------------
  // The order of the `by-timestamp` index: ascending timestamp, and for equal
  // timestamps ascending primary key.
  // ---------------------------------------------------------------------------

  predicate Before(ka: string, ea: Entry, kb: string, eb: Entry) {
    ea.timestamp < eb.timestamp || (ea.timestamp == eb.timestamp && LexLess(ka, kb))
  }

  lemma BeforeIrreflexive(k: string, e: Entry)
    ensures !Before(k, e, k, e)
  {
    LexLessIrreflexive(k);
  }

  lemma BeforeAsymmetric(ka: string, ea: Entry, kb: string, eb: Entry)
    ensures !(Before(ka, ea, kb, eb) && Before(kb, eb, ka, ea))
  {
    LexLessAsymmetric(ka, kb);
  }

  lemma BeforeTransitive(ka: string, ea: Entry, kb: string, eb: Entry, kc: string, ec: Entry)
    requires Before(ka, ea, kb, eb) && Before(kb, eb, kc, ec)
    ensures Before(ka, ea, kc, ec)
  {
    if ea.timestamp == eb.timestamp == ec.timestamp {
      LexLessTransitive(ka, kb, kc);
    }
  }

  lemma BeforeTotal(ka: string, ea: Entry, kb: string, eb: Entry)
    requires ka != kb
    ensures Before(ka, ea, kb, eb) || Before(kb, eb, ka, ea)
  {
    LexLessTotal(ka, kb);
  }

  /** `k` is the first entry the index cursor visits. */
  predicate IsOldest(store: Store, k: string) {
    k in store && forall o {:trigger Before(k, store[k], o, store[o])} :: o in store && o != k ==> Before(k, store[k], o, store[o])
  }

  lemma OldestExists(store: Store)
    requires |store| > 0
    ensures exists k :: IsOldest(store, k)
    decreases |store|
  {
    var x :| x in store;
    var rest := store - {x};
    RemoveCard(store, x);
    if |rest| == 0 {
      assert forall o :: o in store ==> o == x || o in rest;
      assert IsOldest(store, x);
    } else {
      OldestExists(rest);
      var m :| IsOldest(rest, m);
      if Before(x, store[x], m, store[m]) {
        forall o | o in store && o != x ensures Before(x, store[x], o, store[o]) {
          if o != m {
            assert o in rest && rest[o] == store[o] && rest[m] == store[m];
            BeforeTransitive(x, store[x], m, store[m], o, store[o]);
          }
        }
        assert IsOldest(store, x);
      } else {
        BeforeTotal(x, store[x], m, store[m]);
        forall o | o in store && o != m ensures Before(m, store[m], o, store[o]) {
          if o != x {
            assert o in rest && rest[o] == store[o] && rest[m] == store[m];
          }
        }
        assert IsOldest(store, m);
      }
    }
  }

  lemma OldestUnique(store: Store)
    ensures forall a, b :: IsOldest(store, a) && IsOldest(store, b) ==> a == b
  {
    forall a, b | IsOldest(store, a) && IsOldest(store, b) ensures a == b {
      if a != b {
        BeforeAsymmetric(a, store[a], b, store[b]);
      }
    }
  }

  /** The entry with the smallest (timestamp, key). */
  function Oldest(store: Store): (k: string)
    requires |store| > 0
    ensures IsOldest(store, k)
  {
    OldestExists(store);
    OldestUnique(store);
    var k :| IsOldest(store, k);
    k
  }

  lemma OldestAfterRemove(store: Store, x: string)
    requires x in store && |store| > 1 && x != Oldest(store)
    ensures |store - {x}| > 0 && Oldest(store - {x}) == Oldest(store)
  {
    var o := Oldest(store);
    assert o in store - {x};
    assert IsOldest(store - {x}, o);
    OldestUnique(store - {x});
  }

  /** The sequence of keys in index order: the order in which eviction visits them. */
  function EvictionOrder(store: Store): (order: seq<string>)
    ensures |order| == |store|
    ensures forall k :: k in order <==> k in store
    decreases |store|
  {
    if |store| == 0 then []
    else
      var k := Oldest(store);
      RemoveCard(store, k);
      [k] + EvictionOrder(store - {k})
  }

  /** Every key of `order` is stored and comes before every key after it. */
  predicate Ascending(store: Store, order: seq<string>) {
    forall i, j :: 0 <= i < j < |order| ==>
      order[i] in store && order[j] in store && Before(order[i], store[order[i]], order[j], store[order[j]])
  }

  /** The oldest key in front of an ascending walk of the others gives an ascending walk of all. */
  lemma AscendingCons(store: Store, k: string, tail: seq<string>)
    requires IsOldest(store, k)
    requires forall x :: x in tail ==> x in store && x != k
    requires Ascending(store - {k}, tail)
    ensures Ascending(store, [k] + tail)
  {
    var rest := store - {k};
    var order := [k] + tail;
    forall i, j | 0 <= i < j < |order|
      ensures order[i] in store && order[j] in store && Before(order[i], store[order[i]], order[j], store[order[j]])
    {
      var b := tail[j - 1];
      assert order[j] == b && b in store && b != k;
      if i == 0 {
        assert Before(k, store[k], b, store[b]);
      } else {
        var a := tail[i - 1];
        assert order[i] == a;
        assert Before(a, rest[a], b, rest[b]);
      }
    }
  }

  /** The walk visits the keys oldest first. */
  lemma {:induction false} EvictionOrderAscending(store: Store)
    ensures Ascending(store, EvictionOrder(store))
    decreases |store|
  {
    if |store| > 0 {
      var k := Oldest(store);
      var rest := store - {k};
      RemoveCard(store, k);
      var tail := EvictionOrder(rest);
      EvictionOrderAscending(rest);
      assert EvictionOrder(store) == [k] + tail;
      AscendingCons(store, k, tail);
    }
  }

  // ---------------------------------------------------------------------------
  // Sizes
  // ---------------------------------------------------------------------------

  /** `getCacheSize`: the sum of the entries' sizes. */
  function Total(store: Store): nat
    decreases |store|
  {
    if |store| == 0 then 0
    else
      var k := Oldest(store);
      RemoveCard(store, k);
      store[k].size + Total(store - {k})
  }

  /** One step of the sum, taking the oldest entry out. */
  lemma TotalUnfold(store: Store, k: string)
    requires |store| > 0 && k == Oldest(store)
    ensures Total(store) == store[k].size + Total(store - {k})
  {
  }

  /** The total does not depend on which entry is taken out first. */
  lemma {:induction false} TotalRemove(store: Store, x: string)
    requires x in store
    ensures Total(store) == store[x].size + Total(store - {x})
    decreases |store|
  {
    var o := Oldest(store);
    if x != o {
      var so := store - {o};
      var sx := store - {x};
      assert Total(store) == store[o].size + Total(so) by {
        TotalUnfold(store, o);
      }
      assert Total(so) == store[x].size + Total(so - {x}) by {
        RemoveCard(store, o);
        assert x in so && so[x] == store[x];
        TotalRemove(so, x);
      }
      assert Total(sx) == store[o].size + Total(sx - {o}) by {
        OldestAfterRemove(store, x);
        TotalUnfold(sx, o);
      }
      assert so - {x} == sx - {o};
    } else {
      TotalUnfold(store, o);
    }
  }

  lemma TotalUpdate(store: Store, k: string, e: Entry)
    ensures Total(store[k := e]) == e.size + Total(store - {k})
  {
    TotalRemove(store[k := e], k);
    assert store[k := e] - {k} == store - {k};
  }

  // ---------------------------------------------------------------------------
  // Eviction (`ensureCacheSize`)
  // ---------------------------------------------------------------------------

  /**
   * The cursor walk over the `by-timestamp` index: while entries remain and
   * `freed < n`, delete the oldest entry and add its size to `freed`.
   */
  function EvictOldest(store: Store, n: nat, freed: nat): (r: Store)
    ensures SubStore(r, store)
    ensures freed >= n ==> r == store
    decreases |store|
  {
    if freed >= n || |store| == 0 then store
    else
      var k := Oldest(store);
      RemoveCard(store, k);
      EvictOldest(store - {k}, n, freed + store[k].size)
  }

  lemma EvictOldestUnfold(store: Store, k: string, n: nat, freed: nat)
    requires freed < n && |store| > 0 && k == Oldest(store)
    ensures EvictOldest(store, n, freed) == EvictOldest(store - {k}, n, freed + store[k].size)
  {
  }

  /** The walk stops only once the bytes freed reach `n` or nothing is left to delete. */
  lemma {:induction false} EvictOldestFreesEnough(store: Store, n: nat, freed: nat)
    ensures var r := EvictOldest(store, n, freed);
      && Total(r) <= Total(store)
      && (freed + (Total(store) - Total(r)) >= n || |r| == 0)
    decreases |store|
  {
    if freed < n && |store| > 0 {
      var k := Oldest(store);
      RemoveCard(store, k);
      EvictOldestUnfold(store, k, n, freed);
      EvictOldestFreesEnough(store - {k}, n, freed + store[k].size);
      TotalRemove(store, k);
    }
  }

  /** Every deleted entry precedes every surviving one in index order. */
  lemma {:induction false} EvictOldestTakesOldest(store: Store, n: nat, freed: nat)
    ensures var r := EvictOldest(store, n, freed);
      forall d, k :: d in store && d !in r && k in r ==> Before(d, store[d], k, store[k])
    decreases |store|
  {
    if freed < n && |store| > 0 {
      var k := Oldest(store);
      RemoveCard(store, k);
      EvictOldestUnfold(store, k, n, freed);
      var r := EvictOldest(store - {k}, n, freed + store[k].size);
      EvictOldestTakesOldest(store - {k}, n, freed + store[k].size);
      forall d, o | d in store && d !in r && o in r ensures Before(d, store[d], o, store[o]) {
        if d != k {
          assert d in store - {k};
        }
      }
    }
  }

  /** The entries the index visits before `d`. */
  function OlderThan(store: Store, d: string): (r: Store)
    requires d in store
    ensures forall k :: k in r <==> k in store && Before(k, store[k], d, store[d])
    ensures SubStore(r, store)
  {
    map k | k in store && Before(k, store[k], d, store[d]) :: store[k]
  }

  /** Nothing precedes the oldest entry. */
  lemma OlderThanOldest(store: Store, k: string)
    requires |store| > 0 && k == Oldest(store)
    ensures Total(OlderThan(store, k)) == 0
  {
    assert OlderThan(store, k) == map[] by {
      forall o | o in store && o != k ensures !Before(o, store[o], k, store[k]) {
        BeforeAsymmetric(o, store[o], k, store[k]);
      }
      BeforeIrreflexive(k, store[k]);
    }
  }

  /** For any later entry, the oldest one is among those before it. */
  lemma OlderThanStep(store: Store, k: string, d: string)
    requires |store| > 0 && k == Oldest(store) && d in store && d != k
    ensures Total(OlderThan(store, d)) == store[k].size + Total(OlderThan(store - {k}, d))
  {
    var older := OlderThan(store, d);
    assert k in older;
    TotalRemove(older, k);
    assert older - {k} == OlderThan(store - {k}, d);
  }

  /**
   * Every entry of `store` missing from `r` was reached while the bytes freed so
   * far, `freed` plus the sizes of the entries before it, were still short of `n`.
   */
  predicate StopsEarly(store: Store, n: nat, freed: nat, r: Store) {
    forall d :: d in store && d !in r ==> freed + Total(OlderThan(store, d)) < n
  }

  lemma StopsEarlyStep(store: Store, k: string, n: nat, freed: nat, r: Store)
    requires freed < n && |store| > 0 && k == Oldest(store)
    requires StopsEarly(store - {k}, n, freed + store[k].size, r)
    ensures StopsEarly(store, n, freed, r)
  {
    forall d | d in store && d !in r ensures freed + Total(OlderThan(store, d)) < n {
      if d == k {
        OlderThanOldest(store, k);
      } else {
        assert d in store - {k};
        OlderThanStep(store, k, d);
      }
    }
  }

  /**
   * The walk stops as soon as it may. With `EvictOldestTakesOldest` and
   * `EvictOldestFreesEnough` this pins the deleted set down to the shortest run
   * of oldest entries that frees `n` bytes.
   */
  lemma {:induction false} EvictOldestStopsEarly(store: Store, n: nat, freed: nat)
    ensures StopsEarly(store, n, freed, EvictOldest(store, n, freed))
    decreases |store|
  {
    if freed < n && |store| > 0 {
      var k := Oldest(store);
      var rest := store - {k};
      var f := freed + store[k].size;
      var r := EvictOldest(rest, n, f);
      assert EvictOldest(store, n, freed) == r by {
        EvictOldestUnfold(store, k, n, freed);
      }
      assert StopsEarly(rest, n, f, r) by {
        RemoveCard(store, k);
        EvictOldestStopsEarly(rest, n, f);
      }
      StopsEarlyStep(store, k, n, freed, r);
    } else {
      assert EvictOldest(store, n, freed) == store;
    }
  }

  /**
   * `ensureCacheSize(n)`: nothing happens when the current total plus `n` fits
   * the budget; otherwise the oldest entries are deleted until the freed bytes
   * reach `n` or the store is empty.
   */
  function EnsureCacheSize(store: Store, n: nat, maxSize: nat): (r: Store)
    ensures Total(store) + n <= maxSize ==> r == store
    ensures SubStore(r, store)
    ensures Total(store) + n > maxSize ==> Total(r) + n <= Total(store) || |r| == 0
    ensures forall d, k :: d in store && d !in r && k in r ==> Before(d, store[d], k, store[k])
  {
    if Total(store) + n <= maxSize then store
    else
      EvictOldestFreesEnough(store, n, 0);
      EvictOldestTakesOldest(store, n, 0);
      EvictOldest(store, n, 0)
  }

  /** When eviction runs, no entry is deleted once the bytes already freed before it reach `n`. */
  lemma EnsureCacheSizeStopsEarly(store: Store, n: nat, maxSize: nat)
    ensures StopsEarly(store, n, 0, EnsureCacheSize(store, n, maxSize))
  {
    if Total(store) + n > maxSize {
      EvictOldestStopsEarly(store, n, 0);
    }
  }

  // ---------------------------------------------------------------------------
  // The public operations
  // ---------------------------------------------------------------------------

  datatype ReadResult = ReadResult(store: Store, blob: Option<Blob>)

  /**
   * `get(url)`: look the normalised key up; a stale entry is deleted and reported
   * absent, a fresh one is returned without touching its timestamp.
   */
  function Get(store: Store, url: string, now: int, cfg: Config): (r: ReadResult)
    ensures var key := UrlNormalizer.Normalize(url, cfg.protocol);
      && (r.blob.Some? <==> key in store && !Expired(store[key], now, cfg.expiry))
      && (r.blob.Some? ==> r.blob.value == store[key].blob && r.store == store)
      && (r.blob.None? ==> r.store == store - {key})
  {
    var key := UrlNormalizer.Normalize(url, cfg.protocol);
    if key !in store then
      assert store - {key} == store;
      ReadResult(store, None)
    else if Expired(store[key], now, cfg.expiry) then ReadResult(store - {key}, None)
    else ReadResult(store, Some(store[key].blob))
  }

  /**
   * `set(url, blob)`: make room for the blob, then write one entry under the
   * normalised key stamped with the current time, replacing any earlier one.
   */
  function Set(store: Store, url: string, blob: Blob, now: int, cfg: Config): (r: Store)
    ensures var key := UrlNormalizer.Normalize(url, cfg.protocol);
      && key in r && r[key] == Entry(blob, now, blob.Size(), blob.mimeType)
      && (forall k :: k in r && k != key ==> k in store && r[k] == store[k])
      && (Total(store) + blob.Size() <= cfg.maxSize ==> forall k :: k in store ==> k in r)
      && (forall d, k :: d in store && d !in r && k in r && k != key ==> Before(d, store[d], k, store[k]))
  {
    var kept := EnsureCacheSize(store, blob.Size(), cfg.maxSize);
    var key := UrlNormalizer.Normalize(url, cfg.protocol);
    kept[key := Entry(blob, now, blob.Size(), blob.mimeType)]
  }

  /** `delete(url)`: the key is used exactly as given, without normalisation. */
  function Delete(store: Store, key: string): (r: Store)
    ensures key !in r
    ensures forall k :: k != key ==> (k in r <==> k in store)
    ensures SubStore(r, store)
  {
    store - {key}
  }

  /** `clear()`. */
  function Clear(): (r: Store)
    ensures |r| == 0
  {
    map[]
  }

  /** `clearExpired()`: one sweep at time `now`. */
  function ClearExpired(store: Store, now: int, expiry: nat): (r: Store)
    ensures forall k :: k in r <==> k in store && !Expired(store[k], now, expiry)
    ensures SubStore(r, store)
  {
    map k | k in store && !Expired(store[k], now, expiry) :: store[k]
  }

  datatype Stats = Stats(count: nat, totalSize: nat, oldestTimestamp: int, newestTimestamp: int)

  /** `getStats()`: all zero for an empty store. */
  function GetStats(store: Store): (r: Stats)
    ensures |store| == 0 ==> r == Stats(0, 0, 0, 0)
    ensures |store| > 0 ==>
      && r.count == |store| && r.totalSize == Total(store)
      && (forall k :: k in store ==> r.oldestTimestamp <= store[k].timestamp <= r.newestTimestamp)
      && (exists k :: k in store && store[k].timestamp == r.oldestTimestamp)
      && (exists k :: k in store && store[k].timestamp == r.newestTimestamp)
  {
    if |store| == 0 then Stats(0, 0, 0, 0)
    else
      var order := EvictionOrder(store);
      var first := order[0];
      var last := order[|order| - 1];
      EvictionOrderAscending(store);
      assert forall k :: k in store ==> store[first].timestamp <= store[k].timestamp <= store[last].timestamp by {
        forall k | k in store
          ensures store[first].timestamp <= store[k].timestamp <= store[last].timestamp
        {
          var i :| 0 <= i < |order| && order[i] == k;
          if i > 0 { assert Before(first, store[first], k, store[k]); }
          if i < |order| - 1 { assert Before(k, store[k], last, store[last]); }
        }
      }
      Stats(|store|, Total(store), store[first].timestamp, store[last].timestamp)
  }

  /** What the network answered: a body, a non-ok status, or a rejected request. */
  datatype FetchResult = Fetched(blob: Blob) | HttpError(status: int) | NetworkError

  /** The new store, the blob handed to the caller, and the URLs requested from the network. */
  datatype Outcome = Outcome(store: Store, blob: Option<Blob>, requests: seq<string>)

  /**
   * `fetchAndCache(url)`: request the normalised URL; any failure yields no blob;
   * a body is returned to the caller whatever its type, and written to the cache
   * only when its MIME type starts with `image/`.
   */
  function FetchAndCache(store: Store, url: string, response: FetchResult, now: int, cfg: Config): (r: Outcome)
    ensures r.requests == [UrlNormalizer.Normalize(url, cfg.protocol)]
    ensures !response.Fetched? ==> r.blob == None && r.store == store
    ensures response.Fetched? ==> r.blob == Some(response.blob)
    ensures response.Fetched? && !StartsWith(response.blob.mimeType, "image/") ==> r.store == store
    ensures response.Fetched? && StartsWith(response.blob.mimeType, "image/") ==>
      r.store == Set(store, url, response.blob, now, cfg)
  {
    var key := UrlNormalizer.Normalize(url, cfg.protocol);
    UrlNormalizer.NormalizeIdempotent(url, cfg.protocol);
    match response
    case Fetched(blob) =>
      if StartsWith(blob.mimeType, "image/") then Outcome(Set(store, key, blob, now, cfg), Some(blob), [key])
      else Outcome(store, Some(blob), [key])
    case _ => Outcome(store, None, [key])
  }

  /** `getOrFetch(url)`: the cache first, the network only on a miss. */
  function GetOrFetch(store: Store, url: string, response: FetchResult, now: int, cfg: Config): (r: Outcome)
    ensures var key := UrlNormalizer.Normalize(url, cfg.protocol);
      && (key in store && !Expired(store[key], now, cfg.expiry) ==>
            r == Outcome(store, Some(store[key].blob), []))
      && (!(key in store && !Expired(store[key], now, cfg.expiry)) ==>
            r == FetchAndCache(store - {key}, url, response, now, cfg))
  {
    var got := Get(store, url, now, cfg);
    if got.blob.Some? then Outcome(got.store, got.blob, [])
    else FetchAndCache(got.store, url, response, now, cfg)
  }

  // ---------------------------------------------------------------------------
  // Properties
  // ---------------------------------------------------------------------------

  /**
   * The quota holds across `set`: a store within budget stays within budget,
   * provided the new blob fits the budget on its own.
   */
  lemma SetPreservesQuota(store: Store, url: string, blob: Blob, now: int, cfg: Config)
    requires Total(store) <= cfg.maxSize
    requires blob.Size() <= cfg.maxSize
    ensures Total(Set(store, url, blob, now, cfg)) <= cfg.maxSize
  {
    var kept := EnsureCacheSize(store, blob.Size(), cfg.maxSize);
    var key := UrlNormalizer.Normalize(url, cfg.protocol);
    var e := Entry(blob, now, blob.Size(), blob.mimeType);
    TotalUpdate(kept, key, e);
    if key in kept {
      TotalRemove(kept, key);
    } else {
      assert kept - {key} == kept;
    }
    if |kept| == 0 {
      assert kept - {key} == kept;
    }
  }

  /** A blob larger than the budget is still stored after the store is emptied, so the budget is exceeded. */
  lemma OversizeBlobExceedsQuota(store: Store, url: string, blob: Blob, now: int, cfg: Config)
    requires blob.Size() > cfg.maxSize
    ensures Total(Set(store, url, blob, now, cfg)) > cfg.maxSize
  {
    var kept := EnsureCacheSize(store, blob.Size(), cfg.maxSize);
    var key := UrlNormalizer.Normalize(url, cfg.protocol);
    TotalUpdate(kept, key, Entry(blob, now, blob.Size(), blob.mimeType));
  }

  lemma TotalSingle(k: string, e: Entry)
    ensures Total(map[k := e]) == e.size
  {
    TotalRemove(map[k := e], k);
    assert map[k := e] - {k} == map[];
  }

  lemma TotalPair(ka: string, ea: Entry, kb: string, eb: Entry)
    requires ka != kb
    ensures Total(map[ka := ea, kb := eb]) == ea.size + eb.size
  {
    var m := map[ka := ea, kb := eb];
    TotalRemove(m, ka);
    assert m - {ka} == map[kb := eb];
    TotalSingle(kb, eb);
  }

  /** The worked example: budget 10 holding A(4, t=1) and B(4, t=2); inserting C(3) evicts only A. */
  lemma EvictionExample(a: Blob, b: Blob, c: Blob)
    requires a.Size() == 4 && b.Size() == 4 && c.Size() == 3
    ensures var cfg := Config("https", 10, CacheExpiry);
      var store := map["a" := Entry(a, 1, 4, a.mimeType), "b" := Entry(b, 2, 4, b.mimeType)];
      var r := Set(store, "c", c, 3, cfg);
      r.Keys == {"b", "c"} && Total(r) == 7
  {
    var cfg := Config("https", 10, CacheExpiry);
    var ea := Entry(a, 1, 4, a.mimeType);
    var eb := Entry(b, 2, 4, b.mimeType);
    var ec := Entry(c, 3, 3, c.mimeType);
    var store := map["a" := ea, "b" := eb];
    assert Total(store) == 8 by {
      TotalPair("a", ea, "b", eb);
    }
    assert Oldest(store) == "a" by {
      assert Before("a", ea, "b", eb);
      assert IsOldest(store, "a");
      OldestUnique(store);
    }
    var kept := EnsureCacheSize(store, 3, 10);
    assert kept == map["b" := eb] by {
      EvictOldestUnfold(store, "a", 3, 0);
      assert store - {"a"} == map["b" := eb];
    }
    assert Set(store, "c", c, 3, cfg) == map["b" := eb, "c" := ec] by {
      assert UrlNormalizer.Normalize("c", "https") == "c";
    }
    assert Total(map["b" := eb, "c" := ec]) == 7 by {
      TotalPair("b", eb, "c", ec);
    }
  }

  /** Staleness is monotone in time: once expired, an entry stays expired. */
  lemma ExpiryMonotone(e: Entry, t1: int, t2: int, expiry: nat)
    requires t1 <= t2 && Expired(e, t1, expiry)
    ensures Expired(e, t2, expiry)
  {
  }

  /** A later sweep keeps no more than an earlier one. */
  lemma ClearExpiredMonotone(store: Store, t1: int, t2: int, expiry: nat)
    requires t1 <= t2
    ensures ClearExpired(store, t2, expiry).Keys <= ClearExpired(store, t1, expiry).Keys
  {
  }

  /** Sweeping twice at the same time removes nothing more. */
  lemma ClearExpiredIdempotent(store: Store, now: int, expiry: nat)
    ensures ClearExpired(ClearExpired(store, now, expiry), now, expiry) == ClearExpired(store, now, expiry)
  {
  }

  /** `get` serves a key exactly when a sweep at the same instant would keep it. */
  lemma GetAgreesWithSweep(store: Store, url: string, now: int, cfg: Config)
    ensures Get(store, url, now, cfg).blob.Some?
        <==> UrlNormalizer.Normalize(url, cfg.protocol) in ClearExpired(store, now, cfg.expiry)
  {
  }

  /** The comparison is strict: an entry exactly `expiry` old is still served, one millisecond later it is not. */
  lemma ExpiryBoundary(store: Store, url: string, t: int, cfg: Config)
    requires var key := UrlNormalizer.Normalize(url, cfg.protocol); key in store && store[key].timestamp == t
    ensures Get(store, url, t + cfg.expiry, cfg).blob.Some?
    ensures Get(store, url, t + cfg.expiry + 1, cfg).blob == None
    ensures UrlNormalizer.Normalize(url, cfg.protocol) !in Get(store, url, t + cfg.expiry + 1, cfg).store
  {
  }

  /** Two reads with no write between them return the same blob, and the second changes nothing. */
  lemma GetTwice(store: Store, url: string, now: int, cfg: Config)
    ensures var first := Get(store, url, now, cfg);
      var second := Get(first.store, url, now, cfg);
      second.blob == first.blob && second.store == first.store
  {
    var key := UrlNormalizer.Normalize(url, cfg.protocol);
    var first := Get(store, url, now, cfg);
    if first.blob.None? {
      assert first.store - {key} == first.store;
    }
  }

  /** A URL stored through `set` under either scheme is found again under the other. */
  lemma SetThenGet(store: Store, url: string, blob: Blob, now: int, cfg: Config)
    ensures Get(Set(store, url, blob, now, cfg), UrlNormalizer.Normalize(url, cfg.protocol), now, cfg).blob == Some(blob)
  {
    UrlNormalizer.NormalizeIdempotent(url, cfg.protocol);
  }

  /** Writing a key again resets its age: a sweep that would have removed the first write keeps the second. */
  lemma OverwriteResetsAge(store: Store, url: string, b1: Blob, b2: Blob, cfg: Config, t1: int, t2: int, t: int)
    requires t1 + cfg.expiry < t <= t2 + cfg.expiry
    ensures var key := UrlNormalizer.Normalize(url, cfg.protocol);
      var s1 := Set(store, url, b1, t1, cfg);
      var s2 := Set(s1, url, b2, t2, cfg);
      key !in ClearExpired(s1, t, cfg.expiry) && key in ClearExpired(s2, t, cfg.expiry)
  {
  }

  /** A failed request leaves the cache as it was and hands back nothing. */
  lemma FailureIsAbsent(store: Store, url: string, status: int, now: int, cfg: Config)
    ensures FetchAndCache(store, url, HttpError(status), now, cfg) == Outcome(store, None, [UrlNormalizer.Normalize(url, cfg.protocol)])
    ensures FetchAndCache(store, url, NetworkError, now, cfg).blob == None
  {
  }

  /** A non-image body is returned but not stored, so the cache size is unchanged. */
  lemma NonImageNotPersisted(store: Store, url: string, blob: Blob, now: int, cfg: Config)
    requires !StartsWith(blob.mimeType, "image/")
    ensures var r := FetchAndCache(store, url, Fetched(blob), now, cfg);
      r.blob == Some(blob) && Total(r.store) == Total(store)
  {
  }

  /** An image body is stored under the normalised key and served by the next read. */
  lemma ImageIsPersisted(store: Store, url: string, blob: Blob, now: int, cfg: Config)
    requires StartsWith(blob.mimeType, "image/")
    ensures var r := FetchAndCache(store, url, Fetched(blob), now, cfg);
      Get(r.store, url, now, cfg).blob == Some(blob)
  {
    SetThenGet(store, url, blob, now, cfg);
    UrlNormalizer.NormalizeIdempotent(url, cfg.protocol);
  }
}

=== FILE: import_validation.dfy ===
/**
 * The pre-import check of an uploaded file (`validate_import_file`): it
 * reports the file's type, version and export time and counts the items of
 * each section, for the confirmation dialog shown before importing.
 *
 * The check fills its result in place while reading: it sets `valid` before
 * it has read the document, so a document that is not an object, or a section
 * whose size cannot be taken, leaves `valid` set next to an error.
 * `ValidateAsWritten` is that behaviour; `Validate` sets `valid` only once
 * the whole summary is read, and is what the rest of the model uses.
 */
module ImportValidation {
  import opened Wrappers
  import opened Js
  import opened DataExport
  import opened DataImport

  /** The section sizes shown before importing. */
  datatype Preview = Preview(tags: nat, bbtalks: nat, storageSettings: nat)

  /**
   * The check's result. `version` and `exportTime` are `Null` until read;
   * `preview` is `None` while it is still the empty object; `failed` says
   * whether an error message was recorded (its text is not modelled).
   */
  datatype Check = Check(valid: bool, fileType: Option<string>, version: Json, exportTime: Json, preview: Option<Preview>, failed: bool)

  const Blank := Check(false, None, Null, Null, None, false)

  /** Python's `len`: defined for strings, lists and objects only. */
  function PyLen(j: Json): (n: Option<nat>)
    ensures n.Some? <==> j.Str? || j.Arr? || j.Obj?
    ensures j.Arr? ==> n == Some(|j.items|)
  {
    match j
    case Str(s) => Some(|s|)
    case Arr(items) => Some(|items|)
    case Obj(fields) => Some(|fields|)
    case _ => None
  }

  /** `len(data.get(key, []))`. */
  function Count(f: map<string, Json>, key: string): Option<nat> {
    if key in f then PyLen(f[key]) else Some(0)
  }

  /** Every section has a size. */
  predicate Sized(f: map<string, Json>) {
    Count(f, "tags").Some? && Count(f, "bbtalks").Some? && Count(f, "storage_settings").Some?
  }

  /** The preview of a document, or `None` when reading it raises: the document is not an object or a section has no size. */
  function PreviewOf(data: Json): (p: Option<Preview>)
    ensures p.Some? <==> data.Obj? && Sized(data.fields)
  {
    if !data.Obj? then None
    else
      var f := data.fields;
      match (Count(f, "tags"), Count(f, "bbtalks"), Count(f, "storage_settings"))
      case (Some(t), Some(b), Some(s)) => Some(Preview(t, b, s))
      case _ => None
  }

  /** How one `try` body ended: by returning its result, or by raising with the result as far as it was filled. */
  datatype Attempt = Returned(result: Check) | Raised(result: Check)

  /** One `try` body as written: mark the file valid, then read the version, export time and counts, in that order. */
  function ReadAsWritten(r: Check, data: Json, kind: string): (a: Attempt)
    ensures a.result.valid && a.result.fileType == Some(kind)
    ensures a.Returned? <==> PreviewOf(data).Some?
    ensures a.result.failed == r.failed
  {
    var marked := r.(fileType := Some(kind), valid := true);
    if !data.Obj? then Raised(marked)
    else
      var read := marked.(version := Get(data.fields, "version", Null), exportTime := Get(data.fields, "export_time", Null));
      match PreviewOf(data)
      case None => Raised(read)
      case Some(p) => Returned(read.(preview := Some(p)))
  }

  /** The ZIP archive's parsed `data.json`, when the upload is an archive with a readable one. */
  function ZipData(u: Upload): Option<Json> {
    if u.zip.Some? && u.zip.value.dataJson.Some? && u.zip.value.dataJson.value.Parsed?
    then Some(u.zip.value.dataJson.value.value) else None
  }

  /**
   * `validate_import_file` as written: the ZIP attempt first, whose failure is
   * ignored; then the JSON attempt, whose failure is recorded as the error, with
   * whatever the attempts had already written left in place.
   */
  function ValidateAsWritten(u: Upload): (r: Check)
    ensures ZipData(u).Some? && PreviewOf(ZipData(u).value).Some? ==> r.valid && !r.failed && r.fileType == Some("zip")
    ensures r.failed ==> !(u.text.Parsed? && PreviewOf(u.text.value).Some?)
  {
    var afterZip := if ZipData(u).Some? then ReadAsWritten(Blank, ZipData(u).value, "zip") else Raised(Blank);
    if afterZip.Returned? then afterZip.result
    else
      match u.text
      case Parsed(data) =>
        (match ReadAsWritten(afterZip.result, data, "json")
         case Returned(done) => done
         case Raised(partial) => partial.(failed := true))
      case _ => afterZip.result.(failed := true)
  }

  /** A JSON file holding a list is reported valid and failed at once. */
  lemma ListFileIsValidAndFailed()
    ensures ValidateAsWritten(Upload(None, Parsed(Arr([])))) == Check(true, Some("json"), Null, Null, None, true)
  {
  }

  /** More generally, any JSON file whose top level is not an object is reported valid, with an error and no preview. */
  lemma NonObjectFileIsValidAndFailed(text: Json)
    requires !text.Obj?
    ensures var r := ValidateAsWritten(Upload(None, Parsed(text)));
      r.valid && r.failed && r.preview.None?
  {
  }

  /** The summary of a readable document. */
  function Summary(data: Json, kind: string): (r: Check)
    requires PreviewOf(data).Some?
    ensures r.valid && !r.failed && r.fileType == Some(kind) && r.preview == PreviewOf(data)
  {
    Check(true, Some(kind), Get(data.fields, "version", Null), Get(data.fields, "export_time", Null), PreviewOf(data), false)
  }

  /**
   * `validate_import_file` with `valid` set only once the summary is read: the
   * ZIP archive's document when it reads, else the file's JSON text when it
   * reads, else an error.
   */
  function Validate(u: Upload): (r: Check)
    ensures r.valid <==> !r.failed
    ensures r.valid ==> r.preview.Some?
    ensures r.valid <==> (ZipData(u).Some? && PreviewOf(ZipData(u).value).Some?)
                         || (u.text.Parsed? && PreviewOf(u.text.value).Some?)
    ensures !r.valid ==> r == Blank.(failed := true)
  {
    if ZipData(u).Some? && PreviewOf(ZipData(u).value).Some? then Summary(ZipData(u).value, "zip")
    else if u.text.Parsed? && PreviewOf(u.text.value).Some? then Summary(u.text.value, "json")
    else Blank.(failed := true)
  }

  /** Whenever the check as written records no error, it agrees with the corrected check. */
  lemma ValidateAgreesWithoutError(u: Upload)
    requires !ValidateAsWritten(u).failed
    ensures Validate(u) == ValidateAsWritten(u)
  {
  }

  /** An exported document passes the check with the export's version and sizes. */
  lemma ExportValidates(acc: Account, exportTime: int)
    ensures var r := Validate(Upload(None, Parsed(ExportAll(acc, exportTime))));
      && r.valid && r.fileType == Some("json") && r.version == Str(Version)
      && r.preview == Some(Preview(|acc.tags|, |acc.posts|, |acc.storage|))
  {
    ExportedSections(acc, exportTime);
  }

  /** So does its package, whatever the package's bytes give read as text. */
  lemma PackageValidates(acc: Account, exportTime: int, includeAttachments: bool, text: Reading)
    ensures var r := Validate(Upload(Some(Package(ExportZip(acc, exportTime, includeAttachments))), text));
      && r.valid && r.fileType == Some("zip") && r.version == Str(Version)
      && r.preview == Some(Preview(|acc.tags|, |acc.posts|, |acc.storage|))
  {
    var doc := ExportAll(acc, exportTime);
    ExportValidates(acc, exportTime);
    assert ZipData(Upload(Some(Package(ExportZip(acc, exportTime, includeAttachments))), text)) == Some(doc);
  }
}

=== FILE: js.dfy ===
/**
 * JavaScript values as the front end handles them: optional strings with `||`
 * truthiness, and JSON documents for the free-form fields (`context`, API
 * payloads).
 */
module Js {
  import opened Wrappers

  /** Truthiness of a string that may be `undefined` or `null` (`None`): only a non-empty string is truthy. */
  predicate Truthy(o: Option<string>) {
    o.Some? && o.value != ""
  }

  /** `a || b`: the first operand when it is truthy, otherwise the second, whatever it is. */
  function Or(a: Option<string>, b: Option<string>): (r: Option<string>)
    ensures Truthy(a) ==> r == a
    ensures !Truthy(a) ==> r == b
    ensures Truthy(r) <==> Truthy(a) || Truthy(b)
  {
    if Truthy(a) then a else b
  }

  /** A JSON value. */
  datatype Json =
    | Null
    | Bool(b: bool)
    | Num(n: real)
    | Str(s: string)
    | Arr(items: seq<Json>)
    | Obj(fields: map<string, Json>)

  /** JavaScript truthiness of a JSON value: arrays and objects are truthy even when empty. */
  predicate JsonTruthy(j: Json) {
    match j
    case Null => false
    case Bool(b) => b
    case Num(n) => n != 0.0
    case Str(s) => s != ""
    case Arr(_) => true
    case Obj(_) => true
  }

  /** `obj?.key`: the field of an object, `None` for a missing field or a value that is not an object. */
  function Field(j: Json, key: string): (r: Option<Json>)
    ensures r.Some? <==> j.Obj? && key in j.fields
    ensures r.Some? ==> r.value == j.fields[key]
  {
    if j.Obj? && key in j.fields then Some(j.fields[key]) else None
  }
}

=== FILE: lists.dfy ===
/**
 * The array idioms the reducers use on lists of records keyed by an id:
 * `findIndex`, replacing the first match, and `filter` on the id.
 */
module Lists {

  /** `findIndex(x => idOf(x) === id)`: the first position holding `id`, or -1. */
  function FindIndex<T(!new)>(list: seq<T>, idOf: T -> string, id: string): (i: int)
    ensures -1 <= i < |list|
    ensures i >= 0 ==> idOf(list[i]) == id
    ensures forall j :: 0 <= j < |list| && (i < 0 || j < i) ==> idOf(list[j]) != id
  {
    if |list| == 0 then -1
    else if idOf(list[0]) == id then 0
    else
      var k := FindIndex(list[1..], idOf, id);
      if k < 0 then -1 else k + 1
  }

  /** The first-match position is determined by its contract. */
  lemma {:induction false} FindIndexUnique<T(!new)>(list: seq<T>, idOf: T -> string, id: string, i: nat)
    requires i < |list| && idOf(list[i]) == id
    requires forall j :: 0 <= j < i ==> idOf(list[j]) != id
    ensures FindIndex(list, idOf, id) == i
    decreases i
  {
    if i > 0 {
      FindIndexUnique(list[1..], idOf, id, i - 1);
    }
  }

  /** The first item with `x`'s id replaced by `x`; the list is unchanged when there is none. */
  function ReplaceFirst<T(!new)>(list: seq<T>, idOf: T -> string, x: T): (r: seq<T>)
    ensures |r| == |list|
    ensures FindIndex(list, idOf, idOf(x)) < 0 ==> r == list
    ensures FindIndex(list, idOf, idOf(x)) >= 0 ==> r[FindIndex(list, idOf, idOf(x))] == x
    ensures forall j :: 0 <= j < |list| && j != FindIndex(list, idOf, idOf(x)) ==> r[j] == list[j]
  {
    var i := FindIndex(list, idOf, idOf(x));
    if i < 0 then list else list[i := x]
  }

  /** Replacing twice with the same item is the same as replacing once. */
  lemma {:induction false} ReplaceFirstIdempotent<T(!new)>(list: seq<T>, idOf: T -> string, x: T)
    ensures ReplaceFirst(ReplaceFirst(list, idOf, x), idOf, x) == ReplaceFirst(list, idOf, x)
  {
    var i := FindIndex(list, idOf, idOf(x));
    if i >= 0 {
      var r := ReplaceFirst(list, idOf, x);
      assert forall j :: 0 <= j < i ==> r[j] == list[j];
      FindIndexUnique(r, idOf, idOf(x), i);
    }
  }

  /** `filter(x => idOf(x) !== id)`. */
  function Remove<T(!new)>(list: seq<T>, idOf: T -> string, id: string): (r: seq<T>)
    ensures |r| <= |list|
    ensures forall x :: x in r <==> x in list && idOf(x) != id
  {
    if |list| == 0 then []
    else if idOf(list[0]) == id then Remove(list[1..], idOf, id)
    else [list[0]] + Remove(list[1..], idOf, id)
  }

  /** Removal keeps order: removing from a concatenation removes from each part. */
  lemma {:induction false} RemoveAppend<T(!new)>(a: seq<T>, b: seq<T>, idOf: T -> string, id: string)
    ensures Remove(a + b, idOf, id) == Remove(a, idOf, id) + Remove(b, idOf, id)
    decreases |a|
  {
    if |a| == 0 {
      assert a + b == b;
    } else {
      assert (a + b)[1..] == a[1..] + b;
      RemoveAppend(a[1..], b, idOf, id);
    }
  }

  /** `a` is `b` with some items left out and the rest in their order. */
  predicate Subsequence<T(==)>(a: seq<T>, b: seq<T>)
    decreases |b|
  {
    if |b| == 0 then |a| == 0
    else (|a| > 0 && a[0] == b[0] && Subsequence(a[1..], b[1..])) || Subsequence(a, b[1..])
  }

  /** `filter(keep)`: the items `keep` accepts, in their order. */
  function Filter<T(!new)>(s: seq<T>, keep: T -> bool): (r: seq<T>)
    ensures |r| <= |s|
    ensures forall x :: x in r <==> x in s && keep(x)
  {
    if |s| == 0 then []
    else
      assert s == [s[0]] + s[1..];
      (if keep(s[0]) then [s[0]] else []) + Filter(s[1..], keep)
  }

  /** The items that remain keep their relative order. */
  lemma {:induction false} RemoveSubsequence<T(!new)>(list: seq<T>, idOf: T -> string, id: string)
    ensures Subsequence(Remove(list, idOf, id), list)
    decreases |list|
  {
    if |list| > 0 {
      var rest := Remove(list[1..], idOf, id);
      RemoveSubsequence(list[1..], idOf, id);
      if idOf(list[0]) != id {
        assert ([list[0]] + rest)[1..] == rest;
      }
    }
  }

  /** Every item with another id keeps all its copies; the id's items keep none. */
  lemma {:induction false} RemoveCounts<T(!new)>(list: seq<T>, idOf: T -> string, id: string)
    ensures forall x :: multiset(Remove(list, idOf, id))[x] == if idOf(x) != id then multiset(list)[x] else 0
    decreases |list|
  {
    if |list| > 0 {
      RemoveCounts(list[1..], idOf, id);
      assert list == [list[0]] + list[1..];
    }
  }

  /** A list without the id is left as it is. */
  lemma {:induction false} RemoveAbsent<T(!new)>(list: seq<T>, idOf: T -> string, id: string)
    requires forall j :: 0 <= j < |list| ==> idOf(list[j]) != id
    ensures Remove(list, idOf, id) == list
    decreases |list|
  {
    if |list| > 0 {
      RemoveAbsent(list[1..], idOf, id);
    }
  }
}

=== FILE: media_api.dfy ===
/**
 * The attachment transformer of the front end's media API: how a backend
 * attachment record becomes the `Attachment` the UI shows (URL choice, relative
 * prefixing, protocol rewrite, type from the MIME type), and the form fields an
 * upload sends.
 *
 * JavaScript values are modelled as `Option<string>`: `None` is `undefined` or
 * `null`, and a present string is falsy exactly when it is empty.
 */
module MediaApi {
  import opened Wrappers
  import opened Strings
  import opened UrlNormalizer
  import opened Js

  /** `a || b` for a size: a missing size and a size of 0 are both falsy. */
  function OrSize(a: Option<nat>, b: Option<nat>): (r: Option<nat>)
    ensures a.Some? && a.value != 0 ==> r == a
    ensures !(a.Some? && a.value != 0) ==> r == b
  {
    if a.Some? && a.value != 0 then a else b
  }

  /** The fields of a backend attachment record that the transformer reads. */
  datatype RawAttachment = RawAttachment(
    uid: Option<string>,
    id: Option<string>,
    previewUrl: Option<string>,
    url: Option<string>,
    file: Option<string>,
    mediaType: Option<string>,
    kind: Option<string>,
    mimeType: Option<string>,
    filename: Option<string>,
    originalFilename: Option<string>,
    originalName: Option<string>,
    fileSize: Option<nat>,
    size: Option<nat>)

  /** The front end's `Attachment`. */
  datatype Attachment = Attachment(
    uid: string,
    url: Option<string>,
    kind: string,
    filename: Option<string>,
    originalFilename: Option<string>,
    fileSize: Option<nat>,
    mimeType: string)

  /** The build-time settings the transformer reads. */
  datatype Env = Env(apiBaseUrl: string, mediaProtocol: string)

  /** `preview_url || url || file`. */
  function ChooseUrl(d: RawAttachment): (r: Option<string>)
    ensures Truthy(r) <==> Truthy(d.previewUrl) || Truthy(d.url) || Truthy(d.file)
    ensures Truthy(r) ==> r == d.previewUrl || r == d.url || r == d.file
    ensures Truthy(d.previewUrl) ==> r == d.previewUrl
    ensures !Truthy(d.previewUrl) && Truthy(d.url) ==> r == d.url
  {
    Or(Or(d.previewUrl, d.url), d.file)
  }

  /** A server-relative URL (one starting with `/`) gets the API base URL in front. */
  function PrefixRelative(url: Option<string>, base: string): (r: Option<string>)
    ensures Truthy(url) && StartsWith(url.value, "/") ==> r == Some(base + url.value)
    ensures !(Truthy(url) && StartsWith(url.value, "/")) ==> r == url
  {
    if Truthy(url) && StartsWith(url.value, "/") then Some(base + url.value) else url
  }

  /** The protocol rewrite: the same rule as the image cache's `normalizeUrl`. */
  function RewriteProtocol(url: Option<string>, env: string): (r: Option<string>)
    ensures Truthy(url) ==> r == Some(Normalize(url.value, TargetProtocol(env)))
    ensures !Truthy(url) ==> r == url
  {
    if Truthy(url) then Some(Normalize(url.value, TargetProtocol(env))) else url
  }

  /** The type derived from a MIME type when the record names none. */
  function TypeFromMime(mime: string): (t: string)
    ensures t in {"image", "video", "audio", "file"}
    ensures t == "image" <==> StartsWith(mime, "image/")
    ensures t == "video" <==> !StartsWith(mime, "image/") && StartsWith(mime, "video/")
    ensures t == "audio" <==> !StartsWith(mime, "image/") && !StartsWith(mime, "video/") && StartsWith(mime, "audio/")
  {
    if StartsWith(mime, "image/") then "image"
    else if StartsWith(mime, "video/") then "video"
    else if StartsWith(mime, "audio/") then "audio"
    else "file"
  }

  /**
   * The attachment type: `media_type || type || 'file'`, replaced by the MIME
   * prefix's type when neither field is truthy and the MIME type is non-empty.
   */
  function ChooseType(d: RawAttachment, mime: string): (t: string)
    ensures t != ""
    ensures Truthy(d.mediaType) ==> t == d.mediaType.value
    ensures !Truthy(d.mediaType) && Truthy(d.kind) ==> t == d.kind.value
    ensures !Truthy(d.mediaType) && !Truthy(d.kind) ==> t == TypeFromMime(mime)
  {
    var t := if Truthy(d.mediaType) then d.mediaType.value
             else if Truthy(d.kind) then d.kind.value
             else "file";
    if !Truthy(d.mediaType) && !Truthy(d.kind) && mime != "" then TypeFromMime(mime) else t
  }

  /** `transformAttachment`. */
  function Transform(d: RawAttachment, env: Env): (a: Attachment)
    ensures a.url == RewriteProtocol(PrefixRelative(ChooseUrl(d), env.apiBaseUrl), env.mediaProtocol)
    ensures a.kind == ChooseType(d, a.mimeType)
    ensures a.mimeType == (if Truthy(d.mimeType) then d.mimeType.value else "")
    ensures Truthy(d.uid) ==> a.uid == d.uid.value
    ensures !Truthy(d.uid) && Truthy(d.id) ==> a.uid == d.id.value
    ensures !Truthy(d.uid) && !Truthy(d.id) ==> a.uid == ""
    ensures a.filename == Or(d.filename, d.originalName)
    ensures a.originalFilename == Or(d.originalFilename, d.originalName)
    ensures a.fileSize == OrSize(d.fileSize, d.size)
  {
    var mime := if Truthy(d.mimeType) then d.mimeType.value else "";
    Attachment(
      uid := Or(Or(d.uid, d.id), Some("")).value,
      url := RewriteProtocol(PrefixRelative(ChooseUrl(d), env.apiBaseUrl), env.mediaProtocol),
      kind := ChooseType(d, mime),
      filename := Or(d.filename, d.originalName),
      originalFilename := Or(d.originalFilename, d.originalName),
      fileSize := OrSize(d.fileSize, d.size),
      mimeType := mime)
  }

  /**
   * A transformed URL is already normalised: the image cache's `normalizeUrl`
   * with the same target protocol leaves it unchanged, so the cache keys it as is.
   */
  lemma TransformedUrlIsNormalized(d: RawAttachment, env: Env)
    requires Truthy(Transform(d, env).url)
    ensures Normalize(Transform(d, env).url.value, TargetProtocol(env.mediaProtocol)) == Transform(d, env).url.value
  {
    var u := PrefixRelative(ChooseUrl(d), env.apiBaseUrl);
    NormalizeIdempotent(u.value, TargetProtocol(env.mediaProtocol));
  }

  /** A relative URL ends up under the API base, then protocol-normalised; an absolute one is only normalised. */
  lemma RelativeUrlIsPrefixed(d: RawAttachment, env: Env)
    requires Truthy(ChooseUrl(d))
    ensures StartsWith(ChooseUrl(d).value, "/") ==>
      Transform(d, env).url == Some(Normalize(env.apiBaseUrl + ChooseUrl(d).value, TargetProtocol(env.mediaProtocol)))
    ensures !StartsWith(ChooseUrl(d).value, "/") ==>
      Transform(d, env).url == Some(Normalize(ChooseUrl(d).value, TargetProtocol(env.mediaProtocol)))
  {
  }

  /**
   * With no explicit type, the type follows the MIME prefix, image before video
   * before audio, and is `file` for any other MIME type or none at all.
   */
  lemma DerivedType(d: RawAttachment, env: Env)
    requires !Truthy(d.mediaType) && !Truthy(d.kind)
    ensures var a := Transform(d, env);
      && (a.kind == "image" <==> StartsWith(a.mimeType, "image/"))
      && (a.kind == "file" <==>
            !StartsWith(a.mimeType, "image/") && !StartsWith(a.mimeType, "video/") && !StartsWith(a.mimeType, "audio/"))
  {
  }

  /** An explicit type always wins over the MIME type. */
  lemma ExplicitTypeWins(d: RawAttachment, env: Env, mime: string)
    requires Truthy(d.mediaType)
    ensures Transform(d, env).kind == Transform(d.(mimeType := Some(mime)), env).kind == d.mediaType.value
  {
  }

  /** The optional parameters of `upload`. */
  datatype UploadParams = UploadParams(mediaType: Option<string>, description: Option<string>, isPublic: Option<bool>)

  /** `String(b)` for a boolean. */
  function BoolText(b: bool): (s: string)
    ensures s == "true" <==> b
    ensures s == "false" <==> !b
  {
    if b then "true" else "false"
  }

  /**
   * The text form fields `upload` appends after the file, in order: `media_type`
   * and `description` only when truthy, then `is_public` always.
   */
  function UploadFields(params: Option<UploadParams>): (fields: seq<(string, string)>)
    ensures |fields| >= 1 && fields[|fields| - 1].0 == "is_public"
    ensures (exists i :: 0 <= i < |fields| && fields[i].0 == "media_type")
        <==> params.Some? && Truthy(params.value.mediaType)
    ensures (exists i :: 0 <= i < |fields| && fields[i].0 == "description")
        <==> params.Some? && Truthy(params.value.description)
  {
    var media := if params.Some? && Truthy(params.value.mediaType)
                 then [("media_type", params.value.mediaType.value)] else [];
    var desc := if params.Some? && Truthy(params.value.description)
                then [("description", params.value.description.value)] else [];
    var isPublic := if params.Some? then params.value.isPublic.GetOr(true) else true;
    var fields := media + desc + [("is_public", BoolText(isPublic))];
    assert fields[|fields| - 1].0 == "is_public";
    assert "media_type" != "description" && "media_type" != "is_public" && "description" != "is_public" by {
      assert "media_type"[0] != "description"[0] && "media_type"[0] != "is_public"[0];
      assert "description"[0] != "is_public"[0];
    }
    assert |media| > 0 ==> fields[0].0 == "media_type";
    assert |desc| > 0 ==> fields[|media|].0 == "description";
    fields
  }

  /** `is_public` is sent as `true` unless the caller supplies `false`. */
  lemma UploadIsPublicByDefault(params: Option<UploadParams>)
    ensures var fields := UploadFields(params);
      fields[|fields| - 1].1 == "false" <==> params.Some? && params.value.isPublic == Some(false)
  {
  }
}

=== FILE: media_type.dfy ===
/**
 * `MediaType.detect`: the back end's classification of a media URL by the
 * extension of its path. The path is taken the way Python's `urlparse` takes it
 * (scheme, network location, parameters, query and fragment split off) and
 * lower-cased; image extensions are tried first, then video, then audio.
 */
module MediaType {
  import opened Strings

  /** The `MediaType` choices; `Other` is stored as `attachment`. */
  datatype MediaType = Auto | Image | Video | Audio | Other {
    function Value(): string {
      match this
      case Auto => "auto"
      case Image => "image"
      case Video => "video"
      case Audio => "audio"
      case Other => "attachment"
    }
  }

  const ImageExts: seq<string> := [".jpg", ".jpeg", ".png", ".gif", ".bmp", ".webp", ".svg", ".ico", ".tif", ".tiff"]
  const VideoExts: seq<string> := [".mp4", ".avi", ".mov", ".wmv", ".flv", ".mkv", ".webm", ".m4v"]
  const AudioExts: seq<string> := [".mp3", ".wav", ".flac", ".aac", ".ogg", ".m4a", ".wma"]

  // ---------------------------------------------------------------------------
  // The path component, as `urllib.parse.urlparse` computes it
  // ---------------------------------------------------------------------------

  predicate IsAsciiLetter(c: char) {
    ('a' <= c <= 'z') || ('A' <= c <= 'Z')
  }

  /** `scheme_chars`: ASCII letters, digits, `+`, `-` and `.`. */
  predicate IsSchemeChar(c: char) {
    IsAsciiLetter(c) || ('0' <= c <= '9') || c == '+' || c == '-' || c == '.'
  }

  /** The schemes for which `urlparse` splits `;parameters` off the last path segment. */
  const UsesParams: set<string> := {"", "ftp", "hdl", "prospero", "http", "imap", "https", "shttp",
                                    "rtsp", "rtspu", "sip", "sips", "mms", "sftp", "tel"}

  /** Whether the text before position `i` qualifies as a scheme. */
  predicate SchemeAt(url: string, i: nat) {
    0 < i < |url| && IsAsciiLetter(url[0]) && forall j :: 0 <= j < i ==> IsSchemeChar(url[j])
  }

  /** The length of the scheme, or 0 when the URL has none. */
  function SchemeLength(url: string): (n: nat)
    ensures n > 0 ==> n < |url| && url[n] == ':' && SchemeAt(url, n)
  {
    var i := IndexOfAny(url, {':'});
    if SchemeAt(url, i) then i else 0
  }

  /**
   * The scheme and the remainder: the text before the first `:` is the scheme
   * (lower-cased) when it is non-empty, starts with a letter and holds only
   * scheme characters; otherwise there is no scheme.
   */
  function SplitScheme(url: string): (r: (string, string))
    ensures r.0 == "" ==> r.1 == url
    ensures r.0 != "" ==> |r.1| < |url| && url[|url| - |r.1|..] == r.1
  {
    var n := SchemeLength(url);
    if n == 0 then ("", url) else (Lower(url[..n]), url[n + 1..])
  }

  /** After a leading `//`, the network location runs up to the first `/`, `?` or `#`. */
  function DropNetloc(rest: string): (r: string)
    ensures |r| <= |rest| && r == rest[|rest| - |r|..]
  {
    if StartsWith(rest, "//") then
      var after := rest[2..];
      after[IndexOfAny(after, {'/', '?', '#'})..]
    else rest
  }

  /** The text before the first `#`, then before the first `?`. */
  function DropQueryAndFragment(s: string): (r: string)
    ensures '#' !in r && '?' !in r
    ensures |r| <= |s| && r == s[..|r|]
  {
    var f := s[..IndexOfAny(s, {'#'})];
    f[..IndexOfAny(f, {'?'})]
  }

  /** The position just after the last `/`, or 0 when there is none. */
  function LastSegmentStart(s: string): (i: nat)
    ensures i <= |s|
    ensures forall j :: i <= j < |s| ==> s[j] != '/'
    ensures i > 0 ==> s[i - 1] == '/'
  {
    if |s| == 0 then 0
    else if s[|s| - 1] == '/' then |s|
    else LastSegmentStart(s[..|s| - 1])
  }

  /** `_splitparams`: the path ends at the first `;` of its last segment. */
  function DropParams(p: string): (r: string)
    ensures |r| <= |p| && r == p[..|r|]
  {
    var start := LastSegmentStart(p);
    p[..start + IndexOfAny(p[start..], {';'})]
  }

  /** `urlparse(url).path`. */
  function UrlPath(url: string): (path: string)
    ensures '#' !in path && '?' !in path
  {
    var (scheme, rest) := SplitScheme(url);
    var p := DropQueryAndFragment(DropNetloc(rest));
    if scheme in UsesParams && ';' in p then DropParams(p) else p
  }

  // ---------------------------------------------------------------------------
  // Classification
  // ---------------------------------------------------------------------------

  /** The loop `for ext in exts: if path.endswith(ext)`, scanning from position `i`. */
  function MatchesFrom(path: string, exts: seq<string>, i: nat): (b: bool)
    requires i <= |exts|
    ensures b <==> exists j :: i <= j < |exts| && EndsWith(path, exts[j])
    decreases |exts| - i
  {
    if i == |exts| then false
    else EndsWith(path, exts[i]) || MatchesFrom(path, exts, i + 1)
  }

  /** Some extension of the list ends the path. */
  function AnyEndsWith(path: string, exts: seq<string>): (b: bool)
    ensures b <==> exists j :: 0 <= j < |exts| && EndsWith(path, exts[j])
  {
    MatchesFrom(path, exts, 0)
  }

  /** `MediaType.detect(value)`. */
  function Detect(value: string): (r: MediaType)
    ensures r != Auto
    ensures var path := Lower(UrlPath(value));
      && (r == Image <==> AnyEndsWith(path, ImageExts))
      && (r == Video <==> !AnyEndsWith(path, ImageExts) && AnyEndsWith(path, VideoExts))
      && (r == Audio <==> !AnyEndsWith(path, ImageExts) && !AnyEndsWith(path, VideoExts)
                          && AnyEndsWith(path, AudioExts))
  {
    var path := Lower(UrlPath(value));
    if AnyEndsWith(path, ImageExts) then Image
    else if AnyEndsWith(path, VideoExts) then Video
    else if AnyEndsWith(path, AudioExts) then Audio
    else Other
  }

  // ---------------------------------------------------------------------------
  // Properties
  // ---------------------------------------------------------------------------

  /** A string with neither `?` nor `#` has no query or fragment to drop. */
  lemma CutNoop(x: string)
    requires '?' !in x && '#' !in x
    ensures DropQueryAndFragment(x) == x
  {
    IndexOfAnyAbsent(x, {'#'});
    IndexOfAnyAbsent(x, {'?'});
  }

  /** Appending a query or a fragment to a string that has neither is undone by the cut. */
  lemma {:induction false} CutIgnoresSuffix(x: string, c: char, q: string)
    requires c == '?' || c == '#'
    requires '?' !in x && '#' !in x
    ensures DropQueryAndFragment(x + [c] + q) == x
  {
    var t := [c] + q;
    AppendAssoc(x, [c], q);
    IndexOfAnyAbsent(x, {'#'});
    IndexOfAnyAppend(x, t, {'#'});
    var k := IndexOfAny(t, {'#'});
    AppendTakeLong(x, t, |x| + k);
    var g := t[..k];
    assert c == '#' ==> k == 0;
    assert c == '?' ==> k > 0 && g[0] == '?';
    IndexOfAnyAbsent(x, {'?'});
    IndexOfAnyAppend(x, g, {'?'});
    assert IndexOfAny(g, {'?'}) == 0;
    AppendTake(x, g, |x|);
  }

  lemma StartsWithSlashesIgnoresSuffix(rest: string, c: char, q: string)
    requires c == '?' || c == '#'
    ensures StartsWith(rest + [c] + q, "//") == StartsWith(rest, "//")
  {
    var s := rest + [c] + q;
    if |rest| >= 2 {
      assert s[..2] == rest[..2];
    } else if |rest| == 1 {
      assert s[1] == c;
    } else {
      assert s[0] == c;
    }
  }

  /** After `//`, the host ends no later than the appended query or fragment, so the suffix survives whole. */
  lemma {:induction false} HostIgnoresSuffix(after: string, t: string)
    requires |t| > 0 && (t[0] == '?' || t[0] == '#')
    ensures var d := IndexOfAny(after, {'/', '?', '#'});
      (after + t)[IndexOfAny(after + t, {'/', '?', '#'})..] == after[d..] + t
  {
    var cs := {'/', '?', '#'};
    IndexOfAnyAppend(after, t, cs);
    var d := IndexOfAny(after, cs);
    if d == |after| {
      assert IndexOfAny(t, cs) == 0;
    }
    AppendDrop(after, t, d);
  }

  lemma {:induction false} NetlocIgnoresSuffix(rest: string, c: char, q: string)
    requires c == '?' || c == '#'
    requires '?' !in rest && '#' !in rest
    ensures DropNetloc(rest + [c] + q) == DropNetloc(rest) + [c] + q
  {
    StartsWithSlashesIgnoresSuffix(rest, c, q);
    var t := [c] + q;
    AppendAssoc(rest, [c], q);
    AppendAssoc(DropNetloc(rest), [c], q);
    if StartsWith(rest, "//") {
      AppendDrop(rest, t, 2);
      HostIgnoresSuffix(rest[2..], t);
    }
  }

  lemma SchemeAtPrefix(p: string, s: string, i: nat)
    requires i < |p| <= |s| && s[..|p|] == p
    ensures SchemeAt(s, i) == SchemeAt(p, i)
  {
    assert forall j :: 0 <= j < i ==> s[j] == p[j];
  }

  lemma {:induction false} SchemeLengthIgnoresSuffix(p: string, c: char, q: string)
    requires c == '?' || c == '#'
    requires '?' !in p && '#' !in p
    ensures SchemeLength(p + [c] + q) == SchemeLength(p)
  {
    var t := [c] + q;
    AppendAssoc(p, [c], q);
    IndexOfAnyAppend(p, t, {':'});
    var i := IndexOfAny(p, {':'});
    if i < |p| {
      AppendTake(p, t, |p|);
      SchemeAtPrefix(p, p + t, i);
    } else {
      var s := p + t;
      assert s[|p|] == c;
      assert !SchemeAt(s, IndexOfAny(s, {':'})) by {
        var k := IndexOfAny(s, {':'});
        if 0 < k < |s| && IsAsciiLetter(s[0]) {
          assert !IsSchemeChar(s[|p|]);
        }
      }
    }
  }

  lemma SchemeIgnoresSuffix(p: string, c: char, q: string)
    requires c == '?' || c == '#'
    requires '?' !in p && '#' !in p
    ensures SplitScheme(p + [c] + q).0 == SplitScheme(p).0
    ensures SplitScheme(p + [c] + q).1 == SplitScheme(p).1 + [c] + q
  {
    SchemeLengthIgnoresSuffix(p, c, q);
    var n := SchemeLength(p);
    if n > 0 {
      AppendAssoc(p, [c], q);
      AppendTake(p, [c] + q, n);
      AppendDrop(p, [c] + q, n + 1);
      AppendAssoc(p[n + 1..], [c], q);
    }
  }

  /** The text after the scheme and the network location is a suffix of the URL. */
  lemma PathPartIsSuffix(p: string)
    ensures var n := DropNetloc(SplitScheme(p).1);
      n == p[|p| - |n|..]
  {
  }

  /**
   * Only the path is inspected: a query string or fragment appended to a URL that
   * has neither never changes its path, and so never changes the classification.
   */
  lemma UrlPathIgnoresQuery(p: string, c: char, q: string)
    requires c == '?' || c == '#'
    requires '?' !in p && '#' !in p
    ensures UrlPath(p + [c] + q) == UrlPath(p)
  {
    PathPartIgnoresQuery(p, c, q);
  }

  /** The parts `UrlPath` splits off a URL without `?` or `#` carry neither. */
  lemma NoMarksInParts(p: string)
    requires '?' !in p && '#' !in p
    ensures var rest := SplitScheme(p).1;
      && '?' !in rest && '#' !in rest
      && '?' !in DropNetloc(rest) && '#' !in DropNetloc(rest)
  {
    var rest := SplitScheme(p).1;
    assert rest == p[|p| - |rest|..];
    PathPartIsSuffix(p);
  }

  /** Appending a query or fragment keeps the scheme and the cut path of a URL. */
  lemma PathPartIgnoresQuery(p: string, c: char, q: string)
    requires c == '?' || c == '#'
    requires '?' !in p && '#' !in p
    ensures SplitScheme(p + [c] + q).0 == SplitScheme(p).0
    ensures DropQueryAndFragment(DropNetloc(SplitScheme(p + [c] + q).1))
         == DropQueryAndFragment(DropNetloc(SplitScheme(p).1))
  {
    var rest := SplitScheme(p).1;
    var n := DropNetloc(rest);
    NoMarksInParts(p);
    SchemeIgnoresSuffix(p, c, q);
    NetlocIgnoresSuffix(rest, c, q);
    CutIgnoresSuffix(n, c, q);
    CutNoop(n);
  }

  lemma DetectIgnoresQuery(p: string, c: char, q: string)
    requires c == '?' || c == '#'
    requires '?' !in p && '#' !in p
    ensures Detect(p + [c] + q) == Detect(p)
  {
    UrlPathIgnoresQuery(p, c, q);
  }

  /** Two suffixes of one string: the shorter is a suffix of the longer. */
  lemma SuffixOfSuffix(s: string, a: string, b: string)
    requires EndsWith(s, a) && EndsWith(s, b) && |a| <= |b|
    ensures EndsWith(b, a)
  {
    assert b[|b| - |a|..] == s[|s| - |a|..];
  }

  /** Neither of two extensions ends the other. */
  predicate Apart(a: string, b: string) {
    !EndsWith(a, b) && !EndsWith(b, a)
  }

  /** When two extensions are apart, no path ends with both. */
  lemma ExclusiveSuffixes(s: string, a: string, b: string)
    requires Apart(a, b)
    ensures !(EndsWith(s, a) && EndsWith(s, b))
  {
    if EndsWith(s, a) && EndsWith(s, b) {
      if |a| <= |b| {
        SuffixOfSuffix(s, a, b);
      } else {
        SuffixOfSuffix(s, b, a);
      }
    }
  }

  /** Every entry of `exts` from position `i` on is apart from `ext`. */
  predicate AllApart(exts: seq<string>, ext: string, i: nat)
    requires i <= |exts|
    decreases |exts| - i
  {
    i == |exts| || (Apart(exts[i], ext) && AllApart(exts, ext, i + 1))
  }

  /** A path ending with an extension apart from every entry of a list matches none of them. */
  lemma {:induction false} NoMatchWhenApart(path: string, exts: seq<string>, ext: string, i: nat)
    requires i <= |exts|
    requires EndsWith(path, ext) && AllApart(exts, ext, i)
    ensures !MatchesFrom(path, exts, i)
    decreases |exts| - i
  {
    if i < |exts| {
      ExclusiveSuffixes(path, exts[i], ext);
      NoMatchWhenApart(path, exts, ext, i + 1);
    }
  }

  /** Two strings that differ `k` characters from their ends are apart. */
  lemma ApartAt(a: string, b: string, k: nat)
    requires 0 < k <= |a| && k <= |b|
    requires a[|a| - k] != b[|b| - k]
    ensures Apart(a, b)
  {
    if |b| <= |a| {
      assert a[|a| - |b|..][|b| - k] != b[|b| - k];
    }
    if |a| <= |b| {
      assert b[|b| - |a|..][|a| - k] != a[|a| - k];
    }
  }

  /** Extends `AllApart` one entry to the left. */
  lemma ApartStep(exts: seq<string>, ext: string, i: nat)
    requires i < |exts| && AllApart(exts, ext, i + 1) && Apart(exts[i], ext)
    ensures AllApart(exts, ext, i)
  {
  }

  /** No image extension ends `.ogg` or is ended by it. */
  lemma OggApartFromImages()
    ensures AllApart(ImageExts, ".ogg", 0)
  {
    ApartAt(".tiff", ".ogg", 2);
    ApartStep(ImageExts, ".ogg", 9);
    ApartAt(".tif", ".ogg", 2);
    ApartStep(ImageExts, ".ogg", 8);
    ApartAt(".ico", ".ogg", 2);
    ApartStep(ImageExts, ".ogg", 7);
    ApartAt(".svg", ".ogg", 2);
    ApartStep(ImageExts, ".ogg", 6);
    ApartAt(".webp", ".ogg", 2);
    ApartStep(ImageExts, ".ogg", 5);
    ApartAt(".bmp", ".ogg", 2);
    ApartStep(ImageExts, ".ogg", 4);
    ApartAt(".gif", ".ogg", 2);
    ApartStep(ImageExts, ".ogg", 3);
    ApartAt(".png", ".ogg", 2);
    ApartStep(ImageExts, ".ogg", 2);
    ApartAt(".jpeg", ".ogg", 2);
    ApartStep(ImageExts, ".ogg", 1);
    ApartAt(".jpg", ".ogg", 2);
    ApartStep(ImageExts, ".ogg", 0);
  }

  /** No video extension ends `.ogg` or is ended by it. */
  lemma OggApartFromVideos()
    ensures AllApart(VideoExts, ".ogg", 0)
  {
    ApartAt(".m4v", ".ogg", 1);
    ApartStep(VideoExts, ".ogg", 7);
    ApartAt(".webm", ".ogg", 1);
    ApartStep(VideoExts, ".ogg", 6);
    ApartAt(".mkv", ".ogg", 1);
    ApartStep(VideoExts, ".ogg", 5);
    ApartAt(".flv", ".ogg", 1);
    ApartStep(VideoExts, ".ogg", 4);
    ApartAt(".wmv", ".ogg", 1);
    ApartStep(VideoExts, ".ogg", 3);
    ApartAt(".mov", ".ogg", 1);
    ApartStep(VideoExts, ".ogg", 2);
    ApartAt(".avi", ".ogg", 1);
    ApartStep(VideoExts, ".ogg", 1);
    ApartAt(".mp4", ".ogg", 1);
    ApartStep(VideoExts, ".ogg", 0);
  }

  /** No image extension ends `.webm` or is ended by it. */
  lemma WebmApartFromImages()
    ensures AllApart(ImageExts, ".webm", 0)
  {
    ApartAt(".tiff", ".webm", 1);
    ApartStep(ImageExts, ".webm", 9);
    ApartAt(".tif", ".webm", 1);
    ApartStep(ImageExts, ".webm", 8);
    ApartAt(".ico", ".webm", 1);
    ApartStep(ImageExts, ".webm", 7);
    ApartAt(".svg", ".webm", 1);
    ApartStep(ImageExts, ".webm", 6);
    ApartAt(".webp", ".webm", 1);
    ApartStep(ImageExts, ".webm", 5);
    ApartAt(".bmp", ".webm", 1);
    ApartStep(ImageExts, ".webm", 4);
    ApartAt(".gif", ".webm", 1);
    ApartStep(ImageExts, ".webm", 3);
    ApartAt(".png", ".webm", 1);
    ApartStep(ImageExts, ".webm", 2);
    ApartAt(".jpeg", ".webm", 1);
    ApartStep(ImageExts, ".webm", 1);
    ApartAt(".jpg", ".webm", 1);
    ApartStep(ImageExts, ".webm", 0);
  }

  /** No image extension ends `.m4v` or is ended by it. */
  lemma M4vApartFromImages()
    ensures AllApart(ImageExts, ".m4v", 0)
  {
    ApartAt(".tiff", ".m4v", 1);
    ApartStep(ImageExts, ".m4v", 9);
    ApartAt(".tif", ".m4v", 1);
    ApartStep(ImageExts, ".m4v", 8);
    ApartAt(".ico", ".m4v", 1);
    ApartStep(ImageExts, ".m4v", 7);
    ApartAt(".svg", ".m4v", 1);
    ApartStep(ImageExts, ".m4v", 6);
    ApartAt(".webp", ".m4v", 1);
    ApartStep(ImageExts, ".m4v", 5);
    ApartAt(".bmp", ".m4v", 1);
    ApartStep(ImageExts, ".m4v", 4);
    ApartAt(".gif", ".m4v", 1);
    ApartStep(ImageExts, ".m4v", 3);
    ApartAt(".png", ".m4v", 1);
    ApartStep(ImageExts, ".m4v", 2);
    ApartAt(".jpeg", ".m4v", 1);
    ApartStep(ImageExts, ".m4v", 1);
    ApartAt(".jpg", ".m4v", 1);
    ApartStep(ImageExts, ".m4v", 0);
  }

  /** A path ending in `.ogg` matches no image or video extension and does match an audio one. */
  lemma OggPathIsAudio(path: string)
    requires EndsWith(path, ".ogg")
    ensures !AnyEndsWith(path, ImageExts) && !AnyEndsWith(path, VideoExts) && AnyEndsWith(path, AudioExts)
  {
    assert !MatchesFrom(path, ImageExts, 0) by {
      OggApartFromImages();
      NoMatchWhenApart(path, ImageExts, ".ogg", 0);
    }
    assert !MatchesFrom(path, VideoExts, 0) by {
      OggApartFromVideos();
      NoMatchWhenApart(path, VideoExts, ".ogg", 0);
    }
    assert EndsWith(path, AudioExts[4]);
  }

  /** Every URL whose path ends in `.ogg`, in any case, is audio. */
  lemma OggIsAudio(v: string)
    requires EndsWith(Lower(UrlPath(v)), ".ogg")
    ensures Detect(v) == Audio
  {
    OggPathIsAudio(Lower(UrlPath(v)));
  }

  /** Every URL whose path ends in `.webm` or `.m4v`, in any case, is video. */
  lemma WebmAndM4vAreVideo(v: string)
    requires EndsWith(Lower(UrlPath(v)), ".webm") || EndsWith(Lower(UrlPath(v)), ".m4v")
    ensures Detect(v) == Video
  {
    var path := Lower(UrlPath(v));
    if EndsWith(path, ".webm") {
      assert !AnyEndsWith(path, ImageExts) by {
        WebmApartFromImages();
        NoMatchWhenApart(path, ImageExts, ".webm", 0);
      }
      assert AnyEndsWith(path, VideoExts) by {
        assert EndsWith(path, VideoExts[6]);
      }
    } else {
      assert !AnyEndsWith(path, ImageExts) by {
        M4vApartFromImages();
        NoMatchWhenApart(path, ImageExts, ".m4v", 0);
      }
      assert AnyEndsWith(path, VideoExts) by {
        assert EndsWith(path, VideoExts[7]);
      }
    }
  }

  // ---------------------------------------------------------------------------
  // Case-insensitivity
  // ---------------------------------------------------------------------------

  lemma LowerCharClasses(c: char)
    ensures IsAsciiLetter(LowerChar(c)) == IsAsciiLetter(c)
    ensures IsSchemeChar(LowerChar(c)) == IsSchemeChar(c)
  {
  }

  /** A character that is not an ASCII letter is found in the lower-cased string exactly where it was. */
  lemma LowerKeepsNonLetter(s: string, c: char)
    requires !IsAsciiLetter(c)
    ensures (c in Lower(s)) == (c in s)
  {
    if c in s {
      var i :| 0 <= i < |s| && s[i] == c;
      assert Lower(s)[i] == c;
    }
    if c in Lower(s) {
      var i :| 0 <= i < |s| && Lower(s)[i] == c;
      assert s[i] == c;
    }
  }

  lemma SchemeLengthLower(v: string)
    ensures SchemeLength(Lower(v)) == SchemeLength(v)
  {
    IndexOfAnyLower(v, {':'});
    var i := IndexOfAny(v, {':'});
    if 0 < i < |v| {
      LowerCharClasses(v[0]);
      forall j | 0 <= j < i ensures IsSchemeChar(Lower(v)[j]) == IsSchemeChar(v[j]) {
        LowerCharClasses(v[j]);
      }
    }
  }

  lemma SplitSchemeLower(v: string)
    ensures SplitScheme(Lower(v)).0 == SplitScheme(v).0
    ensures SplitScheme(Lower(v)).1 == Lower(SplitScheme(v).1)
  {
    SchemeLengthLower(v);
    var n := SchemeLength(v);
    if n > 0 {
      LowerSlice(v, 0, n);
      LowerIdempotent(v[..n]);
      LowerSlice(v, n + 1, |v|);
    }
  }

  lemma SlashesLower(r: string)
    ensures StartsWith(Lower(r), "//") == StartsWith(r, "//")
  {
    if |r| >= 2 {
      assert Lower(r)[0] == LowerChar(r[0]) && Lower(r)[1] == LowerChar(r[1]);
      assert Lower(r)[..2] == [Lower(r)[0], Lower(r)[1]];
      assert r[..2] == [r[0], r[1]];
    }
  }

  /** Dropping from the first separator on commutes with lower-casing, separators not being letters. */
  lemma DropFromLower(after: string)
    ensures Lower(after)[IndexOfAny(Lower(after), {'/', '?', '#'})..]
         == Lower(after[IndexOfAny(after, {'/', '?', '#'})..])
  {
    IndexOfAnyLower(after, {'/', '?', '#'});
    LowerSlice(after, IndexOfAny(after, {'/', '?', '#'}), |after|);
  }

  lemma DropNetlocLower(r: string)
    ensures DropNetloc(Lower(r)) == Lower(DropNetloc(r))
  {
    SlashesLower(r);
    if StartsWith(r, "//") {
      var a := r[2..];
      assert Lower(r)[2..] == Lower(a) by {
        LowerSlice(r, 2, |r|);
        assert r[2..|r|] == a;
      }
      assert DropNetloc(r) == a[IndexOfAny(a, {'/', '?', '#'})..];
      DropFromLower(a);
    }
  }

  lemma CutLower(s: string)
    ensures DropQueryAndFragment(Lower(s)) == Lower(DropQueryAndFragment(s))
  {
    IndexOfAnyLower(s, {'#'});
    var k := IndexOfAny(s, {'#'});
    LowerSlice(s, 0, k);
    var f := s[..k];
    IndexOfAnyLower(f, {'?'});
    LowerSlice(f, 0, IndexOfAny(f, {'?'}));
  }

  lemma {:induction false} LastSegmentStartLower(s: string)
    ensures LastSegmentStart(Lower(s)) == LastSegmentStart(s)
    decreases |s|
  {
    if |s| > 0 {
      assert Lower(s)[|s| - 1] == LowerChar(s[|s| - 1]);
      LowerSlice(s, 0, |s| - 1);
      LastSegmentStartLower(s[..|s| - 1]);
    }
  }

  lemma ParamsCutLower(t: string, start: nat)
    requires start <= |t|
    ensures IndexOfAny(Lower(t)[start..], {';'}) == IndexOfAny(t[start..], {';'})
  {
    LowerSuffix(t, start);
    IndexOfAnyLower(t[start..], {';'});
  }

  lemma DropParamsLower(p: string)
    ensures DropParams(Lower(p)) == Lower(DropParams(p))
  {
    LastSegmentStartLower(p);
    var start := LastSegmentStart(p);
    ParamsCutLower(p, start);
    var cut := start + IndexOfAny(p[start..], {';'});
    LowerSlice(p, 0, cut);
  }

  /** The path of a URL whose scheme and remainder are already split apart. */
  function PathAfterScheme(scheme: string, rest: string): string {
    var p := DropQueryAndFragment(DropNetloc(rest));
    if scheme in UsesParams && ';' in p then DropParams(p) else p
  }

  lemma PathAfterSchemeLower(scheme: string, rest: string)
    ensures PathAfterScheme(scheme, Lower(rest)) == Lower(PathAfterScheme(scheme, rest))
  {
    DropNetlocLower(rest);
    var n := DropNetloc(rest);
    CutLower(n);
    var p := DropQueryAndFragment(n);
    LowerKeepsNonLetter(p, ';');
    DropParamsLower(p);
  }

  /** Lower-casing a URL lower-cases its path and changes nothing else about it. */
  lemma UrlPathLower(v: string)
    ensures UrlPath(Lower(v)) == Lower(UrlPath(v))
  {
    var scheme := SplitScheme(v).0;
    var rest := SplitScheme(v).1;
    assert UrlPath(Lower(v)) == PathAfterScheme(scheme, Lower(rest)) by {
      SplitSchemeLower(v);
    }
    PathAfterSchemeLower(scheme, rest);
  }

  /** Classification ignores case: a URL and its lower-cased form get the same type. */
  lemma DetectCaseInsensitive(v: string)
    ensures Detect(Lower(v)) == Detect(v)
  {
    UrlPathLower(v);
    LowerIdempotent(UrlPath(v));
  }
}

=== FILE: name_sort.dfy ===
/**
 * `Array.prototype.sort()` without a comparator on a list of strings: the
 * strings in ascending character order. Sorted lists with the same elements
 * are equal, which is what lets the front end compare two id lists "as sets
 * with repetition" by sorting both and comparing the results.
 */
module NameSort {
  import opened Strings

  /** No string is followed by a smaller one. */
  predicate Ordered(s: seq<string>) {
    forall i, j :: 0 <= i < j < |s| ==> !LexLess(s[j], s[i])
  }

  /** `x` placed before the first element that is not smaller than it. */
  function InsertName(x: string, s: seq<string>): (r: seq<string>)
    ensures multiset(r) == multiset(s) + multiset{x}
    ensures |r| == |s| + 1
  {
    if |s| == 0 || !LexLess(s[0], x) then [x] + s
    else
      assert s == [s[0]] + s[1..];
      [s[0]] + InsertName(x, s[1..])
  }

  /** An element not above anything in an ordered list can go in front of it. */
  lemma ConsOrdered(h: string, rest: seq<string>)
    requires Ordered(rest)
    requires forall i :: 0 <= i < |rest| ==> !LexLess(rest[i], h)
    ensures Ordered([h] + rest)
  {
    var r := [h] + rest;
    forall i, j | 0 <= i < j < |r| ensures !LexLess(r[j], r[i]) {
      assert r[j] == rest[j - 1];
      if i > 0 {
        assert r[i] == rest[i - 1];
      }
    }
  }

  /** Inserting into an ordered list keeps it ordered. */
  lemma {:induction false} InsertNameOrdered(x: string, s: seq<string>)
    requires Ordered(s)
    ensures Ordered(InsertName(x, s))
    decreases |s|
  {
    if |s| == 0 {
    } else if !LexLess(s[0], x) {
      forall i | 0 <= i < |s| ensures !LexLess(s[i], x) {
        if LexLess(s[i], x) && s[i] != s[0] {
          FirstIsLeast(s, s[i]);
          LexLessTotal(s[i], s[0]);
          LexLessTransitive(s[0], s[i], x);
        }
      }
      ConsOrdered(x, s);
    } else {
      var rest := InsertName(x, s[1..]);
      OrderedTail(s);
      InsertNameOrdered(x, s[1..]);
      forall i | 0 <= i < |rest| ensures !LexLess(rest[i], s[0]) {
        var t := rest[i];
        assert t in multiset(rest);
        if t != x {
          assert t in s;
          FirstIsLeast(s, t);
        } else {
          LexLessAsymmetric(s[0], x);
        }
      }
      ConsOrdered(s[0], rest);
    }
  }

  /** The strings of `s` in ascending order. */
  function SortNames(s: seq<string>): (r: seq<string>)
    ensures Ordered(r)
    ensures multiset(r) == multiset(s)
    ensures |r| == |s|
  {
    if |s| == 0 then []
    else
      assert s == [s[0]] + s[1..];
      InsertNameOrdered(s[0], SortNames(s[1..]));
      InsertName(s[0], SortNames(s[1..]))
  }

  /** The first element of an ordered list is not above any element of it. */
  lemma FirstIsLeast(s: seq<string>, x: string)
    requires Ordered(s) && x in s
    ensures !LexLess(x, s[0])
  {
    var k :| 0 <= k < |s| && s[k] == x;
    if k > 0 {
      assert !LexLess(s[k], s[0]);
    } else {
      LexLessIrreflexive(x);
    }
  }

  lemma OrderedTail(s: seq<string>)
    requires Ordered(s) && |s| > 0
    ensures Ordered(s[1..])
  {
    forall i, j | 0 <= i < j < |s| - 1 ensures !LexLess(s[1..][j], s[1..][i]) {
      assert s[1..][j] == s[j + 1] && s[1..][i] == s[i + 1];
    }
  }

  /** Ordered lists with the same elements start with the same one. */
  lemma HeadsAgree(a: seq<string>, b: seq<string>)
    requires Ordered(a) && Ordered(b) && multiset(a) == multiset(b) && |a| > 0
    ensures |b| > 0 && a[0] == b[0]
  {
    assert a[0] in multiset(b);
    assert b[0] in multiset(a);
    FirstIsLeast(b, a[0]);
    FirstIsLeast(a, b[0]);
    if a[0] != b[0] {
      LexLessTotal(a[0], b[0]);
    }
  }

  /** Two ordered lists with the same elements, counted with repetition, are the same list. */
  lemma {:induction false} OrderedUnique(a: seq<string>, b: seq<string>)
    requires Ordered(a) && Ordered(b) && multiset(a) == multiset(b)
    ensures a == b
    decreases |a|
  {
    assert |a| == |multiset(a)| == |multiset(b)| == |b|;
    if |a| > 0 {
      HeadsAgree(a, b);
      assert a == [a[0]] + a[1..] && b == [b[0]] + b[1..];
      assert multiset(a[1..]) == multiset(a) - multiset{a[0]} by {
        assert multiset(a) == multiset{a[0]} + multiset(a[1..]);
      }
      assert multiset(b[1..]) == multiset(b) - multiset{b[0]} by {
        assert multiset(b) == multiset{b[0]} + multiset(b[1..]);
      }
      OrderedTail(a);
      OrderedTail(b);
      OrderedUnique(a[1..], b[1..]);
    }
  }

  /** Sorting two lists gives the same result exactly when they hold the same elements with the same repetitions. */
  lemma SortNamesSameIff(a: seq<string>, b: seq<string>)
    ensures SortNames(a) == SortNames(b) <==> multiset(a) == multiset(b)
  {
    if multiset(a) == multiset(b) {
      OrderedUnique(SortNames(a), SortNames(b));
    }
  }
}

=== FILE: openapi_hooks.dfy ===
/**
 * The post-processing hook of the generated OpenAPI schema: every operation
 * is tagged with a group name chosen from its path, so the documentation
 * groups endpoints by app.
 *
 * The schema is a JSON object. Python raises when `paths`, or one of its
 * entries, is not an object (it has no `.items()`); that is `None` here.
 */
module OpenApiHooks {
  import opened Wrappers
  import opened Strings
  import opened Js

  /** The path fragments looked for, in order, and the group each one selects. */
  const Patterns: seq<string> := ["/bbtalk/", "/tag/", "/media/", "/auth/", "/todo/group/", "/todo/project/", "/todo/task/", "/todo/activity/"]
  const Groups: seq<string> := ["BBTalk", "Tag", "Media", "Auth", "TodoGroup", "TodoProject", "TodoTask", "TodoActivity"]

  /** The group of the first fragment from position `i` on that the path contains, else `Other`: the table read in order. */
  function FirstGroup(path: string, i: nat): (g: string)
    requires i <= |Patterns|
    ensures g == "Other" <==> forall j :: i <= j < |Patterns| ==> !Contains(path, Patterns[j])
    ensures forall j :: i <= j < |Patterns| && Contains(path, Patterns[j]) && NoneBetween(path, i, j) ==> g == Groups[j]
    decreases |Patterns| - i
  {
    if i == |Patterns| then "Other"
    else if Contains(path, Patterns[i]) then Groups[i]
    else FirstGroup(path, i + 1)
  }

  /** The path contains none of the fragments at positions `i` up to `j`. */
  predicate NoneBetween(path: string, i: nat, j: nat)
    requires j <= |Patterns|
  {
    forall k :: i <= k < j ==> !Contains(path, Patterns[k])
  }

  /** The group of a path: the first fragment it contains, else `Other`. */
  function GroupOf(path: string): (g: string)
    ensures g in Groups || g == "Other"
  {
    if Contains(path, "/bbtalk/") then "BBTalk"
    else if Contains(path, "/tag/") then "Tag"
    else if Contains(path, "/media/") then "Media"
    else if Contains(path, "/auth/") then "Auth"
    else if Contains(path, "/todo/group/") then "TodoGroup"
    else if Contains(path, "/todo/project/") then "TodoProject"
    else if Contains(path, "/todo/task/") then "TodoTask"
    else if Contains(path, "/todo/activity/") then "TodoActivity"
    else "Other"
  }

  /** The chain of tests is the table read in order: a path gets the group of the first fragment it contains, and `Other` when it contains none. */
  lemma GroupOfIsFirstMatch(path: string)
    ensures GroupOf(path) == FirstGroup(path, 0)
    ensures GroupOf(path) == "Other" <==> forall j :: 0 <= j < |Patterns| ==> !Contains(path, Patterns[j])
    ensures forall j :: 0 <= j < |Patterns| && Contains(path, Patterns[j]) && NoneBetween(path, 0, j) ==> GroupOf(path) == Groups[j]
  {
    assert FirstGroup(path, 8) == "Other";
    assert FirstGroup(path, 7) == if Contains(path, "/todo/activity/") then "TodoActivity" else FirstGroup(path, 8);
    assert FirstGroup(path, 6) == if Contains(path, "/todo/task/") then "TodoTask" else FirstGroup(path, 7);
    assert FirstGroup(path, 5) == if Contains(path, "/todo/project/") then "TodoProject" else FirstGroup(path, 6);
    assert FirstGroup(path, 4) == if Contains(path, "/todo/group/") then "TodoGroup" else FirstGroup(path, 5);
    assert FirstGroup(path, 3) == if Contains(path, "/auth/") then "Auth" else FirstGroup(path, 4);
    assert FirstGroup(path, 2) == if Contains(path, "/media/") then "Media" else FirstGroup(path, 3);
    assert FirstGroup(path, 1) == if Contains(path, "/tag/") then "Tag" else FirstGroup(path, 2);
    assert FirstGroup(path, 0) == if Contains(path, "/bbtalk/") then "BBTalk" else FirstGroup(path, 1);
  }

  /** A path under two groups' fragments goes to the earlier one: a BBTalk path that mentions tags is still `BBTalk`. */
  lemma EarlierGroupWins(path: string)
    requires Contains(path, "/bbtalk/") && Contains(path, "/tag/")
    ensures GroupOf(path) == "BBTalk"
  {
  }

  /** Operation `before` after tagging with `group`: an object gets `tags = [group]`, anything else is left alone. */
  predicate TaggedOp(before: Json, after: Json, group: string) {
    if before.Obj? then after == Obj(before.fields["tags" := Arr([Str(group)])]) else after == before
  }

  /** Tag every object-valued operation of one path item. */
  function TagOperations(item: map<string, Json>, group: string): (r: map<string, Json>)
    ensures r.Keys == item.Keys
    ensures forall m :: m in item ==> TaggedOp(item[m], r[m], group)
  {
    map m | m in item :: if item[m].Obj? then Obj(item[m].fields["tags" := Arr([Str(group)])]) else item[m]
  }

  /** Every path item is an object, so `.items()` can be called on it. */
  predicate ItemsAreObjects(paths: map<string, Json>) {
    forall p :: p in paths ==> paths[p].Obj?
  }

  /** `add_tags_by_path`: the schema with every path's operations tagged; `None` when Python would raise. */
  function AddTagsByPath(schema: map<string, Json>): (r: Option<map<string, Json>>)
    ensures r.None? <==> "paths" in schema && !(schema["paths"].Obj? && ItemsAreObjects(schema["paths"].fields))
    ensures r.Some? ==> r.value.Keys == schema.Keys
    ensures r.Some? ==> forall k :: k in schema && k != "paths" ==> r.value[k] == schema[k]
    ensures r.Some? && "paths" in schema ==> && r.value["paths"].Obj?
                                              && r.value["paths"].fields.Keys == schema["paths"].fields.Keys
  {
    if "paths" !in schema then Some(schema)
    else
      var paths := schema["paths"];
      if !paths.Obj? || !ItemsAreObjects(paths.fields) then None
      else
        Some(schema["paths" := Obj(map p | p in paths.fields :: Obj(TagOperations(paths.fields[p].fields, GroupOf(p))))])
  }

  /** Each operation under a path is tagged with that path's group, and non-object entries are untouched. */
  lemma OperationsTaggedByPath(schema: map<string, Json>, p: string, m: string)
    requires AddTagsByPath(schema).Some? && "paths" in schema
    requires p in schema["paths"].fields && m in schema["paths"].fields[p].fields
    ensures var after := AddTagsByPath(schema).value["paths"].fields[p];
      && after.Obj? && m in after.fields
      && TaggedOp(schema["paths"].fields[p].fields[m], after.fields[m], GroupOf(p))
  {
  }

  /** Tagging one path item twice is tagging it once. */
  lemma TagOperationsIdempotent(item: map<string, Json>, group: string)
    ensures TagOperations(TagOperations(item, group), group) == TagOperations(item, group)
  {
    var once := TagOperations(item, group);
    forall m | m in item
      ensures TagOperations(once, group)[m] == once[m]
    {
      if item[m].Obj? {
        assert item[m].fields["tags" := Arr([Str(group)])]["tags" := Arr([Str(group)])]
          == item[m].fields["tags" := Arr([Str(group)])];
      }
    }
  }

  /** Running the hook twice changes nothing more. */
  lemma AddTagsByPathIdempotent(schema: map<string, Json>)
    requires AddTagsByPath(schema).Some?
    ensures AddTagsByPath(AddTagsByPath(schema).value) == AddTagsByPath(schema)
  {
    if "paths" in schema {
      var tagged := AddTagsByPath(schema).value["paths"].fields;
      forall p | p in tagged
        ensures Obj(TagOperations(tagged[p].fields, GroupOf(p))) == tagged[p]
      {
        TagOperationsIdempotent(schema["paths"].fields[p].fields, GroupOf(p));
      }
      var once := AddTagsByPath(schema).value;
      assert (map p | p in tagged :: Obj(TagOperations(tagged[p].fields, GroupOf(p)))) == tagged;
      assert once["paths" := Obj(tagged)] == once;
    }
  }
}

=== FILE: settings.dfy ===
/**
 * The back end's configuration rules that are computed rather than copied
 * from the environment: the `DATABASE_URL` parser, the boolean switches, the
 * CORS origin list, and the choice between local and S3 media storage.
 *
 * The environment is a map from variable name to value. `BASE_DIR` is a
 * parameter, and paths are strings joined with `/`.
 *
 * The server URLs are read the way Python's `urllib.parse.urlparse` reads
 * them: the network location runs from `//` to the first `/`, `?` or `#`; the
 * user information is what comes before its last `@`, split at the first `:`;
 * the host is what follows, with the port after its first `:` (or after `]`
 * for a bracketed address); the path runs to the first `?` or `#`.
 */
module Settings {
  import opened Wrappers
  import opened Strings
  import BBTalkSerializer

  type Env = map<string, string>

  /** `os.getenv(name, default)`. */
  function GetEnv(env: Env, name: string, default: string): string {
    if name in env then env[name] else default
  }

  /** `os.getenv(name)`: `None` when unset. */
  function GetEnvOpt(env: Env, name: string): Option<string> {
    if name in env then Some(env[name]) else None
  }

  // ---------------------------------------------------------------------------
  // Boolean switches and the CORS list
  // ---------------------------------------------------------------------------

  /** `value.lower() in ('true', '1', 'yes')`. */
  predicate IsTrue(value: string) {
    var v := Lower(value);
    v == "true" || v == "1" || v == "yes"
  }

  /** The switches read this way, each with its default. */
  datatype Switches = Switches(debug: bool, useForwardedHost: bool, corsAllowCredentials: bool, corsAllowAll: bool)

  function ReadSwitches(env: Env): (s: Switches)
    ensures "DEBUG" !in env ==> s.debug
    ensures "CORS_ORIGIN_ALLOW_ALL" !in env ==> !s.corsAllowAll
    ensures "DEBUG" in env ==> (s.debug <==> IsTrue(env["DEBUG"]))
    ensures "USE_X_FORWARDED_HOST" !in env ==> s.useForwardedHost
    ensures "USE_X_FORWARDED_HOST" in env ==> (s.useForwardedHost <==> IsTrue(env["USE_X_FORWARDED_HOST"]))
    ensures "CORS_ALLOW_CREDENTIALS" !in env ==> s.corsAllowCredentials
    ensures "CORS_ALLOW_CREDENTIALS" in env ==> (s.corsAllowCredentials <==> IsTrue(env["CORS_ALLOW_CREDENTIALS"]))
    ensures "CORS_ORIGIN_ALLOW_ALL" in env ==> (s.corsAllowAll <==> IsTrue(env["CORS_ORIGIN_ALLOW_ALL"]))
  {
    Switches(IsTrue(GetEnv(env, "DEBUG", "True")), IsTrue(GetEnv(env, "USE_X_FORWARDED_HOST", "True")),
             IsTrue(GetEnv(env, "CORS_ALLOW_CREDENTIALS", "True")), IsTrue(GetEnv(env, "CORS_ORIGIN_ALLOW_ALL", "False")))
  }

  /** The switch ignores the case of ASCII letters, and any other spelling (`on`, `y`, ` true`) reads as false. */
  lemma IsTrueIgnoresCase(v: string, w: string)
    requires Lower(v) == Lower(w)
    ensures IsTrue(v) == IsTrue(w)
    ensures IsTrue("TRUE") && IsTrue("Yes") && !IsTrue("on") && !IsTrue("y") && !IsTrue(" true")
  {
    assert Lower("TRUE") == "true";
    assert Lower("Yes") == "yes";
  }

  /** The `CORS_ALLOWED_ORIGINS` setting, with its default of three local origins. */
  function CorsSetting(env: Env): string {
    GetEnv(env, "CORS_ALLOWED_ORIGINS", "http://localhost:4010,http://localhost:3000,http://127.0.0.1:4010")
  }

  /** The origin list: the comma-separated pieces, each stripped, the empty ones dropped, as `post_tags` is read. */
  function CorsOrigins(setting: string): (origins: seq<string>)
    ensures forall i :: 0 <= i < |origins| ==> BBTalkSerializer.CleanName(origins[i])
  {
    BBTalkSerializer.CleanPieces(Split(setting, ','))
  }

  /** Clean origins written with commas are read back as written, in order. */
  lemma CorsOriginsRoundTrip(origins: seq<string>)
    requires |origins| >= 1
    requires forall i :: 0 <= i < |origins| ==> BBTalkSerializer.CleanName(origins[i])
    ensures CorsOrigins(Join(origins, ",")) == origins
  {
    SplitJoin(origins, ',');
    BBTalkSerializer.CleanPiecesNoop(origins);
  }

  // ---------------------------------------------------------------------------
  // S3 media storage
  // ---------------------------------------------------------------------------

  /** A set, non-empty variable. */
  predicate Set(env: Env, name: string) {
    name in env && env[name] != ""
  }

  /** `USE_S3_STORAGE`: all three credentials are set. */
  predicate UseS3(env: Env) {
    Set(env, "AWS_ACCESS_KEY_ID") && Set(env, "AWS_SECRET_ACCESS_KEY") && Set(env, "AWS_STORAGE_BUCKET_NAME")
  }

  /**
   * `MEDIA_URL`: with S3, the custom domain, else the endpoint followed by the
   * bucket, else the bucket's AWS address in its region; without S3, the
   * variable itself or `/media/`.
   */
  function MediaUrl(env: Env): (url: string)
    ensures !UseS3(env) ==> url == GetEnv(env, "MEDIA_URL", "/media/")
    ensures UseS3(env) ==> EndsWith(url, "/")
    ensures UseS3(env) && Set(env, "AWS_S3_CUSTOM_DOMAIN") ==> url == "https://" + env["AWS_S3_CUSTOM_DOMAIN"] + "/"
    ensures UseS3(env) && !Set(env, "AWS_S3_CUSTOM_DOMAIN") && Set(env, "AWS_S3_ENDPOINT_URL") ==>
      url == env["AWS_S3_ENDPOINT_URL"] + "/" + env["AWS_STORAGE_BUCKET_NAME"] + "/"
    ensures UseS3(env) && !Set(env, "AWS_S3_CUSTOM_DOMAIN") && !Set(env, "AWS_S3_ENDPOINT_URL") ==>
      url == "https://" + env["AWS_STORAGE_BUCKET_NAME"] + ".s3." + GetEnv(env, "AWS_S3_REGION_NAME", "us-east-1") + ".amazonaws.com/"
  {
    if UseS3(env) then
      var bucket := env["AWS_STORAGE_BUCKET_NAME"];
      if Set(env, "AWS_S3_CUSTOM_DOMAIN") then "https://" + env["AWS_S3_CUSTOM_DOMAIN"] + "/"
      else if Set(env, "AWS_S3_ENDPOINT_URL") then env["AWS_S3_ENDPOINT_URL"] + "/" + bucket + "/"
      else "https://" + bucket + ".s3." + GetEnv(env, "AWS_S3_REGION_NAME", "us-east-1") + ".amazonaws.com/"
    else GetEnv(env, "MEDIA_URL", "/media/")
  }

  /** The attachment storage engine follows the same switch. */
  function StorageEngine(env: Env): (engine: string)
    ensures engine == "django" <==> UseS3(env)
    ensures engine == "file" <==> !UseS3(env)
  {
    if UseS3(env) then "django" else "file"
  }

  /**
   * The order of preference: a custom domain hides the endpoint and region, an
   * endpoint hides the region, and without the three credentials none of the
   * S3 variables matter.
   */
  lemma MediaUrlPrecedence(env: Env, other: string)
    ensures UseS3(env) && Set(env, "AWS_S3_CUSTOM_DOMAIN") ==>
      MediaUrl(env["AWS_S3_ENDPOINT_URL" := other]) == MediaUrl(env) && MediaUrl(env["AWS_S3_REGION_NAME" := other]) == MediaUrl(env)
    ensures UseS3(env) && Set(env, "AWS_S3_ENDPOINT_URL") ==> MediaUrl(env["AWS_S3_REGION_NAME" := other]) == MediaUrl(env)
    ensures !UseS3(env) ==>
      MediaUrl(env["AWS_S3_CUSTOM_DOMAIN" := other]) == MediaUrl(env) && MediaUrl(env["AWS_S3_ENDPOINT_URL" := other]) == MediaUrl(env)
  {
  }

  // ---------------------------------------------------------------------------
  // URL pieces
  // ---------------------------------------------------------------------------

  /** `s.partition(c)` and `s.rpartition(c)`: the text before and after the separator, and whether there was one. */
  datatype Parts = Parts(before: string, found: bool, after: string)

  function Partition(s: string, c: char): (p: Parts)
    ensures c !in p.before
    ensures p.found <==> c in s
    ensures p.found ==> s == p.before + [c] + p.after
    ensures !p.found ==> p.before == s && p.after == ""
  {
    var i := IndexOfAny(s, {c});
    if i < |s| then
      assert s == s[..i] + [c] + s[i + 1..];
      Parts(s[..i], true, s[i + 1..])
    else Parts(s, false, "")
  }

  /** The position of the last `c` in `s`, or -1. */
  function LastIndex(s: string, c: char): (i: int)
    ensures -1 <= i < |s|
    ensures i >= 0 ==> s[i] == c
    ensures forall j :: i < j < |s| ==> s[j] != c
  {
    if |s| == 0 then -1
    else if s[|s| - 1] == c then |s| - 1
    else LastIndex(s[..|s| - 1], c)
  }

  function RPartition(s: string, c: char): (p: Parts)
    ensures c !in p.after
    ensures p.found <==> c in s
    ensures p.found ==> s == p.before + [c] + p.after
    ensures !p.found ==> p.before == "" && p.after == s
  {
    var i := LastIndex(s, c);
    if i >= 0 then
      assert s == s[..i] + [c] + s[i + 1..];
      Parts(s[..i], true, s[i + 1..])
    else Parts("", false, s)
  }

  /** Only ASCII digits, and at least one. */
  predicate AllDigits(s: string) {
    |s| > 0 && forall i :: 0 <= i < |s| ==> '0' <= s[i] <= '9'
  }

  /** The decimal value of a digit string. */
  function DigitsValue(s: string): nat
    requires forall i :: 0 <= i < |s| ==> '0' <= s[i] <= '9'
  {
    if |s| == 0 then 0 else DigitsValue(s[..|s| - 1]) * 10 + (s[|s| - 1] as int - '0' as int)
  }

  /** What `urlparse` makes of the network location. */
  datatype Netloc = Netloc(user: Option<string>, password: Option<string>, host: Option<string>, port: Option<nat>)

  /** `hostname`: `None` when empty, else lower-cased up to a `%` zone, which keeps its case. */
  function HostName(h: string): (r: Option<string>)
    ensures r.None? <==> h == ""
    ensures r.Some? && '%' !in h ==> r.value == Lower(h)
  {
    if h == "" then None
    else
      var z := Partition(h, '%');
      Some(Lower(z.before) + (if z.found then "%" + z.after else ""))
  }

  /** `port`: `None` when empty, the value of ASCII digits up to 65535, and a raised error otherwise. */
  function PortOf(p: string): (r: Result<Option<nat>>)
    ensures r == Ok(None) <==> p == ""
    ensures r.Ok? && r.value.Some? ==> AllDigits(p) && r.value.value == DigitsValue(p) <= 65535
    ensures r.Err? <==> p != "" && (!AllDigits(p) || DigitsValue(p) > 65535)
  {
    if p == "" then Ok(None)
    else if !AllDigits(p) then Err("Port could not be cast to integer value as " + p)
    else if DigitsValue(p) > 65535 then Err("Port out of range 0-65535")
    else Ok(Some(DigitsValue(p)))
  }

  /** The user information, host and port of a network location. */
  function ParseNetloc(netloc: string): (r: Result<Netloc>)
    ensures r.Ok? && '@' !in netloc ==> r.value.user.None? && r.value.password.None?
  {
    var info := RPartition(netloc, '@');
    var user := if info.found then Some(Partition(info.before, ':').before) else None;
    var password := if info.found && Partition(info.before, ':').found then Some(Partition(info.before, ':').after) else None;
    var bracket := Partition(info.after, '[');
    var host := if bracket.found then Partition(bracket.after, ']').before else Partition(info.after, ':').before;
    var portText := if bracket.found then Partition(Partition(bracket.after, ']').after, ':').after else Partition(info.after, ':').after;
    match PortOf(portText)
    case Err(e) => Err(e)
    case Ok(port) => Ok(Netloc(user, password, HostName(host), port))
  }

  /** The network location and path of what follows `scheme://`. */
  datatype Location = Location(netloc: string, path: string)

  function SplitLocation(rest: string): (l: Location)
    ensures '/' !in l.netloc && '?' !in l.netloc && '#' !in l.netloc
    ensures '?' !in l.path && '#' !in l.path
    ensures l.netloc + l.path <= rest
    // each part stops at the first delimiter that ends it
    ensures |l.netloc| < |rest| ==> rest[|l.netloc|] in {'/', '?', '#'}
    ensures |l.netloc| + |l.path| < |rest| ==> rest[|l.netloc| + |l.path|] in {'?', '#'}
    // a path is present exactly when the location is followed by `/`
    ensures l.path != "" ==> l.path[0] == '/'
  {
    var n := IndexOfAny(rest, {'/', '?', '#'});
    var after := rest[n..];
    var p := IndexOfAny(after, {'?', '#'});
    assert rest[..n] + after[..p] == rest[..n + p];
    Location(rest[..n], after[..p])
  }

  // ---------------------------------------------------------------------------
  // DATABASE_URL
  // ---------------------------------------------------------------------------

  datatype Engine = Sqlite | Postgresql | Mysql

  datatype Database = Database(engine: Engine, name: string, user: Option<string>, password: Option<string>, host: Option<string>, port: Option<nat>)

  /** `BASE_DIR / p` for a relative `p`. */
  function UnderBase(baseDir: string, p: string): string {
    if p == "" then baseDir else baseDir + "/" + p
  }

  /** A server URL after its `scheme://`: `NAME` is the path without its first character, and a missing or zero port gives the engine's default. */
  function ServerDatabase(rest: string, engine: Engine, defaultPort: nat): (r: Result<Database>)
    requires defaultPort > 0
    ensures var n := ParseNetloc(SplitLocation(rest).netloc);
      && (r.Ok? <==> n.Ok?)
      && (r.Ok? ==> r.value.engine == engine && r.value.port.Some? && r.value.port.value > 0)
      && (r.Ok? && n.value.port.None? ==> r.value.port == Some(defaultPort))
      && (r.Ok? && n.value.port == Some(0) ==> r.value.port == Some(defaultPort))
      && (r.Ok? && n.value.port.Some? && n.value.port.value != 0 ==> r.value.port == n.value.port)
    ensures r.Ok? ==> var l := SplitLocation(rest); r.value.name == if l.path == "" then "" else l.path[1..]
  {
    var l := SplitLocation(rest);
    match ParseNetloc(l.netloc)
    case Err(e) => Err(e)
    case Ok(n) =>
      var port := if n.port.Some? && n.port.value != 0 then n.port.value else defaultPort;
      Ok(Database(engine, if l.path == "" then "" else l.path[1..], n.user, n.password, n.host, Some(port)))
  }

  /** Which branch of the parser a URL takes, tried in the parser's order; a server URL keeps what follows its `scheme://`. */
  datatype Scheme = SqliteFile | Server(engine: Engine, rest: string, defaultPort: nat) | Fallback

  function SchemeOf(url: string): (s: Scheme)
    ensures s.SqliteFile? <==> StartsWith(url, "sqlite:///")
    ensures s.Server? ==> s.engine != Sqlite && s.defaultPort > 0
    ensures s.Server? && s.engine == Postgresql ==>
      s.defaultPort == 5432 && ((StartsWith(url, "postgresql://") && s.rest == url[13..]) || (StartsWith(url, "postgres://") && s.rest == url[11..]))
    ensures s.Server? && s.engine == Mysql ==> s.defaultPort == 3306 && StartsWith(url, "mysql://") && s.rest == url[8..]
    ensures s.Fallback? ==> !StartsWith(url, "sqlite:///") && !StartsWith(url, "postgresql://") && !StartsWith(url, "postgres://") && !StartsWith(url, "mysql://")
  {
    if StartsWith(url, "sqlite:///") then SqliteFile
    else if StartsWith(url, "postgresql://") then Server(Postgresql, url[13..], 5432)
    else if StartsWith(url, "postgres://") then Server(Postgresql, url[11..], 5432)
    else if StartsWith(url, "mysql://") then Server(Mysql, url[8..], 3306)
    else Fallback
  }

  /**
   * `_parse_database_url`: `sqlite:///` gives a file path, absolute when it
   * starts with `/` and under `BASE_DIR` otherwise; a server URL gives its
   * engine, on the engine's default port unless one is given; anything else
   * falls back to `BASE_DIR/db.sqlite3`. A port that is not a number up to
   * 65535 raises.
   */
  function ParseDatabaseUrl(url: string, baseDir: string): (r: Result<Database>)
    ensures r.Err? ==> SchemeOf(url).Server?
    ensures SchemeOf(url).SqliteFile? ==>
      r.Ok? && r.value.engine == Sqlite && r.value.host.None? && r.value.port.None? && (StartsWith(r.value.name, "/") || StartsWith(r.value.name, baseDir))
    ensures SchemeOf(url).Server? && r.Ok? ==> r.value.engine == SchemeOf(url).engine && r.value.port.Some? && r.value.port.value > 0
    ensures SchemeOf(url).Fallback? ==> r == Ok(Database(Sqlite, baseDir + "/db.sqlite3", None, None, None, None))
  {
    match SchemeOf(url)
    case SqliteFile =>
      var path := ReplaceAll(url, "sqlite:///", "");
      Ok(Database(Sqlite, if StartsWith(path, "/") then path else UnderBase(baseDir, path), None, None, None, None))
    case Server(engine, rest, port) => ServerDatabase(rest, engine, port)
    case Fallback => Ok(Database(Sqlite, baseDir + "/db.sqlite3", None, None, None, None))
  }

  /** A relative SQLite path lands under `BASE_DIR`, an absolute one is kept. */
  lemma SqlitePaths(baseDir: string, path: string)
    requires !Contains(path, "sqlite:///")
    ensures ParseDatabaseUrl("sqlite:///" + path, baseDir).value.name == if StartsWith(path, "/") then path else UnderBase(baseDir, path)
  {
    var url := "sqlite:///" + path;
    assert ReplaceAll(url, "sqlite:///", "") == path by {
      assert StartsWith(url, "sqlite:///");
      assert url[|"sqlite:///"|..] == path;
      assert ReplaceAll(url, "sqlite:///", "") == "" + ReplaceAll(path, "sqlite:///", "");
    }
    assert SchemeOf(url) == SqliteFile by {
      assert StartsWith(url, "sqlite:///");
    }
  }

  /** A URL with no port gets the engine's default: 5432 for PostgreSQL, 3306 for MySQL. */
  lemma DefaultPorts(url: string, baseDir: string)
    requires SchemeOf(url).Server? && ParseDatabaseUrl(url, baseDir).Ok?
    requires ParseNetloc(SplitLocation(SchemeOf(url).rest).netloc).value.port.None?
    ensures ParseDatabaseUrl(url, baseDir).value.port == Some(SchemeOf(url).defaultPort)
  {
  }

  /** The characters that end a piece of the network location or the path. */
  const Delimiters: set<char> := {'/', '?', '#', '@', ':', '[', ']', '%'}

  predicate Plain(s: string) {
    forall i :: 0 <= i < |s| ==> s[i] !in Delimiters
  }

  /** A server URL written from plain parts. */
  function ServerUrl(scheme: string, user: string, password: string, host: string, port: string, name: string): string {
    scheme + "://" + user + ":" + password + "@" + host + ":" + port + "/" + name
  }

  /** Searching past a stretch free of the searched characters. */
  lemma IndexOfAnySkip(a: string, b: string, cs: set<char>)
    requires forall i :: 0 <= i < |a| ==> a[i] !in cs
    ensures IndexOfAny(a + b, cs) == |a| + IndexOfAny(b, cs)
  {
    IndexOfAnyAppend(a, b, cs);
    IndexOfAnyUnique(a, cs, |a|);
  }

  /** Partitioning at the first separator. */
  lemma PartitionAt(a: string, c: char, b: string)
    requires c !in a
    ensures Partition(a + [c] + b, c) == Parts(a, true, b)
  {
    var s := a + [c] + b;
    IndexOfAnyUnique(s, {c}, |a|);
    assert s[..|a|] == a;
    assert s[|a| + 1..] == b;
  }

  /** Partitioning at the last separator. */
  lemma RPartitionAt(a: string, c: char, b: string)
    requires c !in b
    ensures RPartition(a + [c] + b, c) == Parts(a, true, b)
  {
    var s := a + [c] + b;
    var i := LastIndex(s, c);
    assert s[|a|] == c;
    assert i == |a|;
    assert s[..i] == a;
    assert s[i + 1..] == b;
  }

  /** The network location `user:password@host:port` reads back as its parts. */
  lemma NetlocRoundTrip(user: string, password: string, host: string, port: string)
    requires Plain(user) && Plain(password) && Plain(host) && host != "" && Lower(host) == host
    requires AllDigits(port) && 0 < DigitsValue(port) <= 65535
    ensures ParseNetloc(user + ":" + password + "@" + host + ":" + port)
      == Ok(Netloc(Some(user), Some(password), Some(host), Some(DigitsValue(port))))
  {
    var hostinfo := host + [':'] + port;
    var userinfo := user + [':'] + password;
    assert user + ":" + password + "@" + host + ":" + port == userinfo + ['@'] + hostinfo;
    assert RPartition(userinfo + ['@'] + hostinfo, '@') == Parts(userinfo, true, hostinfo) by {
      assert '@' !in hostinfo by { assert '@' !in host && '@' !in port; }
      RPartitionAt(userinfo, '@', hostinfo);
    }
    assert Partition(userinfo, ':') == Parts(user, true, password) by {
      assert ':' !in user;
      PartitionAt(user, ':', password);
    }
    assert !Partition(hostinfo, '[').found by {
      assert '[' !in host && '[' !in port;
    }
    assert Partition(hostinfo, ':') == Parts(host, true, port) by {
      assert ':' !in host;
      PartitionAt(host, ':', port);
    }
    assert HostName(host) == Some(host) by {
      assert '%' !in host;
    }
  }

  /** A network location free of `/`, `?` and `#`, then `/` and a path free of `?` and `#`. */
  lemma SplitLocationAt(netloc: string, name: string)
    requires Plain(netloc) || forall i :: 0 <= i < |netloc| ==> netloc[i] !in {'/', '?', '#'}
    requires Plain(name)
    ensures SplitLocation(netloc + "/" + name) == Location(netloc, "/" + name)
  {
    var rest := netloc + "/" + name;
    var path := "/" + name;
    assert rest == netloc + path;
    IndexOfAnySkip(netloc, path, {'/', '?', '#'});
    assert path[0] == '/';
    assert rest[..|netloc|] == netloc;
    assert rest[|netloc|..] == path;
    IndexOfAnySkip(path, "", {'?', '#'});
    assert path + "" == path;
  }

  /** A `postgresql://` URL takes the PostgreSQL branch with what follows the scheme. */
  lemma PostgresScheme(rest: string)
    ensures SchemeOf("postgresql://" + rest) == Server(Postgresql, rest, 5432)
  {
    var url := "postgresql://" + rest;
    assert url[..13] == "postgresql://";
    assert url[13..] == rest;
    assert url[0] == 'p';
  }

  /** What follows `scheme://` is read as its network location and, without the leading `/`, its path. */
  lemma ServerAt(netloc: string, name: string, engine: Engine, defaultPort: nat, n: Netloc)
    requires defaultPort > 0 && ParseNetloc(netloc) == Ok(n) && n.port.Some? && n.port.value > 0
    requires SplitLocation(netloc + "/" + name) == Location(netloc, "/" + name)
    ensures ServerDatabase(netloc + "/" + name, engine, defaultPort) == Ok(Database(engine, name, n.user, n.password, n.host, n.port))
  {
    assert ("/" + name)[1..] == name;
  }

  /** The server part of a URL written from plain parts is read back as those parts. */
  lemma ServerRoundTrip(user: string, password: string, host: string, port: string, name: string, engine: Engine, defaultPort: nat)
    requires Plain(user) && Plain(password) && Plain(host) && Plain(name) && host != "" && Lower(host) == host
    requires AllDigits(port) && 0 < DigitsValue(port) <= 65535 && defaultPort > 0
    ensures ServerDatabase(user + ":" + password + "@" + host + ":" + port + "/" + name, engine, defaultPort)
      == Ok(Database(engine, name, Some(user), Some(password), Some(host), Some(DigitsValue(port))))
  {
    var netloc := user + ":" + password + "@" + host + ":" + port;
    assert netloc + "/" + name == user + ":" + password + "@" + host + ":" + port + "/" + name;
    assert SplitLocation(netloc + "/" + name) == Location(netloc, "/" + name) by {
      assert forall i :: 0 <= i < |netloc| ==> netloc[i] !in {'/', '?', '#'} by {
        assert forall i :: 0 <= i < |port| ==> port[i] !in {'/', '?', '#'};
      }
      SplitLocationAt(netloc, name);
    }
    NetlocRoundTrip(user, password, host, port);
    ServerAt(netloc, name, engine, defaultPort, Netloc(Some(user), Some(password), Some(host), Some(DigitsValue(port))));
  }

  /** A PostgreSQL URL written from plain parts is read back as those parts. */
  lemma PostgresRoundTrip(user: string, password: string, host: string, port: string, name: string)
    requires Plain(user) && Plain(password) && Plain(host) && Plain(name) && host != "" && Lower(host) == host
    requires AllDigits(port) && 0 < DigitsValue(port) <= 65535
    ensures ParseDatabaseUrl(ServerUrl("postgresql", user, password, host, port, name), "")
      == Ok(Database(Postgresql, name, Some(user), Some(password), Some(host), Some(DigitsValue(port))))
  {
    var rest := user + ":" + password + "@" + host + ":" + port + "/" + name;
    var url := ServerUrl("postgresql", user, password, host, port, name);
    assert url == "postgresql://" + rest;
    assert ParseDatabaseUrl(url, "") == ServerDatabase(rest, Postgresql, 5432) by {
      PostgresScheme(rest);
    }
    assert ServerDatabase(rest, Postgresql, 5432) == Ok(Database(Postgresql, name, Some(user), Some(password), Some(host), Some(DigitsValue(port)))) by {
      ServerRoundTrip(user, password, host, port, name, Postgresql, 5432);
    }
  }
}

=== FILE: sorting.dfy ===
/**
 * A stable sort by a numeric key: what `Array.prototype.sort` with a numeric
 * comparator and Django's `order_by` on one field both produce. `SortBy`'s
 * contract pins it down completely: sorted, a permutation, and stable.
 */
module Sorting {

  predicate SortedBy<T>(s: seq<T>, key: T -> real) {
    forall i, j :: 0 <= i < j < |s| ==> key(s[i]) <= key(s[j])
  }

  /** The items of `s` whose key is `k`, in their order in `s`. */
  function WithKey<T>(s: seq<T>, key: T -> real, k: real): (r: seq<T>)
    ensures |r| <= |s|
  {
    if |s| == 0 then []
    else if key(s[0]) == k then [s[0]] + WithKey(s[1..], key, k)
    else WithKey(s[1..], key, k)
  }

  /** `x` placed after the leading items with a smaller key and before the rest. */
  function Insert<T>(x: T, s: seq<T>, key: T -> real): (r: seq<T>)
    ensures multiset(r) == multiset(s) + multiset{x}
    ensures |r| == |s| + 1
  {
    if |s| == 0 || key(x) <= key(s[0]) then [x] + s
    else
      assert s == [s[0]] + s[1..];
      [s[0]] + Insert(x, s[1..], key)
  }

  /** Inserting into a sorted list keeps it sorted. */
  lemma {:induction false} InsertSorted<T>(x: T, s: seq<T>, key: T -> real)
    requires SortedBy(s, key)
    ensures SortedBy(Insert(x, s, key), key)
    decreases |s|
  {
    if |s| > 0 && key(x) > key(s[0]) {
      var tail := s[1..];
      var rest := Insert(x, tail, key);
      assert SortedBy(rest, key) by {
        assert SortedBy(tail, key) by {
          forall i, j | 0 <= i < j < |tail| ensures key(tail[i]) <= key(tail[j]) {
            assert tail[i] == s[i + 1] && tail[j] == s[j + 1];
          }
        }
        InsertSorted(x, tail, key);
      }
      forall t | t in rest ensures key(s[0]) <= key(t) {
        assert t in multiset(rest);
        if t != x {
          var k :| 0 <= k < |tail| && tail[k] == t;
          assert tail[k] == s[k + 1];
        }
      }
      SortedCons(s[0], rest, key);
    }
  }

  /** An item no greater than any item of a sorted list can go in front of it. */
  lemma SortedCons<T>(h: T, rest: seq<T>, key: T -> real)
    requires SortedBy(rest, key)
    requires forall t :: t in rest ==> key(h) <= key(t)
    ensures SortedBy([h] + rest, key)
  {
    var s := [h] + rest;
    forall i, j | 0 <= i < j < |s| ensures key(s[i]) <= key(s[j]) {
      assert s[j] == rest[j - 1];
      if i > 0 {
        assert s[i] == rest[i - 1];
      }
    }
  }

  /** Inserting puts `x` ahead of the items with its own key and leaves every other key's items alone. */
  lemma {:induction false} InsertWithKey<T>(x: T, s: seq<T>, key: T -> real, k: real)
    ensures WithKey(Insert(x, s, key), key, k) == if key(x) == k then [x] + WithKey(s, key, k) else WithKey(s, key, k)
    decreases |s|
  {
    if |s| == 0 || key(x) <= key(s[0]) {
      assert ([x] + s)[1..] == s;
    } else {
      InsertWithKey(x, s[1..], key, k);
      assert ([s[0]] + Insert(x, s[1..], key))[1..] == Insert(x, s[1..], key);
    }
  }

  /** The stable sort by `key`. */
  function SortBy<T>(s: seq<T>, key: T -> real): (r: seq<T>)
    ensures SortedBy(r, key)
    ensures multiset(r) == multiset(s)
    ensures |r| == |s|
  {
    if |s| == 0 then []
    else
      assert s == [s[0]] + s[1..];
      InsertSorted(s[0], SortBy(s[1..], key), key);
      Insert(s[0], SortBy(s[1..], key), key)
  }

  /** The sort is stable: for every key, the items with that key keep their order. */
  lemma {:induction false} SortByStable<T>(s: seq<T>, key: T -> real, k: real)
    ensures WithKey(SortBy(s, key), key, k) == WithKey(s, key, k)
    decreases |s|
  {
    if |s| > 0 {
      SortByStable(s[1..], key, k);
      InsertWithKey(s[0], SortBy(s[1..], key), key, k);
    }
  }

  /** `f` applied to each item, in order: what `map` and a list comprehension produce. */
  function Map<T, U>(s: seq<T>, f: T -> U): (r: seq<U>)
    ensures |r| == |s|
    ensures forall i :: 0 <= i < |s| ==> r[i] == f(s[i])
  {
    if |s| == 0 then [] else [f(s[0])] + Map(s[1..], f)
  }

  /** Mapping after an insertion adds the inserted item's image and nothing else. */
  lemma {:induction false} MapInsert<T, U>(x: T, s: seq<T>, key: T -> real, f: T -> U)
    ensures multiset(Map(Insert(x, s, key), f)) == multiset(Map(s, f)) + multiset{f(x)}
    decreases |s|
  {
    if |s| == 0 || key(x) <= key(s[0]) {
      assert ([x] + s)[1..] == s;
    } else {
      var rest := Insert(x, s[1..], key);
      MapInsert(x, s[1..], key, f);
      assert ([s[0]] + rest)[1..] == rest;
    }
  }

  /** Sorting before mapping yields the same items as mapping alone, only reordered. */
  lemma {:induction false} MapSortBy<T, U>(s: seq<T>, key: T -> real, f: T -> U)
    ensures multiset(Map(SortBy(s, key), f)) == multiset(Map(s, f))
    decreases |s|
  {
    if |s| > 0 {
      MapSortBy(s[1..], key, f);
      MapInsert(s[0], SortBy(s[1..], key), key, f);
    }
  }

  /** An already sorted list is left as it is. */
  lemma {:induction false} SortBySorted<T>(s: seq<T>, key: T -> real)
    requires SortedBy(s, key)
    ensures SortBy(s, key) == s
    decreases |s|
  {
    if |s| > 0 {
      SortBySorted(s[1..], key);
      if |s| > 1 {
        assert key(s[0]) <= key(s[1..][0]);
      }
      assert [s[0]] + s[1..] == s;
    }
  }
}

=== FILE: storage_migration.dfy ===
/**
 * Moving a user's attachments from one storage backend to another: the
 * preview that counts what would move, and the migration itself, which
 * sorts every attachment into skipped (already on the target), migrated or
 * failed.
 *
 * A storage configuration is referred to by its id; no id, or the empty id,
 * means the server's local storage. Reading a file from its source backend
 * and writing it to the target is an oracle: `transfer` maps the id of each
 * attachment whose copy succeeds to the storage path the target reports.
 */
module StorageMigration {
  import opened Wrappers

  datatype Attachment = Attachment(id: string, originalName: string, storageConfigId: Option<string>, storagePath: string)

  /** A configuration reference as text, as `str(x or '')` and `str(x) if x else ''` both give it. */
  function ConfigText(c: Option<string>): (t: string)
    ensures t == "" <==> c.None? || c.value == ""
  {
    if c.Some? then c.value else ""
  }

  /** The attachment already lives where the migration would put it. */
  predicate OnTarget(a: Attachment, target: Option<string>) {
    ConfigText(a.storageConfigId) == ConfigText(target)
  }

  /** The attachments that are (`on`) or are not (`!on`) on the target, in order. */
  function Where(atts: seq<Attachment>, target: Option<string>, on: bool): (r: seq<Attachment>)
    ensures forall a :: a in r <==> a in atts && OnTarget(a, target) == on
  {
    if |atts| == 0 then []
    else (if OnTarget(atts[0], target) == on then [atts[0]] else []) + Where(atts[1..], target, on)
  }

  /** Every attachment is on the target or not: the two filters split the list. */
  lemma {:induction false} WhereSplits(atts: seq<Attachment>, target: Option<string>)
    ensures |Where(atts, target, true)| + |Where(atts, target, false)| == |atts|
  {
    if |atts| > 0 {
      WhereSplits(atts[1..], target);
    }
  }

  /** When every attachment is on the target, the on-target filter keeps them all. */
  lemma {:induction false} WhereAllOn(atts: seq<Attachment>, target: Option<string>)
    requires forall a :: a in atts ==> OnTarget(a, target)
    ensures |Where(atts, target, true)| == |atts|
  {
    if |atts| > 0 {
      assert atts[0] in atts;
      WhereAllOn(atts[1..], target);
    }
  }

  datatype Preview = Preview(total: nat, needMigrate: nat, alreadyOnTarget: nat)

  /** The preview: one pass over the attachments, counting those already on the target and those that would move. */
  function GetPreview(atts: seq<Attachment>, target: Option<string>): (p: Preview)
    ensures p.total == |atts| == p.needMigrate + p.alreadyOnTarget
    ensures p.alreadyOnTarget == |Where(atts, target, true)|
    ensures p.needMigrate == |Where(atts, target, false)|
  {
    if |atts| == 0 then Preview(0, 0, 0)
    else
      var rest := GetPreview(atts[1..], target);
      if OnTarget(atts[0], target) then rest.(total := rest.total + 1, alreadyOnTarget := rest.alreadyOnTarget + 1)
      else rest.(total := rest.total + 1, needMigrate := rest.needMigrate + 1)
  }

  /** A storage backend: the local default, or the S3 bucket of a saved configuration. */
  datatype Engine = Local | S3(configId: string)

  /**
   * The engine for a configuration reference. A non-empty id must name a
   * saved configuration that is a complete S3 setup (`configs[id]`), else
   * the lookup raises.
   */
  function GetEngine(configs: map<string, bool>, id: Option<string>): (r: Result<Engine>)
    ensures ConfigText(id) == "" ==> r == Ok(Local)
    ensures ConfigText(id) != "" ==> (r.Ok? <==> id.value in configs && configs[id.value])
    ensures r.Ok? && ConfigText(id) != "" ==> r.value == S3(id.value)
  {
    if id.Some? && id.value != "" then
      if id.value in configs && configs[id.value] then Ok(S3(id.value))
      else Err("storage configuration " + id.value + " is missing or incomplete")
    else Ok(Local)
  }

  /**
   * Copying one attachment: its source engine must resolve and the copy must
   * succeed; the record then points at the target, under the storage path the
   * target reported. `None` is a raised error.
   */
  function MigrateOne(a: Attachment, target: Option<string>, configs: map<string, bool>, transfer: map<string, string>): (r: Option<Attachment>)
    ensures r.Some? <==> GetEngine(configs, a.storageConfigId).Ok? && a.id in transfer
    ensures r.Some? ==> && OnTarget(r.value, target)
                        && r.value.id == a.id && r.value.originalName == a.originalName
                        && r.value.storagePath == transfer[a.id]
  {
    if GetEngine(configs, a.storageConfigId).Err? then None
    else if a.id !in transfer then None
    else Some(a.(storageConfigId := Some(ConfigText(target)), storagePath := transfer[a.id]))
  }

  datatype Outcome = Skipped | Migrated | Failed

  datatype Settled = Settled(outcome: Outcome, record: Attachment)

  /** One turn of the migration loop: skip what is on the target, else try to copy it. */
  function Settle(a: Attachment, target: Option<string>, configs: map<string, bool>, transfer: map<string, string>): (s: Settled)
    ensures s.outcome == Skipped <==> OnTarget(a, target)
    ensures s.outcome == Migrated <==> !OnTarget(a, target) && MigrateOne(a, target, configs, transfer).Some?
    ensures s.outcome != Migrated ==> s.record == a
    ensures s.outcome == Migrated ==> Some(s.record) == MigrateOne(a, target, configs, transfer)
  {
    if OnTarget(a, target) then Settled(Skipped, a)
    else match MigrateOne(a, target, configs, transfer)
      case Some(b) => Settled(Migrated, b)
      case None => Settled(Failed, a)
  }

  /** The counters, and the failed attachments' ids in the order they failed (standing for the error messages). */
  datatype Stats = Stats(total: nat, migrated: nat, skipped: nat, failed: nat, errors: seq<string>)

  /** The stats after one turn. */
  function Count(stats: Stats, s: Settled): Stats {
    match s.outcome
    case Skipped => stats.(skipped := stats.skipped + 1)
    case Migrated => stats.(migrated := stats.migrated + 1)
    case Failed => stats.(failed := stats.failed + 1, errors := stats.errors + [s.record.id])
  }

  datatype Run = Run(records: seq<Attachment>, stats: Stats)

  /** Every attachment's record after its turn, in order. */
  function SettleAll(atts: seq<Attachment>, target: Option<string>, configs: map<string, bool>, transfer: map<string, string>): (records: seq<Attachment>)
    ensures |records| == |atts|
    ensures forall i :: 0 <= i < |atts| ==> records[i] == Settle(atts[i], target, configs, transfer).record
  {
    if |atts| == 0 then [] else [Settle(atts[0], target, configs, transfer).record] + SettleAll(atts[1..], target, configs, transfer)
  }

  /** The loop over the attachments from `stats` on: the settled records, and the counters carried through. */
  function MigrateEach(atts: seq<Attachment>, target: Option<string>, configs: map<string, bool>, transfer: map<string, string>, stats: Stats): (r: Run)
    ensures r.records == SettleAll(atts, target, configs, transfer)
    ensures r.stats.total == stats.total
    ensures r.stats.skipped == stats.skipped + |Where(atts, target, true)|
    ensures r.stats.migrated + r.stats.failed == stats.migrated + stats.failed + |Where(atts, target, false)|
    ensures |Where(r.records, target, true)| == r.stats.skipped - stats.skipped + r.stats.migrated - stats.migrated
    ensures |r.stats.errors| - r.stats.failed == |stats.errors| - stats.failed
  {
    if |atts| == 0 then Run([], stats)
    else
      var s := Settle(atts[0], target, configs, transfer);
      var rest := MigrateEach(atts[1..], target, configs, transfer, Count(stats, s));
      Run([s.record] + rest.records, rest.stats)
  }

  /**
   * `migrate`: resolve the target's engine, which raises before any
   * attachment is touched, then settle every attachment in turn.
   */
  function Migrate(atts: seq<Attachment>, target: Option<string>, configs: map<string, bool>, transfer: map<string, string>): (r: Result<Run>)
    ensures r.Err? <==> GetEngine(configs, target).Err?
    ensures r.Ok? ==> && r.value.stats.total == |atts| == |r.value.records|
                      && r.value.stats.skipped + r.value.stats.migrated + r.value.stats.failed == r.value.stats.total
                      && |r.value.stats.errors| == r.value.stats.failed
    ensures r.Ok? ==> forall i :: 0 <= i < |atts| ==> r.value.records[i] == Settle(atts[i], target, configs, transfer).record
  {
    if GetEngine(configs, target).Err? then Err(GetEngine(configs, target).error)
    else
      var r := MigrateEach(atts, target, configs, transfer, Stats(|atts|, 0, 0, 0, []));
      WhereSplits(atts, target);
      Ok(r)
  }

  /** The preview's counts are what the migration finds: its skipped are the preview's already-on-target, and the rest either move or fail. */
  lemma PreviewMatchesMigrate(atts: seq<Attachment>, target: Option<string>, configs: map<string, bool>, transfer: map<string, string>)
    requires Migrate(atts, target, configs, transfer).Ok?
    ensures var stats := Migrate(atts, target, configs, transfer).value.stats;
      && stats.skipped == GetPreview(atts, target).alreadyOnTarget
      && stats.migrated + stats.failed == GetPreview(atts, target).needMigrate
  {
  }

  /** Migrating the migrated records again to the same target skips everything that was skipped or moved the first time. */
  lemma RemigrateSkipsMoved(atts: seq<Attachment>, target: Option<string>, configs: map<string, bool>, transfer: map<string, string>, transfer2: map<string, string>)
    requires Migrate(atts, target, configs, transfer).Ok?
    ensures var first := Migrate(atts, target, configs, transfer).value;
      var second := Migrate(first.records, target, configs, transfer2);
      && second.Ok?
      && second.value.stats.skipped == first.stats.skipped + first.stats.migrated
  {
  }

  /** When every copy succeeds and every source resolves, nothing fails: each attachment is skipped or moved, and all end on the target. */
  lemma AllCopiesSucceed(atts: seq<Attachment>, target: Option<string>, configs: map<string, bool>, transfer: map<string, string>)
    requires Migrate(atts, target, configs, transfer).Ok?
    requires forall a :: a in atts ==> a.id in transfer && GetEngine(configs, a.storageConfigId).Ok?
    ensures var run := Migrate(atts, target, configs, transfer).value;
      run.stats.failed == 0 && forall b :: b in run.records ==> OnTarget(b, target)
  {
    var run := Migrate(atts, target, configs, transfer).value;
    forall b | b in run.records
      ensures OnTarget(b, target)
    {
      var i :| 0 <= i < |run.records| && run.records[i] == b;
      assert atts[i] in atts;
    }
    WhereAllOn(run.records, target);
    WhereSplits(atts, target);
  }
}

=== FILE: strings.dfy ===
/**
 * String helpers shared by the models: the handful of `str`/`String` methods the
 * front end (TypeScript) and the back end (Python) call, written over `seq<char>`.
 * Case mapping covers ASCII letters only.
 */
module Strings {

  lemma AppendDrop<T>(a: seq<T>, b: seq<T>, k: nat)
    requires k <= |a|
    ensures (a + b)[k..] == a[k..] + b
  {
  }

  lemma AppendTake<T>(a: seq<T>, b: seq<T>, k: nat)
    requires k <= |a|
    ensures (a + b)[..k] == a[..k]
  {
  }

  lemma AppendTakeLong<T>(a: seq<T>, b: seq<T>, k: nat)
    requires |a| <= k <= |a| + |b|
    ensures (a + b)[..k] == a + b[..k - |a|]
  {
  }

  lemma AppendAssoc<T>(a: seq<T>, b: seq<T>, c: seq<T>)
    ensures a + b + c == a + (b + c)
  {
  }

  /** `s.startsWith(p)` / `s.startswith(p)`. */
  predicate StartsWith(s: string, p: string) {
    |p| <= |s| && s[..|p|] == p
  }

  /** `s.endsWith(p)` / `s.endswith(p)`. */
  predicate EndsWith(s: string, p: string) {
    |p| <= |s| && s[|s| - |p|..] == p
  }

  /** `s.includes(sub)` / `sub in s`: `sub` occurs at some position of `s`. */
  predicate Contains(s: string, sub: string)
    decreases |s|
  {
    StartsWith(s, sub) || (|s| > 0 && Contains(s[1..], sub))
  }

  lemma ContainsAt(s: string, sub: string, i: nat)
    requires i + |sub| <= |s| && s[i..i + |sub|] == sub
    ensures Contains(s, sub)
    decreases i
  {
    if i > 0 {
      assert s[1..][i - 1..i - 1 + |sub|] == sub;
      ContainsAt(s[1..], sub, i - 1);
    }
  }

  lemma ContainsEmpty(s: string)
    ensures Contains(s, "")
  {
    ContainsAt(s, "", 0);
  }

  /** An ASCII upper-case letter mapped to lower case; every other character unchanged. */
  function LowerChar(c: char): char {
    if 'A' <= c <= 'Z' then (c as int + 32) as char else c
  }

  /** `s.toLowerCase()` / `s.lower()`, restricted to ASCII letters. */
  function Lower(s: string): (r: string)
    ensures |r| == |s|
    ensures forall i :: 0 <= i < |s| ==> r[i] == LowerChar(s[i])
  {
    if |s| == 0 then "" else [LowerChar(s[0])] + Lower(s[1..])
  }

  /** `t` is the lower-cased `s` when it agrees with it character by character. */
  lemma LowerIs(s: string, t: string)
    requires |s| == |t| && forall i :: 0 <= i < |s| ==> LowerChar(s[i]) == t[i]
    ensures Lower(s) == t
  {
  }

  lemma LowerIdempotent(s: string)
    ensures Lower(Lower(s)) == Lower(s)
  {
  }

  lemma LowerAppend(a: string, b: string)
    ensures Lower(a + b) == Lower(a) + Lower(b)
  {
  }

  /** A slice of the lower-cased string is the lower-cased slice. */
  lemma LowerSlice(s: string, i: nat, j: nat)
    requires i <= j <= |s|
    ensures Lower(s)[i..j] == Lower(s[i..j])
  {
  }

  /** A suffix of the lower-cased string is the lower-cased suffix. */
  lemma LowerSuffix(s: string, i: nat)
    requires i <= |s|
    ensures Lower(s)[i..] == Lower(s[i..])
  {
  }

  /**
   * The position of the first character of `s` that is in `cs`, or `|s|` when
   * there is none: `s.find(c)` generalised to a set, with "not found" as the length.
   */
  function IndexOfAny(s: string, cs: set<char>): (i: nat)
    ensures i <= |s|
    ensures i < |s| ==> s[i] in cs
    ensures forall j :: 0 <= j < i ==> s[j] !in cs
  {
    if |s| == 0 || s[0] in cs then 0 else 1 + IndexOfAny(s[1..], cs)
  }

  /** A string with no character of `cs` has no match. */
  lemma IndexOfAnyAbsent(s: string, cs: set<char>)
    requires forall c :: c in cs ==> c !in s
    ensures IndexOfAny(s, cs) == |s|
  {
  }

  /** Searching a concatenation finds the first part's match, or searches on into the second. */
  lemma {:induction false} IndexOfAnyAppend(a: string, b: string, cs: set<char>)
    ensures IndexOfAny(a + b, cs)
      == if IndexOfAny(a, cs) < |a| then IndexOfAny(a, cs) else |a| + IndexOfAny(b, cs)
  {
    if |a| > 0 && a[0] !in cs {
      assert (a + b)[1..] == a[1..] + b;
      IndexOfAnyAppend(a[1..], b, cs);
    } else if |a| == 0 {
      assert a + b == b;
    }
  }

  /** Lower-casing does not move any character that is not an ASCII letter. */
  lemma IndexOfAnyLower(s: string, cs: set<char>)
    requires forall c :: c in cs ==> !('A' <= c <= 'Z') && !('a' <= c <= 'z')
    ensures IndexOfAny(Lower(s), cs) == IndexOfAny(s, cs)
  {
    var i := IndexOfAny(s, cs);
    var l := Lower(s);
    forall j | 0 <= j < i ensures l[j] !in cs {
      assert l[j] == LowerChar(s[j]);
    }
    assert i < |s| ==> l[i] in cs;
    IndexOfAnyUnique(l, cs, i);
  }

  /** The first-match position is determined by the two properties in its contract. */
  lemma IndexOfAnyUnique(s: string, cs: set<char>, i: nat)
    requires i <= |s|
    requires i < |s| ==> s[i] in cs
    requires forall j :: 0 <= j < i ==> s[j] !in cs
    ensures IndexOfAny(s, cs) == i
  {
  }

  /** The characters JavaScript's `\s` and `String.prototype.trim` treat as white space. */
  predicate IsJsSpace(c: char) {
    c == '\t' || c == '\n' || c == '\U{B}' || c == '\U{C}' || c == '\r' || c == ' '
    || c == '\U{A0}' || c == '\U{1680}' || ('\U{2000}' <= c <= '\U{200A}')
    || c == '\U{2028}' || c == '\U{2029}' || c == '\U{202F}' || c == '\U{205F}'
    || c == '\U{3000}' || c == '\U{FEFF}'
  }

  /** The characters Python's `str.isspace` (and so `str.strip()`) treats as white space. */
  predicate IsPySpace(c: char) {
    c == '\t' || c == '\n' || c == '\U{B}' || c == '\U{C}' || c == '\r'
    || ('\U{1C}' <= c <= '\U{1F}') || c == ' ' || c == '\U{85}' || c == '\U{A0}'
    || c == '\U{1680}' || ('\U{2000}' <= c <= '\U{200A}') || c == '\U{2028}' || c == '\U{2029}'
    || c == '\U{202F}' || c == '\U{205F}' || c == '\U{3000}'
  }

  /** Which language's notion of white space a trim uses. */
  datatype Flavor = Js | Py

  predicate IsSpace(f: Flavor, c: char) {
    match f
    case Js => IsJsSpace(c)
    case Py => IsPySpace(c)
  }

  function TrimStart(s: string, f: Flavor): (r: string)
    ensures |r| <= |s| && r == s[|s| - |r|..]
    ensures |r| > 0 ==> !IsSpace(f, r[0])
    ensures forall i :: 0 <= i < |s| - |r| ==> IsSpace(f, s[i])
  {
    if |s| > 0 && IsSpace(f, s[0]) then TrimStart(s[1..], f) else s
  }

  function TrimEnd(s: string, f: Flavor): (r: string)
    ensures |r| <= |s| && r == s[..|r|]
    ensures |r| > 0 ==> !IsSpace(f, r[|r| - 1])
    ensures forall i :: |r| <= i < |s| ==> IsSpace(f, s[i])
  {
    if |s| > 0 && IsSpace(f, s[|s| - 1]) then TrimEnd(s[..|s| - 1], f) else s
  }

  /** Both ends stripped of white space: `s.strip()` for `Py`, `s.trim()` for `Js`. */
  function Trim(s: string, f: Flavor): (r: string)
    ensures |r| <= |s|
    ensures |r| > 0 ==> !IsSpace(f, r[0]) && !IsSpace(f, r[|r| - 1])
    ensures |r| == 0 <==> forall i :: 0 <= i < |s| ==> IsSpace(f, s[i])
  {
    var t := TrimStart(s, f);
    var r := TrimEnd(t, f);
    assert |r| > 0 ==> r[0] == t[0];
    r
  }

  /** A string with no white space at either end is its own trim. */
  lemma TrimStripped(s: string, f: Flavor)
    requires |s| > 0 ==> !IsSpace(f, s[0]) && !IsSpace(f, s[|s| - 1])
    ensures Trim(s, f) == s
  {
  }

  /** Trimming twice is trimming once. */
  lemma TrimIdempotent(s: string, f: Flavor)
    ensures Trim(Trim(s, f), f) == Trim(s, f)
  {
    TrimStripped(Trim(s, f), f);
  }

  /** A trimmed string is a piece of the original, so it holds no character the original lacks. */
  lemma TrimWithin(s: string, f: Flavor, c: char)
    requires c !in s
    ensures c !in Trim(s, f)
  {
    var t := TrimStart(s, f);
    assert c !in t by { assert t == s[|s| - |t|..]; }
    var r := TrimEnd(t, f);
    assert c !in r by { assert r == t[..|r|]; }
  }

  /**
   * `s.split(sep)` for a one-character separator, as both languages do it:
   * empty pieces are kept, and the empty string splits into one empty piece.
   */
  function Split(s: string, sep: char): (r: seq<string>)
    ensures |r| >= 1
    ensures forall i :: 0 <= i < |r| ==> sep !in r[i]
    ensures Join(r, [sep]) == s
  {
    if |s| == 0 then [""]
    else
      var rest := Split(s[1..], sep);
      if s[0] == sep then [""] + rest
      else [[s[0]] + rest[0]] + rest[1..]
  }

  /** `sep.join(parts)` / `parts.join(sep)`. */
  function Join(parts: seq<string>, sep: string): string {
    if |parts| == 0 then ""
    else if |parts| == 1 then parts[0]
    else parts[0] + sep + Join(parts[1..], sep)
  }

  /** The join of non-empty pieces starts with the first piece's first character and ends with the last piece's last. */
  lemma {:induction false} JoinEnds(parts: seq<string>, sep: string)
    requires |parts| >= 1 && forall i :: 0 <= i < |parts| ==> parts[i] != ""
    ensures var j := Join(parts, sep);
      |j| > 0 && j[0] == parts[0][0] && j[|j| - 1] == parts[|parts| - 1][|parts[|parts| - 1]| - 1]
    decreases |parts|
  {
    if |parts| > 1 {
      JoinEnds(parts[1..], sep);
    }
  }

  lemma JoinSingleSeparatorFree(parts: seq<string>, sep: char)
    requires |parts| >= 2
    ensures sep in Join(parts, [sep])
  {
    assert Join(parts, [sep])[|parts[0]|] == sep;
  }

  /** A string without the separator splits into itself alone. */
  lemma {:induction false} SplitFree(a: string, sep: char)
    requires sep !in a
    ensures Split(a, sep) == [a]
    decreases |a|
  {
    if |a| > 0 {
      SplitFree(a[1..], sep);
      assert [a[0]] + a[1..] == a;
    }
  }

  /** Splitting at a separator preceded by a separator-free piece peels that piece off. */
  lemma {:induction false} SplitCons(a: string, sep: char, rest: string)
    requires sep !in a
    ensures Split(a + [sep] + rest, sep) == [a] + Split(rest, sep)
    decreases |a|
  {
    var s := a + [sep] + rest;
    if |a| == 0 {
      assert s == [sep] + rest;
      assert s[1..] == rest;
    } else {
      assert s[1..] == a[1..] + [sep] + rest;
      SplitCons(a[1..], sep, rest);
      assert [a[0]] + a[1..] == a;
    }
  }

  /** Splitting the join of separator-free pieces gives the pieces back. */
  lemma {:induction false} SplitJoin(parts: seq<string>, sep: char)
    requires |parts| >= 1
    requires forall i :: 0 <= i < |parts| ==> sep !in parts[i]
    ensures Split(Join(parts, [sep]), sep) == parts
    decreases |parts|
  {
    if |parts| == 1 {
      SplitFree(parts[0], sep);
    } else {
      SplitJoin(parts[1..], sep);
      SplitCons(parts[0], sep, Join(parts[1..], [sep]));
      assert [parts[0]] + parts[1..] == parts;
    }
  }

  /** Python's `s.replace(pat, rep)`: every non-overlapping occurrence, left to right. */
  function ReplaceAll(s: string, pat: string, rep: string): (r: string)
    requires |pat| > 0
    ensures !Contains(s, pat) ==> r == s
    decreases |s|
  {
    if |s| == 0 then s
    else if StartsWith(s, pat) then rep + ReplaceAll(s[|pat|..], pat, rep)
    else [s[0]] + ReplaceAll(s[1..], pat, rep)
  }

  /**
   * The order IndexedDB gives string keys: lexicographic by character, a proper
   * prefix before any longer string.
   */
  predicate LexLess(a: string, b: string)
    decreases |a|
  {
    if |a| == 0 then |b| > 0
    else if |b| == 0 then false
    else if a[0] != b[0] then a[0] < b[0]
    else LexLess(a[1..], b[1..])
  }

  lemma LexLessIrreflexive(a: string)
    ensures !LexLess(a, a)
  {
  }

  lemma LexLessAsymmetric(a: string, b: string)
    ensures !(LexLess(a, b) && LexLess(b, a))
  {
  }

  lemma LexLessTransitive(a: string, b: string, c: string)
    requires LexLess(a, b) && LexLess(b, c)
    ensures LexLess(a, c)
  {
    if |a| > 0 && |b| > 0 && |c| > 0 && a[0] == b[0] && b[0] == c[0] {
      LexLessTransitive(a[1..], b[1..], c[1..]);
    }
  }

  lemma LexLessTotal(a: string, b: string)
    requires a != b
    ensures LexLess(a, b) || LexLess(b, a)
  {
    if |a| > 0 && |b| > 0 && a[0] == b[0] {
      assert a == [a[0]] + a[1..] && b == [b[0]] + b[1..];
      LexLessTotal(a[1..], b[1..]);
    }
  }
}

=== FILE: tag_reorder.dfy ===
/**
 * Reordering the feed page's tag list by drag and drop. dnd-kit's `arrayMove`
 * rearranges the list, and the dragged tag gets a new sort order chosen from
 * its new neighbours: 1000 below the next tag at the top, 1000 above the
 * previous tag at the bottom, and halfway between them elsewhere. The new
 * order is sent as an optimistic update, which the tag slice applies by
 * setting the order and re-sorting.
 *
 * Sort orders are JavaScript numbers; they are exact reals here.
 */
module TagReorder {
  import opened Wrappers
  import opened Types
  import opened Lists
  import opened Sorting
  import TagSlice

  /** `s` without the item at `k`. */
  function Without<T>(s: seq<T>, k: nat): (r: seq<T>)
    requires k < |s|
    ensures |r| == |s| - 1
    ensures forall i :: 0 <= i < |r| ==> r[i] == if i < k then s[i] else s[i + 1]
  {
    s[..k] + s[k + 1..]
  }

  /** A list is the item at `k` and the rest, counted with repetition. */
  lemma WithoutMultiset<T>(s: seq<T>, k: nat)
    requires k < |s|
    ensures multiset(s) == multiset(Without(s, k)) + multiset{s[k]}
  {
    assert s == s[..k] + [s[k]] + s[k + 1..];
  }

  /** Replacing the item at `k` leaves the rest alone. */
  lemma WithoutUpdate<T>(s: seq<T>, k: nat, x: T)
    requires k < |s|
    ensures Without(s[k := x], k) == Without(s, k)
  {
  }

  /** dnd-kit's `arrayMove`: the item at `from` taken out and put back in at `to`. */
  function ArrayMove<T>(s: seq<T>, from: nat, to: nat): (r: seq<T>)
    requires from < |s| && to < |s|
    ensures |r| == |s| && r[to] == s[from]
    ensures Without(r, to) == Without(s, from)
  {
    var rest := Without(s, from);
    var r := rest[..to] + [s[from]] + rest[to..];
    assert Without(r, to) == rest;
    r
  }

  /** Moving keeps every item, with its repetitions. */
  lemma ArrayMovePermutes<T>(s: seq<T>, from: nat, to: nat)
    requires from < |s| && to < |s|
    ensures multiset(ArrayMove(s, from, to)) == multiset(s)
  {
    WithoutMultiset(s, from);
    WithoutMultiset(ArrayMove(s, from, to), to);
  }

  /** Moving an item back where it came from restores the list. */
  lemma ArrayMoveBack<T>(s: seq<T>, from: nat, to: nat)
    requires from < |s| && to < |s|
    ensures ArrayMove(ArrayMove(s, from, to), to, from) == s
  {
    var rest := Without(s, from);
    assert rest[..from] == s[..from];
    assert rest[from..] == s[from + 1..];
    assert s == s[..from] + [s[from]] + s[from + 1..];
  }

  /** Sort orders strictly increase along the list. */
  predicate StrictlyOrdered(s: seq<Tag>) {
    forall i, j :: 0 <= i < j < |s| ==> TagSlice.Key(s[i]) < TagSlice.Key(s[j])
  }

  /**
   * The sort order for the tag now at `k` of the rearranged list. Between
   * two neighbours in increasing order it lies strictly between them; at an
   * end it lies beyond the one neighbour; a list of one tag gets 0.
   */
  function NewSortOrder(r: seq<Tag>, k: nat): (x: real)
    requires k < |r|
    ensures 0 < k && (k == |r| - 1 || TagSlice.Key(r[k - 1]) < TagSlice.Key(r[k + 1])) ==> TagSlice.Key(r[k - 1]) < x
    ensures k < |r| - 1 && (k == 0 || TagSlice.Key(r[k - 1]) < TagSlice.Key(r[k + 1])) ==> x < TagSlice.Key(r[k + 1])
    ensures |r| == 1 ==> x == 0.0
  {
    if k == 0 then (if |r| > 1 then TagSlice.Key(r[1]) - 1000.0 else 0.0)
    else if k == |r| - 1 then TagSlice.Key(r[k - 1]) + 1000.0
    else (TagSlice.Key(r[k - 1]) + TagSlice.Key(r[k + 1])) / 2.0
  }

  /** The request sent after a drop: the tag and its new sort order. */
  datatype SortUpdate = SortUpdate(id: string, sortOrder: real)

  predicate Listed(tags: seq<Tag>, id: string) {
    FindIndex(tags, TagId, id) >= 0
  }

  /**
   * `handleDragEnd`: nothing when the tag is dropped outside the list or onto
   * itself; otherwise the update for the dragged tag. dnd-kit only reports
   * ids of tags in the list.
   */
  function HandleDragEnd(tags: seq<Tag>, activeId: string, overId: Option<string>): (r: Option<SortUpdate>)
    requires Listed(tags, activeId)
    requires overId.Some? ==> Listed(tags, overId.value)
    ensures r.Some? <==> overId.Some? && overId.value != activeId
    ensures r.Some? ==> r.value.id == activeId
  {
    if overId.None? || activeId == overId.value then None
    else
      var from := FindIndex(tags, TagId, activeId);
      var to := FindIndex(tags, TagId, overId.value);
      var moved := ArrayMove(tags, from, to);
      Some(SortUpdate(moved[to].id, NewSortOrder(moved, to)))
  }

  /** The rearranged list with the dragged tag carrying its new sort order. */
  function Dropped(tags: seq<Tag>, activeId: string, overId: string): (r: seq<Tag>)
    requires Listed(tags, activeId) && Listed(tags, overId) && activeId != overId
    ensures |r| == |tags|
  {
    var from := FindIndex(tags, TagId, activeId);
    var to := FindIndex(tags, TagId, overId);
    var moved := ArrayMove(tags, from, to);
    moved[to := moved[to].(sortOrder := Some(HandleDragEnd(tags, activeId, Some(overId)).value.sortOrder))]
  }

  /** Taking a tag out of a strictly ordered list leaves it strictly ordered. */
  lemma WithoutStrict(s: seq<Tag>, k: nat)
    requires k < |s| && StrictlyOrdered(s)
    ensures StrictlyOrdered(Without(s, k))
  {
    var w := Without(s, k);
    forall i, j | 0 <= i < j < |w| ensures TagSlice.Key(w[i]) < TagSlice.Key(w[j]) {
      var i' := if i < k then i else i + 1;
      var j' := if j < k then j else j + 1;
      assert w[i] == s[i'] && w[j] == s[j'];
    }
  }

  /** In a strictly ordered list, keys only grow with the position. */
  lemma StrictMonotone(s: seq<Tag>, i: nat, j: nat)
    requires StrictlyOrdered(s) && i <= j < |s|
    ensures TagSlice.Key(s[i]) <= TagSlice.Key(s[j])
  {
  }

  /** A tag put into a strictly ordered list between smaller and larger neighbours keeps it strictly ordered. */
  lemma InsertStrict(rest: seq<Tag>, k: nat, t: Tag, d: seq<Tag>)
    requires StrictlyOrdered(rest) && k <= |rest| && |d| == |rest| + 1 && d[k] == t
    requires forall i :: 0 <= i < k ==> d[i] == rest[i]
    requires forall i :: k < i < |d| ==> d[i] == rest[i - 1]
    requires k > 0 ==> TagSlice.Key(rest[k - 1]) < TagSlice.Key(t)
    requires k < |rest| ==> TagSlice.Key(t) < TagSlice.Key(rest[k])
    ensures StrictlyOrdered(d)
  {
    forall i, j | 0 <= i < j < |d| ensures TagSlice.Key(d[i]) < TagSlice.Key(d[j]) {
      if j == k {
        StrictMonotone(rest, i, k - 1);
      } else if i == k {
        StrictMonotone(rest, k, j - 1);
      } else if j < k {
      } else if i > k {
        assert rest[i - 1] == d[i] && rest[j - 1] == d[j];
      } else {
        assert rest[i] == d[i] && rest[j - 1] == d[j];
      }
    }
  }

  /** Where the dragged tag lands, and what surrounds it: the list without it, in order. */
  lemma DroppedShape(tags: seq<Tag>, activeId: string, overId: string)
    requires Listed(tags, activeId) && Listed(tags, overId) && activeId != overId
    ensures var from := FindIndex(tags, TagId, activeId);
      var to := FindIndex(tags, TagId, overId);
      var d := Dropped(tags, activeId, overId);
      var rest := Without(tags, from);
      && (forall i :: 0 <= i < to ==> d[i] == rest[i])
      && (forall i :: to < i < |d| ==> d[i] == rest[i - 1])
      && d[to] == ArrayMove(tags, from, to)[to].(sortOrder := Some(NewSortOrder(ArrayMove(tags, from, to), to)))
  {
    var from := FindIndex(tags, TagId, activeId);
    var to := FindIndex(tags, TagId, overId);
    var moved := ArrayMove(tags, from, to);
    var rest := Without(tags, from);
    var t := moved[to].(sortOrder := Some(HandleDragEnd(tags, activeId, Some(overId)).value.sortOrder));
    assert Dropped(tags, activeId, overId) == moved[to := t];
    assert HandleDragEnd(tags, activeId, Some(overId)).value.sortOrder == NewSortOrder(moved, to);
    Around(moved, to);
    AroundUpdate(moved, to, t);
  }

  /** Outside position `k`, a list agrees with the list without its item at `k`, shifted by one after `k`. */
  lemma Around<T>(s: seq<T>, k: nat)
    requires k < |s|
    ensures forall i :: 0 <= i < k ==> s[i] == Without(s, k)[i]
    ensures forall i :: k < i < |s| ==> s[i] == Without(s, k)[i - 1]
  {
  }

  /** Replacing the item at `k` changes nothing around it. */
  lemma AroundUpdate<T>(s: seq<T>, k: nat, x: T)
    requires k < |s|
    ensures forall i :: 0 <= i < k ==> s[k := x][i] == s[i]
    ensures forall i :: k < i < |s| ==> s[k := x][i] == s[i]
  {
  }

  /** In a strictly ordered list, the dropped tag's new key lies strictly between its new neighbours. */
  lemma DroppedBetween(tags: seq<Tag>, activeId: string, overId: string)
    requires Listed(tags, activeId) && Listed(tags, overId) && activeId != overId
    requires StrictlyOrdered(tags)
    ensures var from := FindIndex(tags, TagId, activeId);
      var to := FindIndex(tags, TagId, overId);
      var rest := Without(tags, from);
      var key := TagSlice.Key(Dropped(tags, activeId, overId)[to]);
      && (0 < to ==> TagSlice.Key(rest[to - 1]) < key)
      && (to < |rest| ==> key < TagSlice.Key(rest[to]))
  {
    var from := FindIndex(tags, TagId, activeId);
    var to := FindIndex(tags, TagId, overId);
    var moved := ArrayMove(tags, from, to);
    var rest := Without(tags, from);
    assert TagSlice.Key(Dropped(tags, activeId, overId)[to]) == NewSortOrder(moved, to) by {
      DroppedShape(tags, activeId, overId);
    }
    MovedNeighbours(tags, from, to);
    if 0 < to < |rest| {
      assert TagSlice.Key(rest[to - 1]) < TagSlice.Key(rest[to]) by {
        WithoutStrict(tags, from);
      }
    }
  }

  /** After a move, the moved item's neighbours are the items around its position in the list without it. */
  lemma MovedNeighbours<T>(s: seq<T>, from: nat, to: nat)
    requires from < |s| && to < |s|
    ensures 0 < to ==> ArrayMove(s, from, to)[to - 1] == Without(s, from)[to - 1]
    ensures to < |s| - 1 ==> ArrayMove(s, from, to)[to + 1] == Without(s, from)[to]
  {
    var moved := ArrayMove(s, from, to);
    if 0 < to {
      assert Without(moved, to)[to - 1] == moved[to - 1];
    }
    if to < |s| - 1 {
      assert Without(moved, to)[to] == moved[to + 1];
    }
  }

  /** Dropping a tag keeps a strictly ordered list strictly ordered, so every later drag finds strict neighbours again. */
  lemma DroppedStrict(tags: seq<Tag>, activeId: string, overId: string)
    requires Listed(tags, activeId) && Listed(tags, overId) && activeId != overId
    requires StrictlyOrdered(tags)
    ensures StrictlyOrdered(Dropped(tags, activeId, overId))
  {
    var from := FindIndex(tags, TagId, activeId);
    var to := FindIndex(tags, TagId, overId);
    var rest := Without(tags, from);
    var d := Dropped(tags, activeId, overId);
    WithoutStrict(tags, from);
    DroppedShape(tags, activeId, overId);
    DroppedBetween(tags, activeId, overId);
    InsertStrict(rest, to, d[to], d);
  }

  /** The dropped list holds the tags of the list with the dragged one's new sort order. */
  lemma DroppedPermutes(tags: seq<Tag>, activeId: string, overId: string)
    requires Listed(tags, activeId) && Listed(tags, overId) && activeId != overId
    ensures var from := FindIndex(tags, TagId, activeId);
      var x := HandleDragEnd(tags, activeId, Some(overId)).value.sortOrder;
      multiset(Dropped(tags, activeId, overId)) == multiset(tags[from := tags[from].(sortOrder := Some(x))])
  {
    var from := FindIndex(tags, TagId, activeId);
    var to := FindIndex(tags, TagId, overId);
    var moved := ArrayMove(tags, from, to);
    var t := tags[from].(sortOrder := Some(HandleDragEnd(tags, activeId, Some(overId)).value.sortOrder));
    var d := Dropped(tags, activeId, overId);
    assert d == moved[to := t];
    WithoutMultiset(d, to);
    WithoutUpdate(moved, to, t);
    WithoutMultiset(tags[from := t], from);
    WithoutUpdate(tags, from, t);
  }

  /** A strictly ordered list and a sorted list with the same tags start with the same tag. */
  lemma FirstsAgree(x: seq<Tag>, y: seq<Tag>)
    requires StrictlyOrdered(x) && TagSlice.Sorted(y) && multiset(x) == multiset(y) && |x| > 0 && |y| > 0
    ensures x[0] == y[0]
  {
    assert y[0] in multiset(x) && x[0] in multiset(y);
    var i :| 0 <= i < |x| && x[i] == y[0];
    var j :| 0 <= j < |y| && y[j] == x[0];
    assert TagSlice.Key(y[0]) <= TagSlice.Key(y[j]);
  }

  /** A strictly ordered list and a sorted list with the same tags are the same list. */
  lemma {:induction false} SortedUnique(x: seq<Tag>, y: seq<Tag>)
    requires StrictlyOrdered(x) && TagSlice.Sorted(y) && multiset(x) == multiset(y)
    ensures x == y
    decreases |x|
  {
    assert |x| == |multiset(x)| == |multiset(y)| == |y|;
    if |x| > 0 {
      FirstsAgree(x, y);
      assert multiset(x[1..]) == multiset(x) - multiset{x[0]} by {
        assert x == [x[0]] + x[1..];
      }
      assert multiset(y[1..]) == multiset(y) - multiset{y[0]} by {
        assert y == [y[0]] + y[1..];
      }
      SortedUnique(x[1..], y[1..]);
      assert x == [x[0]] + x[1..] && y == [y[0]] + y[1..];
    }
  }

  /**
   * The tag slice's optimistic update, re-sorting by sort order, shows the
   * dragged tag exactly where it was dropped, when the sort orders were
   * strictly increasing.
   */
  lemma DropShowsWhereDropped(tags: seq<Tag>, activeId: string, overId: string)
    requires Listed(tags, activeId) && Listed(tags, overId) && activeId != overId
    requires StrictlyOrdered(tags)
    ensures var u := HandleDragEnd(tags, activeId, Some(overId)).value;
      TagSlice.UpdatePendingTags(tags, u.id, Some(u.sortOrder)) == Dropped(tags, activeId, overId)
  {
    DroppedStrict(tags, activeId, overId);
    DroppedPermutes(tags, activeId, overId);
    var u := HandleDragEnd(tags, activeId, Some(overId)).value;
    SortedUnique(Dropped(tags, activeId, overId), TagSlice.UpdatePendingTags(tags, u.id, Some(u.sortOrder)));
  }
}

=== FILE: tag_slice.dfy ===
/**
 * The front end's tag list state (the `tag` Redux slice), including the
 * optimistic re-sort when a tag's sort order is changed.
 *
 * `Array.prototype.sort` is stable, so sorting with the comparator
 * `(a.sortOrder ?? 0) - (b.sortOrder ?? 0)` orders tags by that key and keeps
 * tags with equal keys in their previous order. `SortTags` is that sort.
 */
module TagSlice {
  import opened Wrappers
  import opened Types
  import opened Lists
  import opened Sorting

  /** The sort key: a missing sort order counts as 0. */
  function Key(t: Tag): real {
    t.sortOrder.GetOr(0.0)
  }

  predicate Sorted(s: seq<Tag>) {
    SortedBy(s, Key)
  }

  /** The stable sort by `Key`. */
  function SortTags(s: seq<Tag>): (r: seq<Tag>)
    ensures Sorted(r)
    ensures multiset(r) == multiset(s)
  {
    SortBy(s, Key)
  }

  /** The re-sort keeps tags with equal sort orders in their previous order. */
  lemma SortTagsStable(s: seq<Tag>, k: real)
    ensures WithKey(SortTags(s), Key, k) == WithKey(s, Key, k)
  {
    SortByStable(s, Key, k);
  }

  datatype State = State(tags: seq<Tag>, selectedTagId: Option<string>, isLoading: bool, error: Option<string>)

  const Initial := State([], None, false, None)

  datatype Action =
    | SelectTag(id: string)
    | ClearError
    | LoadPending
    | LoadFulfilled(loaded: seq<Tag>)
    | LoadRejected(message: string)
    | CreateFulfilled(created: Tag)
    | CreateRejected(message: string)
    | UpdatePending(id: string, sortOrder: Option<real>)
    | UpdateFulfilled(updated: Tag)
    | UpdateRejected(message: string)
    | DeleteFulfilled(deleted: string)
    | DeleteRejected(message: string)

  /**
   * The optimistic update: when the tag exists and the request carries a sort
   * order, that tag gets the new order and the list is re-sorted; otherwise
   * nothing changes.
   */
  function UpdatePendingTags(tags: seq<Tag>, id: string, sortOrder: Option<real>): (r: seq<Tag>)
    ensures FindIndex(tags, TagId, id) < 0 || sortOrder.None? ==> r == tags
    ensures FindIndex(tags, TagId, id) >= 0 && sortOrder.Some? ==>
      var i := FindIndex(tags, TagId, id);
      && Sorted(r)
      && multiset(r) == multiset(tags[i := tags[i].(sortOrder := sortOrder)])
  {
    var i := FindIndex(tags, TagId, id);
    if i != -1 && sortOrder.Some? then SortTags(tags[i := tags[i].(sortOrder := sortOrder)])
    else tags
  }

  function Reduce(s: State, a: Action): (r: State)
    // a failed request records its message and rolls nothing back
    ensures a.LoadRejected? || a.CreateRejected? || a.UpdateRejected? || a.DeleteRejected?
      ==> r.error == Some(a.message) && r.tags == s.tags
    // only `selectTag` changes the selection
    ensures !a.SelectTag? ==> r.selectedTagId == s.selectedTagId
    // an update never changes the number of tags
    ensures a.UpdatePending? || a.UpdateFulfilled? ==> |r.tags| == |s.tags|
  {
    match a
    case SelectTag(id) => s.(selectedTagId := Some(id))
    case ClearError => s.(error := None)
    case LoadPending => s.(isLoading := true, error := None)
    case LoadFulfilled(tags) => s.(isLoading := false, tags := tags)
    case LoadRejected(m) => s.(isLoading := false, error := Some(m))
    case CreateFulfilled(t) => s.(tags := s.tags + [t])
    case CreateRejected(m) => s.(error := Some(m))
    case UpdatePending(id, order) => s.(tags := UpdatePendingTags(s.tags, id, order))
    case UpdateFulfilled(t) => s.(tags := SortTags(ReplaceFirst(s.tags, TagId, t)))
    case UpdateRejected(m) => s.(error := Some(m))
    case DeleteFulfilled(id) => s.(tags := Remove(s.tags, TagId, id))
    case DeleteRejected(m) => s.(error := Some(m))
  }

  /** The optimistic update changes the state only when the tag exists and a sort order is given. */
  lemma UpdatePendingChangesOnlyWhenApplicable(s: State, id: string, order: Option<real>)
    requires Reduce(s, UpdatePending(id, order)) != s
    ensures FindIndex(s.tags, TagId, id) >= 0 && order.Some?
  {
  }

  /** After the optimistic update the tag carries the new sort order, and the list is sorted. */
  lemma UpdatePendingSetsOrder(s: State, id: string, order: real)
    requires FindIndex(s.tags, TagId, id) >= 0
    ensures var r := Reduce(s, UpdatePending(id, Some(order)));
      && Sorted(r.tags) && |r.tags| == |s.tags|
      && s.tags[FindIndex(s.tags, TagId, id)].(sortOrder := Some(order)) in r.tags
  {
    var i := FindIndex(s.tags, TagId, id);
    var t := s.tags[i := s.tags[i].(sortOrder := Some(order))];
    assert t[i] in multiset(t);
  }

  /**
   * A successful update always re-sorts, even when no tag matched; when one
   * did, the first tag with the returned id is replaced by the returned tag
   * and nothing else is added or lost.
   */
  lemma UpdateFulfilledSorts(s: State, t: Tag)
    ensures Sorted(Reduce(s, UpdateFulfilled(t)).tags)
    ensures FindIndex(s.tags, TagId, t.id) < 0 ==> Reduce(s, UpdateFulfilled(t)).tags == SortTags(s.tags)
    ensures FindIndex(s.tags, TagId, t.id) >= 0 ==>
      var r := Reduce(s, UpdateFulfilled(t));
      && multiset(r.tags) == multiset(s.tags[FindIndex(s.tags, TagId, t.id) := t])
      && t in r.tags
  {
    var i := FindIndex(s.tags, TagId, t.id);
    if i >= 0 {
      var u := s.tags[i := t];
      assert ReplaceFirst(s.tags, TagId, t) == u;
      assert u[i] in multiset(u);
    }
  }

  /** No two tags in the list share an id, as for a list loaded from the server. */
  predicate UniqueIds(tags: seq<Tag>) {
    forall a, b :: 0 <= a < b < |tags| ==> tags[a].id != tags[b].id
  }

  /**
   * When the server confirms the optimistic update, returning the tag with the
   * new sort order, the list stays as the optimistic update left it.
   */
  lemma FulfilledConfirmsPending(s: State, id: string, order: real)
    requires UniqueIds(s.tags)
    requires FindIndex(s.tags, TagId, id) >= 0
    ensures var p := Reduce(s, UpdatePending(id, Some(order)));
      var t := s.tags[FindIndex(s.tags, TagId, id)].(sortOrder := Some(order));
      Reduce(p, UpdateFulfilled(t)) == p
  {
    var i := FindIndex(s.tags, TagId, id);
    var t := s.tags[i].(sortOrder := Some(order));
    var p := SortTags(s.tags[i := t]);
    PendingStep(s, id, Some(order));
    assert UpdatePendingTags(s.tags, id, Some(order)) == p;
    ReplaceOnlyHolder(p, s.tags[i := t], i, t);
    SortBySorted(p, Key);
    FulfilledStep(s.(tags := p), t);
  }

  /** The optimistic update as one step. */
  lemma PendingStep(s: State, id: string, order: Option<real>)
    ensures Reduce(s, UpdatePending(id, order)) == s.(tags := UpdatePendingTags(s.tags, id, order))
  {
  }

  /** The successful update as one step. */
  lemma FulfilledStep(s: State, t: Tag)
    ensures Reduce(s, UpdateFulfilled(t)) == s.(tags := SortTags(ReplaceFirst(s.tags, TagId, t)))
  {
  }

  /**
   * In a permutation of a list where only position `i` holds an item with
   * `t`'s id, and that item is `t`, replacing by `t` changes nothing.
   */
  lemma ReplaceOnlyHolder(p: seq<Tag>, u: seq<Tag>, i: nat, t: Tag)
    requires multiset(p) == multiset(u)
    requires i < |u| && u[i] == t
    requires forall k :: 0 <= k < |u| && u[k].id == t.id ==> k == i
    ensures ReplaceFirst(p, TagId, t) == p
  {
    assert u[i] in multiset(u);
    var j := FindIndex(p, TagId, t.id);
    assert j >= 0;
    assert p[j] in multiset(u);
  }

  /** Creating appends the tag at the end; deleting removes every tag with that id and keeps the rest. */
  lemma CreateAndDelete(s: State, t: Tag, id: string)
    ensures Reduce(s, CreateFulfilled(t)).tags == s.tags + [t]
    ensures forall x :: x in Reduce(s, DeleteFulfilled(id)).tags <==> x in s.tags && x.id != id
  {
  }
}

=== FILE: types.dfy ===
/** The front end's shared record types (`Tag`, `Media`, `BBTalk`). */
module Types {
  import opened Wrappers
  import opened Js

  /** A tag; `sortOrder` is a JavaScript number and may be fractional or missing. */
  datatype Tag = Tag(id: string, name: string, color: string, sortOrder: Option<real>, bbtalkCount: Option<int>)

  datatype Media = Media(
    id: string,
    url: string,
    mediaType: string,
    originalFilename: Option<string>,
    filename: Option<string>,
    fileSize: Option<nat>)

  datatype BBTalk = BBTalk(
    id: string,
    content: string,
    visibility: string,
    tags: seq<Tag>,
    media: seq<Media>,
    context: Option<Json>,
    createdAt: string,
    updatedAt: string,
    isDeleted: bool,
    deletedAt: Option<string>)

  function TagId(t: Tag): string { t.id }

  function TalkId(t: BBTalk): string { t.id }
}

=== FILE: url_normalizer.dfy ===
/**
 * The media URL scheme normaliser shared by the image cache (`normalizeUrl`) and
 * the attachment transformer: a leading `http://` or `https://` is rewritten to the
 * configured target protocol. The prefix test is literal and case-sensitive.
 */
module UrlNormalizer {
  import opened Strings

  const Http: string := "http://"
  const Https: string := "https://"

  /**
   * The protocol the front end is built for: the `VITE_MEDIA_URL_PROTOCOL`
   * setting, or `https` when it is unset or empty (`env || 'https'`).
   */
  function TargetProtocol(env: string): (p: string)
    ensures env != "" ==> p == env
    ensures env == "" ==> p == "https"
  {
    if env == "" then "https" else env
  }

  /**
   * `normalizeUrl`. `url.replace(a, b)` replaces the first occurrence of `a`,
   * which is the prefix whenever `url.startsWith(a)`.
   */
  function Normalize(url: string, target: string): (r: string)
    ensures target == "https" && StartsWith(url, Http) ==> r == Https + url[|Http|..]
    ensures target == "http" && StartsWith(url, Https) ==> r == Http + url[|Https|..]
    ensures (!(target == "https" && StartsWith(url, Http))
             && !(target == "http" && StartsWith(url, Https))) ==> r == url
  {
    if target == "https" && StartsWith(url, Http) then Https + url[|Http|..]
    else if target == "http" && StartsWith(url, Https) then Http + url[|Https|..]
    else url
  }

  /** After normalisation no URL still carries the scheme the target rewrites away. */
  lemma NormalizeRemovesOtherScheme(url: string, target: string)
    ensures target == "https" ==> !StartsWith(Normalize(url, target), Http)
    ensures target == "http" ==> !StartsWith(Normalize(url, target), Https)
  {
    var r := Normalize(url, target);
    if target == "https" && StartsWith(url, Http) {
      assert r[4] != Http[4];
    }
    if target == "http" && StartsWith(url, Https) {
      assert r[4] != Https[4];
    }
  }

  /** Normalising twice is the same as normalising once. */
  lemma {:induction false} NormalizeIdempotent(url: string, target: string)
    ensures Normalize(Normalize(url, target), target) == Normalize(url, target)
  {
    NormalizeRemovesOtherScheme(url, target);
  }

  /** The examples the design gives: `http://x/img.png` and `https://x/img.png` both map to the `https` form. */
  lemma NormalizeExamples()
    ensures Normalize("http://x/img.png", "https") == "https://x/img.png"
    ensures Normalize("https://x/img.png", "https") == "https://x/img.png"
    ensures Normalize("https://x/img.png", "http") == "http://x/img.png"
  {
    assert StartsWith("http://x/img.png", Http);
    assert !StartsWith("https://x/img.png", Http) by {
      assert "https://x/img.png"[4] != Http[4];
    }
    assert StartsWith("https://x/img.png", Https);
  }
}

=== FILE: wrappers.dfy ===
/** Optional values, used wherever the program has `null`, `None` or `undefined`. */
module Wrappers {

  datatype Option<+T> = None | Some(value: T) {

    /** The value held, or `default` when there is none (the `??` operator). */
    function GetOr(default: T): T {
      match this
      case Some(v) => v
      case None => default
    }
  }

  /** A computation that either yields a value or fails with an error message. */
  datatype Result<+R> = Ok(value: R) | Err(error: string)
}
